=== FILE: README.md ===
# ITM Data API — a Dafny model of the service core

ITM-Data-API is a NestJS/Prisma service for an equipment-monitoring dashboard.
This project models what its services compute once the database is replaced
by in-memory sequences of records:

- wafer queries and analyses:
  - filter builders for distinct values, distinct points, flat data and the
    unique-wafer `where`;
  - monthly spectrum-partition routing;
  - statistics, point-data headers and available metrics;
  - the PDF wafer-map lookup and the PDF-to-image decision logic;
  - optical trend, residual map, spectrum trend, first-per-class spectrum
    dedupe and per-wafer grouping;
- the menu permission tree: ancestor closure of allowed menus, a forest built
  from parent links, and the menu CRUD field mapping;
- the dashboard: dotted-version ordering, summary counts, agent status and
  clock drift;
- equipment health scoring;
- small store state machines for board posts and comments, manual sections,
  guest grants and requests, whitelist and login counting, alerts, and
  error-log aggregation.

Layout:

- One module per service: `Admin`, `Alerts`, `Auth`, `Board`, `Dashboard`,
  `Error`, `Health`, `Manual`, `Menus`/`MenuTree`/`MenuService`.
- `wafer.service.ts` is split over `WaferQuery`, `WaferPartition`,
  `WaferStats`, `WaferPdf`, `WaferSeries` and `WaferSpectra`.
- `Common`, `Sorting`, `Access` and `Fleet` hold shared definitions:
  - `Option`/`Result`;
  - ASCII case folding, trim and substring;
  - a stable insertion sort by an integer key;
  - the admin and guest tables;
  - the site/SDWT/equipment tables.

How the model represents the source:

- A database table is a `seq` of rows in storage order.
- A Prisma error or a thrown exception is an `Err` of `Result`.
- "now" and the outcomes of downloads and conversions are parameters.
- A database failure is a parameter only where the source catches it and
  answers differently: `dbUp` of the `Alerts` functions, `resetUp` and
  `insertUp` of `Board.CreatePost`, `alertUp` of `Board.UpdateStatus` and
  `Board.CreateComment`, and the `Outage` of `Dashboard.GetSummary`.
- An optional HTTP string parameter uses `""` for absent, which is JavaScript
  truthiness.
- Dates are `NoDate`, `BadDate` or `At(ms)`. A query parameter read with
  JavaScript's `Number` is a `JsNumber`: NaN, an infinity or a finite `real`.
- Raw SQL queries are clause lists. Each builder comes with a reference
  predicate and a lemma proving the two equivalent.
- Numbers from PostgreSQL are `real`.

## Model

| member | source | states |
|---|---|---|
| Admin.KstDate | src/admin/admin.service.ts:12-15 | the stored KST clock is exactly nine hours (32,400,000 ms) ahead of the server clock |
| Admin.AllGuests | src/admin/admin.service.ts:34-38 | the guest listing is a permutation of the grant table, newest grant first |
| Admin.AddGuest | src/admin/admin.service.ts:40-57 | fails, leaving the tables alone, exactly when the date does not parse or the login already has a grant; otherwise appends a grant for that login whose role is always GUEST, whatever role was asked for, created at the KST clock; login ids stay unique |
| Admin.DeleteGuest | src/admin/admin.service.ts:59-63 | fails, changing nothing, exactly when the login has no grant; otherwise removes that grant alone, and with unique logins no grant of the login remains |
| Admin.GuestRequests | src/admin/admin.service.ts:68-72 | the request listing is a permutation of the request table, newest first |
| Admin.Regrant | src/admin/admin.service.ts:97-113 | after approval the requester holds a GUEST grant ending 30 days after the KST clock; an existing grant keeps its department and creation time and only that row changes; a new grant takes the request's department and the KST clock |
| Admin.ApproveGuestRequest | src/admin/admin.service.ts:75-117 | an unknown request id is NotFound and changes nothing; otherwise that request alone becomes APPROVED by the approver at the KST clock, and the guest table is updated as Regrant says |
| Admin.RejectGuestRequest | src/admin/admin.service.ts:120-131 | an unknown id fails with the tables unchanged; otherwise that request alone becomes REJECTED by the rejector at the KST clock, and grants are untouched |
| Alerts.CreateAlert | src/alert/alert.service.ts:13-29 | with the database up, appends an unread BOARD_REPLY alert for the user and returns it; with the database down, returns null and stores nothing; alert ids stay unique |
| Alerts.CreateAlertUnread | src/alert/alert.service.ts:13-29 | a new alert raises the recipient's unread count by one and leaves every other user's count unchanged |
| Alerts.MyAlerts | src/alert/alert.service.ts:32-49 | with the database up, exactly the first min(20, n) alerts of the user's full listing, n being the user's alert count: unread before read, newest first within each group; [] when the database is down |
| Alerts.ListedBeforeOrder | src/alert/alert.service.ts:35-42 | the listing order (unread first, then newest) is total and transitive |
| Alerts.Inbox | src/alert/alert.service.ts:35-42 | the uncapped listing is a permutation of the user's alerts (each as often as stored, no others), in listing order |
| Alerts.ReadAlert | src/alert/alert.service.ts:51-62 | an unknown id, or a database that is down, returns null and changes nothing; otherwise the alert with that id is marked read, everything else is unchanged, and the read alert is returned |
| Alerts.ReadAlertIdempotent | src/alert/alert.service.ts:51-62 | reading the same alert twice has the same effect and result as reading it once |
| Alerts.ReadAlertUnread | src/alert/alert.service.ts:51-62 | reading an alert lowers a user's unread count by one exactly when it was that user's unread alert, and by zero otherwise |
| Alerts.UnreadCount | src/alert/alert.service.ts:64-78 | 0 on a database failure; otherwise 0 exactly when the user has no unread alert |
| Alerts.UnreadCountMeaning | src/alert/alert.service.ts:66-76 | with the database up, the count equals the number of the user's alerts whose isRead is false |
| Auth.CheckWhitelist | src/auth/auth.service.ts:9-25 | answers Y or N; Y exactly when a given compId has an active code row with that compid, or a given deptId has an active row with that deptid |
| Auth.WhitelistIgnoresInactive | src/auth/auth.service.ts:13-20 | deleting every inactive code row never changes the answer, so inactive rows grant nothing |
| Auth.SyncUser | src/auth/auth.service.ts:27-41 | a new login is appended with login count 1; an existing login's count goes up by one and its last login becomes now, and only that row of the table changes; other users are kept and the login can be found afterwards |
| Auth.SyncUserCounts | src/auth/auth.service.ts:27-41 | each further login of the same user adds exactly one to the count the previous login left |
| Auth.CheckAdmin | src/auth/auth.service.ts:43-48 | null exactly when the login is no admin; otherwise the role of that admin row |
| Auth.CheckGuest | src/auth/auth.service.ts:50-59 | a role exactly when the login has a grant still valid at now (validUntil at or after now), and it is that grant's role |
| Auth.ApprovedGuestChecks | src/auth/auth.service.ts:50-59 | after an approval, the guest check at time t answers GUEST exactly when t is no later than the grant's end |
| Auth.NewestRequest | src/auth/auth.service.ts:61-67 | finds a request of the login iff one exists, and none of its other requests is newer |
| Auth.GuestRequestStatus | src/auth/auth.service.ts:61-67 | null exactly when the login never asked; otherwise the status of one of its newest requests |
| Auth.CreateGuestRequest | src/auth/auth.service.ts:112-123 | appends a PENDING, unprocessed request carrying the caller's login, department code and name, reason and creation time |
| Auth.NewRequestIsPending | src/auth/auth.service.ts:61-67 | right after a login asks, its request status reads PENDING |
| Auth.AccessCodes | src/auth/auth.service.ts:105-110 | exactly the active code rows, each as often as stored, ordered by compid |
| Auth.GetUserContext | src/auth/auth.service.ts:69-83 | no stored context gives null; a stored context gives the site and SDWT of the SDWT row it references; a context whose SDWT row is missing fails |
| Auth.SaveUserContext | src/auth/auth.service.ts:85-103 | NotFound, changing nothing, exactly when no SDWT row has that site and name; otherwise the login's context points at that SDWT row's id and other logins' contexts are kept |
| Auth.SaveThenGetContext | src/auth/auth.service.ts:69-103 | reading a context right after saving it returns the saved site and SDWT |
| Board.RoleOf | src/board/board.service.ts:53-59 | an author in the admin table gets that admin's role; anyone else is USER |
| Board.RoleOfAdmin | src/board/board.service.ts:109-121 | the role shown for an admin author is the role stored for that login |
| Board.Listing | src/board/board.service.ts:20-47 | holds exactly the posts matching the category filter (ignored when absent or ALL) and the case-insensitive search over title, content or author, newest first |
| Board.GetPosts | src/board/board.service.ts:17-75 | fails with an Internal error exactly when Prisma refuses the window: page or limit not finite, the limit not an integer, or the skip (page-1)·limit fractional or negative; otherwise total is the number of matches, page is echoed, and lastPage is LastPage of total and limit; a limit of 0 gives no rows; a positive limit gives the page of the listing that starts skip posts in, and a negative limit the rows PostsPage reads backwards |
| Board.GetPostsIntegers | src/board/board.service.ts:19-68 | for whole-number page and limit, the call fails exactly when the page is below 1 with a positive limit or above 1 with a negative one, and otherwise skips (page-1)·limit posts with lastPage LastPage of total and limit |
| Board.PostsPage | src/board/board.service.ts:33-70 | the page Prisma returns for a skip and a take: forward, the take posts after skip in listing order; backward, the up to -take posts just before the last skip, in listing order |
| Board.PostsPageWithin | src/board/board.service.ts:20-47 | whichever way a page reads, its rows are stored posts of the listing, newest first |
| Board.LastPage | src/board/board.service.ts:68 | null (JSON for Infinity or NaN) exactly when the limit is 0; otherwise non-negative exactly when the limit is positive or the total is below -limit |
| Board.LastPageMeaning | src/board/board.service.ts:68 | for a positive limit the page count is the ceiling of total over limit; for a negative limit it is `Math.ceil(total / limit)`, that is minus the floor of total over -limit |
| Board.GetPostsRows | src/board/board.service.ts:17-75 | for every page and limit Prisma accepts, each row is a stored post matching the filters, and rows run newest first |
| Board.GetPostsPages | src/board/board.service.ts:19-68 | with a positive whole limit, a whole page from 1 on has rows exactly when it is no later than lastPage |
| Board.GetPostById | src/board/board.service.ts:78-132 | an unknown id is NotFound; otherwise the post and its comments, oldest first, with roles from the admin table |
| Board.Thread | src/board/board.service.ts:101-121 | the comments of the post, oldest first, each carrying its author's role |
| Board.CreatePost | src/board/board.service.ts:135-167 | missing fields default to QNA and N; a NOTICE starts ANSWERED; a NOTICE popup first clears every earlier NOTICE popup; the post is appended; a failed popup reset changes nothing and fails, and a failed insert fails but keeps the reset, since the two writes share no transaction |
| Board.CreatePostSolePopup | src/board/board.service.ts:138-161 | after a NOTICE popup is created, it is the only NOTICE popup |
| Board.PopupNotices | src/board/board.service.ts:318-331 | exactly the NOTICE posts with isPopup Y |
| Board.UpdatePost | src/board/board.service.ts:170-198 | a NOTICE popup edit clears every other NOTICE popup; an unknown id then fails, and the clearing stays; otherwise only the given fields of that post change |
| Board.OnlyPopupKept | src/board/board.service.ts:173-181 | after a NOTICE popup edit, the edited post is the only NOTICE popup |
| Board.UpdateStatus | src/board/board.service.ts:201-226 | an unknown post fails and nothing changes; otherwise the status is set, and the author is alerted exactly when the new status is Complete or ANSWERED, differs from the old one, and alerts are up |
| Board.DeletePost | src/board/board.service.ts:229-239 | an unknown post fails and nothing changes; otherwise the post and all its comments go together and other comments stay |
| Board.DeletePostAttached | src/board/board.service.ts:231-234 | no comment is left referring to a deleted post |
| Board.CreateComment | src/board/board.service.ts:242-290 | a missing post fails with nothing stored; otherwise the comment (a parent id of 0 means none) and the optional status change are stored together, and the post author is alerted exactly when the commenter is someone else and alerts are up |
| Board.CreateCommentAttached | src/board/board.service.ts:249-278 | a stored comment refers to an existing post |
| Board.UpdateComment | src/board/board.service.ts:293-303 | an unknown comment fails; otherwise only that comment's content changes |
| Board.DeleteComment | src/board/board.service.ts:306-315 | an unknown comment fails; otherwise exactly that one comment is removed |
| Dashboard.SplitDotsRoundTrip | src/dashboard/dashboard.service.ts:35-39 | splitting a version on dots loses nothing: joining the pieces gives the string back |
| Dashboard.CompareVersions | src/dashboard/dashboard.service.ts:34-45 | the comparison answers -1, 0 or 1 |
| Dashboard.CompareVersionsMeaning | src/dashboard/dashboard.service.ts:34-45 | 0 exactly when the numeric components agree once missing ones count as 0; -1 or 1 exactly when the first differing component is smaller or larger |
| Dashboard.CompareVersionsLaws | src/dashboard/dashboard.service.ts:34-44 | reflexive (v against v is 0), antisymmetric (swapping arguments negates the answer) and transitive |
| Dashboard.IgnoresOtherChars | src/dashboard/dashboard.service.ts:35-39 | characters other than digits and dots do not affect the comparison, so v1.2 equals 1.2 |
| Dashboard.TrailingZero | src/dashboard/dashboard.service.ts:35-42 | appending .0 does not change a version's place, so 1.2 equals 1.2.0 |
| Dashboard.LatestVersion | src/dashboard/dashboard.service.ts:56-68 | empty exactly when no agent reports a non-empty version; otherwise a reported version that compares at least as high as every other |
| Dashboard.SafeFilter | src/dashboard/dashboard.service.ts:50-51 | a blank or whitespace-only site or SDWT counts as absent |
| Dashboard.ErrorEqps | src/dashboard/dashboard.service.ts:138-149 | the distinct equipment that logged an error in the window, without repeats |
| Dashboard.GetSummary | src/dashboard/dashboard.service.ts:47-174 | a failing main query is an Internal error; otherwise the counts are those of the agent-equipped equipment in scope, all servers, servers updated in the last ten minutes and SDWTs in use; inactive agents = max(0, equipment − online); server health is round(online / total · 100), in 0..100, and 0 with no servers; the error totals count today's and the last hour's matching events, and today's error count the distinct equipment among them; a failure of the two error counts zeroes all three, a failure of the distinct query zeroes only today's error count |
| Dashboard.PercentRange | src/dashboard/dashboard.service.ts:154-166 | the rounded percentage of a part over a non-zero whole lies in 0..100 |
| Dashboard.TodayErrorCountMeaning | src/dashboard/dashboard.service.ts:117-149 | today's error count is the number of distinct equipment, under the blank-as-absent filters, that logged an error today |
| Dashboard.SummaryBlankFilters | src/dashboard/dashboard.service.ts:50-51 | a blank filter gives the same summary as no filter |
| Dashboard.AgentWhereOf | src/dashboard/dashboard.service.ts:179-189 | an SDWT filter is used when given; otherwise a site filter; otherwise none |
| Dashboard.AgentWhereMeaning | src/dashboard/dashboard.service.ts:179-189 | an agent is selected exactly when its equipment belongs to the given SDWT, or else to the given site |
| Dashboard.SdwtOverridesSite | src/dashboard/dashboard.service.ts:183-189 | once an SDWT is given, the site filter has no effect |
| Dashboard.Report | src/dashboard/dashboard.service.ts:225-250 | online exactly when the status is ONLINE; the clock drift is (server time − equipment time)/1000 when both exist and null otherwise; missing text becomes empty |
| Dashboard.AgentStatus | src/dashboard/dashboard.service.ts:176-256 | exactly the reports of the selected agents, one per agent, ordered by equipment id |
| Dashboard.SortedByEqp | src/dashboard/dashboard.service.ts:221 | sorting the selected agents by equipment id keeps exactly those agents and puts them in ascending order |
| Error.Matching | src/error/error.service.ts:12-32 | exactly the events whose time lies in the window, both ends included, and, when a site or SDWT is given, whose equipment is in use and belongs to it |
| Error.UnfilteredWindow | src/error/error.service.ts:13-21 | without site or SDWT, an event matches exactly when its time lies in the window |
| Error.MostFrequent | src/error/error.service.ts:42-51 | an error id of the events whose count no other id exceeds |
| Error.GetErrorSummary | src/error/error.service.ts:13-68 | a missing or unparsable start or end date is an Internal error; otherwise total is the number of matches; the equipment count never exceeds it and is 0 exactly when it is; with matches, the top error count is the largest per-id count; with none, the top id is - and its count 0 |
| Error.Summarize | src/error/error.service.ts:35-68 | for given dates: total is the number of matches; the equipment count never exceeds it and is 0 exactly when it is; every id's count is at most the top count; with matches, the top id has the top count; with none, the top id is - and its count 0 |
| Error.SummaryCountsDistinctEqps | src/error/error.service.ts:54-58 | the equipment count is the number of distinct equipment among the matches |
| Error.Bump | src/error/error.service.ts:80-92 | adding one event to a day table adds one to that day's count, or starts the day with count 1, and keeps days ascending |
| Error.GetErrorTrend | src/error/error.service.ts:71-94 | a missing or unparsable start or end date is an Internal error; otherwise days are strictly ascending, every count is positive, and each count is the number of matching events on that day |
| Error.TrendRows | src/error/error.service.ts:80-92 | with both dates given the trend succeeds, each day's count equals the number of matching events on that day, and a day with events is listed |
| Error.LogListing | src/error/error.service.ts:99-110 | a permutation of the matches, newest first |
| Error.SiteLabel | src/error/error.service.ts:115-121 | never empty; anything but - is the site of the SDWT that the event's equipment belongs to |
| Error.GetErrorLogs | src/error/error.service.ts:97-125 | fails with an Internal error exactly when a date is missing or unparsable or Prisma refuses the window (page or limit not finite, limit not an integer, skip fractional or negative); otherwise totalItems counts every match, and the items are the limit events of the newest-first listing after the skip, none for a limit of 0, and for a negative limit the events before the last skip ones |
| Error.GetErrorLogsIntegers | src/error/error.service.ts:97-110 | for given dates and whole-number page and limit, the call fails exactly when the page is below 1 with a positive limit or above 1 with a negative one, and otherwise skips (page-1)·limit events and takes limit |
| Error.LogsPage | src/error/error.service.ts:99-125 | the events Prisma returns for a skip and a take, forward or backward from the end, each labelled with its site, with the total of the listing |
| Error.ErrorLogRows | src/error/error.service.ts:99-121 | for every page, limit and date range, each item is a stored event matching the filter, and items run newest first |
| Error.ErrorLogPages | src/error/error.service.ts:99-110 | with both dates given and a positive limit, a page from 1 on has items exactly when it is no later than the ceiling of totalItems over limit |
| Error.ListingMatches | src/error/error.service.ts:99-110 | every listed event is a stored event that matches the filter |
| Health.Reliability | src/health/health.service.ts:69-70 | lies in 0..40; 40 with no errors; 0 from ten errors on |
| Health.Performance | src/health/health.service.ts:73-74 | lies in 0..30; 30 whenever usage is at most 20; 0 from usage 90 on |
| Health.Component | src/health/health.service.ts:77-78 | never negative; at most 20 for a non-negative ratio; 20 at ratio 0; 0 from ratio 1 on |
| Health.Stability | src/health/health.service.ts:81 | never negative; at most 10 for a non-negative deviation; 10 at 0; 0 from 5 on |
| Health.StatusOf | src/health/health.service.ts:83-86 | Critical exactly below 60, Warning exactly from 60 to 79, Good exactly from 80 |
| Health.ErrorCount | src/health/health.service.ts:46-67 | 0 exactly when the equipment has no error in the last seven days |
| Health.Score | src/health/health.service.ts:64-86 | the factors stay in their ranges; the status follows the thresholds; the total lies in 0..100 for non-negative inputs |
| Health.DefaultScore | src/health/health.service.ts:64-83 | equipment with no error, performance or lamp rows scores 100 and is Good |
| Health.Targets | src/health/health.service.ts:21-32 | exactly the equipment ids selected by the site and SDWT filters |
| Health.HealthSummary | src/health/health.service.ts:19-96 | one entry per selected equipment, ascending by total score, a permutation of their scores; no equipment gives [] |
| Health.HealthSummaryEntries | src/health/health.service.ts:67-95 | every entry is its equipment's score, and every selected equipment has an entry |
| Manual.FindAll | src/manual/manual.service.ts:12-16 | a permutation of the stored sections, ascending by sort order |
| Manual.DropMissing | src/manual/manual.service.ts:26-39 | keeps exactly the stored sections whose id appears in the request |
| Manual.Upsert | src/manual/manual.service.ts:44-64 | the written section is stored, every other section is kept, and ids stay unique |
| Manual.SaveAll | src/manual/manual.service.ts:19-76 | a missing request or a section without id fails and leaves the store unchanged; otherwise the stored ids are exactly the requested ids; each section holds the fields of its last occurrence in the request, with that index as sort order; the result is the stored sections sorted |
| Manual.UpsertStep | src/manual/manual.service.ts:44-64 | one upsert extends the sync invariant from the first i requested sections to the first i+1 |
| Menus.LookupUnique | src/menu/menu.service.ts:193-210 | with unique ids, a menu found by id is the only menu with that id |
| Menus.ParentByLink | src/menu/menu.service.ts:197-208 | the parent a walk steps to is the menu whose id is the parentId |
| Menus.DepthBound | src/menu/menu.service.ts:197-208 | with acyclic links, every parent walk ends within as many steps as there are menus, so the loop ends |
| Menus.FilterMenus | src/menu/menu.service.ts:193-210 | keeps every allowed menu and its ancestors, and nothing else; never longer than the input |
| Menus.FilterMenusOrder | src/menu/menu.service.ts:209 | the kept menus appear in their original order, a sub-list of the input |
| Menus.FilterMenusClosed | src/menu/menu.service.ts:197-208 | if a kept menu's parent is a menu of the input, that parent is kept |
| Menus.FilterMenusMinimal | src/menu/menu.service.ts:195-209 | the kept set lies inside every parent-closed set that contains the allowed menus |
| Menus.FilterMenusWellFormed | src/menu/menu.service.ts:193-210 | the kept menus again have unique ids and acyclic links |
| MenuService.RolesToCheck | src/menu/menu.service.ts:75-76 | the role as given, in upper case and in lower case |
| MenuService.TableOrder | src/menu/menu.service.ts:57-60 | the menus reordered, not changed: those with a sort order ascending, then those without (PostgreSQL's NULLS LAST) |
| MenuService.VisibleMenus | src/menu/menu.service.ts:57-60 | exactly the visible menus, each as often as stored, in the table order above |
| MenuService.MyMenus | src/menu/menu.service.ts:48-104 | [] without visible menus; the tree of every visible menu in demo mode or for ADMIN in any case; [] for a missing role or no granted menu; otherwise the tree of the granted menus closed under parents |
| MenuService.AdminSeesAll | src/menu/menu.service.ts:50-73 | an ADMIN's tree holds every visible menu exactly once |
| MenuService.UserSeesGranted | src/menu/menu.service.ts:75-104 | a user's tree holds a visible menu once exactly when it is granted or an ancestor of a granted menu, and otherwise not at all |
| MenuService.AllMenus | src/menu/menu.service.ts:107-120 | the tree of all menus, each node carrying exactly the roles of the rows with its id |
| MenuService.AllMenusOnce | src/menu/menu.service.ts:107-120 | each menu appears exactly once in the full tree |
| MenuService.CreateMenu | src/menu/menu.service.ts:123-142 | the new menu gets the fields asked for (empty optional text becomes null, visibility Y or N); it is appended with one role row per given role; other menus are unchanged |
| MenuService.Patched | src/menu/menu.service.ts:146-158 | only defined fields change; visibility true/false becomes Y/N; an empty path, icon or tag becomes null |
| MenuService.UpdateMenu | src/menu/menu.service.ts:144-170 | an unknown id fails; otherwise the menu is patched, and a roles array replaces all of that menu's role rows while other rows stay |
| MenuService.LookupReplaced | src/menu/menu.service.ts:144-170 | after an update, looking up the id finds the patched menu, and other ids find what they found before |
| MenuService.DeleteMenu | src/menu/menu.service.ts:172-175 | the menu's role rows go first; an unknown menu then fails, and the rows stay deleted |
| MenuService.UpdateRolePermissions | src/menu/menu.service.ts:177-186 | afterwards the role's grants are exactly the given menu ids; other roles' grants are unchanged |
| MenuTree.Node | src/menu/menu.service.ts:217-227 | a node copies the menu's fields, is visible exactly when isVisible is Y, and carries the roles recorded for the menu |
| MenuTree.BuildMenuTreeRoots | src/menu/menu.service.ts:229-236 | a menu is a root exactly when its parentId is missing, 0, or names no menu in the input |
| MenuTree.BuildMenuTreeSorted | src/menu/menu.service.ts:237-243 | every sibling list is ascending by sort order, a missing order counting as 0 |
| MenuTree.BuildMenuTreeStable | src/menu/menu.service.ts:237-243 | at every level, siblings with equal sort order keep the order their menus had in the input |
| Sorting.SortByKeepsTies | src/menu/menu.service.ts:238 | the key sort is stable: elements with equal keys keep their input order |
| Sorting.SortNullsLast | src/wafer/wafer.service.ts:1010 | an ascending `ORDER BY`: the rows reordered, not changed, those with a key ascending and those whose key is NULL after them |
| MenuTree.BuildMenuTreeOnce | src/menu/menu.service.ts:212-245 | with unique ids and acyclic links, every input menu appears exactly once in the forest |
| MenuTree.BuildMenuTreeRoles | src/menu/menu.service.ts:226 | each node carries the roles recorded for its id, or none |
| WaferQuery.SafeDates | src/wafer/wafer.service.ts:121-140 | a window from the start of the first day to the end of the last that covers the dates given, defaulting to seven days ago and now |
| WaferQuery.SafeDatesCover | src/wafer/wafer.service.ts:121-140 | a time lies in the window exactly when its day lies between the start day and the end day |
| WaferQuery.BuildMeaning | src/wafer/wafer.service.ts:162-196 | a query built from terms binds placeholder $k to the k-th parameter pushed, and selects a row exactly when all its terms hold |
| WaferQuery.DistinctValuesMeaning | src/wafer/wafer.service.ts:142-210 | the distinct-values query selects exactly the rows its filters describe |
| WaferQuery.DistinctValuesIgnoresOwnColumn | src/wafer/wafer.service.ts:150-188 | after alias mapping, the requested column (other than eqpid) never filters on itself: changing it does not change selection |
| WaferQuery.DistinctValuesTimeWindow | src/wafer/wafer.service.ts:183-188 | the time of a row matters only when lotId is absent and both dates are given, and then the row must lie in the window |
| WaferQuery.DistinctValuesResult | src/wafer/wafer.service.ts:199-205 | the values returned are exactly the non-null, non-empty values read |
| WaferQuery.DistinctValuesInOrder | src/wafer/wafer.service.ts:199-205 | the values keep the order they were read in: the result of two batches read one after the other is the first result followed by the second |
| WaferQuery.DistinctPointsMeaning | src/wafer/wafer.service.ts:213-277 | the distinct-points query selects exactly the rows its filters describe |
| WaferQuery.DistinctPointsIgnoresTimeWithLot | src/wafer/wafer.service.ts:257-262 | with a lot id given, a row's time does not affect selection |
| WaferQuery.FlatDataWhere | src/wafer/wafer.service.ts:493-589 | fails exactly when a wafer id is given that JavaScript's `Number` does not read as an integer (sign, fraction of zeros, exponent, 0x/0o/0b and surrounding whitespace allowed); the time window is set exactly when no lot id is given; the lot and wafer filters are set exactly when given |
| WaferQuery.FlatDataLotIgnoresTime | src/wafer/wafer.service.ts:509-521 | with a lot id, a row's time does not affect selection |
| WaferQuery.FlatDataLotCaseInsensitive | src/wafer/wafer.service.ts:509-521 | the lot filter is a case-insensitive contains |
| WaferQuery.FlatDataWindowWithoutLot | src/wafer/wafer.service.ts:509-521 | without a lot id, every selected row lies in the safe window |
| WaferQuery.UniqueWhere | src/wafer/wafer.service.ts:1068-1116 | no condition at all exactly when eqpId is missing; a wafer id that `Number` does not read as an integer is a condition no row meets |
| WaferQuery.UniqueWhereMeaning | src/wafer/wafer.service.ts:1068-1116 | the unique-wafer condition holds exactly when the reference selection does |
| WaferQuery.UniqueWhereCaptureWindow | src/wafer/wafer.service.ts:1072-1091 | with a capture time, selection ignores start, end, recipe, stage group and film, and keeps only rows within two seconds of the capture time cut to whole seconds |
| WaferQuery.UniqueWhereLotIgnoresDates | src/wafer/wafer.service.ts:1092-1107 | without a capture time but with a lot id, a row's time does not affect selection |
| WaferPartition.SpectrumTable | src/wafer/wafer.service.ts:439-449 | the live table exactly when the target month is the current month; otherwise a monthly partition name |
| WaferPartition.RouteRoundTrip | src/wafer/wafer.service.ts:439-449 | parsing a routed name gives back its year and month (1-based, two digits), or none for the live table |
| WaferPartition.RouteInjective | src/wafer/wafer.service.ts:439-449 | different months are routed to different tables |
| WaferPartition.SpectrumGen | src/wafer/wafer.service.ts:430-491 | null when a key is missing or `Number` reads no integer point; with every key, a GEN series exactly when the routed table holds a matching GEN record, built from that record |
| WaferPdf.Basename | src/wafer/wafer.service.ts:806-809 | the last path segment after any / or \, with trailing separators dropped |
| WaferPdf.BasenameOfJoin | src/wafer/wafer.service.ts:806-809 | the basename of a directory joined with a file name is that file name |
| WaferPdf.CheckPdf | src/wafer/wafer.service.ts:768-835 | not found without eqpId or a time; found means the first eligible row's URL; an eligible row guarantees it is found |
| WaferPdf.QualifiesByFileName | src/wafer/wafer.service.ts:802-821 | with a lot id, a row qualifies exactly when its file name contains the trimmed lot (or it with . as _), and also the wafer number when one is given |
| WaferPdf.TargetPage | src/wafer/wafer.service.ts:672-673 | the page is at least 1: the point number as `Number` reads it (1.0, 1e1 and 0x1A included) when that is an integer of at least 1, and 1 otherwise |
| WaferPdf.Step | src/wafer/wafer.service.ts:702-738 | a success renders the page tried; a first failure moves to page 1; a second failure ends the tries |
| WaferPdf.RunPolicy | src/wafer/wafer.service.ts:702-738 | the pages tried are [page] when the first try succeeds and [page, 1] otherwise; the run ends rendered exactly when one of the tries succeeds |
| WaferPdf.CacheName | src/wafer/wafer.service.ts:622-625 | the cache file is named wafer_, then the equipment, then the eight-digit day, then the point |
| WaferPdf.CacheNameInjective | src/wafer/wafer.service.ts:622-625 | for one equipment, different days or points never share a cache file |
| WaferPdf.Produce | src/wafer/wafer.service.ts:628-738 | the named cache file is served exactly when it exists, is non-empty and reads; otherwise the image is converted, and the cache file is deleted exactly when it is zero bytes |
| WaferPdf.Convert | src/wafer/wafer.service.ts:644-738 | an image comes only from a successful download with a converter path, rendered by the fallback policy |
| WaferPdf.GetPdfImage | src/wafer/wafer.service.ts:591-765 | a missing key is an Internal error; NotFound exactly when every key is given but no PDF record or URL is found; every other error is Internal; a result needs a PDF found at an http URL; a cached result needs the file named by equipment, day and point to be non-empty and readable; only that file is deleted, and only when it is zero bytes |
| WaferPdf.CachePolicy | src/wafer/wafer.service.ts:621-636 | once the PDF is found, the cache file of this equipment, day and point is served when non-empty and readable, deleted and rebuilt when zero bytes, and when absent the image is converted with nothing deleted |
| WaferStats.MakeStat | src/wafer/wafer.service.ts:971-991 | max and min are the column's extremes, the mean lies between them, range = max − min and is never negative; with a non-zero mean percentStdDev = std / mean · 100 and percentNonU = range / (2 · mean) · 100, and both are 0 when the mean is 0 |
| WaferStats.MeanBetween | src/wafer/wafer.service.ts:953-980 | the mean of a non-empty column lies between its minimum and maximum |
| WaferStats.StatsColumns | src/wafer/wafer.service.ts:900-946 | the columns are the baseline and lower-cased configured metrics that the table has in any case, minus the exclusions, without repeats |
| WaferStats.Statistics | src/wafer/wafer.service.ts:887-998 | {} without eqpId or when a column is missing from the table as spelled; every key is a stats column; a column is present exactly when the selected rows hold a number for it; each entry describes those numbers |
| WaferStats.HeadersRanked | src/wafer/wafer.service.ts:1049-1058 | headers in the custom order come first, in that order |
| WaferStats.Headers | src/wafer/wafer.service.ts:1026-1058 | the headers are the row keys without repeats, ordered by custom rank and then by `localeCompare` of the lower-cased names (punctuation before digits before letters) |
| WaferStats.PunctuationBeforeDigits | src/wafer/wafer.service.ts:1057 | `t1_raw` sorts before `t10` under `localeCompare`, the opposite of code-point order |
| Common.CollateTransitive | src/wafer/wafer.service.ts:1057 | the `localeCompare` order on lower-case names is transitive |
| Common.CollateAntisymmetric | src/wafer/wafer.service.ts:1057 | two names that sort no later than each other are equal |
| Common.NumberOfNat | src/wafer/wafer.service.ts:415 | `Number` of a number written in decimal digits is that number |
| Common.NumberOfNegated | src/wafer/wafer.service.ts:518 | `Number` of a minus sign and decimal digits is the negated number |
| Common.NumberOfPointZeros | src/wafer/wafer.service.ts:672 | zeros after a decimal point do not change the value: `Number` of n.000 is n |
| Common.NumberOfExponent | src/wafer/wafer.service.ts:672 | an exponent scales by a power of ten: `Number` of n e k is n·10^k |
| Common.NumberOfRadix | src/wafer/wafer.service.ts:672 | a 0x, 0o or 0b literal reads in base 16, 8 or 2 |
| Common.NumberOfPointZero | src/wafer/wafer.service.ts:672 | `Number` of 2.0 is 2 |
| Common.NumberOfTenByExponent | src/wafer/wafer.service.ts:672 | `Number` of 1e1 is 10 |
| Common.NumberOfHex | src/wafer/wafer.service.ts:672 | `Number` of 0x1A is 26 |
| Common.OffsetNegative | src/board/board.service.ts:19 | the skip (page-1)·limit is negative exactly when the page is below 1 with a positive limit or above 1 with a negative one |
| Common.PageWindow | src/board/board.service.ts:19-38 | Prisma accepts skip and take exactly when page and limit are finite, the limit is an integer and the skip (page-1)·limit is a non-negative integer; the window then skips that many rows and takes limit |
| Common.PageWindowOfIntegers | src/board/board.service.ts:19 | for whole numbers the window exists exactly when (page-1)·limit is not negative, and is that skip with take limit |
| Common.FractionalPage | src/board/board.service.ts:19 | a fractional page can still give a valid window: page 1.5 with limit 2 skips one row and takes two |
| Common.Shown | src/board/board.service.ts:33-38 | Prisma's `skip`/`take`: a take of 0 gives nothing; a non-negative take gives up to take rows from position skip on, in order; a negative take gives up to -take rows just before the last skip, in order |
| Common.ShownWithinBy | src/board/board.service.ts:33-38 | a page of a descending listing, forward or backward, is drawn from it and is itself descending |
| Common.CeilDiv | src/board/board.service.ts:68 | `Math.ceil(a / b)` for a positive b: the fewest blocks of b that cover a |
| Common.QuotientFloor | src/board/board.service.ts:68 | the quotient by subtraction is the floor of a / b |
| Common.RemoveAtMultiset | src/board/board.service.ts:306-315 | removing position i takes exactly that one occurrence out |
| WaferStats.PointData | src/wafer/wafer.service.ts:1000-1066 | empty without eqpId; otherwise headers are the non-excluded columns present in the selected rows, ordered as Headers says, and each data row holds the values of one selected row, in point order with the rows without a point last |
| WaferStats.AvailableMetrics | src/wafer/wafer.service.ts:1415-1472 | without eqpId, the configured metrics the table has in any case; with eqpId, those whose matched column holds a value in a selected row |
| WaferStats.AvailableMetricsMeaning | src/wafer/wafer.service.ts:1437-1467 | with eqpId, a configured metric is reported exactly when the table has it in some case and a selected row holds a value in that column |
| WaferStats.AvailableMetricsAsWritten | src/wafer/wafer.service.ts:1437-1467 | as written: when any candidate differs in case from its table column, the count query fails and the whole answer is [] |
| WaferStats.AvailableMetricsCaseMismatch | src/wafer/wafer.service.ts:1441-1467 | with config T1 and a table column t1 that holds a value, the as-written answer is [] while the corrected answer reports T1 |
| WaferSeries.OpticalTrendQuery | src/wafer/wafer.service.ts:1225-1270 | no query exactly when eqpId or either date is missing |
| WaferSeries.OpticalTrendMeaning | src/wafer/wafer.service.ts:1225-1270 | the optical-trend query selects exactly the rows its filters describe |
| WaferSeries.PeakIndex | src/wafer/wafer.service.ts:1278-1296 | the index of the first maximal value |
| WaferSeries.OpticalPointMeaning | src/wafer/wafer.service.ts:1272-1309 | total intensity is the sum of values; peak intensity is the first maximum and peak wavelength the wavelength at that index, or 0 when absent; dark noise is the minimum |
| WaferSeries.OpticalPointEmpty | src/wafer/wafer.service.ts:1290-1307 | with no values, peak intensity and dark noise are 0 and the peak wavelength is the first wavelength, or 0 when there is none |
| WaferSeries.Figures | src/wafer/wafer.service.ts:1276-1300 | one pass over the values computes their sum, first maximum with its index, and minimum, all 0 when empty |
| WaferSeries.OpticalTrend | src/wafer/wafer.service.ts:1272-1309 | one optical point per spectrum row, in order, as OpticalPointMeaning says |
| WaferSeries.ResidualMap | src/wafer/wafer.service.ts:1317-1348 | [] without eqpId or for a metric the table lacks; otherwise one residual per row with a value, which is that value minus their mean |
| WaferSeries.ResidualsSumToZero | src/wafer/wafer.service.ts:1330-1343 | the residuals sum to zero |
| WaferSeries.GroupByWafer | src/wafer/wafer.service.ts:1490-1507 | each series holds exactly its wafer's points, ordered by point with the points that are NULL last; series run non-negative ids ascending, then negative ids ascending, then a null wafer last |
| WaferSeries.RowsOf | src/wafer/wafer.service.ts:1487 | the rows of one wafer, exactly and with their multiplicities, in `ORDER BY point` order: ascending points, then the rows whose point is NULL |
| WaferSeries.GroupsCover | src/wafer/wafer.service.ts:1490-1507 | a wafer has a series exactly when some row belongs to it |
| WaferSeries.OrderedDistinct | src/wafer/wafer.service.ts:1490-1507 | no wafer gets two series |
| WaferSeries.LotUniformityTrend | src/wafer/wafer.service.ts:1474-1514 | [] without eqpId or for a metric the table lacks; otherwise the grouping of the selected rows |
| WaferSeries.LotUniformityCover | src/wafer/wafer.service.ts:1474-1514 | a wafer has a series exactly when some selected row belongs to it, whether or not the row holds a value |
| WaferSpectra.TrendData | src/wafer/wafer.service.ts:389-399 | pairs are produced only when both arrays are present with equal lengths |
| WaferSpectra.TrendDataRoundTrip | src/wafer/wafer.service.ts:389-399 | from equal-length arrays, the pairs give back the wavelengths and, divided by 100, the values |
| WaferSpectra.GenAgreesWithTrend | src/wafer/wafer.service.ts:389-399 | the GEN pairing agrees with the trend pairing on equal lengths; with fewer values, the trend is empty and the extra GEN points have no value |
| WaferSpectra.FirstPerClassClasses | src/wafer/wafer.service.ts:869-880 | the dedupe keeps each class of the input exactly once |
| WaferSpectra.FirstPerClassFirst | src/wafer/wafer.service.ts:869-880 | each kept record is the first of its class |
| WaferSpectra.GetSpectrum | src/wafer/wafer.service.ts:838-885 | [] when a key is missing, the time is bad or `Number` reads no integer point; otherwise one spectrum per class present, taken from the first matching record of that class |
| WaferSpectra.PickSpectra | src/wafer/wafer.service.ts:869-880 | classes are distinct, every entry comes from a selected record, and every selected class is represented |
| WaferSpectra.TrendColumns | src/wafer/wafer.service.ts:301-319 | gof plus the configured columns, or the defaults when none are configured, without repeats |
| WaferSpectra.JoinSplit | src/wafer/wafer.service.ts:298 | splitting the wafer-id list on commas loses nothing: joining gives it back |
| WaferSpectra.SplitJoin | src/wafer/wafer.service.ts:298 | joining comma-free ids and splitting again gives the ids back |
| WaferSpectra.WaferListNeverEmpty | src/wafer/wafer.service.ts:298-299 | the split list always has an element, so its empty check never fires |
| WaferSpectra.SpectrumTrend | src/wafer/wafer.service.ts:280-427 | [] when lotId, pointId or the wafer ids are missing, or `Number` reads no integer point; otherwise one series per row with name W and the wafer id, the lot (falling back to the request's), the row's timestamp, scan time, equipment and raw wafer id, one meta value per column, and data that pairs back to the row's arrays |

## Left out

- Alerts.CreateAlert: requires an id no alert uses yet; the database's auto-increment guarantees this in the source.
- Auth.CreateGuestRequest: requires a fresh request id, for the same reason.
- Board.CreatePost, Board.CreateComment and Board.UpdateStatus: require fresh post, comment and alert ids, for the same reason.
- MenuService.CreateMenu: requires a fresh menu id, for the same reason.
- Health.Score: the total lies in 0..100 only for non-negative temperature volatility and lamp-usage ratio; the source does not clamp negative inputs either.
- Menus.FilterMenus and the MenuTree lemmas: stated for unique menu ids and acyclic parent links. With a cycle the source's `while` loop never ends, and the model stops after as many steps as there are menus.
- The view-count increment in `getPostById`: it is fire-and-forget and runs concurrently.
- `getAllUsers` in the admin service: a plain join of two tables.
- `getAllRolePermissions` in the menu service: a plain read.
- In the wafer service, `getMatchingEquipments`, `getComparisonData` and `getGoldenSpectrum`: outside the modelled core.
- The thin services (equipment, infra, filters, performance, lamplife, prealign), controllers, module wiring and DTO validation decorators: their behaviour lives in Prisma and in libraries.
- SQL text, quoting and execution: queries are lists of clauses. The rows of the spectrum-trend, optical-trend and distinct-values queries are inputs, so `ORDER BY` and `LIMIT` (2000 and 5000 rows) are not modelled.
- File system, HTTP download, the `pdftocairo` process, timeouts and delays: `getPdfImage` receives their outcomes as a `PdfWorld` value.
- Logging, the clock and `ENABLE_DEMO_MODE`: the clock and demo mode are parameters.
- JavaScript `Date` time zones: the local time zone is taken as UTC, and `getSafeDates` works on whole UTC days.
- Drive-letter prefixes in Windows paths are not handled by `WaferPdf.Basename`.
- Case folding is ASCII only.
- WaferStats.Headers: `localeCompare` is modelled by the root collation's primary order for ASCII. Non-ASCII characters sort by code point after the letters, control characters other than tab to carriage return come first instead of being ignored, and accents are not weighed.
- WaferStats.PointData: its header order inherits the same ASCII-only collation.
- Dashboard.AgentStatus: `ORDER BY a.eqpid` uses the database's collation, which depends on how the database was created; the model orders by code point.
- Auth.AccessCodes: `orderBy: { compid: 'asc' }` likewise; the model orders by code point.
- WaferSpectra.PickSpectra: `ORDER BY class` likewise decides only the order of the classes, which the model leaves by code point.
- WaferPartition.SpectrumGen: the current month and the timestamp's month are inputs, not derived from the clock or the timestamp, because the source reads them through the local time zone.
- WaferPdf.CacheName: the calendar day is an input for the same reason.
- Common.NumberOf: `Number` gives a fraction, an infinity or a value beyond 2^53 as a double; the model reads a fraction or an infinity as `None`, like NaN, and keeps a large value exact instead of rounding it. The callers where a fractional or infinite value selects no row, or is refused by Prisma, give the same answer either way.
- WaferPdf.TargetPage: a fractional point number of at least 1, which the source passes to the converter as it is, gives page 1 in the model.
- WaferQuery.FlatDataWhere: a wafer id outside Prisma's 32-bit Int range is accepted as a filter, where Prisma refuses it.
- WaferStats.Statistics: the model has no column types; a configured metric that names a text column makes the source's AVG fail, and the catch turns that into {}, which the model does not reproduce.
- Floating point: numbers are `real`, and `Math.round` is floor(x + 1/2).
- Paging arithmetic: `(page - 1) * limit` is computed exactly on `real`, where JavaScript rounds it to a double; skip and take beyond Prisma's 32-bit range are accepted.
- Database failures outside the members that take a failure parameter: `getPosts`, `getPostById`, `updatePost`, `deletePost`, `updateComment`, `deleteComment` and `getPopupNotices` catch them into an Internal error, and in the manual save, the dashboard agent query and the error, health, menu and auth services a failure gives an error or the service's fallback answer; the model has no database failure in those members and never produces those answers.
- In lot uniformity, wafer ids of 2^32−1 and above are not treated the way JavaScript orders object keys.
- Sorting: equal keys keep storage order, where the database may return them in any order.
- MenuService.MyMenus and MenuService.AllMenus: menus with the same sort order are read in storage order, where the database may return them in any order; menus without a sort order do come after all the others.

Notes on behaviour the model follows from the code:

- `updatePost` clears other popups before the update that can fail, so a failed update still clears them; `createPost` does the same before its insert.
- In `getPosts`, a limit of 0 makes lastPage Infinity (or NaN with no posts), which goes out in JSON as null; a negative limit makes it `Math.ceil` of a negative quotient, which is minus the floor of total over -limit.
- `getErrorLogs` computes no page count, so a limit of 0 returns no items, and a negative limit is Prisma's backward paging from the end of the listing.
- The error trend joins events to equipment: it ignores `isUse`, and an SDWT filter wins over a site filter. Days are UTC calendar days.
- The top error of a tie is the id seen first.
- A grant approved at `now` ends at the KST clock plus 30 days.
- A post whose status is not given takes the schema default.
- `getUserContext` fails when the referenced SDWT row is missing.
- `checkPdf` returns not-found when no file name qualifies.
- In `getOpticalTrend`, the peak wavelength of an empty values array is `wavelengths[0]`, because the argmax index stays 0.
- A missing role in `getMyMenus` throws on `toLowerCase`, and the catch turns that into [].
- The menu field `label` is called `text`, because `label` is a Dafny keyword.

## Findings

| source | as written | input that shows it | evidently intended | confidence | as-written member | corrected member |
|---|---|---|---|---|---|---|
| src/wafer/wafer.service.ts:1437-1467 | candidates are kept when their lower-cased name is a column, but the count query quotes the configured spelling (`COUNT("T1")`), which PostgreSQL resolves case-sensitively; the failing query is caught and the whole answer becomes [] | config metric `T1`, table column `t1`, eqpId given, and a selected row holding a value for `t1` | count the table column that matched, so `T1` is reported | medium, not executed | WaferStats.AvailableMetricsCaseMismatch | WaferStats.AvailableMetricsMeaning |

=== FILE: access.dfy ===
/** The access tables shared by the services: administrators
    (`cfg_admin_user`), guest access grants (`cfg_guest_access`, keyed by
    login id) and guest requests (`cfg_guest_request`, keyed by request
    id). Times are milliseconds. */
module Access {
  import opened Common

  /** A row of `cfg_admin_user`. */
  datatype AdminUser = AdminUser(loginId: string, role: string)

  datatype GuestAccess = GuestAccess(
    loginId: string,
    deptCode: string,
    deptName: string,
    reason: string,
    grantedRole: string,
    validUntil: int,
    createdAt: int)

  datatype GuestRequest = GuestRequest(
    reqId: int,
    loginId: string,
    deptCode: string,
    deptName: string,
    reason: string,
    status: string,
    processedBy: Option<string>,
    processedAt: Option<int>,
    createdAt: int)

  const GuestRole := "GUEST"
  const Pending := "PENDING"
  const Approved := "APPROVED"
  const Rejected := "REJECTED"

  const HourMs := 60 * 60 * 1000
  const DayMs := 24 * HourMs

  /** `loginId` is the primary key of the guest table. */
  predicate UniqueGuests(guests: seq<GuestAccess>) {
    forall i, j :: 0 <= i < j < |guests| ==> guests[i].loginId != guests[j].loginId
  }

  /** The first guest row of the login. */
  function GuestIndex(guests: seq<GuestAccess>, loginId: string): (i: int)
    ensures -1 <= i < |guests|
    ensures i >= 0 ==> guests[i].loginId == loginId && forall k :: 0 <= k < i ==> guests[k].loginId != loginId
    ensures i == -1 <==> forall g :: g in guests ==> g.loginId != loginId
  {
    if |guests| == 0 then -1
    else if guests[0].loginId == loginId then 0
    else
      var i := GuestIndex(guests[1..], loginId);
      assert forall g :: g in guests <==> g == guests[0] || g in guests[1..];
      if i < 0 then -1 else i + 1
  }

  function RequestIndex(requests: seq<GuestRequest>, reqId: int): (i: int)
    ensures -1 <= i < |requests|
    ensures i >= 0 ==> requests[i].reqId == reqId
    ensures i == -1 <==> forall q :: q in requests ==> q.reqId != reqId
  {
    if |requests| == 0 then -1
    else if requests[|requests| - 1].reqId == reqId then |requests| - 1
    else
      var i := RequestIndex(requests[..|requests| - 1], reqId);
      assert forall q :: q in requests <==> q in requests[..|requests| - 1] || q == requests[|requests| - 1];
      i
  }
}

=== FILE: admin.dfy ===
/** The admin service: guest grants and the approval or rejection of guest
    requests. Every time it stores is the clock shifted to Korean standard
    time (UTC+9), the way `getKstDate` shifts it. */
module Admin {
  import opened Common
  import opened Sorting
  import opened Access

  datatype AdminDb = AdminDb(requests: seq<GuestRequest>, guests: seq<GuestAccess>)

  const KstOffset := 9 * HourMs
  const GuestDays := 30

  /** `getKstDate`: the clock nine hours ahead. */
  function KstDate(now: int): (r: int)
    ensures r - now == 32400000
  {
    now + KstOffset
  }

  // ---------------------------------------------------------------------
  // Guests
  // ---------------------------------------------------------------------

  /** The body of `addGuest`; `validUntil: None` is a date string that does
      not parse, and the requested role is never used. */
  datatype GuestInput = GuestInput(
    loginId: string,
    deptCode: string,
    deptName: string,
    reason: string,
    validUntil: Option<int>,
    grantedRole: Option<string>)

  /** `addGuest`: a new GUEST grant created now (KST); an unparsable date or
      a login that already has a grant fails the insert. */
  function AddGuest(db: AdminDb, data: GuestInput, now: int): (r: (AdminDb, Result<GuestAccess>))
    ensures r.1.Err? <==> data.validUntil.None? || exists g :: g in db.guests && g.loginId == data.loginId
    ensures r.1.Err? ==> r.0 == db && r.1.error.Internal?
    ensures r.1.Ok? ==> r.1.value.grantedRole == GuestRole
    ensures r.1.Ok? ==> r.1.value.loginId == data.loginId && r.1.value.validUntil == data.validUntil.value
    ensures r.1.Ok? ==> r.1.value.createdAt == KstDate(now)
    ensures r.1.Ok? ==> r.0.guests == db.guests + [r.1.value] && r.0.requests == db.requests
    ensures UniqueGuests(db.guests) ==> UniqueGuests(r.0.guests)
  {
    if data.validUntil.None? then (db, Err(Internal("invalid date")))
    else if GuestIndex(db.guests, data.loginId) >= 0 then (db, Err(Internal("unique constraint failed on loginId")))
    else
      var g := GuestAccess(data.loginId, data.deptCode, data.deptName, data.reason, GuestRole, data.validUntil.value, KstDate(now));
      (db.(guests := db.guests + [g]), Ok(g))
  }

  /** `deleteGuest`: removes the login's grant; a missing grant is an error. */
  function DeleteGuest(db: AdminDb, loginId: string): (r: (AdminDb, Result<GuestAccess>))
    ensures r.1.Err? <==> forall g :: g in db.guests ==> g.loginId != loginId
    ensures r.1.Err? ==> r.0 == db
    ensures r.1.Ok? ==> r.1.value in db.guests && r.1.value.loginId == loginId && |r.0.guests| == |db.guests| - 1
    ensures r.1.Ok? && UniqueGuests(db.guests) ==> forall g :: g in r.0.guests <==> g in db.guests && g.loginId != loginId
    ensures r.0.requests == db.requests
  {
    var i := GuestIndex(db.guests, loginId);
    if i < 0 then (db, Err(Internal("record to delete does not exist")))
    else
      var guests := RemoveAt(db.guests, i);
      assert UniqueGuests(db.guests) ==> forall g :: g in guests ==> g.loginId != loginId by {
        if UniqueGuests(db.guests) {
          forall g | g in guests ensures g.loginId != loginId {
            var k :| 0 <= k < |guests| && guests[k] == g;
            if k < i {
              assert db.guests[k].loginId != db.guests[i].loginId;
            } else {
              assert db.guests[k + 1].loginId != db.guests[i].loginId;
            }
          }
        }
      }
      (db.(guests := guests), Ok(db.guests[i]))
  }

  function GuestNewestFirst(g: GuestAccess): int {
    -g.createdAt
  }

  function RequestNewestFirst(q: GuestRequest): int {
    -q.createdAt
  }

  /** `getAllGuests`: every grant, newest first. */
  function AllGuests(db: AdminDb): (r: seq<GuestAccess>)
    ensures multiset(r) == multiset(db.guests)
    ensures forall i, j :: 0 <= i < j < |r| ==> r[i].createdAt >= r[j].createdAt
  {
    var r := SortBy(db.guests, GuestNewestFirst);
    assert SortedBy(r, GuestNewestFirst);
    r
  }

  /** `getGuestRequests`: every request, newest first. */
  function GuestRequests(db: AdminDb): (r: seq<GuestRequest>)
    ensures multiset(r) == multiset(db.requests)
    ensures forall i, j :: 0 <= i < j < |r| ==> r[i].createdAt >= r[j].createdAt
  {
    var r := SortBy(db.requests, RequestNewestFirst);
    assert SortedBy(r, RequestNewestFirst);
    r
  }

  // ---------------------------------------------------------------------
  // Approval and rejection
  // ---------------------------------------------------------------------

  /** The end of a grant approved at `now`: thirty days after the KST clock
      (the calendar-day step of `setDate` taken in UTC). */
  function GrantEnd(now: int): int {
    KstDate(now) + GuestDays * DayMs
  }

  /** The grant upsert of an approval: an existing grant of the requester
      gets the new end, the request's reason and the GUEST role; otherwise a
      grant is created from the request. */
  function Regrant(guests: seq<GuestAccess>, q: GuestRequest, now: int): (r: (seq<GuestAccess>, GuestAccess))
    ensures r.1.loginId == q.loginId && r.1.reason == q.reason
    ensures r.1.grantedRole == GuestRole && r.1.validUntil == GrantEnd(now)
    ensures r.1 in r.0
    ensures UniqueGuests(guests) ==> forall g :: g in guests && g.loginId == q.loginId ==>
              r.1.deptCode == g.deptCode && r.1.deptName == g.deptName && r.1.createdAt == g.createdAt
    ensures (forall g :: g in guests ==> g.loginId != q.loginId) ==>
              r.1.createdAt == KstDate(now) && r.1.deptCode == q.deptCode && r.1.deptName == q.deptName && r.0 == guests + [r.1]
    ensures forall g :: g in guests && g.loginId != q.loginId ==> g in r.0
    ensures UniqueGuests(guests) ==> UniqueGuests(r.0)
    ensures GuestIndex(guests, q.loginId) >= 0 ==> r.0 == guests[GuestIndex(guests, q.loginId) := r.1]
  {
    var j := GuestIndex(guests, q.loginId);
    if j >= 0 then
      var g := guests[j].(validUntil := GrantEnd(now), reason := q.reason, grantedRole := GuestRole);
      var updated := guests[j := g];
      assert updated[j] == g;
      assert forall h :: h in guests && h.loginId != q.loginId ==> h in updated by {
        forall h | h in guests && h.loginId != q.loginId ensures h in updated {
          var k :| 0 <= k < |guests| && guests[k] == h;
          assert updated[k] == h;
        }
      }
      assert UniqueGuests(guests) ==> UniqueGuests(updated) && forall h :: h in guests && h.loginId == q.loginId ==> h == guests[j] by {
        if UniqueGuests(guests) {
          forall a, b | 0 <= a < b < |updated| ensures updated[a].loginId != updated[b].loginId {
            assert guests[a].loginId != guests[b].loginId;
          }
          forall h | h in guests && h.loginId == q.loginId ensures h == guests[j] {
            var k :| 0 <= k < |guests| && guests[k] == h;
            assert k == j;
          }
        }
      }
      (updated, g)
    else
      var g := GuestAccess(q.loginId, q.deptCode, q.deptName, q.reason, GuestRole, GrantEnd(now), KstDate(now));
      (guests + [g], g)
  }

  /** `approveGuestRequest`: an unknown request is NotFound and changes
      nothing; otherwise, in one transaction, the request is marked APPROVED
      by the approver at the KST clock and the requester's grant is
      refreshed to GUEST for thirty days. */
  function ApproveGuestRequest(db: AdminDb, reqId: int, approverId: string, now: int): (r: (AdminDb, Result<GuestAccess>))
    ensures r.1.Err? <==> forall q :: q in db.requests ==> q.reqId != reqId
    ensures r.1.Err? ==> r.0 == db && r.1.error.NotFound?
    ensures r.1.Ok? ==> var i := RequestIndex(db.requests, reqId);
              r.0.requests == db.requests[i := db.requests[i].(status := Approved, processedBy := Some(approverId), processedAt := Some(KstDate(now)))]
    ensures r.1.Ok? ==> var q := db.requests[RequestIndex(db.requests, reqId)];
              (r.0.guests, r.1.value) == Regrant(db.guests, q, now)
    ensures r.1.Ok? ==> r.1.value.grantedRole == GuestRole && r.1.value.validUntil == GrantEnd(now) && r.1.value in r.0.guests
  {
    var i := RequestIndex(db.requests, reqId);
    if i < 0 then (db, Err(NotFound("Request not found")))
    else
      var q := db.requests[i];
      var requests := db.requests[i := q.(status := Approved, processedBy := Some(approverId), processedAt := Some(KstDate(now)))];
      var (guests, g) := Regrant(db.guests, q, now);
      (AdminDb(requests, guests), Ok(g))
  }

  /** `rejectGuestRequest`: marks the request REJECTED by the rejector at
      the KST clock; an unknown request fails the update. */
  function RejectGuestRequest(db: AdminDb, reqId: int, rejectorId: string, now: int): (r: (AdminDb, Result<GuestRequest>))
    ensures r.1.Err? <==> forall q :: q in db.requests ==> q.reqId != reqId
    ensures r.1.Err? ==> r.0 == db && r.1.error.Internal?
    ensures r.1.Ok? ==> r.1.value.reqId == reqId && r.1.value.status == Rejected
    ensures r.1.Ok? ==> r.1.value.processedBy == Some(rejectorId) && r.1.value.processedAt == Some(KstDate(now))
    ensures r.1.Ok? ==> var i := RequestIndex(db.requests, reqId);
              r.1.value == db.requests[i].(status := Rejected, processedBy := Some(rejectorId), processedAt := Some(KstDate(now)))
              && r.0.requests == db.requests[i := r.1.value]
    ensures r.0.guests == db.guests
  {
    var i := RequestIndex(db.requests, reqId);
    if i < 0 then (db, Err(Internal("record to update not found")))
    else
      var q := db.requests[i].(status := Rejected, processedBy := Some(rejectorId), processedAt := Some(KstDate(now)));
      (db.(requests := db.requests[i := q]), Ok(q))
  }
}

=== FILE: alerts.dfy ===
/** The alert service: per-user notifications in `sys_alert`. A database
    failure is an input (`dbUp`); the service swallows it and answers null,
    `[]` or 0. */
module Alerts {
  import opened Common
  import opened Sorting

  datatype Alert = Alert(
    id: int,
    userId: string,
    alertType: string,
    message: string,
    link: string,
    isRead: bool,
    createdAt: int)

  /** The alert table, in insertion order. */
  datatype AlertStore = AlertStore(alerts: seq<Alert>)

  const BoardReply := "BOARD_REPLY"
  const MaxListed := 20

  predicate UniqueAlertIds(s: AlertStore) {
    forall i, j :: 0 <= i < j < |s.alerts| ==> s.alerts[i].id != s.alerts[j].id
  }

  // ---------------------------------------------------------------------
  // createAlert
  // ---------------------------------------------------------------------

  /** `createAlert`: a new unread `BOARD_REPLY` alert under the id the
      database assigns; a failed insert leaves the table as it was and
      answers null. */
  function CreateAlert(s: AlertStore, id: int, userId: string, message: string, link: string, now: int, dbUp: bool): (r: (AlertStore, Option<Alert>))
    requires forall a :: a in s.alerts ==> a.id != id
    ensures !dbUp ==> r == (s, None)
    ensures dbUp ==> r.1 == Some(Alert(id, userId, BoardReply, message, link, false, now))
    ensures dbUp ==> r.0.alerts == s.alerts + [r.1.value]
    ensures UniqueAlertIds(s) ==> UniqueAlertIds(r.0)
  {
    if !dbUp then (s, None)
    else
      var a := Alert(id, userId, BoardReply, message, link, false, now);
      (AlertStore(s.alerts + [a]), Some(a))
  }

  // ---------------------------------------------------------------------
  // getUnreadCount
  // ---------------------------------------------------------------------

  predicate UnreadOf(userId: string, a: Alert) {
    a.userId == userId && !a.isRead
  }

  /** The number of the user's unread alerts, counted one by one. */
  function CountUnread(alerts: seq<Alert>, userId: string): (n: nat)
    ensures n <= |alerts|
    ensures n == 0 <==> forall a :: a in alerts ==> !UnreadOf(userId, a)
  {
    if |alerts| == 0 then 0
    else
      var rest := CountUnread(alerts[..|alerts| - 1], userId);
      assert forall a :: a in alerts <==> a in alerts[..|alerts| - 1] || a == alerts[|alerts| - 1];
      rest + if UnreadOf(userId, alerts[|alerts| - 1]) then 1 else 0
  }

  /** `getUnreadCount`: the `count` query, or 0 when the database fails. */
  function UnreadCount(s: AlertStore, userId: string, dbUp: bool): (n: nat)
    ensures !dbUp ==> n == 0
    ensures n <= |s.alerts|
    ensures dbUp ==> (n == 0 <==> forall a :: a in s.alerts ==> !UnreadOf(userId, a))
  {
    var unread := Filter(s.alerts, (a: Alert) => UnreadOf(userId, a));
    assert |unread| > 0 ==> unread[0] in unread;
    if dbUp then |unread| else 0
  }

  /** The `count` query agrees with counting the rows one by one. */
  lemma {:induction false} UnreadCountMeaning(alerts: seq<Alert>, userId: string)
    ensures UnreadCount(AlertStore(alerts), userId, true) == CountUnread(alerts, userId)
  {
    if |alerts| > 0 {
      UnreadCountMeaning(alerts[..|alerts| - 1], userId);
    }
  }

  /** A new alert is one more unread alert for its user and none for
      anyone else. */
  lemma CreateAlertUnread(s: AlertStore, id: int, userId: string, message: string, link: string, now: int, other: string)
    requires forall a :: a in s.alerts ==> a.id != id
    ensures var after := CreateAlert(s, id, userId, message, link, now, true).0;
            CountUnread(after.alerts, other) == CountUnread(s.alerts, other) + if other == userId then 1 else 0
  {
    var after := CreateAlert(s, id, userId, message, link, now, true).0;
    assert after.alerts[..|after.alerts| - 1] == s.alerts;
  }

  // ---------------------------------------------------------------------
  // readAlert
  // ---------------------------------------------------------------------

  function IndexOfId(alerts: seq<Alert>, id: int): (i: int)
    ensures -1 <= i < |alerts|
    ensures i >= 0 ==> alerts[i].id == id
    ensures i == -1 <==> forall a :: a in alerts ==> a.id != id
  {
    if |alerts| == 0 then -1
    else if alerts[|alerts| - 1].id == id then |alerts| - 1
    else
      var i := IndexOfId(alerts[..|alerts| - 1], id);
      assert forall a :: a in alerts <==> a in alerts[..|alerts| - 1] || a == alerts[|alerts| - 1];
      i
  }

  /** Every alert with the id, marked read. */
  function MarkRead(alerts: seq<Alert>, id: int): (r: seq<Alert>)
    ensures |r| == |alerts|
    ensures forall i :: 0 <= i < |alerts| ==> r[i] == if alerts[i].id == id then alerts[i].(isRead := true) else alerts[i]
  {
    seq(|alerts|, k requires 0 <= k < |alerts| => if alerts[k].id == id then alerts[k].(isRead := true) else alerts[k])
  }

  /** `readAlert`: marks the alert read and answers it. A missing id, or a
      database that is down (`dbUp` false), makes the update fail, which the
      catch turns into null with nothing changed. */
  function ReadAlert(s: AlertStore, id: int, dbUp: bool): (r: (AlertStore, Option<Alert>))
    ensures r.1.None? <==> !dbUp || forall a :: a in s.alerts ==> a.id != id
    ensures r.1.None? ==> r.0 == s
    ensures !dbUp ==> r == (s, None)
    ensures r.1.Some? ==> r.1.value.id == id && r.1.value.isRead && r.1.value in r.0.alerts
    ensures r.1.Some? ==> r.0.alerts == MarkRead(s.alerts, id)
  {
    var i := IndexOfId(s.alerts, id);
    if !dbUp || i < 0 then (s, None)
    else
      var alerts := MarkRead(s.alerts, id);
      (AlertStore(alerts), Some(alerts[i]))
  }

  /** Marking read keeps every id where it was. */
  lemma {:induction false} IndexOfIdMarkRead(alerts: seq<Alert>, id: int, x: int)
    ensures IndexOfId(MarkRead(alerts, id), x) == IndexOfId(alerts, x)
  {
    if |alerts| > 0 {
      var m := MarkRead(alerts, id);
      assert m[..|m| - 1] == MarkRead(alerts[..|alerts| - 1], id);
      IndexOfIdMarkRead(alerts[..|alerts| - 1], id, x);
    }
  }

  /** Reading an alert twice is reading it once. */
  lemma ReadAlertIdempotent(s: AlertStore, id: int, dbUp: bool)
    ensures ReadAlert(ReadAlert(s, id, dbUp).0, id, dbUp) == ReadAlert(s, id, dbUp)
  {
    var once := ReadAlert(s, id, dbUp);
    if once.1.Some? {
      IndexOfIdMarkRead(s.alerts, id, id);
      var m := MarkRead(s.alerts, id);
      assert MarkRead(m, id) == m;
    }
  }

  /** The user's unread alerts that carry the id. */
  function CountUnreadId(alerts: seq<Alert>, id: int, userId: string): nat {
    if |alerts| == 0 then 0
    else
      var last := alerts[|alerts| - 1];
      CountUnreadId(alerts[..|alerts| - 1], id, userId) + if last.id == id && UnreadOf(userId, last) then 1 else 0
  }

  /** Marking an id read removes exactly the user's unread alerts with
      that id from the user's unread count. */
  lemma {:induction false} MarkReadCount(alerts: seq<Alert>, id: int, userId: string)
    ensures CountUnread(MarkRead(alerts, id), userId) == CountUnread(alerts, userId) - CountUnreadId(alerts, id, userId)
  {
    if |alerts| > 0 {
      var m := MarkRead(alerts, id);
      assert m[..|m| - 1] == MarkRead(alerts[..|alerts| - 1], id);
      MarkReadCount(alerts[..|alerts| - 1], id, userId);
    }
  }

  /** With unique ids, one alert carries the id. */
  lemma {:induction false} CountUnreadIdUnique(alerts: seq<Alert>, a: Alert, userId: string)
    requires forall i, j :: 0 <= i < j < |alerts| ==> alerts[i].id != alerts[j].id
    requires a in alerts
    ensures CountUnreadId(alerts, a.id, userId) == if UnreadOf(userId, a) then 1 else 0
  {
    var init, last := alerts[..|alerts| - 1], alerts[|alerts| - 1];
    if last == a {
      CountUnreadIdAbsent(init, a.id, userId);
    } else {
      assert a in init by {
        assert alerts == init + [last];
      }
      CountUnreadIdUnique(init, a, userId);
      assert last.id != a.id by {
        var j :| 0 <= j < |init| && init[j] == a;
        assert alerts[j].id != alerts[|alerts| - 1].id;
      }
    }
  }

  lemma {:induction false} CountUnreadIdAbsent(alerts: seq<Alert>, id: int, userId: string)
    requires forall a :: a in alerts ==> a.id != id
    ensures CountUnreadId(alerts, id, userId) == 0
  {
    if |alerts| > 0 {
      assert alerts[|alerts| - 1] in alerts;
      CountUnreadIdAbsent(alerts[..|alerts| - 1], id, userId);
    }
  }

  /** Reading alert `a` lowers its user's unread count by one when it was
      unread, and leaves every count alone otherwise. */
  lemma ReadAlertUnread(s: AlertStore, a: Alert, userId: string, dbUp: bool)
    requires UniqueAlertIds(s) && a in s.alerts
    ensures CountUnread(ReadAlert(s, a.id, dbUp).0.alerts, userId) == CountUnread(s.alerts, userId) - if dbUp && UnreadOf(userId, a) then 1 else 0
  {
    MarkReadCount(s.alerts, a.id, userId);
    CountUnreadIdUnique(s.alerts, a, userId);
  }

  // ---------------------------------------------------------------------
  // getMyAlerts
  // ---------------------------------------------------------------------

  /** `orderBy: [{ isRead: 'asc' }, { createdAt: 'desc' }]`: unread first,
      newest first within each group. */
  predicate ListedBefore(a: Alert, b: Alert) {
    (!a.isRead && b.isRead) || (a.isRead == b.isRead && a.createdAt >= b.createdAt)
  }

  lemma ListedBeforeOrder()
    ensures Total(ListedBefore) && Transitive(ListedBefore)
  {
  }

  /** All of the user's alerts, in listing order. */
  function Inbox(s: AlertStore, userId: string): (r: seq<Alert>)
    ensures multiset(r) == multiset(Filter(s.alerts, (a: Alert) => a.userId == userId))
    ensures |r| == |Filter(s.alerts, (a: Alert) => a.userId == userId)|
    ensures forall a :: a in r ==> a in s.alerts && a.userId == userId
    ensures forall i, j :: 0 <= i < j < |r| ==> ListedBefore(r[i], r[j])
  {
    var mine := Filter(s.alerts, (a: Alert) => a.userId == userId);
    var sorted := SortWith(mine, ListedBefore);
    ListedBeforeOrder();
    AdjacentSortedAll(sorted, ListedBefore);
    assert forall a :: a in sorted ==> a in mine by {
      assert forall a :: a in sorted <==> a in multiset(mine);
    }
    sorted
  }

  /** `getMyAlerts`: the user's first 20 alerts in that order; a database
      failure answers `[]`. */
  function MyAlerts(s: AlertStore, userId: string, dbUp: bool): (r: seq<Alert>)
    ensures |r| <= MaxListed
    ensures forall a :: a in r ==> a in s.alerts && a.userId == userId
    ensures dbUp ==> |r| == Min(MaxListed, |Filter(s.alerts, (a: Alert) => a.userId == userId)|)
    ensures forall i, j :: 0 <= i < j < |r| ==> ListedBefore(r[i], r[j])
    ensures forall i, j :: 0 <= i < j < |r| && r[i].isRead ==> r[j].isRead
    ensures !dbUp ==> r == []
    ensures dbUp ==> r == Inbox(s, userId)[..Min(MaxListed, |Inbox(s, userId)|)]
  {
    if !dbUp then []
    else
      var sorted := Inbox(s, userId);
      var r := Page(sorted, 0, MaxListed);
      assert forall i :: 0 <= i < |r| ==> r[i] == sorted[i];
      assert r == sorted[..Min(MaxListed, |sorted|)];
      assert forall a :: a in r ==> a in sorted by {
        forall a | a in r ensures a in sorted {
          var i :| 0 <= i < |r| && r[i] == a;
          assert sorted[i] == a;
        }
      }
      r
  }
}

=== FILE: auth.dfy ===
/** The auth service: the company/department whitelist, login counting,
    the admin and guest role checks, guest requests, and the user's saved
    SDWT context. */
module Auth {
  import opened Common
  import opened Sorting
  import opened Access
  import Admin

  /** A row of `ref_access_code`. */
  datatype AccessCode = AccessCode(compid: string, deptid: string, isActive: string)

  /** A row of `sys_user`; `lastLoginAt: None` is the column's default. */
  datatype User = User(loginId: string, loginCount: int, lastLoginAt: Option<int>)

  /** A row of `ref_sdwt`. */
  datatype SdwtRef = SdwtRef(id: int, site: string, sdwt: string)

  /** A row of `sys_user_context`: the SDWT the user last chose. */
  datatype UserContext = UserContext(loginId: string, lastSdwtId: int)

  datatype SdwtInfo = SdwtInfo(site: string, sdwt: string)

  const Active := "Y"

  // ---------------------------------------------------------------------
  // checkWhitelist
  // ---------------------------------------------------------------------

  predicate ActiveComp(c: AccessCode, compId: string) {
    c.compid == compId && c.isActive == Active
  }

  predicate ActiveDept(c: AccessCode, deptId: string) {
    c.deptid == deptId && c.isActive == Active
  }

  function HasActiveComp(codes: seq<AccessCode>, compId: string): (r: bool)
    ensures r <==> exists c :: c in codes && ActiveComp(c, compId)
  {
    if |codes| == 0 then false
    else
      assert forall c :: c in codes <==> c == codes[0] || c in codes[1..];
      ActiveComp(codes[0], compId) || HasActiveComp(codes[1..], compId)
  }

  function HasActiveDept(codes: seq<AccessCode>, deptId: string): (r: bool)
    ensures r <==> exists c :: c in codes && ActiveDept(c, deptId)
  {
    if |codes| == 0 then false
    else
      assert forall c :: c in codes <==> c == codes[0] || c in codes[1..];
      ActiveDept(codes[0], deptId) || HasActiveDept(codes[1..], deptId)
  }

  /** `checkWhitelist`: `Y` when a truthy company id or a truthy department
      id has an active access code, `N` otherwise. */
  function CheckWhitelist(codes: seq<AccessCode>, compId: Option<string>, deptId: Option<string>): (r: string)
    ensures r == "Y" || r == "N"
    ensures r == "Y" <==>
              (compId.Some? && Given(compId.value) && exists c :: c in codes && ActiveComp(c, compId.value))
              || (deptId.Some? && Given(deptId.value) && exists c :: c in codes && ActiveDept(c, deptId.value))
  {
    if compId.Some? && Given(compId.value) && HasActiveComp(codes, compId.value) then "Y"
    else if deptId.Some? && Given(deptId.value) && HasActiveDept(codes, deptId.value) then "Y"
    else "N"
  }

  /** Inactive access codes never grant access: dropping them changes no
      answer. */
  lemma WhitelistIgnoresInactive(codes: seq<AccessCode>, compId: Option<string>, deptId: Option<string>)
    ensures CheckWhitelist(codes, compId, deptId) == CheckWhitelist(Filter(codes, (c: AccessCode) => c.isActive == Active), compId, deptId)
  {
  }

  /** `getAccessCodes`: the active codes by company id. */
  function AccessCodes(codes: seq<AccessCode>): (r: seq<AccessCode>)
    ensures forall c :: c in r <==> c in codes && c.isActive == Active
    ensures multiset(r) == multiset(Filter(codes, ActiveCode))
    ensures forall i :: 0 <= i < |r| - 1 ==> LexLe(r[i].compid, r[i + 1].compid)
  {
    var active := Filter(codes, ActiveCode);
    var r := SortWith(active, CompIdLe);
    CompIdLeTotal();
    assert forall c :: c in r <==> c in multiset(active);
    r
  }

  predicate ActiveCode(c: AccessCode) {
    c.isActive == Active
  }

  predicate CompIdLe(a: AccessCode, b: AccessCode) {
    LexLe(a.compid, b.compid)
  }

  lemma CompIdLeTotal()
    ensures Total(CompIdLe)
  {
    forall a: AccessCode, b: AccessCode ensures CompIdLe(a, b) || CompIdLe(b, a) {
      LexTotal(a.compid, b.compid);
    }
  }

  // ---------------------------------------------------------------------
  // syncUser
  // ---------------------------------------------------------------------

  function UserIndex(users: seq<User>, loginId: string): (i: int)
    ensures -1 <= i < |users|
    ensures i >= 0 ==> users[i].loginId == loginId && forall k :: 0 <= k < i ==> users[k].loginId != loginId
    ensures i == -1 <==> forall u :: u in users ==> u.loginId != loginId
  {
    if |users| == 0 then -1
    else if users[0].loginId == loginId then 0
    else
      var i := UserIndex(users[1..], loginId);
      assert forall u :: u in users <==> u == users[0] || u in users[1..];
      if i < 0 then -1 else i + 1
  }

  /** `syncUser`: a login seen for the first time is stored with one login;
      a known login counts one more and records the login time. */
  function SyncUser(users: seq<User>, loginId: string, now: int): (r: (seq<User>, User))
    ensures r.1.loginId == loginId
    ensures UserIndex(r.0, loginId) >= 0 && r.0[UserIndex(r.0, loginId)] == r.1
    ensures (forall u :: u in users ==> u.loginId != loginId) ==> r.1 == User(loginId, 1, None) && r.0 == users + [r.1]
    ensures UserIndex(users, loginId) >= 0 ==> var prev := users[UserIndex(users, loginId)];
              r.1.loginCount == prev.loginCount + 1 && r.1.lastLoginAt == Some(now)
    ensures forall u :: u in users && u.loginId != loginId ==> u in r.0
    ensures UserIndex(users, loginId) >= 0 ==> r.0 == users[UserIndex(users, loginId) := r.1]
  {
    var j := UserIndex(users, loginId);
    if j >= 0 then
      var u := users[j].(loginCount := users[j].loginCount + 1, lastLoginAt := Some(now));
      var updated := users[j := u];
      assert forall k :: 0 <= k < j ==> updated[k] == users[k];
      assert updated[j] == u;
      assert forall k :: 0 <= k < j ==> updated[k].loginId != loginId;
      assert UserIndex(updated, loginId) == j;
      assert forall v :: v in users && v.loginId != loginId ==> v in updated by {
        forall v | v in users && v.loginId != loginId ensures v in updated {
          var k :| 0 <= k < |users| && users[k] == v;
          assert updated[k] == v;
        }
      }
      (updated, u)
    else
      var u := User(loginId, 1, None);
      var updated := users + [u];
      assert forall k :: 0 <= k < |users| ==> updated[k] == users[k];
      assert UserIndex(updated, loginId) == |users|;
      (updated, u)
  }

  /** Every login after the first adds exactly one to the count. */
  lemma SyncUserCounts(users: seq<User>, loginId: string, t1: int, t2: int)
    ensures var once := SyncUser(users, loginId, t1);
            SyncUser(once.0, loginId, t2).1.loginCount == once.1.loginCount + 1
  {
  }

  // ---------------------------------------------------------------------
  // checkAdmin, checkGuest
  // ---------------------------------------------------------------------

  /** `checkAdmin`: the login's admin role, if it is an administrator. */
  function CheckAdmin(admins: seq<AdminUser>, loginId: string): (r: Option<string>)
    ensures r.None? <==> forall a :: a in admins ==> a.loginId != loginId
    ensures r.Some? ==> exists a :: a in admins && a.loginId == loginId && a.role == r.value
  {
    if |admins| == 0 then None
    else if admins[0].loginId == loginId then Some(admins[0].role)
    else
      assert forall a :: a in admins <==> a == admins[0] || a in admins[1..];
      CheckAdmin(admins[1..], loginId)
  }

  /** `checkGuest`: the role of the login's grant that is still valid now
      (valid through `validUntil` itself). */
  function CheckGuest(guests: seq<GuestAccess>, loginId: string, now: int): (r: Option<string>)
    ensures r.Some? <==> exists g :: g in guests && g.loginId == loginId && g.validUntil >= now
    ensures r.Some? ==> exists g :: g in guests && g.loginId == loginId && g.validUntil >= now && g.grantedRole == r.value
  {
    if |guests| == 0 then None
    else if guests[0].loginId == loginId && guests[0].validUntil >= now then Some(guests[0].grantedRole)
    else
      assert forall g :: g in guests <==> g == guests[0] || g in guests[1..];
      CheckGuest(guests[1..], loginId, now)
  }

  /** An approved request gives the requester the GUEST role until the end
      of the grant (thirty days after the KST clock, so thirty days and nine
      hours of real time) and no role after it. */
  lemma ApprovedGuestChecks(db: Admin.AdminDb, reqId: int, approverId: string, now: int, t: int)
    requires UniqueGuests(db.guests)
    requires Admin.ApproveGuestRequest(db, reqId, approverId, now).1.Ok?
    ensures var r := Admin.ApproveGuestRequest(db, reqId, approverId, now);
            CheckGuest(r.0.guests, r.1.value.loginId, t) == if t <= Admin.GrantEnd(now) then Some(GuestRole) else None
  {
    var r := Admin.ApproveGuestRequest(db, reqId, approverId, now);
    var g := r.1.value;
    assert UniqueGuests(r.0.guests);
    forall h | h in r.0.guests && h.loginId == g.loginId ensures h == g {
      var a :| 0 <= a < |r.0.guests| && r.0.guests[a] == h;
      var b :| 0 <= b < |r.0.guests| && r.0.guests[b] == g;
      assert a == b;
    }
  }

  // ---------------------------------------------------------------------
  // Guest requests
  // ---------------------------------------------------------------------

  /** The newest request of the login (`orderBy: { createdAt: 'desc' }`,
      the earlier row on a tie). */
  function NewestRequest(requests: seq<GuestRequest>, loginId: string): (r: Option<GuestRequest>)
    ensures r.None? <==> forall q :: q in requests ==> q.loginId != loginId
    ensures r.Some? ==> r.value in requests && r.value.loginId == loginId
    ensures r.Some? ==> forall q :: q in requests && q.loginId == loginId ==> q.createdAt <= r.value.createdAt
  {
    if |requests| == 0 then None
    else
      var rest := NewestRequest(requests[1..], loginId);
      assert forall q :: q in requests <==> q == requests[0] || q in requests[1..];
      if requests[0].loginId == loginId && (rest.None? || requests[0].createdAt >= rest.value.createdAt)
      then Some(requests[0])
      else rest
  }

  /** `getGuestRequestStatus`: the status of the login's newest request. */
  function GuestRequestStatus(requests: seq<GuestRequest>, loginId: string): (r: Option<string>)
    ensures r.None? <==> forall q :: q in requests ==> q.loginId != loginId
    ensures r.Some? ==> exists q :: (q in requests && q.loginId == loginId && q.status == r.value
              && forall p :: p in requests && p.loginId == loginId ==> p.createdAt <= q.createdAt)
  {
    var q := NewestRequest(requests, loginId);
    if q.Some? then Some(q.value.status) else None
  }

  /** The body of `createGuestRequest`. */
  datatype RequestInput = RequestInput(loginId: string, deptCode: string, deptName: string, reason: string)

  /** `createGuestRequest`: a PENDING request, not yet processed. */
  function CreateGuestRequest(requests: seq<GuestRequest>, reqId: int, data: RequestInput, now: int): (r: (seq<GuestRequest>, GuestRequest))
    requires forall q :: q in requests ==> q.reqId != reqId
    ensures r.1.status == Pending && r.1.processedBy.None? && r.1.processedAt.None?
    ensures r.1.reqId == reqId && r.1.loginId == data.loginId && r.1.reason == data.reason && r.1.createdAt == now
    ensures r.1.deptCode == data.deptCode && r.1.deptName == data.deptName
    ensures r.0 == requests + [r.1]
  {
    var q := GuestRequest(reqId, data.loginId, data.deptCode, data.deptName, data.reason, Pending, None, None, now);
    (requests + [q], q)
  }

  /** A request filed after every earlier one of the login is the one whose
      status the login sees: PENDING. */
  lemma {:induction false} NewRequestIsPending(requests: seq<GuestRequest>, reqId: int, data: RequestInput, now: int)
    requires forall q :: q in requests ==> q.reqId != reqId
    requires forall q :: q in requests && q.loginId == data.loginId ==> q.createdAt < now
    ensures GuestRequestStatus(CreateGuestRequest(requests, reqId, data, now).0, data.loginId) == Some(Pending)
  {
    var r := CreateGuestRequest(requests, reqId, data, now);
    NewestOfSnoc(requests, r.1);
  }

  lemma {:induction false} NewestOfSnoc(requests: seq<GuestRequest>, q: GuestRequest)
    requires forall p :: p in requests && p.loginId == q.loginId ==> p.createdAt < q.createdAt
    ensures NewestRequest(requests + [q], q.loginId) == Some(q)
  {
    if |requests| > 0 {
      assert (requests + [q])[1..] == requests[1..] + [q];
      NewestOfSnoc(requests[1..], q);
    }
  }

  // ---------------------------------------------------------------------
  // User context
  // ---------------------------------------------------------------------

  function ContextIndex(contexts: seq<UserContext>, loginId: string): (i: int)
    ensures -1 <= i < |contexts|
    ensures i >= 0 ==> contexts[i].loginId == loginId && forall k :: 0 <= k < i ==> contexts[k].loginId != loginId
    ensures i == -1 <==> forall c :: c in contexts ==> c.loginId != loginId
  {
    if |contexts| == 0 then -1
    else if contexts[0].loginId == loginId then 0
    else
      var i := ContextIndex(contexts[1..], loginId);
      assert forall c :: c in contexts <==> c == contexts[0] || c in contexts[1..];
      if i < 0 then -1 else i + 1
  }

  /** The first SDWT row satisfying `p` (`findFirst`). */
  function FirstSdwt(sdwts: seq<SdwtRef>, p: SdwtRef -> bool): (r: Option<SdwtRef>)
    ensures r.None? <==> forall s :: s in sdwts ==> !p(s)
    ensures r.Some? ==> r.value in sdwts && p(r.value)
  {
    if |sdwts| == 0 then None
    else if p(sdwts[0]) then Some(sdwts[0])
    else
      assert forall s :: s in sdwts <==> s == sdwts[0] || s in sdwts[1..];
      FirstSdwt(sdwts[1..], p)
  }

  /** `getUserContext`: the site and SDWT the user last saved, or null for a
      user who never saved one; a context whose SDWT row is gone cannot be
      read and fails. */
  function GetUserContext(contexts: seq<UserContext>, sdwts: seq<SdwtRef>, loginId: string): (r: Result<Option<SdwtInfo>>)
    ensures r == Ok(None) <==> forall c :: c in contexts ==> c.loginId != loginId
    ensures r.Ok? && r.value.Some? ==> exists c, s :: (c in contexts && c.loginId == loginId && s in sdwts && s.id == c.lastSdwtId
              && r.value.value == SdwtInfo(s.site, s.sdwt))
    ensures r.Err? ==> exists c :: c in contexts && c.loginId == loginId && forall s :: s in sdwts ==> s.id != c.lastSdwtId
  {
    var i := ContextIndex(contexts, loginId);
    if i < 0 then Ok(None)
    else
      var id := contexts[i].lastSdwtId;
      var s := FirstSdwt(sdwts, (s: SdwtRef) => s.id == id);
      if s.None? then Err(Internal("sdwtInfo is null"))
      else Ok(Some(SdwtInfo(s.value.site, s.value.sdwt)))
  }

  /** `saveUserContext`: remembers the SDWT row of (site, sdwt) as the
      user's choice; a pair with no SDWT row is NotFound and saves nothing. */
  function SaveUserContext(contexts: seq<UserContext>, sdwts: seq<SdwtRef>, loginId: string, site: string, sdwt: string): (r: (seq<UserContext>, Result<UserContext>))
    ensures r.1.Err? <==> forall s :: s in sdwts ==> s.site != site || s.sdwt != sdwt
    ensures r.1.Err? ==> r.0 == contexts && r.1.error.NotFound?
    ensures r.1.Ok? ==> r.1.value.loginId == loginId
    ensures r.1.Ok? ==> exists s :: s in sdwts && s.site == site && s.sdwt == sdwt && s.id == r.1.value.lastSdwtId
    ensures r.1.Ok? ==> ContextIndex(r.0, loginId) >= 0 && r.0[ContextIndex(r.0, loginId)] == r.1.value
    ensures forall c :: c in contexts && c.loginId != loginId ==> c in r.0
  {
    var found := FirstSdwt(sdwts, (s: SdwtRef) => s.site == site && s.sdwt == sdwt);
    if found.None? then (contexts, Err(NotFound("SDWT not found for site=" + site + ", sdwt=" + sdwt)))
    else
      var c := UserContext(loginId, found.value.id);
      var j := ContextIndex(contexts, loginId);
      if j >= 0 then
        var updated := contexts[j := c];
        assert forall k :: 0 <= k < j ==> updated[k] == contexts[k];
        assert updated[j] == c;
        assert forall k :: 0 <= k < j ==> updated[k].loginId != loginId;
        assert ContextIndex(updated, loginId) == j;
        assert forall d :: d in contexts && d.loginId != loginId ==> d in updated by {
          forall d | d in contexts && d.loginId != loginId ensures d in updated {
            var k :| 0 <= k < |contexts| && contexts[k] == d;
            assert updated[k] == d;
          }
        }
        (updated, Ok(c))
      else
        var updated := contexts + [c];
        assert forall k :: 0 <= k < |contexts| ==> updated[k] == contexts[k];
        assert ContextIndex(updated, loginId) == |contexts|;
        (updated, Ok(c))
  }

  /** Saving a context and reading it back gives the saved site and SDWT,
      when SDWT ids identify their rows. */
  lemma SaveThenGetContext(contexts: seq<UserContext>, sdwts: seq<SdwtRef>, loginId: string, site: string, sdwt: string)
    requires forall i, j :: 0 <= i < j < |sdwts| ==> sdwts[i].id != sdwts[j].id
    requires SaveUserContext(contexts, sdwts, loginId, site, sdwt).1.Ok?
    ensures GetUserContext(SaveUserContext(contexts, sdwts, loginId, site, sdwt).0, sdwts, loginId) == Ok(Some(SdwtInfo(site, sdwt)))
  {
    var r := SaveUserContext(contexts, sdwts, loginId, site, sdwt);
    var id := r.1.value.lastSdwtId;
    var s :| s in sdwts && s.site == site && s.sdwt == sdwt && s.id == id;
    var got := FirstSdwt(sdwts, (x: SdwtRef) => x.id == id);
    assert got.Some?;
    assert got.value == s by {
      var a :| 0 <= a < |sdwts| && sdwts[a] == s;
      var b :| 0 <= b < |sdwts| && sdwts[b] == got.value;
      assert a == b;
    }
  }
}

=== FILE: board.dfy ===
/** The board service: the posts and comments of the Q&A and notice board,
    the rule that at most the newest NOTICE is a popup, and the alerts that
    reach a post's author. The tables are sequences in insertion order; new
    ids and the clock are inputs. */
module Board {
  import opened Common
  import opened Sorting
  import opened Access
  import Alerts

  /** A row of `sys_board`; `status: None` is the column's database default. */
  datatype Post = Post(
    postId: int,
    title: string,
    content: string,
    authorId: string,
    category: string,
    isSecret: string,
    isPopup: string,
    status: Option<string>,
    views: int,
    createdAt: int)

  /** A row of `sys_board_comment`. */
  datatype Comment = Comment(
    commentId: int,
    postId: int,
    authorId: string,
    content: string,
    parentId: Option<int>,
    createdAt: int)

  datatype BoardDb = BoardDb(
    posts: seq<Post>,
    comments: seq<Comment>,
    admins: seq<AdminUser>,
    alerts: Alerts.AlertStore)

  const Notice := "NOTICE"
  const AllCategories := "ALL"
  const Qna := "QNA"
  const Answered := "ANSWERED"
  const Complete := "Complete"
  const UserRole := "USER"

  /** `x || d` for an optional string. */
  function OrElse(x: Option<string>, d: string): string {
    if x.Some? && Given(x.value) then x.value else d
  }

  /** `postId` is the primary key of the post table. */
  predicate UniquePostIds(posts: seq<Post>) {
    forall i, j :: 0 <= i < j < |posts| ==> posts[i].postId != posts[j].postId
  }

  /** Every comment belongs to a stored post (the foreign key). */
  predicate CommentsAttached(db: BoardDb) {
    forall c :: c in db.comments ==> exists p :: p in db.posts && p.postId == c.postId
  }

  function PostIndex(posts: seq<Post>, id: int): (i: int)
    ensures -1 <= i < |posts|
    ensures i >= 0 ==> posts[i].postId == id
    ensures i == -1 <==> forall p :: p in posts ==> p.postId != id
  {
    if |posts| == 0 then -1
    else if posts[|posts| - 1].postId == id then |posts| - 1
    else
      var i := PostIndex(posts[..|posts| - 1], id);
      assert forall p :: p in posts <==> p in posts[..|posts| - 1] || p == posts[|posts| - 1];
      i
  }

  function CommentIndex(comments: seq<Comment>, id: int): (i: int)
    ensures -1 <= i < |comments|
    ensures i >= 0 ==> comments[i].commentId == id
    ensures i == -1 <==> forall c :: c in comments ==> c.commentId != id
  {
    if |comments| == 0 then -1
    else if comments[|comments| - 1].commentId == id then |comments| - 1
    else
      var i := CommentIndex(comments[..|comments| - 1], id);
      assert forall c :: c in comments <==> c in comments[..|comments| - 1] || c == comments[|comments| - 1];
      i
  }

  // ---------------------------------------------------------------------
  // Author roles
  // ---------------------------------------------------------------------

  /** `new Map(admins.map(u => [u.loginId, u.role])).get(id) || 'USER'`:
      the last admin row of the login decides, and a login without an admin
      row, or with an empty role, is a USER. */
  function RoleOf(admins: seq<AdminUser>, loginId: string): (r: string)
    ensures Given(r)
    ensures r == UserRole || exists u :: u in admins && u.loginId == loginId && u.role == r
    ensures (forall u :: u in admins ==> u.loginId != loginId) ==> r == UserRole
  {
    if |admins| == 0 then UserRole
    else
      var last := admins[|admins| - 1];
      if last.loginId == loginId then (if Given(last.role) then last.role else UserRole)
      else
        assert forall u :: u in admins <==> u in admins[..|admins| - 1] || u == last;
        RoleOf(admins[..|admins| - 1], loginId)
  }

  /** With `loginId` as the admin table's key, an admin's own role is shown. */
  lemma {:induction false} RoleOfAdmin(admins: seq<AdminUser>, u: AdminUser)
    requires forall i, j :: 0 <= i < j < |admins| ==> admins[i].loginId != admins[j].loginId
    requires u in admins && Given(u.role)
    ensures RoleOf(admins, u.loginId) == u.role
  {
    var init, last := admins[..|admins| - 1], admins[|admins| - 1];
    if last != u {
      assert u in init by {
        assert admins == init + [last];
      }
      assert last.loginId != u.loginId by {
        var j :| 0 <= j < |init| && init[j] == u;
        assert admins[j].loginId != admins[|admins| - 1].loginId;
      }
      RoleOfAdmin(init, u);
    }
  }

  // ---------------------------------------------------------------------
  // getPosts
  // ---------------------------------------------------------------------

  /** Prisma's `contains` with `mode: 'insensitive'`. */
  predicate ContainsInsensitive(hay: string, needle: string) {
    Contains(Lower(hay), Lower(needle))
  }

  /** The `where` of `getPosts`: the category applies when it is truthy and
      not `ALL`; a truthy search must occur in the title, the content or the
      author id, ignoring case. */
  predicate PostMatches(p: Post, category: Option<string>, search: Option<string>) {
    (category.Some? && Given(category.value) && category.value != AllCategories ==> p.category == category.value)
    && (search.Some? && Given(search.value) ==>
          ContainsInsensitive(p.title, search.value)
          || ContainsInsensitive(p.content, search.value)
          || ContainsInsensitive(p.authorId, search.value))
  }

  /** `orderBy: { createdAt: 'desc' }` as an ascending key. */
  function NewestFirst(p: Post): int {
    -p.createdAt
  }

  /** All posts the filters select, newest first. */
  function Listing(db: BoardDb, category: Option<string>, search: Option<string>): (r: seq<Post>)
    ensures forall p :: p in r <==> p in db.posts && PostMatches(p, category, search)
    ensures forall i, j :: 0 <= i < j < |r| ==> r[i].createdAt >= r[j].createdAt
  {
    var matching := Filter(db.posts, (p: Post) => PostMatches(p, category, search));
    var r := SortBy(matching, NewestFirst);
    assert forall p :: p in r <==> p in multiset(matching);
    r
  }

  datatype PostView = PostView(post: Post, role: string, commentCount: nat)
  datatype PostPage = PostPage(data: seq<PostView>, total: nat, page: real, lastPage: Option<int>)

  function CommentCount(comments: seq<Comment>, postId: int): (n: nat)
    ensures n <= |comments|
    ensures n == 0 <==> forall c :: c in comments ==> c.postId != postId
  {
    var mine := Filter(comments, (c: Comment) => c.postId == postId);
    assert |mine| > 0 ==> mine[0] in mine;
    |mine|
  }

  function View(db: BoardDb, p: Post): PostView {
    PostView(p, RoleOf(db.admins, p.authorId), CommentCount(db.comments, p.postId))
  }

  /** The rows of one page, each with its author's role and comment count. */
  function PageViews(db: BoardDb, shown: seq<Post>): (r: seq<PostView>)
    ensures |r| == |shown|
    ensures forall i :: 0 <= i < |r| ==> r[i] == View(db, shown[i])
  {
    seq(|shown|, i requires 0 <= i < |shown| => View(db, shown[i]))
  }

  /** `Math.ceil(total / limit)`. A limit of 0 divides by zero, and the
      Infinity or NaN that results goes out in JSON as null, here `None`. */
  function LastPage(total: nat, limit: int): (r: Option<int>)
    ensures r.None? <==> limit == 0
    ensures r.Some? ==> (r.value >= 0 <==> limit > 0 || total < -limit)
  {
    if limit > 0 then Some(CeilDiv(total, limit))
    else if limit < 0 then Some(-(Quotient(total, -limit) as int))
    else None
  }

  /** For a positive limit the last page is the ceiling of `total / limit`;
      for a negative one `total / limit` is at most 0, and its ceiling is
      minus the whole number of times `-limit` fits into `total`. */
  lemma LastPageMeaning(total: nat, limit: int)
    ensures limit > 0 ==> var r := LastPage(total, limit);
              r.Some? && r.value >= 0 && IsCeil(total, limit, r.value)
    ensures limit < 0 ==> var r := LastPage(total, limit);
              r.Some? && r.value <= 0 && -r.value * -limit <= total < (1 - r.value) * -limit
  {
    if limit < 0 {
      QuotientFloor(total, -limit);
    }
  }

  /** `data` is what Prisma returns from `all` for `skip` and `take`, each
      post with its view: for a non-negative `take`, up to `take` posts from
      position `skip` on; for a negative one, up to `-take` posts just
      before the last `skip`. */
  predicate PageOfPosts(db: BoardDb, all: seq<Post>, skip: nat, take: int, data: seq<PostView>) {
    && (take == 0 ==> data == [])
    && (take >= 0 ==> |data| == if skip < |all| then Min(take, |all| - skip) else 0)
    && (take >= 0 ==> forall i :: 0 <= i < |data| ==> skip + i < |all| && data[i] == View(db, all[skip + i]))
    && (take < 0 ==> |data| == if skip < |all| then Min(-take, |all| - skip) else 0)
    && (take < 0 ==> forall i :: 0 <= i < |data| ==>
          var k := |all| - skip - |data| + i;
          0 <= k < |all| && data[i] == View(db, all[k]))
  }

  /** One page of `all` for `skip` and `take: limit`: a negative limit is
      Prisma's backward `take`, the rows just before the last `skip` ones. */
  function PostsPage(db: BoardDb, all: seq<Post>, skip: nat, page: real, limit: int): (r: PostPage)
    ensures r.page == page && r.total == |all| && r.lastPage == LastPage(|all|, limit)
    ensures PageOfPosts(db, all, skip, limit, r.data)
  {
    ShownViews(db, all, skip, limit);
    PostPage(PageViews(db, Shown(all, skip, limit)), |all|, page, LastPage(|all|, limit))
  }

  /** Viewing each post of Prisma's page keeps its window. */
  lemma ShownViews(db: BoardDb, all: seq<Post>, skip: nat, limit: int)
    ensures PageOfPosts(db, all, skip, limit, PageViews(db, Shown(all, skip, limit)))
  {
    if limit >= 0 {
      ShownViewsForward(db, all, skip, limit);
    } else {
      ShownViewsBackward(db, all, skip, limit);
    }
  }

  lemma ShownViewsForward(db: BoardDb, all: seq<Post>, skip: nat, limit: int)
    requires limit >= 0
    ensures var data := PageViews(db, Shown(all, skip, limit));
            && |data| == (if skip < |all| then Min(limit, |all| - skip) else 0)
            && forall i :: 0 <= i < |data| ==> skip + i < |all| && data[i] == View(db, all[skip + i])
  {
    var shown := Shown(all, skip, limit);
    var data := PageViews(db, shown);
    forall i | 0 <= i < |data| ensures skip + i < |all| && data[i] == View(db, all[skip + i]) {
      assert data[i] == View(db, shown[i]) && shown[i] == all[skip + i];
    }
  }

  lemma ShownViewsBackward(db: BoardDb, all: seq<Post>, skip: nat, limit: int)
    requires limit < 0
    ensures var data := PageViews(db, Shown(all, skip, limit));
            && |data| == (if skip < |all| then Min(-limit, |all| - skip) else 0)
            && forall i :: 0 <= i < |data| ==>
                 0 <= |all| - skip - |data| + i < |all| && data[i] == View(db, all[|all| - skip - |data| + i])
  {
    var shown := Shown(all, skip, limit);
    var data := PageViews(db, shown);
    var from := |all| - skip - |data|;
    forall i | 0 <= i < |data| ensures 0 <= from + i < |all| && data[i] == View(db, all[from + i]) {
      assert data[i] == View(db, shown[i]) && shown[i] == all[from + i];
    }
  }

  /** A page of a newest-first listing is drawn from it and is itself
      newest first, whichever way the limit reads. */
  lemma PostsPageWithin(db: BoardDb, all: seq<Post>, skip: nat, page: real, limit: int)
    requires forall i, j :: 0 <= i < j < |all| ==> all[i].createdAt >= all[j].createdAt
    ensures var rows := PostsPage(db, all, skip, page, limit).data;
            (forall v :: v in rows ==> v.post in all) &&
            forall i, j :: 0 <= i < j < |rows| ==> rows[i].post.createdAt >= rows[j].post.createdAt
  {
    var shown := Shown(all, skip, limit);
    ShownWithinBy(all, skip, limit, (p: Post) => p.createdAt);
    var rows := PostsPage(db, all, skip, page, limit).data;
    assert forall i :: 0 <= i < |rows| ==> rows[i].post == shown[i];
    forall v | v in rows ensures v.post in all {
      var i :| 0 <= i < |rows| && rows[i] == v;
      assert shown[i] in shown;
    }
  }

  /** `getPosts`: one page of the selected posts, newest first, with the
      author's role and the comment count; `total` counts every selected post
      and `lastPage` is `ceil(total / limit)`. The skip is `(page - 1) * limit`;
      Prisma refuses a skip or take that is not a whole number, or a negative
      skip, and the catch turns that into an Internal error. A negative limit
      is Prisma's backward `take`, the rows just before the last `skip` ones. */
  function GetPosts(db: BoardDb, page: JsNumber, limit: JsNumber, category: Option<string>, search: Option<string>): (r: Result<PostPage>)
    ensures r.Err? <==> PageWindow(page, limit).None?
    ensures r.Err? ==> r.error.Internal?
    ensures r.Ok? ==> page.Finite? && r.value.page == page.x && r.value.total == |Listing(db, category, search)|
    ensures r.Ok? ==> var w := PageWindow(page, limit).value;
              && r.value.lastPage == LastPage(r.value.total, w.take)
              && PageOfPosts(db, Listing(db, category, search), w.skip, w.take, r.value.data)
  {
    match PageWindow(page, limit)
    case None => Err(Internal("skip and take must be non-negative integers"))
    case Some(w) => Ok(PostsPage(db, Listing(db, category, search), w.skip, page.x, w.take))
  }

  /** For whole numbers, `getPosts` fails exactly when the page lies before
      the first for a positive limit, or after it for a negative one. */
  lemma GetPostsIntegers(db: BoardDb, page: int, limit: int, category: Option<string>, search: Option<string>)
    ensures var r := GetPosts(db, Finite(page as real), Finite(limit as real), category, search);
            (r.Err? <==> (page < 1 && limit > 0) || (page > 1 && limit < 0)) &&
            (r.Ok? ==> r.value.lastPage == LastPage(r.value.total, limit) && PageWindow(Finite(page as real), Finite(limit as real)).value.skip == Offset(page, limit))
  {
    PageWindowOfIntegers(page, limit);
    OffsetNegative(page, limit);
  }

  /** Every row of a page is a selected post, and the page is newest first,
      whichever way the limit reads. */
  lemma GetPostsRows(db: BoardDb, page: JsNumber, limit: JsNumber, category: Option<string>, search: Option<string>)
    ensures var r := GetPosts(db, page, limit, category, search);
            r.Ok? ==> forall v :: v in r.value.data ==> v.post in db.posts && PostMatches(v.post, category, search)
    ensures var r := GetPosts(db, page, limit, category, search);
            r.Ok? ==> forall i, j :: 0 <= i < j < |r.value.data| ==> r.value.data[i].post.createdAt >= r.value.data[j].post.createdAt
  {
    var r := GetPosts(db, page, limit, category, search);
    if r.Ok? {
      var w := PageWindow(page, limit).value;
      PostsPageWithin(db, Listing(db, category, search), w.skip, page.x, w.take);
    }
  }

  /** With a positive limit, a page from 1 on has posts exactly when it is
      one of pages 1 to `lastPage`. */
  lemma GetPostsPages(db: BoardDb, page: int, limit: int, category: Option<string>, search: Option<string>)
    requires limit >= 1 && page >= 1
    ensures var r := GetPosts(db, Finite(page as real), Finite(limit as real), category, search);
            r.Ok? && r.value.lastPage.Some? && (|r.value.data| > 0 <==> page <= r.value.lastPage.value)
  {
    PageWindowOfIntegers(page, limit);
    OffsetNegative(page, limit);
    var r := GetPosts(db, Finite(page as real), Finite(limit as real), category, search);
    LastPageMeaning(r.value.total, limit);
    SkipWithin(page, limit, r.value.total, r.value.lastPage.value);
  }

  // ---------------------------------------------------------------------
  // getPostById
  // ---------------------------------------------------------------------

  datatype CommentView = CommentView(comment: Comment, role: string)
  datatype PostDetail = PostDetail(post: Post, role: string, comments: seq<CommentView>)

  function OldestFirst(c: Comment): int {
    c.createdAt
  }

  /** The comments of one post, oldest first (`orderBy: { createdAt: 'asc' }`). */
  function PostComments(comments: seq<Comment>, postId: int): (r: seq<Comment>)
    ensures |r| == CommentCount(comments, postId)
    ensures forall c :: c in r <==> c in comments && c.postId == postId
    ensures forall i, j :: 0 <= i < j < |r| ==> r[i].createdAt <= r[j].createdAt
  {
    var mine := Filter(comments, (c: Comment) => c.postId == postId);
    var r := SortBy(mine, OldestFirst);
    assert forall c :: c in r <==> c in multiset(mine);
    r
  }

  /** Each comment of the post with its author's role. */
  function Thread(db: BoardDb, postId: int): (r: seq<CommentView>)
    ensures |r| == CommentCount(db.comments, postId)
    ensures forall i :: 0 <= i < |r| ==> r[i].comment == PostComments(db.comments, postId)[i]
    ensures forall i :: 0 <= i < |r| ==> r[i].role == RoleOf(db.admins, r[i].comment.authorId)
  {
    var cs := PostComments(db.comments, postId);
    seq(|cs|, k requires 0 <= k < |cs| => CommentView(cs[k], RoleOf(db.admins, cs[k].authorId)))
  }

  /** `getPostById`: the post with its comment thread and its author's
      role; an unknown id is NotFound. */
  function GetPostById(db: BoardDb, postId: int): (r: Result<PostDetail>)
    ensures r.Err? <==> forall p :: p in db.posts ==> p.postId != postId
    ensures r.Err? ==> r.error.NotFound?
    ensures r.Ok? ==> r.value.post in db.posts && r.value.post.postId == postId
    ensures r.Ok? ==> r.value.role == RoleOf(db.admins, r.value.post.authorId)
    ensures r.Ok? ==> r.value.comments == Thread(db, postId)
  {
    var i := PostIndex(db.posts, postId);
    if i < 0 then Err(NotFound("Post #" + IntToString(postId) + " not found"))
    else Ok(PostDetail(db.posts[i], RoleOf(db.admins, db.posts[i].authorId), Thread(db, postId)))
  }

  // ---------------------------------------------------------------------
  // Popup notices
  // ---------------------------------------------------------------------

  predicate IsNoticePopup(p: Post) {
    p.category == Notice && p.isPopup == "Y"
  }

  /** The popup reset of `createPost` (`keep: None`) and `updatePost`
      (`keep: Some(postId)`): every NOTICE popup other than `keep` stops
      being a popup, and nothing else changes. */
  function ClearPopups(posts: seq<Post>, keep: Option<int>): (r: seq<Post>)
    ensures |r| == |posts|
    ensures forall i :: 0 <= i < |posts| ==> r[i] == posts[i].(isPopup := r[i].isPopup)
    ensures forall i :: 0 <= i < |posts| ==> (IsNoticePopup(r[i]) <==> IsNoticePopup(posts[i]) && keep == Some(posts[i].postId))
    ensures forall i :: 0 <= i < |posts| && !IsNoticePopup(posts[i]) ==> r[i] == posts[i]
  {
    seq(|posts|, i requires 0 <= i < |posts| =>
      if IsNoticePopup(posts[i]) && keep != Some(posts[i].postId) then posts[i].(isPopup := "N") else posts[i])
  }

  /** `getPopupNotices`: the NOTICE popups, newest first. */
  function PopupNotices(db: BoardDb): (r: seq<Post>)
    ensures forall p :: p in r <==> p in db.posts && IsNoticePopup(p)
    ensures forall i, j :: 0 <= i < j < |r| ==> r[i].createdAt >= r[j].createdAt
  {
    var popups := Filter(db.posts, IsNoticePopup);
    var r := SortBy(popups, NewestFirst);
    assert forall p :: p in r <==> p in multiset(popups);
    r
  }

  // ---------------------------------------------------------------------
  // createPost
  // ---------------------------------------------------------------------

  datatype CreatePostDto = CreatePostDto(
    title: string,
    content: string,
    authorId: string,
    category: Option<string>,
    isSecret: Option<string>,
    isPopup: Option<string>)

  predicate AsksForPopup(category: Option<string>, isPopup: Option<string>) {
    category == Some(Notice) && isPopup == Some("Y")
  }

  /** `createPost`: a popup NOTICE first resets every other NOTICE popup;
      the new post defaults to QNA, not secret, no popup, and a NOTICE
      starts ANSWERED. The reset and the insert are separate statements, not
      one transaction: `resetUp` and `insertUp` say whether each succeeds,
      and a failed insert leaves the reset in place. */
  function CreatePost(db: BoardDb, id: int, dto: CreatePostDto, now: int, resetUp: bool, insertUp: bool): (r: (BoardDb, Result<Post>))
    requires forall p :: p in db.posts ==> p.postId != id
    ensures r.1.Err? <==> (AsksForPopup(dto.category, dto.isPopup) && !resetUp) || !insertUp
    ensures r.1.Err? ==> r.1.error.Internal?
    ensures r.1.Ok? ==> r.1.value.postId == id && r.1.value.createdAt == now && r.1.value.views == 0
    ensures r.1.Ok? ==> r.1.value.title == dto.title && r.1.value.content == dto.content && r.1.value.authorId == dto.authorId
    ensures r.1.Ok? && dto.category.None? ==> r.1.value.category == Qna
    ensures r.1.Ok? && dto.isSecret.None? ==> r.1.value.isSecret == "N"
    ensures r.1.Ok? && dto.isPopup.None? ==> r.1.value.isPopup == "N"
    ensures r.1.Ok? && dto.category.Some? && Given(dto.category.value) ==> r.1.value.category == dto.category.value
    ensures r.1.Ok? ==> r.1.value.status == (if dto.category == Some(Notice) then Some(Answered) else None)
    ensures r.1.Ok? ==> (IsNoticePopup(r.1.value) <==> AsksForPopup(dto.category, dto.isPopup))
    ensures |r.0.posts| == |db.posts| + (if r.1.Ok? then 1 else 0)
    ensures r.1.Ok? ==> r.0.posts[|db.posts|] == r.1.value
    ensures forall i :: 0 <= i < |db.posts| ==> r.0.posts[i] == db.posts[i].(isPopup := r.0.posts[i].isPopup)
    ensures !(AsksForPopup(dto.category, dto.isPopup) && resetUp) ==> r.0.posts[..|db.posts|] == db.posts
    ensures AsksForPopup(dto.category, dto.isPopup) && resetUp ==> forall i :: 0 <= i < |db.posts| ==> !IsNoticePopup(r.0.posts[i])
    ensures r.1.Ok? && IsNoticePopup(r.1.value) ==> forall p :: p in r.0.posts && IsNoticePopup(p) ==> p == r.1.value
    ensures r.0.comments == db.comments && r.0.admins == db.admins && r.0.alerts == db.alerts
    ensures UniquePostIds(db.posts) ==> UniquePostIds(r.0.posts)
  {
    var popup := AsksForPopup(dto.category, dto.isPopup);
    if popup && !resetUp then (db, Err(Internal("popup reset failed")))
    else
      var kept := if popup then ClearPopups(db.posts, None) else db.posts;
      if !insertUp then (db.(posts := kept), Err(Internal("insert failed")))
      else
        var p := Post(id, dto.title, dto.content, dto.authorId,
                      OrElse(dto.category, Qna), OrElse(dto.isSecret, "N"), OrElse(dto.isPopup, "N"),
                      if dto.category == Some(Notice) then Some(Answered) else None, 0, now);
        var posts := kept + [p];
        assert posts[..|db.posts|] == kept;
        assert forall q :: q in posts ==> q in kept || q == p;
        (db.(posts := posts), Ok(p))
  }

  /** After a popup NOTICE is created, it is the one popup notice. */
  lemma CreatePostSolePopup(db: BoardDb, id: int, dto: CreatePostDto, now: int)
    requires forall p :: p in db.posts ==> p.postId != id
    requires AsksForPopup(dto.category, dto.isPopup)
    ensures var r := CreatePost(db, id, dto, now, true, true);
            r.1.Ok? && PopupNotices(r.0) == [r.1.value]
  {
    var r := CreatePost(db, id, dto, now, true, true);
    var before := r.0.posts[..|db.posts|];
    assert r.0.posts == before + [r.1.value];
    FilterAppend(before, [r.1.value], IsNoticePopup);
    FilterNone(before, IsNoticePopup);
    assert Filter([r.1.value], IsNoticePopup) == [r.1.value];
  }

  // ---------------------------------------------------------------------
  // updatePost
  // ---------------------------------------------------------------------

  /** The fields of an update; `None` is a field the request leaves out. */
  datatype UpdatePostDto = UpdatePostDto(
    title: Option<string>,
    content: Option<string>,
    category: Option<string>,
    isSecret: Option<string>,
    isPopup: Option<string>)

  /** `updatePost`: a popup NOTICE request first resets every other NOTICE
      popup, then the given fields are written. The reset is not undone when
      the post turns out to be missing. */
  function UpdatePost(db: BoardDb, postId: int, dto: UpdatePostDto): (r: (BoardDb, Result<Post>))
    ensures r.1.Err? <==> forall p :: p in db.posts ==> p.postId != postId
    ensures r.1.Err? ==> r.1.error.Internal?
    ensures |r.0.posts| == |db.posts|
    ensures r.0.comments == db.comments && r.0.admins == db.admins && r.0.alerts == db.alerts
    ensures !AsksForPopup(dto.category, dto.isPopup) && r.1.Err? ==> r.0 == db
    ensures r.1.Ok? ==> r.1.value in r.0.posts && r.1.value.postId == postId
    ensures r.1.Ok? ==> var prev := db.posts[PostIndex(db.posts, postId)];
              r.1.value == prev.(title := r.1.value.title, content := r.1.value.content, category := r.1.value.category,
                                 isSecret := r.1.value.isSecret, isPopup := r.1.value.isPopup)
    ensures r.1.Ok? ==> var prev := db.posts[PostIndex(db.posts, postId)];
              r.1.value.title == dto.title.GetOr(prev.title) && r.1.value.content == dto.content.GetOr(prev.content)
    ensures r.1.Ok? ==> var prev := db.posts[PostIndex(db.posts, postId)];
              r.1.value.category == dto.category.GetOr(prev.category) && r.1.value.isSecret == dto.isSecret.GetOr(prev.isSecret)
    ensures r.1.Ok? ==> var prev := db.posts[PostIndex(db.posts, postId)];
              r.1.value.isPopup == dto.isPopup.GetOr(prev.isPopup)
    ensures forall i :: 0 <= i < |db.posts| && r.0.posts[i] != db.posts[i] ==>
              db.posts[i].postId == postId || (IsNoticePopup(db.posts[i]) && r.0.posts[i] == db.posts[i].(isPopup := "N"))
    ensures AsksForPopup(dto.category, dto.isPopup) ==> forall p :: p in r.0.posts && IsNoticePopup(p) ==> p.postId == postId
    ensures AsksForPopup(dto.category, dto.isPopup) && r.1.Ok? ==> IsNoticePopup(r.1.value)
  {
    var cleared := if AsksForPopup(dto.category, dto.isPopup) then ClearPopups(db.posts, Some(postId)) else db.posts;
    var i := PostIndex(db.posts, postId);
    if i < 0 then (db.(posts := cleared), Err(Internal("record to update not found")))
    else
      assert cleared[i] == db.posts[i];
      var p := Patch(db.posts[i], dto);
      var posts := cleared[i := p];
      assert posts[i] == p;
      if AsksForPopup(dto.category, dto.isPopup) then
        OnlyPopupKept(cleared, i, p, postId);
        (db.(posts := posts), Ok(p))
      else
        (db.(posts := posts), Ok(p))
  }

  /** The post with the fields the request gives replaced. */
  function Patch(prev: Post, dto: UpdatePostDto): (p: Post)
    ensures p == prev.(title := p.title, content := p.content, category := p.category, isSecret := p.isSecret, isPopup := p.isPopup)
    ensures p.title == dto.title.GetOr(prev.title) && p.content == dto.content.GetOr(prev.content)
    ensures p.category == dto.category.GetOr(prev.category) && p.isSecret == dto.isSecret.GetOr(prev.isSecret)
    ensures p.isPopup == dto.isPopup.GetOr(prev.isPopup)
  {
    prev.(title := dto.title.GetOr(prev.title), content := dto.content.GetOr(prev.content),
          category := dto.category.GetOr(prev.category), isSecret := dto.isSecret.GetOr(prev.isSecret),
          isPopup := dto.isPopup.GetOr(prev.isPopup))
  }

  /** Writing the post `postId` into a table whose only NOTICE popup is
      `postId` keeps it the only one. */
  lemma OnlyPopupKept(posts: seq<Post>, i: nat, p: Post, postId: int)
    requires i < |posts| && p.postId == postId
    requires forall q :: q in posts && IsNoticePopup(q) ==> q.postId == postId
    ensures forall q :: q in posts[i := p] && IsNoticePopup(q) ==> q.postId == postId
  {
    var after := posts[i := p];
    forall q | q in after && IsNoticePopup(q) ensures q.postId == postId {
      var k :| 0 <= k < |after| && after[k] == q;
      if k != i { assert q == posts[k]; }
    }
  }

  // ---------------------------------------------------------------------
  // updateStatus
  // ---------------------------------------------------------------------

  /** The alert table grew by one unread alert at its end. */
  predicate OneAlertAdded(before: Alerts.AlertStore, after: Alerts.AlertStore) {
    |after.alerts| == |before.alerts| + 1
    && after.alerts[..|before.alerts|] == before.alerts
    && !after.alerts[|before.alerts|].isRead
  }

  /** The alert table grew by one unread alert for `userId`. */
  predicate AlertSent(before: Alerts.AlertStore, after: Alerts.AlertStore, userId: string) {
    OneAlertAdded(before, after) && after.alerts[|before.alerts|].userId == userId
  }

  function QnaLink(postId: int): string {
    "/support/qna/" + IntToString(postId)
  }

  function StatusMessage(title: string): string {
    "문의하신 게시글 [" + title + "]이(가) 완료 처리되었습니다."
  }

  function ReplyMessage(title: string): string {
    "문의하신 게시글 [" + title + "]에 답변이 등록되었습니다."
  }

  predicate Completes(status: string) {
    status == Complete || status == Answered
  }

  /** `updateStatus`: writes the status and, when it newly becomes
      `Complete` or `ANSWERED`, alerts the author. A missing post is caught
      by the service's own handler and reported as an internal error;
      `alertUp` says whether the alert insert succeeds. */
  function UpdateStatus(db: BoardDb, postId: int, status: string, alertId: int, now: int, alertUp: bool): (r: (BoardDb, Result<Post>))
    requires forall a :: a in db.alerts.alerts ==> a.id != alertId
    ensures r.1.Err? <==> forall p :: p in db.posts ==> p.postId != postId
    ensures r.1.Err? ==> r.0 == db && r.1.error.Internal?
    ensures r.1.Ok? ==> r.1.value == db.posts[PostIndex(db.posts, postId)].(status := Some(status))
    ensures r.1.Ok? ==> r.0.posts == db.posts[PostIndex(db.posts, postId) := r.1.value]
    ensures r.1.Ok? ==> var prev := db.posts[PostIndex(db.posts, postId)];
              AlertSent(db.alerts, r.0.alerts, prev.authorId) <==> Completes(status) && prev.status != Some(status) && alertUp
    ensures r.0.alerts == db.alerts || OneAlertAdded(db.alerts, r.0.alerts)
    ensures r.0.comments == db.comments && r.0.admins == db.admins
  {
    var i := PostIndex(db.posts, postId);
    if i < 0 then (db, Err(Internal("status update failed")))
    else
      var board := db.posts[i];
      var updated := board.(status := Some(status));
      var alerts :=
        if Completes(status) && board.status != Some(status)
        then Alerts.CreateAlert(db.alerts, alertId, board.authorId, StatusMessage(board.title), QnaLink(postId), now, alertUp).0
        else db.alerts;
      (db.(posts := db.posts[i := updated], alerts := alerts), Ok(updated))
  }

  // ---------------------------------------------------------------------
  // deletePost
  // ---------------------------------------------------------------------

  /** With unique ids, removing the post with an id leaves none with it. */
  lemma RemovedPostGone(posts: seq<Post>, i: nat)
    requires i < |posts| && UniquePostIds(posts)
    ensures forall p :: p in RemoveAt(posts, i) ==> p.postId != posts[i].postId
  {
    var rest := RemoveAt(posts, i);
    forall p | p in rest ensures p.postId != posts[i].postId {
      var k :| 0 <= k < |rest| && rest[k] == p;
      if k < i {
        assert posts[k].postId != posts[i].postId;
      } else {
        assert posts[k + 1].postId != posts[i].postId;
      }
    }
  }

  /** `deletePost`: one transaction deletes the post's comments and the
      post; a missing post fails the transaction and nothing is deleted. */
  function DeletePost(db: BoardDb, postId: int): (r: (BoardDb, Result<Post>))
    ensures r.1.Err? <==> forall p :: p in db.posts ==> p.postId != postId
    ensures r.1.Err? ==> r.0 == db && r.1.error.Internal?
    ensures r.1.Ok? ==> r.1.value in db.posts && r.1.value.postId == postId && |r.0.posts| == |db.posts| - 1
    ensures r.1.Ok? ==> forall c :: c in r.0.comments <==> c in db.comments && c.postId != postId
    ensures r.1.Ok? && UniquePostIds(db.posts) ==> forall p :: p in r.0.posts <==> p in db.posts && p.postId != postId
    ensures r.0.admins == db.admins && r.0.alerts == db.alerts
  {
    var i := PostIndex(db.posts, postId);
    if i < 0 then (db, Err(Internal("record to delete does not exist")))
    else (WithoutPost(db, i), Ok(db.posts[i]))
  }

  /** The store with post `i` and its comments gone. */
  function WithoutPost(db: BoardDb, i: nat): (d: BoardDb)
    requires i < |db.posts|
    ensures |d.posts| == |db.posts| - 1
    ensures forall c :: c in d.comments <==> c in db.comments && c.postId != db.posts[i].postId
    ensures UniquePostIds(db.posts) ==> forall p :: p in d.posts <==> p in db.posts && p.postId != db.posts[i].postId
    ensures d.admins == db.admins && d.alerts == db.alerts
  {
    var postId := db.posts[i].postId;
    var posts := RemoveAt(db.posts, i);
    assert UniquePostIds(db.posts) ==> forall p :: p in posts ==> p.postId != postId by {
      if UniquePostIds(db.posts) {
        RemovedPostGone(db.posts, i);
      }
    }
    db.(posts := posts, comments := Filter(db.comments, (c: Comment) => c.postId != postId))
  }

  /** Deleting a post keeps every remaining comment attached to its post. */
  lemma DeletePostAttached(db: BoardDb, postId: int)
    requires UniquePostIds(db.posts) && CommentsAttached(db)
    ensures CommentsAttached(DeletePost(db, postId).0)
  {
    var r := DeletePost(db, postId);
    if r.1.Ok? {
      forall c | c in r.0.comments ensures exists p :: p in r.0.posts && p.postId == c.postId {
        var p :| p in db.posts && p.postId == c.postId;
        assert p in r.0.posts;
      }
    }
  }

  // ---------------------------------------------------------------------
  // Comments
  // ---------------------------------------------------------------------

  datatype CreateCommentDto = CreateCommentDto(
    postId: int,
    authorId: string,
    content: string,
    parentId: Option<int>,
    status: Option<string>)

  /** `createComment`: on an existing post, one transaction inserts the
      comment (a falsy parent id is no parent) and writes a truthy status to
      the post; a commenter other than the post's author alerts the author.
      A missing post is reported as an internal error and changes nothing. */
  function CreateComment(db: BoardDb, dto: CreateCommentDto, commentId: int, alertId: int, now: int, alertUp: bool): (r: (BoardDb, Result<Comment>))
    requires forall c :: c in db.comments ==> c.commentId != commentId
    requires forall a :: a in db.alerts.alerts ==> a.id != alertId
    ensures r.1.Err? <==> forall p :: p in db.posts ==> p.postId != dto.postId
    ensures r.1.Err? ==> r.0 == db && r.1.error.Internal?
    ensures r.1.Ok? ==> r.0.comments == db.comments + [r.1.value]
    ensures r.1.Ok? ==> r.1.value.commentId == commentId && r.1.value.postId == dto.postId
    ensures r.1.Ok? ==> r.1.value.authorId == dto.authorId && r.1.value.content == dto.content && r.1.value.createdAt == now
    ensures r.1.Ok? ==> r.1.value.parentId.Some? == (dto.parentId.Some? && dto.parentId.value != 0)
    ensures r.1.Ok? && r.1.value.parentId.Some? ==> r.1.value.parentId == dto.parentId
    ensures r.1.Ok? && dto.status.Some? && Given(dto.status.value) ==>
              r.0.posts == db.posts[PostIndex(db.posts, dto.postId) := db.posts[PostIndex(db.posts, dto.postId)].(status := dto.status)]
    ensures r.1.Ok? && !(dto.status.Some? && Given(dto.status.value)) ==> r.0.posts == db.posts
    ensures r.1.Ok? ==> var author := db.posts[PostIndex(db.posts, dto.postId)].authorId;
              AlertSent(db.alerts, r.0.alerts, author) <==> author != dto.authorId && alertUp
    ensures r.0.alerts == db.alerts || OneAlertAdded(db.alerts, r.0.alerts)
    ensures r.0.admins == db.admins
  {
    var i := PostIndex(db.posts, dto.postId);
    if i < 0 then (db, Err(Internal("post not found")))
    else
      var board := db.posts[i];
      var parent := if dto.parentId.Some? && dto.parentId.value != 0 then dto.parentId else None;
      var c := Comment(commentId, dto.postId, dto.authorId, dto.content, parent, now);
      var posts := if dto.status.Some? && Given(dto.status.value) then db.posts[i := board.(status := dto.status)] else db.posts;
      var alerts :=
        if board.authorId != dto.authorId
        then Alerts.CreateAlert(db.alerts, alertId, board.authorId, ReplyMessage(board.title), QnaLink(dto.postId), now, alertUp).0
        else db.alerts;
      (db.(posts := posts, comments := db.comments + [c], alerts := alerts), Ok(c))
  }

  /** A new comment hangs off a stored post, so comments stay attached. */
  lemma CreateCommentAttached(db: BoardDb, dto: CreateCommentDto, commentId: int, alertId: int, now: int, alertUp: bool)
    requires forall c :: c in db.comments ==> c.commentId != commentId
    requires forall a :: a in db.alerts.alerts ==> a.id != alertId
    requires CommentsAttached(db)
    ensures CommentsAttached(CreateComment(db, dto, commentId, alertId, now, alertUp).0)
  {
    var r := CreateComment(db, dto, commentId, alertId, now, alertUp);
    if r.1.Ok? {
      var i :| 0 <= i < |db.posts| && db.posts[i].postId == dto.postId;
      forall c | c in r.0.comments ensures exists p :: p in r.0.posts && p.postId == c.postId {
        if c == r.1.value {
          assert r.0.posts[i] in r.0.posts;
        } else {
          assert c in db.comments;
          var p :| p in db.posts && p.postId == c.postId;
          var k :| 0 <= k < |db.posts| && db.posts[k] == p;
          assert r.0.posts[k] in r.0.posts;
        }
      }
    }
  }

  /** `updateComment`: rewrites the content; a missing comment is an
      internal error. */
  function UpdateComment(db: BoardDb, commentId: int, content: string): (r: (BoardDb, Result<Comment>))
    ensures r.1.Err? <==> forall c :: c in db.comments ==> c.commentId != commentId
    ensures r.1.Err? ==> r.0 == db && r.1.error.Internal?
    ensures r.1.Ok? ==> r.1.value == db.comments[CommentIndex(db.comments, commentId)].(content := content)
    ensures r.1.Ok? ==> r.0.comments == db.comments[CommentIndex(db.comments, commentId) := r.1.value]
    ensures r.0.posts == db.posts && r.0.admins == db.admins && r.0.alerts == db.alerts
  {
    var i := CommentIndex(db.comments, commentId);
    if i < 0 then (db, Err(Internal("record to update not found")))
    else
      var c := db.comments[i].(content := content);
      (db.(comments := db.comments[i := c]), Ok(c))
  }

  /** `deleteComment`: removes the comment; a missing comment is an
      internal error. */
  function DeleteComment(db: BoardDb, commentId: int): (r: (BoardDb, Result<Comment>))
    ensures r.1.Err? <==> forall c :: c in db.comments ==> c.commentId != commentId
    ensures r.1.Err? ==> r.0 == db && r.1.error.Internal?
    ensures r.1.Ok? ==> r.1.value in db.comments && r.1.value.commentId == commentId
    ensures r.1.Ok? ==> |r.0.comments| == |db.comments| - 1
    ensures r.1.Ok? ==> multiset(r.0.comments) + multiset{r.1.value} == multiset(db.comments)
    ensures r.0.posts == db.posts && r.0.admins == db.admins && r.0.alerts == db.alerts
  {
    var i := CommentIndex(db.comments, commentId);
    if i < 0 then (db, Err(Internal("record to delete does not exist")))
    else
      RemoveAtMultiset(db.comments, i);
      (db.(comments := RemoveAt(db.comments, i)), Ok(db.comments[i]))
  }
}

=== FILE: common.dfy ===
/** Shared vocabulary of the services: optional values, error results, the
    string operations the TypeScript code leans on (truthiness of optional
    parameters, ASCII case folding, trimming, substring search), decimal
    digits, and a few sequence helpers. */
module Common {

  datatype Option<T> = None | Some(value: T) {
    /** `x ?? d` / `x || d` for a value that is never falsy when present. */
    function GetOr(d: T): T {
      if Some? then value else d
    }
  }

  /** The two exception classes the services raise towards the caller. */
  datatype Error =
    | NotFound(message: string)        // NestJS NotFoundException (HTTP 404)
    | Internal(message: string)        // InternalServerErrorException or a database error (HTTP 500)

  datatype Result<T> = Ok(value: T) | Err(error: Error)

  /** JavaScript truthiness of an optional string parameter: both `undefined`
      and `''` are falsy, every other string is truthy. */
  predicate Given(s: string) {
    s != ""
  }

  // ---------------------------------------------------------------------
  // Case folding (ASCII letters only)
  // ---------------------------------------------------------------------

  function LowerChar(c: char): char {
    if 'A' <= c <= 'Z' then (c as int + 32) as char else c
  }

  function UpperChar(c: char): char {
    if 'a' <= c <= 'z' then (c as int - 32) as char else c
  }

  function Lower(s: string): (r: string)
    ensures |r| == |s|
    ensures forall i :: 0 <= i < |s| ==> r[i] == LowerChar(s[i])
  {
    if |s| == 0 then "" else [LowerChar(s[0])] + Lower(s[1..])
  }

  /** A string without upper-case letters is its own lower-case form. */
  lemma LowerNoUpper(s: string)
    requires forall i :: 0 <= i < |s| ==> !('A' <= s[i] <= 'Z')
    ensures Lower(s) == s
  {
    assert forall i :: 0 <= i < |s| ==> Lower(s)[i] == s[i];
  }

  /** Lower-casing twice is lower-casing once. */
  lemma LowerIdempotent(s: string)
    ensures Lower(Lower(s)) == Lower(s)
  {
    assert forall i :: 0 <= i < |s| ==> LowerChar(LowerChar(s[i])) == LowerChar(s[i]);
  }

  /** Lower-cased copies of every string, position by position. */
  function LowerAll(ss: seq<string>): (r: seq<string>)
    ensures |r| == |ss|
    ensures forall i :: 0 <= i < |ss| ==> r[i] == Lower(ss[i])
  {
    if |ss| == 0 then [] else [Lower(ss[0])] + LowerAll(ss[1..])
  }

  function Upper(s: string): (r: string)
    ensures |r| == |s|
    ensures forall i :: 0 <= i < |s| ==> r[i] == UpperChar(s[i])
  {
    if |s| == 0 then "" else [UpperChar(s[0])] + Upper(s[1..])
  }

  // ---------------------------------------------------------------------
  // Trimming and character replacement
  // ---------------------------------------------------------------------

  /** JavaScript's WhiteSpace and LineTerminator characters (sections
      12.2 and 12.3 of ECMA-262): tab, line feed, vertical tab, form feed,
      carriage return, space, no-break space, the byte order mark, and the
      Unicode space separators and line and paragraph separators. */
  predicate IsSpace(c: char) {
    var n := c as int;
    (9 <= n <= 13) || n == 32 || n == 0xA0 || n == 0x1680 || (0x2000 <= n <= 0x200A)
    || n == 0x2028 || n == 0x2029 || n == 0x202F || n == 0x205F || n == 0x3000 || n == 0xFEFF
  }

  function TrimStart(s: string): (r: string)
    ensures |r| <= |s|
    ensures r == s[|s| - |r|..]
    ensures |r| > 0 ==> !IsSpace(r[0])
  {
    if |s| > 0 && IsSpace(s[0]) then TrimStart(s[1..]) else s
  }

  function TrimEnd(s: string): (r: string)
    ensures |r| <= |s|
    ensures r == s[..|r|]
    ensures |r| > 0 ==> !IsSpace(r[|r| - 1])
  {
    if |s| > 0 && IsSpace(s[|s| - 1]) then TrimEnd(s[..|s| - 1]) else s
  }

  /** `String.prototype.trim`. */
  function Trim(s: string): string {
    TrimEnd(TrimStart(s))
  }

  /** A string that is empty or whitespace only, i.e. `s.trim() === ''`. */
  predicate Blank(s: string) {
    Trim(s) == ""
  }

  /** `s.replace(/x/g, y)` for single characters. */
  function ReplaceChar(s: string, x: char, y: char): (r: string)
    ensures |r| == |s|
    ensures forall i :: 0 <= i < |s| ==> r[i] == (if s[i] == x then y else s[i])
  {
    if |s| == 0 then "" else [if s[0] == x then y else s[0]] + ReplaceChar(s[1..], x, y)
  }

  // ---------------------------------------------------------------------
  // Substring search
  // ---------------------------------------------------------------------

  /** `needle` occurs in `hay` starting at position `i`. */
  predicate MatchAt(hay: string, needle: string, i: nat) {
    i + |needle| <= |hay| && hay[i..i + |needle|] == needle
  }

  /** `needle` occurs in `hay` at some position. */
  ghost predicate IsInfix(needle: string, hay: string) {
    exists i: nat :: MatchAt(hay, needle, i)
  }

  /** `hay.includes(needle)`. */
  function Contains(hay: string, needle: string): (r: bool)
    ensures r <==> IsInfix(needle, hay)
  {
    ContainsFromRange(hay, needle, 0);
    ContainsFrom(hay, needle, 0)
  }

  function ContainsFrom(hay: string, needle: string, k: nat): bool
    decreases |hay| - k
  {
    if k + |needle| > |hay| then false
    else if MatchAt(hay, needle, k) then true
    else ContainsFrom(hay, needle, k + 1)
  }

  lemma {:induction false} ContainsFromRange(hay: string, needle: string, k: nat)
    ensures ContainsFrom(hay, needle, k) <==> exists i: nat :: k <= i && MatchAt(hay, needle, i)
    decreases |hay| - k
  {
    if k + |needle| > |hay| {
    } else if MatchAt(hay, needle, k) {
    } else {
      ContainsFromRange(hay, needle, k + 1);
      if exists i: nat :: k <= i && MatchAt(hay, needle, i) {
        var i: nat :| k <= i && MatchAt(hay, needle, i);
        assert i != k;
      }
    }
  }

  /** Code-point lexicographic order on strings: `a` sorts no later than `b`. */
  predicate LexLe(a: string, b: string) {
    |a| == 0 || (|b| > 0 && (a[0] < b[0] || (a[0] == b[0] && LexLe(a[1..], b[1..]))))
  }

  lemma {:induction false} LexTotal(a: string, b: string)
    ensures LexLe(a, b) || LexLe(b, a)
  {
    if |a| > 0 && |b| > 0 && a[0] == b[0] {
      LexTotal(a[1..], b[1..]);
    }
  }

  lemma {:induction false} LexAntisymmetric(a: string, b: string)
    requires LexLe(a, b) && LexLe(b, a)
    ensures a == b
  {
    if |a| > 0 && |b| > 0 {
      LexAntisymmetric(a[1..], b[1..]);
      assert a == [a[0]] + a[1..] && b == [b[0]] + b[1..];
    }
  }

  /** The position of an ASCII punctuation or symbol character in the
      root collation of the Unicode Collation Algorithm (CLDR), which ICU
      uses for `String.prototype.localeCompare`, or -1 for other
      characters. */
  function PunctuationRank(c: char): (r: int)
    ensures -1 <= r < 32
  {
    if c == '_' then 0
    else if c == '-' then 1
    else if c == ',' then 2
    else if c == ';' then 3
    else if c == ':' then 4
    else if c == '!' then 5
    else if c == '?' then 6
    else if c == '.' then 7
    else if c == '\'' then 8
    else if c == '\"' then 9
    else if c == '(' then 10
    else if c == ')' then 11
    else if c == '[' then 12
    else if c == ']' then 13
    else if c == '{' then 14
    else if c == '}' then 15
    else if c == '@' then 16
    else if c == '*' then 17
    else if c == '/' then 18
    else if c == '\\' then 19
    else if c == '&' then 20
    else if c == '#' then 21
    else if c == '%' then 22
    else if c == '`' then 23
    else if c == '^' then 24
    else if c == '+' then 25
    else if c == '<' then 26
    else if c == '=' then 27
    else if c == '>' then 28
    else if c == '|' then 29
    else if c == '~' then 30
    else if c == '$' then 31
    else -1
  }

  /** The primary weight of a character under that collation: the
      whitespace controls tab to carriage return, then space, then the
      punctuation and symbols, then the digits, then the letters. Other
      characters follow by code point; the remaining control characters,
      which the collation ignores, are put first. */
  function CollationWeight(c: char): int {
    if 9 <= c as int <= 13 then c as int - 9
    else if c == ' ' then 5
    else if PunctuationRank(c) >= 0 then 6 + PunctuationRank(c)
    else if '0' <= c <= '9' then 38 + (c as int - '0' as int)
    else if 'a' <= c <= 'z' then 48 + (c as int - 'a' as int)
    else if c as int < 32 || c as int == 127 then c as int - 200
    else 74 + c as int
  }

  /** `x` sorts before `y`: a smaller weight, or the same weight and a
      smaller code point (two characters never share a weight, so the
      second case is only there to make the order evidently total). */
  predicate CharBefore(x: char, y: char) {
    CollationWeight(x) < CollationWeight(y) || (CollationWeight(x) == CollationWeight(y) && x < y)
  }

  /** `a.localeCompare(b) <= 0` on strings without upper-case letters:
      character by character, a proper prefix first. */
  predicate CollateLe(a: string, b: string) {
    |a| == 0 || (|b| > 0 && (CharBefore(a[0], b[0]) || (a[0] == b[0] && CollateLe(a[1..], b[1..]))))
  }

  lemma {:induction false} CollateTotal(a: string, b: string)
    ensures CollateLe(a, b) || CollateLe(b, a)
  {
    if |a| > 0 && |b| > 0 && a[0] == b[0] {
      CollateTotal(a[1..], b[1..]);
    }
  }

  lemma {:induction false} CollateAntisymmetric(a: string, b: string)
    requires CollateLe(a, b) && CollateLe(b, a)
    ensures a == b
  {
    if |a| > 0 && |b| > 0 {
      CollateAntisymmetric(a[1..], b[1..]);
      assert a == [a[0]] + a[1..] && b == [b[0]] + b[1..];
    }
  }

  lemma {:induction false} CollateTransitive(a: string, b: string, c: string)
    requires CollateLe(a, b) && CollateLe(b, c)
    ensures CollateLe(a, c)
  {
    if |a| > 0 && |b| > 0 && |c| > 0 && a[0] == b[0] && b[0] == c[0] {
      CollateTransitive(a[1..], b[1..], c[1..]);
    }
  }

  /** Strings that agree up to a first difference are ordered by the
      characters there. */
  lemma {:induction false} CollateFirstDifference(p: string, x: char, y: char, u: string, v: string)
    requires CharBefore(x, y)
    ensures CollateLe(p + [x] + u, p + [y] + v) && !CollateLe(p + [y] + v, p + [x] + u)
  {
    if |p| > 0 {
      CollateFirstDifference(p[1..], x, y, u, v);
      assert (p + [x] + u)[1..] == p[1..] + [x] + u;
      assert (p + [y] + v)[1..] == p[1..] + [y] + v;
    }
  }

  /** `s.startsWith(prefix)`. */
  predicate StartsWith(s: string, prefix: string) {
    |prefix| <= |s| && s[..|prefix|] == prefix
  }

  // ---------------------------------------------------------------------
  // Decimal digits
  // ---------------------------------------------------------------------

  predicate IsDigit(c: char) {
    '0' <= c <= '9'
  }

  predicate AllDigits(s: string) {
    forall i :: 0 <= i < |s| ==> IsDigit(s[i])
  }

  function DigitChar(d: nat): (c: char)
    requires d < 10
    ensures IsDigit(c)
  {
    ('0' as int + d) as char
  }

  function DigitValue(c: char): (d: nat)
    requires IsDigit(c)
    ensures d < 10
  {
    c as int - '0' as int
  }

  /** `String(n)` for a non-negative integer. */
  function NatToString(n: nat): (r: string)
    ensures |r| >= 1 && AllDigits(r)
  {
    if n < 10 then [DigitChar(n)] else NatToString(n / 10) + [DigitChar(n % 10)]
  }

  /** `String(n)` for any integer. */
  function IntToString(n: int): string {
    if n < 0 then "-" + NatToString(-n) else NatToString(n)
  }

  /** The value of a string of decimal digits (the empty string is 0). */
  function DigitsValue(s: string): nat
    requires AllDigits(s)
  {
    if |s| == 0 then 0 else DigitsValue(s[..|s| - 1]) * 10 + DigitValue(s[|s| - 1])
  }

  /** Reading back what `NatToString` printed gives the number again. */
  lemma {:induction false} DigitsValueOfNatToString(n: nat)
    ensures DigitsValue(NatToString(n)) == n
  {
    if n >= 10 {
      var s := NatToString(n);
      assert s[..|s| - 1] == NatToString(n / 10);
      DigitsValueOfNatToString(n / 10);
    }
  }

  /** `String(n).padStart(2, '0')` for 0 <= n < 100. */
  function PadTwo(n: nat): (r: string)
    requires n < 100
    ensures |r| == 2 && AllDigits(r) && DigitsValue(r) == n
  {
    var r := [DigitChar(n / 10), DigitChar(n % 10)];
    assert r[..1] == [DigitChar(n / 10)] && r[..1][..0] == [];
    assert DigitsValue(r[..1]) == n / 10;
    r
  }

  // ---------------------------------------------------------------------
  // Number(s): JavaScript's StringToNumber (section 7.1.4.1.1 of ECMA-262)
  // ---------------------------------------------------------------------

  function Pow10(k: nat): (r: nat)
    ensures r >= 1
  {
    if k == 0 then 1 else 10 * Pow10(k - 1)
  }

  /** The value of a digit or letter as a digit in some radix: 0-9, then
      a/A = 10 up to z/Z = 35; -1 for anything else. */
  function RadixDigit(c: char): (d: int)
    ensures -1 <= d < 36
  {
    if '0' <= c <= '9' then c as int - '0' as int
    else if 'a' <= c <= 'z' then c as int - 'a' as int + 10
    else if 'A' <= c <= 'Z' then c as int - 'A' as int + 10
    else -1
  }

  predicate AllInRadix(s: string, radix: nat) {
    forall i :: 0 <= i < |s| ==> 0 <= RadixDigit(s[i]) < radix
  }

  /** The value of a numeral in the given radix, most significant digit
      first. */
  function RadixValue(s: string, radix: nat): nat
    requires AllInRadix(s, radix)
  {
    if |s| == 0 then 0 else RadixValue(s[..|s| - 1], radix) * radix + RadixDigit(s[|s| - 1])
  }

  /** The radix named by the letter after a leading `0`: `0x`, `0o`, `0b`
      in either case; 0 for any other character. */
  function RadixOf(c: char): nat {
    if c == 'x' || c == 'X' then 16
    else if c == 'o' || c == 'O' then 8
    else if c == 'b' || c == 'B' then 2
    else 0
  }

  /** Where the exponent marker `e` or `E` is, or the length when there is
      none. */
  function ExponentMark(u: string): (i: nat)
    ensures i <= |u|
    ensures i < |u| ==> u[i] == 'e' || u[i] == 'E'
    ensures forall j :: 0 <= j < i ==> u[j] != 'e' && u[j] != 'E'
  {
    if |u| == 0 || u[0] == 'e' || u[0] == 'E' then 0 else 1 + ExponentMark(u[1..])
  }

  /** A SignedInteger: an optional sign and at least one decimal digit. */
  function SignedInteger(x: string): Option<int> {
    if |x| > 1 && x[0] == '-' && AllDigits(x[1..]) then Some(-(DigitsValue(x[1..]) as int))
    else if |x| > 1 && x[0] == '+' && AllDigits(x[1..]) then Some(DigitsValue(x[1..]))
    else if |x| > 0 && AllDigits(x) then Some(DigitsValue(x))
    else None
  }

  /** `m * 10^k` when that is a whole number. */
  function Scaled(m: nat, k: int): Option<int> {
    if k >= 0 then Some(m * Pow10(k))
    else if m % Pow10(-k) == 0 then Some(m / Pow10(-k))
    else None
  }

  /** A StrUnsignedDecimalLiteral: digits, optionally with a point and
      more digits (at least one digit overall), optionally followed by an
      exponent. The value as a whole number, or None when the text is not
      such a literal, is `Infinity`, or has a fractional value. */
  function UnsignedDecimal(u: string): Option<int> {
    var e := ExponentMark(u);
    DecimalBody(u[..e], if e == |u| then Some(0) else SignedInteger(u[e + 1..]))
  }

  /** The part before the exponent, split at its point. */
  function DecimalBody(body: string, exponent: Option<int>): Option<int> {
    var dot := IndexOf(body, '.');
    if dot < 0 then DecimalValue(body, "", exponent)
    else DecimalValue(body[..dot], body[dot + 1..], exponent)
  }

  /** `whole.fraction` times ten to the `exponent`, when every part is
      well formed and the value is whole. */
  function DecimalValue(whole: string, fraction: string, exponent: Option<int>): Option<int> {
    if exponent.None? || !AllDigits(whole) || !AllDigits(fraction) || |whole| + |fraction| == 0 then None
    else Scaled(DigitsValue(whole + fraction), exponent.value - |fraction|)
  }

  function Negated(v: Option<int>): Option<int> {
    match v
    case Some(n) => Some(-n)
    case None => None
  }

  /** `Number(s)` when its value is a whole number. Surrounding whitespace
      is ignored and the empty string is 0. A decimal literal may carry a
      sign, a fraction and an exponent (`-12`, `1.0`, `1e1`); a `0x`, `0o`
      or `0b` literal takes no sign. Anything else is NaN, here `None`;
      so is a literal whose value has a fractional part or is infinite. */
  function NumberOf(s: string): Option<int> {
    NumberOfTrimmed(Trim(s))
  }

  function NumberOfTrimmed(t: string): Option<int> {
    if t == "" then Some(0)
    else if |t| > 2 && t[0] == '0' && RadixOf(t[1]) > 0 then RadixLiteral(t[2..], RadixOf(t[1]))
    else if t[0] == '-' then Negated(UnsignedDecimal(t[1..]))
    else if t[0] == '+' then UnsignedDecimal(t[1..])
    else UnsignedDecimal(t)
  }

  function RadixLiteral(digits: string, radix: nat): Option<int> {
    if AllInRadix(digits, radix) then Some(RadixValue(digits, radix)) else None
  }

  /** A string whose ends are not whitespace is its own trim. */
  lemma TrimUnchanged(t: string)
    requires |t| > 0 ==> !IsSpace(t[0]) && !IsSpace(t[|t| - 1])
    ensures Trim(t) == t
  {
    assert TrimStart(t) == t;
  }

  /** Digits with no point and no exponent read as their own value. */
  lemma UnsignedDigits(d: string)
    requires |d| > 0 && AllDigits(d)
    ensures UnsignedDecimal(d) == Some(DigitsValue(d))
  {
    assert forall j :: 0 <= j < |d| ==> d[j] != 'e' && d[j] != 'E' && d[j] != '.';
    var e := ExponentMark(d);
    assert e == |d|;
    assert d[..e] == d;
    assert UnsignedDecimal(d) == DecimalBody(d, Some(0));
    assert '.' !in d;
    assert IndexOf(d, '.') == -1;
    assert d + "" == d;
    assert DecimalBody(d, Some(0)) == Scaled(DigitsValue(d), 0);
  }

  /** Text that starts with a digit and has no radix marker after it is
      read as an unsigned decimal literal. */
  lemma DecimalLead(t: string)
    requires |t| > 0 && IsDigit(t[0]) && (|t| > 1 ==> RadixOf(t[1]) == 0)
    ensures NumberOfTrimmed(t) == UnsignedDecimal(t)
  {
  }

  /** `Number(d)` for a run of digits is its decimal value. */
  lemma NumberOfDigits(d: string)
    requires |d| > 0 && AllDigits(d)
    ensures NumberOf(d) == Some(DigitsValue(d))
  {
    assert IsDigit(d[0]) && IsDigit(d[|d| - 1]);
    TrimUnchanged(d);
    assert |d| > 1 ==> IsDigit(d[1]);
    DecimalLead(d);
    UnsignedDigits(d);
  }

  /** `Number(String(n))` is `n`. */
  lemma NumberOfNat(n: nat)
    ensures NumberOf(NatToString(n)) == Some(n)
  {
    NumberOfDigits(NatToString(n));
    DigitsValueOfNatToString(n);
  }

  /** `Number('-' + String(n))` is `-n`. */
  lemma NumberOfNegated(n: nat)
    ensures NumberOf("-" + NatToString(n)) == Some(-(n as int))
  {
    var d := NatToString(n);
    var t := "-" + d;
    assert t[|t| - 1] == d[|d| - 1] && IsDigit(d[|d| - 1]);
    TrimUnchanged(t);
    assert t[1..] == d;
    UnsignedDigits(d);
    DigitsValueOfNatToString(n);
  }

  function Zeros(z: nat): (r: string)
    ensures |r| == z && AllDigits(r)
  {
    seq(z, _ => '0')
  }

  lemma {:induction false} DigitsValueZeros(d: string, z: nat)
    requires AllDigits(d)
    ensures AllDigits(d + Zeros(z)) && DigitsValue(d + Zeros(z)) == DigitsValue(d) * Pow10(z)
  {
    var w := d + Zeros(z);
    assert AllDigits(w) by {
      forall i | 0 <= i < |w| ensures IsDigit(w[i]) {
        if i < |d| { assert w[i] == d[i]; } else { assert w[i] == Zeros(z)[i - |d|]; }
      }
    }
    if z == 0 {
      assert w == d;
    } else {
      var v := d + Zeros(z - 1);
      assert w[..|w| - 1] == v;
      assert w[|w| - 1] == '0';
      DigitsValueZeros(d, z - 1);
      assert DigitsValue(w) == DigitsValue(v) * 10;
      assert DigitsValue(v) * 10 == DigitsValue(d) * (Pow10(z - 1) * 10);
    }
  }

  lemma DivMulCancel(a: nat, b: nat)
    requires b > 0
    ensures (a * b) % b == 0 && (a * b) / b == a
  {
    var q, r := (a * b) / b, (a * b) % b;
    assert (a - q) * b == r;
    if a > q {
      MulMonotone(1, a - q, b);
    } else if a < q {
      MulMonotone(1, q - a, b);
    }
  }

  /** Trailing fraction zeros do not change the value: `Number('2.0')`
      is 2. */
  lemma NumberOfPointZeros(n: nat, z: nat)
    ensures NumberOf(NatToString(n) + "." + Zeros(z)) == Some(n)
  {
    var d := NatToString(n);
    var t := d + "." + Zeros(z);
    PointZerosEnds(d, z);
    NumberOfPlain(t);
    PointZerosTrimmed(d, z);
    PointZerosDecimal(d, z);
    DigitsValueOfNatToString(n);
    PointZerosValue(d, z);
  }

  /** Trailing zeros after the point cancel against the scale. */
  lemma PointZerosValue(d: string, z: nat)
    requires |d| > 0 && AllDigits(d)
    ensures DecimalValue(d, Zeros(z), Some(0)) == Some(DigitsValue(d))
  {
    DigitsValueZeros(d, z);
    var m := DigitsValue(d + Zeros(z));
    assert DecimalValue(d, Zeros(z), Some(0)) == Scaled(m, -(z as int));
    if z == 0 {
      assert Pow10(0) == 1;
    } else {
      DivMulCancel(DigitsValue(d), Pow10(z));
    }
  }

  /** Text with no whitespace at either end reads as it stands. */
  lemma NumberOfPlain(t: string)
    requires |t| > 0 && !IsSpace(t[0]) && !IsSpace(t[|t| - 1])
    ensures NumberOf(t) == NumberOfTrimmed(t)
  {
    TrimUnchanged(t);
  }

  lemma PointZerosEnds(d: string, z: nat)
    requires |d| > 0 && AllDigits(d)
    ensures var t := d + "." + Zeros(z); |t| > 0 && !IsSpace(t[0]) && !IsSpace(t[|t| - 1])
  {
    var t := d + "." + Zeros(z);
    assert t[0] == d[0] && IsDigit(t[0]);
    assert IsDigit(t[|t| - 1]) || t[|t| - 1] == '.';
  }

  lemma PointZerosTrimmed(d: string, z: nat)
    requires |d| > 0 && AllDigits(d)
    ensures NumberOfTrimmed(d + "." + Zeros(z)) == UnsignedDecimal(d + "." + Zeros(z))
  {
    var t := d + "." + Zeros(z);
    assert t[0] == d[0] && IsDigit(t[0]);
    assert IsDigit(t[1]) || t[1] == '.';
    DecimalLead(t);
  }

  lemma PointZerosDecimal(d: string, z: nat)
    requires |d| > 0 && AllDigits(d)
    ensures UnsignedDecimal(d + "." + Zeros(z)) == DecimalValue(d, Zeros(z), Some(0))
  {
    var t := d + "." + Zeros(z);
    assert forall j :: 0 <= j < |t| ==> IsDigit(t[j]) || t[j] == '.';
    assert ExponentMark(t) == |t|;
    assert t[..|t|] == t;
    assert t[|d|] == '.';
    assert forall j :: 0 <= j < |d| ==> t[j] == d[j];
    assert IndexOf(t, '.') == |d|;
    assert t[..|d|] == d && t[|d| + 1..] == Zeros(z);
  }

  /** An exponent scales by a power of ten: `Number('1e1')` is 10. */
  lemma NumberOfExponent(n: nat, k: nat)
    ensures NumberOf(NatToString(n) + "e" + NatToString(k)) == Some(n * Pow10(k))
  {
    var d, ks := NatToString(n), NatToString(k);
    var t := d + "e" + ks;
    ExponentEnds(d, ks);
    NumberOfPlain(t);
    ExponentTrimmed(d, ks);
    ExponentDecimal(d, ks);
    DigitsValueOfNatToString(k);
    DigitsValueOfNatToString(n);
    DigitsBody(d, k);
  }

  lemma ExponentEnds(d: string, ks: string)
    requires |d| > 0 && AllDigits(d) && |ks| > 0 && AllDigits(ks)
    ensures var t := d + "e" + ks; |t| > 0 && !IsSpace(t[0]) && !IsSpace(t[|t| - 1])
  {
    var t := d + "e" + ks;
    assert t[0] == d[0] && IsDigit(t[0]);
    assert t[|t| - 1] == ks[|ks| - 1] && IsDigit(t[|t| - 1]);
  }

  lemma ExponentTrimmed(d: string, ks: string)
    requires |d| > 0 && AllDigits(d) && |ks| > 0 && AllDigits(ks)
    ensures NumberOfTrimmed(d + "e" + ks) == UnsignedDecimal(d + "e" + ks)
  {
    var t := d + "e" + ks;
    assert t[0] == d[0] && IsDigit(t[0]);
    assert IsDigit(t[1]) || t[1] == 'e';
    DecimalLead(t);
  }

  lemma ExponentDecimal(d: string, ks: string)
    requires |d| > 0 && AllDigits(d) && |ks| > 0 && AllDigits(ks)
    ensures UnsignedDecimal(d + "e" + ks) == DecimalBody(d, Some(DigitsValue(ks)))
  {
    var t := d + "e" + ks;
    assert forall j :: 0 <= j < |d| ==> t[j] == d[j];
    assert t[|d|] == 'e';
    assert ExponentMark(t) == |d|;
    assert t[..|d|] == d && t[|d| + 1..] == ks;
    assert IsDigit(ks[0]);
  }

  /** A run of digits with no point is scaled by its exponent alone. */
  lemma DigitsBody(d: string, k: int)
    requires |d| > 0 && AllDigits(d)
    ensures DecimalBody(d, Some(k)) == Scaled(DigitsValue(d), k)
  {
    assert IndexOf(d, '.') == -1;
    assert d + "" == d;
  }

  /** A `0x`, `0o` or `0b` literal reads in its radix: `Number('0x1A')` is
      26. */
  lemma NumberOfRadix(marker: char, digits: string)
    requires RadixOf(marker) > 0 && |digits| > 0 && AllInRadix(digits, RadixOf(marker))
    ensures NumberOf("0" + [marker] + digits) == Some(RadixValue(digits, RadixOf(marker)))
  {
    var t := "0" + [marker] + digits;
    RadixEnds(marker, digits);
    NumberOfPlain(t);
    RadixTrimmed(marker, digits);
  }

  lemma RadixEnds(marker: char, digits: string)
    requires RadixOf(marker) > 0 && |digits| > 0 && AllInRadix(digits, RadixOf(marker))
    ensures var t := "0" + [marker] + digits; |t| > 0 && !IsSpace(t[0]) && !IsSpace(t[|t| - 1])
  {
    var t := "0" + [marker] + digits;
    assert t[|t| - 1] == digits[|digits| - 1];
    assert RadixDigit(t[|t| - 1]) >= 0;
  }

  lemma RadixTrimmed(marker: char, digits: string)
    requires RadixOf(marker) > 0 && |digits| > 0 && AllInRadix(digits, RadixOf(marker))
    ensures NumberOfTrimmed("0" + [marker] + digits) == Some(RadixValue(digits, RadixOf(marker)))
  {
    var t := "0" + [marker] + digits;
    assert t[0] == '0' && t[1] == marker && t[2..] == digits;
  }

  /** `Number('2.0')` is 2. */
  lemma NumberOfPointZero()
    ensures NumberOf("2.0") == Some(2)
  {
    assert Zeros(1) == "0" && "2" + "." + Zeros(1) == "2.0";
    NumberOfPlain("2.0");
    PointZerosTrimmed("2", 1);
    PointZerosDecimal("2", 1);
    PointZerosValue("2", 1);
    assert DigitsValue("2") == 2;
  }

  /** `Number('1e1')` is 10. */
  lemma NumberOfTenByExponent()
    ensures NumberOf("1e1") == Some(10)
  {
    NumberOfPlain("1e1");
    DecimalLead("1e1");
    assert ExponentMark("1e1") == 1;
  }

  /** `Number('0x1A')` is 26. */
  lemma NumberOfHex()
    ensures NumberOf("0x1A") == Some(26)
  {
    NumberOfPlain("0x1A");
    assert "0x1A"[2..] == "1A" && RadixOf('x') == 16;
    assert AllInRadix("1A", 16);
    assert "1A"[..1] == "1" && "1"[..0] == "";
    assert RadixValue("1A", 16) == 26;
  }

  // ---------------------------------------------------------------------
  // Numbers
  // ---------------------------------------------------------------------

  /** `Math.round`: halves round towards positive infinity. */
  function Round(x: real): (r: int)
    ensures x - 1.0 / 2.0 < r as real <= x + 1.0 / 2.0
  {
    (x + 1.0 / 2.0).Floor
  }

  function MaxR(a: real, b: real): real {
    if a >= b then a else b
  }

  function MinR(a: real, b: real): real {
    if a <= b then a else b
  }

  function Sum(s: seq<real>): real {
    if |s| == 0 then 0.0 else Sum(s[..|s| - 1]) + s[|s| - 1]
  }

  /** The largest and the smallest of a non-empty list of values. */
  function MaxOf(s: seq<real>): (m: real)
    requires |s| > 0
    ensures m in s && forall x :: x in s ==> x <= m
  {
    if |s| == 1 then s[0] else
      var m := MaxOf(s[..|s| - 1]);
      assert forall x :: x in s ==> x in s[..|s| - 1] || x == s[|s| - 1];
      MaxR(m, s[|s| - 1])
  }

  function MinOf(s: seq<real>): (m: real)
    requires |s| > 0
    ensures m in s && forall x :: x in s ==> m <= x
  {
    if |s| == 1 then s[0] else
      var m := MinOf(s[..|s| - 1]);
      assert forall x :: x in s ==> x in s[..|s| - 1] || x == s[|s| - 1];
      MinR(m, s[|s| - 1])
  }

  /** `r` is the ceiling of `a / b`: the fewest blocks of `b` covering `a`. */
  predicate IsCeil(a: nat, b: nat, r: nat) {
    (r - 1) * b < a <= r * b || (a == 0 && r == 0)
  }

  /** `Math.ceil(a / b)` for a positive divisor. */
  function CeilDiv(a: nat, b: nat): (r: nat)
    requires b > 0
    ensures IsCeil(a, b, r)
  {
    QuotientFloor(a + b - 1, b);
    var q := Quotient(a + b - 1, b);
    assert (q + 1) * b == q * b + b;
    assert (q - 1) * b == q * b - b;
    q
  }

  /** How many whole times `b` fits into `a`: `Math.floor(a / b)`. It counts
      by subtraction, so that the quotient stays a single quantity to the
      solver; QuotientFloor shows it is the floor. */
  function Quotient(a: nat, b: nat): nat
    requires b > 0
    decreases a
  {
    if a < b then 0 else 1 + Quotient(a - b, b)
  }

  lemma {:induction false} QuotientFloor(a: nat, b: nat)
    requires b > 0
    ensures Quotient(a, b) * b <= a < (Quotient(a, b) + 1) * b
    decreases a
  {
    if a >= b {
      QuotientFloor(a - b, b);
      var q := Quotient(a - b, b);
      assert (q + 1) * b == q * b + b;
      assert (q + 2) * b == (q + 1) * b + b;
    }
  }

  function Min(a: int, b: int): int {
    if a <= b then a else b
  }

  /** A date query parameter: absent, present but unparsable by `new Date`,
      or a valid instant. */
  datatype DateArg = NoDate | BadDate | At(ms: int)

  /** A JavaScript number, as `Number(...)` of a query parameter hands it
      to a service: NaN, an infinity, or a finite value. */
  datatype JsNumber = NaN | Infinity(negative: bool) | Finite(x: real)

  predicate IsInteger(x: real) {
    x.Floor as real == x
  }

  /** The `skip` and `take` of a Prisma query. */
  datatype Paging = Paging(skip: nat, take: int)

  /** `(page - 1) * limit` on JavaScript numbers. */
  function SkipOf(page: real, limit: real): real {
    (page - 1.0) * limit
  }

  /** The paging Prisma accepts for page `page` of `limit` rows: `skip` is
      `(page - 1) * limit`; both it and `take: limit` must be finite
      integers, and `skip` must not be negative. Anything else (NaN, an
      infinity, a fraction) fails Prisma's argument validation. */
  function PageWindow(page: JsNumber, limit: JsNumber): (r: Option<Paging>)
    ensures r.Some? <==>
      && page.Finite? && limit.Finite?
      && IsInteger(limit.x) && IsInteger(SkipOf(page.x, limit.x))
      && SkipOf(page.x, limit.x) >= 0.0
    ensures r.Some? ==> r.value.skip as real == SkipOf(page.x, limit.x) && r.value.take as real == limit.x
  {
    if !page.Finite? || !limit.Finite? then None
    else
      var skip := SkipOf(page.x, limit.x);
      if IsInteger(limit.x) && IsInteger(skip) && skip >= 0.0 then Some(Paging(skip.Floor, limit.x.Floor))
      else None
  }

  /** For whole numbers the paging is the integer `(page - 1) * limit`, and
      it is refused exactly when that is negative. */
  lemma PageWindowOfIntegers(page: int, limit: int)
    ensures PageWindow(Finite(page as real), Finite(limit as real)) ==
            if Offset(page, limit) >= 0 then Some(Paging(Offset(page, limit), limit)) else None
  {
    var o := Offset(page, limit);
    assert SkipOf(page as real, limit as real) == o as real by {
      assert page as real - 1.0 == (page - 1) as real;
      CastProduct(page - 1, limit);
    }
  }

  lemma CastProduct(a: int, b: int)
    ensures (a as real) * (b as real) == (a * b) as real
  {
  }

  /** A fractional page can still be served: page 1.5 of 2 rows skips one
      row. */
  lemma FractionalPage()
    ensures PageWindow(Finite(1.5), Finite(2.0)) == Some(Paging(1, 2))
  {
    assert SkipOf(1.5, 2.0) == 1.0;
  }

  /** `(page - 1) * limit`, the `skip` Prisma is given. */
  function Offset(page: int, limit: int): int {
    (page - 1) * limit
  }

  /** The skip is negative, which Prisma rejects, exactly when the page is
      before the first for a positive limit or after it for a negative one. */
  lemma OffsetNegative(page: int, limit: int)
    ensures Offset(page, limit) < 0 <==> (page < 1 && limit > 0) || (page > 1 && limit < 0)
  {
    if page >= 1 && limit >= 0 {
      MulNonNegative(page - 1, limit);
    } else if page <= 1 && limit <= 0 {
      MulNonNegative(1 - page, -limit);
      assert (1 - page) * -limit == (page - 1) * limit;
    } else if page < 1 {
      MulPositive(1 - page, limit);
      assert (1 - page) * limit == -((page - 1) * limit);
    } else {
      MulPositive(page - 1, -limit);
      assert (page - 1) * -limit == -((page - 1) * limit);
    }
  }

  lemma MulPositive(a: int, b: int)
    requires a > 0 && b > 0
    ensures a * b > 0
  {
    MulMonotone(1, a, b);
  }

  /** `(page - 1) * limit` for a page of at least 1. */
  function Skip(page: int, limit: int): (n: nat)
    requires page >= 1 && limit >= 1
  {
    MulNonNegative(page - 1, limit);
    (page - 1) * limit
  }

  lemma MulNonNegative(a: int, b: int)
    requires a >= 0 && b >= 0
    ensures a * b >= 0
  {
  }

  lemma MulMonotone(a: int, b: int, c: int)
    requires a <= b && c >= 0
    ensures a * c <= b * c
  {
    assert b * c - a * c == (b - a) * c;
    MulNonNegative(b - a, c);
  }

  /** With `last = ceil(total / limit)`, page `page` starts inside the
      selection exactly when it is at most `last`. */
  lemma SkipWithin(page: int, limit: int, total: nat, last: nat)
    requires page >= 1 && limit >= 1
    requires IsCeil(total, limit, last)
    ensures Skip(page, limit) < total <==> page <= last
  {
    if page <= last {
      MulMonotone(page - 1, last - 1, limit);
    } else {
      MulMonotone(last, page - 1, limit);
    }
  }

  // ---------------------------------------------------------------------
  // Sequences
  // ---------------------------------------------------------------------

  /** `s.filter(p)`. */
  function Filter<T(!new)>(s: seq<T>, p: T -> bool): (r: seq<T>)
    ensures |r| <= |s|
    ensures forall x :: x in r <==> x in s && p(x)
    ensures forall i :: 0 <= i < |r| ==> p(r[i])
  {
    if |s| == 0 then [] else
      var rest := Filter(s[..|s| - 1], p);
      assert forall x :: x in s <==> x in s[..|s| - 1] || x == s[|s| - 1];
      if p(s[|s| - 1]) then rest + [s[|s| - 1]] else rest
  }

  /** A filter every element passes changes nothing. */
  lemma {:induction false} FilterKeepsAll<T(!new)>(s: seq<T>, p: T -> bool)
    requires forall i :: 0 <= i < |s| ==> p(s[i])
    ensures Filter(s, p) == s
  {
    if |s| > 0 {
      FilterKeepsAll(s[..|s| - 1], p);
      assert s[..|s| - 1] + [s[|s| - 1]] == s;
    }
  }

  lemma FilterAppend<T(!new)>(a: seq<T>, b: seq<T>, p: T -> bool)
    ensures Filter(a + b, p) == Filter(a, p) + Filter(b, p)
  {
    if |b| == 0 {
      assert a + b == a;
    } else {
      assert (a + b)[..|a + b| - 1] == a + b[..|b| - 1];
      FilterAppend(a, b[..|b| - 1], p);
    }
  }

  /** A filter and its complement split a sequence between them. */
  lemma {:induction false} FilterPartition<T(!new)>(s: seq<T>, p: T -> bool, q: T -> bool)
    requires forall x :: q(x) == !p(x)
    ensures multiset(Filter(s, p)) + multiset(Filter(s, q)) == multiset(s)
  {
    if |s| > 0 {
      FilterPartition(s[..|s| - 1], p, q);
      assert s == s[..|s| - 1] + [s[|s| - 1]];
    }
  }

  /** A filter that keeps nothing of `s` gives the empty sequence. */
  lemma {:induction false} FilterNone<T(!new)>(s: seq<T>, p: T -> bool)
    requires forall x :: x in s ==> !p(x)
    ensures Filter(s, p) == []
  {
    if |s| > 0 {
      FilterNone(s[..|s| - 1], p);
    }
  }

  /** `s.slice(skip, skip + take)`, as Prisma's `skip`/`take` page a result. */
  function Page<T>(s: seq<T>, skip: nat, take: nat): (r: seq<T>)
    ensures |r| <= take
    ensures skip <= |s| ==> |r| == if |s| - skip < take then |s| - skip else take
    ensures forall i :: 0 <= i < |r| ==> skip + i < |s| && r[i] == s[skip + i]
  {
    if skip >= |s| then []
    else if |s| - skip <= take then s[skip..]
    else s[skip..skip + take]
  }

  /** Prisma's backward paging, a negative `take`: the `take` rows that
      precede the last `skip` rows of the ordered result. */
  function PageBack<T>(s: seq<T>, skip: nat, take: nat): (r: seq<T>)
    ensures |r| == if skip < |s| then Min(take, |s| - skip) else 0
    ensures forall i :: 0 <= i < |r| ==> 0 <= |s| - skip - |r| + i < |s| && r[i] == s[|s| - skip - |r| + i]
  {
    if skip >= |s| then []
    else
      var hi := |s| - skip;
      var lo := if hi <= take then 0 else hi - take;
      s[lo..hi]
  }

  /** The rows Prisma returns for `skip` and `take: limit`: a negative
      `take` reads backwards from the end of the result. */
  function Shown<T>(all: seq<T>, skip: nat, limit: int): (r: seq<T>)
    ensures limit == 0 ==> r == []
    ensures limit >= 0 ==> |r| == if skip < |all| then Min(limit, |all| - skip) else 0
    ensures limit >= 0 ==> forall i :: 0 <= i < |r| ==> skip + i < |all| && r[i] == all[skip + i]
    ensures limit < 0 ==> |r| == if skip < |all| then Min(-limit, |all| - skip) else 0
    ensures limit < 0 ==> forall i :: 0 <= i < |r| ==>
              0 <= |all| - skip - |r| + i < |all| && r[i] == all[|all| - skip - |r| + i]
  {
    if limit >= 0 then Page(all, skip, limit) else PageBack(all, skip, -limit)
  }

  /** A page of a result sorted by descending `key` is drawn from it and is
      itself sorted so, whichever way it reads. */
  lemma ShownWithinBy<T>(all: seq<T>, skip: nat, limit: int, key: T -> int)
    requires forall i, j :: 0 <= i < j < |all| ==> key(all[i]) >= key(all[j])
    ensures forall x :: x in Shown(all, skip, limit) ==> x in all
    ensures var r := Shown(all, skip, limit);
            forall i, j :: 0 <= i < j < |r| ==> key(r[i]) >= key(r[j])
  {
    var r := Shown(all, skip, limit);
    var from := if limit >= 0 then skip else |all| - skip - |r|;
    assert forall i :: 0 <= i < |r| ==> 0 <= from + i < |all| && r[i] == all[from + i];
    forall x | x in r ensures x in all {
      var i :| 0 <= i < |r| && r[i] == x;
      assert all[from + i] == x;
    }
    forall i, j | 0 <= i < j < |r| ensures key(r[i]) >= key(r[j]) {
      assert r[i] == all[from + i] && r[j] == all[from + j];
    }
  }

  /** `s` without its element at position `i`. */
  function RemoveAt<T>(s: seq<T>, i: nat): (r: seq<T>)
    requires i < |s|
    ensures |r| == |s| - 1
    ensures forall k :: 0 <= k < |r| ==> r[k] == if k < i then s[k] else s[k + 1]
    ensures forall x :: x in r ==> x in s
    ensures forall x :: x in s && x != s[i] ==> x in r
  {
    assert s == s[..i] + [s[i]] + s[i + 1..];
    s[..i] + s[i + 1..]
  }

  /** Removing one element takes exactly that one occurrence out. */
  lemma RemoveAtMultiset<T>(s: seq<T>, i: nat)
    requires i < |s|
    ensures multiset(RemoveAt(s, i)) + multiset{s[i]} == multiset(s)
  {
    assert s == s[..i] + [s[i]] + s[i + 1..];
  }

  predicate NoDup<T(==)>(s: seq<T>) {
    forall i, j :: 0 <= i < j < |s| ==> s[i] != s[j]
  }

  /** `[...new Set(s)]`: first occurrences, in order. */
  function Dedupe<T(==,!new)>(s: seq<T>): (r: seq<T>)
    ensures NoDup(r)
    ensures forall x :: x in r <==> x in s
    ensures |r| <= |s|
  {
    if |s| == 0 then [] else
      var r := Dedupe(s[..|s| - 1]);
      assert forall x :: x in s <==> x in s[..|s| - 1] || x == s[|s| - 1];
      if s[|s| - 1] in r then r else r + [s[|s| - 1]]
  }

  lemma {:induction false} FilterNoDup<T(!new)>(s: seq<T>, p: T -> bool)
    requires NoDup(s)
    ensures NoDup(Filter(s, p))
  {
    if |s| > 0 {
      var init := s[..|s| - 1];
      assert NoDup(init);
      FilterNoDup(init, p);
      assert s[|s| - 1] !in init;
    }
  }

  /** An element occurs at most once in a sequence without duplicates. */
  lemma {:induction false} NoDupCount<T>(s: seq<T>, x: T)
    requires NoDup(s)
    ensures multiset(s)[x] <= 1
  {
    if |s| > 0 {
      var init := s[..|s| - 1];
      assert s == init + [s[|s| - 1]];
      assert NoDup(init);
      NoDupCount(init, x);
      if x == s[|s| - 1] {
        assert x !in init;
        assert multiset(init)[x] == 0;
      }
    }
  }

  /** Reordering keeps a sequence free of duplicates. */
  lemma NoDupPermutation<T>(s: seq<T>, r: seq<T>)
    requires NoDup(s) && multiset(r) == multiset(s)
    ensures NoDup(r)
  {
    forall i, j | 0 <= i < j < |r|
      ensures r[i] != r[j]
    {
      var x := r[i];
      NoDupCount(s, x);
      assert r == r[..j] + r[j..];
      assert x in r[..j];
      assert multiset(r)[x] == multiset(r[..j])[x] + multiset(r[j..])[x];
      assert multiset(r[j..])[x] == 0;
      assert r[j] == r[j..][0];
    }
  }

  /** A sequence without duplicates has as many elements as its set. */
  lemma {:induction false} NoDupCard<T>(s: seq<T>)
    requires NoDup(s)
    ensures |set x | x in s| == |s|
  {
    if |s| > 0 {
      var init := s[..|s| - 1];
      assert NoDup(init);
      NoDupCard(init);
      var last := s[|s| - 1];
      assert (set x | x in s) == (set x | x in init) + {last};
      assert last !in (set x | x in init);
    }
  }

  /** A sequence has at least as many elements as its set. */
  lemma {:induction false} SetCard<T>(s: seq<T>)
    ensures |set x | x in s| <= |s|
  {
    if |s| > 0 {
      var init := s[..|s| - 1];
      SetCard(init);
      assert (set x | x in s) == (set x | x in init) + {s[|s| - 1]};
    }
  }

  /** A sequence without duplicates whose elements all occur in `s` is no
      longer than `s`. */
  lemma NoDupWithin<T>(w: seq<T>, s: seq<T>)
    requires NoDup(w) && forall x :: x in w ==> x in s
    ensures |w| <= |s|
  {
    NoDupCard(w);
    SetCard(s);
    var a, b := set x | x in w, set x | x in s;
    assert b == a + (b - a);
    assert a * (b - a) == {};
  }

  /** `r` sits inside `s` at the strictly increasing positions `pos`. */
  predicate Embeds<T(==)>(r: seq<T>, s: seq<T>, pos: seq<int>) {
    && |pos| == |r|
    && (forall i :: 0 <= i < |pos| ==> 0 <= pos[i] < |s| && r[i] == s[pos[i]])
    && (forall i, j :: 0 <= i < j < |pos| ==> pos[i] < pos[j])
  }

  /** Appending one element to `s` keeps an embedding, and extends it when
      the element is appended to `r` as well. */
  lemma EmbedsSnoc<T>(r: seq<T>, s: seq<T>, pos: seq<int>, x: T)
    requires Embeds(r, s, pos)
    ensures Embeds(r, s + [x], pos)
    ensures Embeds(r + [x], s + [x], pos + [|s|])
  {
  }

  /** The positions in `s` of the elements a filter keeps: a filter keeps
      the input order. */
  function FilterPositions<T(==,!new)>(s: seq<T>, p: T -> bool): (pos: seq<int>)
    ensures Embeds(Filter(s, p), s, pos)
  {
    if |s| == 0 then [] else
      var init, last := s[..|s| - 1], s[|s| - 1];
      var pos := FilterPositions(init, p);
      assert s == init + [last];
      EmbedsSnoc(Filter(init, p), init, pos, last);
      if p(last) then pos + [|init|] else pos
  }

  /** `s.indexOf(x)`: the first position of `x`, or -1. */
  function IndexOf<T(==)>(s: seq<T>, x: T): (i: int)
    ensures -1 <= i < |s|
    ensures i >= 0 ==> s[i] == x && forall j :: 0 <= j < i ==> s[j] != x
    ensures i == -1 <==> x !in s
  {
    if |s| == 0 then -1
    else if s[0] == x then 0
    else
      var r := IndexOf(s[1..], x);
      assert x in s <==> x in s[1..];
      if r == -1 then -1 else r + 1
  }

  /** In a sequence without duplicates an element's index is its position. */
  lemma IndexOfAt<T>(s: seq<T>, j: int)
    requires NoDup(s) && 0 <= j < |s|
    ensures IndexOf(s, s[j]) == j
  {
  }
}

=== FILE: dashboard.dfy ===
/** The dashboard service: agent version ordering, the summary counters and
    the agent status list. Tables are in-memory lists; the clock readings
    (`now`, local midnight) are parameters. */
module Dashboard {
  import opened Common
  import opened Sorting
  import opened Fleet

  // ---------------------------------------------------------------------
  // compareVersions
  // ---------------------------------------------------------------------

  predicate VersionChar(c: char) {
    IsDigit(c) || c == '.'
  }

  /** `v.replace(/[^0-9.]/g, '')`. */
  function VersionChars(v: string): (r: string)
    ensures forall i :: 0 <= i < |r| ==> VersionChar(r[i])
  {
    Filter(v, VersionChar)
  }

  /** `s.split('.')`: the pieces between dots, at least one. */
  function SplitDots(s: string): (r: seq<string>)
    ensures |r| >= 1
    ensures forall k :: 0 <= k < |r| ==> '.' !in r[k]
  {
    if |s| == 0 then [""]
    else
      var r := SplitDots(s[..|s| - 1]);
      var c := s[|s| - 1];
      if c == '.' then r + [""] else r[..|r| - 1] + [r[|r| - 1] + [c]]
  }

  /** `pieces.join('.')`. */
  function JoinDots(pieces: seq<string>): string {
    if |pieces| == 0 then ""
    else if |pieces| == 1 then pieces[0]
    else JoinDots(pieces[..|pieces| - 1]) + "." + pieces[|pieces| - 1]
  }

  /** Splitting on dots loses nothing: joining the pieces gives the string
      back. */
  lemma {:induction false} SplitDotsRoundTrip(s: string)
    ensures JoinDots(SplitDots(s)) == s
  {
    if |s| > 0 {
      var init, c := s[..|s| - 1], s[|s| - 1];
      assert s == init + [c];
      var r := SplitDots(init);
      SplitDotsRoundTrip(init);
      if c == '.' {
        JoinSnoc(r, "");
      } else {
        var p, x := r[..|r| - 1], r[|r| - 1];
        assert SplitDots(s) == p + [x + [c]];
        assert p + [x] == r;
        JoinExtendLast(p, x, c);
      }
    }
  }

  /** Appending a character to the last piece appends it to the join. */
  lemma JoinExtendLast(p: seq<string>, x: string, c: char)
    ensures JoinDots(p + [x + [c]]) == JoinDots(p + [x]) + [c]
  {
    if |p| > 0 {
      JoinSnoc(p, x);
      JoinSnoc(p, x + [c]);
      var j := JoinDots(p);
      assert j + "." + (x + [c]) == (j + "." + x) + [c];
    }
  }

  lemma JoinSnoc(r: seq<string>, x: string)
    requires |r| > 0
    ensures JoinDots(r + [x]) == JoinDots(r) + "." + x
  {
    assert (r + [x])[..|r|] == r;
  }

  /** `Number(piece) || 0`: the decimal value of a piece of digits, 0 for
      the empty piece (and for anything else, which `NaN || 0` turns into
      0; the pieces here hold digits only). */
  function PieceValue(piece: string): nat {
    if AllDigits(piece) then DigitsValue(piece) else 0
  }

  /** `v.replace(...).split('.').map(Number)`. */
  function Parts(v: string): (p: seq<nat>)
    ensures |p| == |SplitDots(VersionChars(v))|
  {
    var pieces := SplitDots(VersionChars(v));
    seq(|pieces|, k requires 0 <= k < |pieces| => PieceValue(pieces[k]))
  }

  /** `p[i] || 0`: a missing component counts as 0. */
  function At(p: seq<nat>, i: nat): nat {
    if i < |p| then p[i] else 0
  }

  function CompareFrom(p1: seq<nat>, p2: seq<nat>, i: nat): (r: int)
    ensures -1 <= r <= 1
    decreases |p1| + |p2| - i
  {
    if i >= |p1| && i >= |p2| then 0
    else if At(p1, i) > At(p2, i) then 1
    else if At(p1, i) < At(p2, i) then -1
    else CompareFrom(p1, p2, i + 1)
  }

  /** `compareVersions(v1, v2)`: 1, -1 or 0. */
  function CompareVersions(v1: string, v2: string): (r: int)
    ensures -1 <= r <= 1
  {
    CompareFrom(Parts(v1), Parts(v2), 0)
  }

  /** The reference order: component lists padded with zeros, compared
      lexicographically. */
  ghost predicate SameParts(p1: seq<nat>, p2: seq<nat>) {
    forall j: nat :: At(p1, j) == At(p2, j)
  }

  ghost predicate PartsBelow(p1: seq<nat>, p2: seq<nat>) {
    exists k: nat :: At(p1, k) < At(p2, k) && forall j: nat :: j < k ==> At(p1, j) == At(p2, j)
  }

  lemma {:induction false} CompareFromMeaning(p1: seq<nat>, p2: seq<nat>, i: nat)
    requires forall j: nat :: j < i ==> At(p1, j) == At(p2, j)
    ensures CompareFrom(p1, p2, i) == 0 <==> SameParts(p1, p2)
    ensures CompareFrom(p1, p2, i) == -1 <==> PartsBelow(p1, p2)
    ensures CompareFrom(p1, p2, i) == 1 <==> PartsBelow(p2, p1)
    decreases |p1| + |p2| - i
  {
    if i >= |p1| && i >= |p2| {
      assert SameParts(p1, p2) by {
        forall j: nat ensures At(p1, j) == At(p2, j) {
          if j >= i {
            assert At(p1, j) == 0 == At(p2, j);
          }
        }
      }
      NotBelow(p1, p2);
      NotBelow(p2, p1);
    } else if At(p1, i) != At(p2, i) {
      assert !SameParts(p1, p2) by {
        assert At(p1, i) != At(p2, i);
      }
      if At(p1, i) < At(p2, i) {
        assert PartsBelow(p1, p2);
        FirstDifference(p2, p1, i);
      } else {
        assert PartsBelow(p2, p1);
        FirstDifference(p1, p2, i);
      }
    } else {
      CompareFromMeaning(p1, p2, i + 1);
    }
  }

  /** Lists that agree everywhere are not below each other. */
  lemma NotBelow(p1: seq<nat>, p2: seq<nat>)
    requires SameParts(p1, p2)
    ensures !PartsBelow(p1, p2)
  {
  }

  /** Below the first difference, `p2` is not below `p1` when it is larger
      there. */
  lemma FirstDifference(p1: seq<nat>, p2: seq<nat>, i: nat)
    requires forall j: nat :: j < i ==> At(p1, j) == At(p2, j)
    requires At(p2, i) < At(p1, i)
    ensures !PartsBelow(p1, p2)
  {
    forall k: nat ensures !(At(p1, k) < At(p2, k) && forall j: nat :: j < k ==> At(p1, j) == At(p2, j)) {
      if k > i {
        assert At(p1, i) != At(p2, i);
      }
    }
  }

  /** `compareVersions` is the padded lexicographic order on numeric
      components. */
  lemma CompareVersionsMeaning(v1: string, v2: string)
    ensures CompareVersions(v1, v2) == 0 <==> SameParts(Parts(v1), Parts(v2))
    ensures CompareVersions(v1, v2) == -1 <==> PartsBelow(Parts(v1), Parts(v2))
    ensures CompareVersions(v1, v2) == 1 <==> PartsBelow(Parts(v2), Parts(v1))
  {
    CompareFromMeaning(Parts(v1), Parts(v2), 0);
  }

  lemma {:induction false} CompareFromAntisymmetric(p1: seq<nat>, p2: seq<nat>, i: nat)
    ensures CompareFrom(p1, p2, i) == -CompareFrom(p2, p1, i)
    decreases |p1| + |p2| - i
  {
    if !(i >= |p1| && i >= |p2|) && At(p1, i) == At(p2, i) {
      CompareFromAntisymmetric(p1, p2, i + 1);
    }
  }

  lemma {:induction false} CompareFromTransitive(p1: seq<nat>, p2: seq<nat>, p3: seq<nat>, i: nat)
    requires CompareFrom(p1, p2, i) <= 0 && CompareFrom(p2, p3, i) <= 0
    ensures CompareFrom(p1, p3, i) <= 0
    decreases |p1| + |p2| + |p3| - i
  {
    if !(i >= |p1| && i >= |p3|) && At(p1, i) == At(p3, i) {
      if i >= |p2| {
        assert At(p2, i) == 0;
      }
      assert At(p1, i) == At(p2, i);
      CompareFromTransitive(p1, p2, p3, i + 1);
    }
  }

  /** `compareVersions(v, v)` is 0; swapping the arguments negates the
      result; and "not after" is transitive. */
  lemma CompareVersionsLaws(a: string, b: string, c: string)
    ensures CompareVersions(a, a) == 0
    ensures CompareVersions(a, b) == -CompareVersions(b, a)
    ensures CompareVersions(a, b) <= 0 && CompareVersions(b, c) <= 0 ==> CompareVersions(a, c) <= 0
  {
    CompareFromMeaning(Parts(a), Parts(a), 0);
    CompareFromAntisymmetric(Parts(a), Parts(b), 0);
    if CompareVersions(a, b) <= 0 && CompareVersions(b, c) <= 0 {
      CompareFromTransitive(Parts(a), Parts(b), Parts(c), 0);
    }
  }

  /** Characters other than digits and dots are ignored: `'v1.2'` compares
      like `'1.2'`. */
  lemma IgnoresOtherChars(x: string, v: string)
    requires forall i :: 0 <= i < |x| ==> !VersionChar(x[i])
    ensures Parts(x + v) == Parts(v)
  {
    FilterAppend(x, v, VersionChar);
    FilterNone(x, VersionChar);
    assert Filter(x, VersionChar) + Filter(v, VersionChar) == Filter(v, VersionChar);
  }

  /** A trailing `.0` adds a zero component, which compares equal:
      `'1.2'` compares like `'1.2.0'`. */
  lemma TrailingZero(v: string)
    ensures CompareVersions(v + ".0", v) == 0
  {
    var p, q := Parts(v + ".0"), Parts(v);
    PartsOfTrailingZero(v);
    forall j: nat ensures At(p, j) == At(q, j) {
      if j < |q| {
        assert p[j] == q[j];
      }
    }
    CompareVersionsMeaning(v + ".0", v);
  }

  lemma PartsOfTrailingZero(v: string)
    ensures Parts(v + ".0") == Parts(v) + [0]
  {
    var s := VersionChars(v);
    CharsOfTrailingZero(v);
    SplitOfTrailingZero(s);
    var r := SplitDots(s);
    assert PieceValue("0") == 0 by {
      assert "0"[..0] == "";
    }
    var p := Parts(v + ".0");
    assert |p| == |r| + 1;
    assert forall k :: 0 <= k < |r| ==> p[k] == PieceValue(r[k]);
  }

  lemma CharsOfTrailingZero(v: string)
    ensures VersionChars(v + ".0") == VersionChars(v) + ".0"
  {
    FilterAppend(v, ".0", VersionChar);
    assert VersionChar(".0"[0]) && VersionChar(".0"[1]);
    FilterKeepsAll(".0", VersionChar);
  }

  lemma SplitOfTrailingZero(s: string)
    ensures SplitDots(s + ".0") == SplitDots(s) + ["0"]
  {
    var r := SplitDots(s);
    assert (s + ".0")[..|s| + 1] == s + ".";
    assert (s + ".")[..|s|] == s;
    assert SplitDots(s + ".") == r + [""];
    var t := r + [""];
    var s0 := s + ".0";
    assert s0[..|s0| - 1] == s + "." && s0[|s0| - 1] == '0';
    assert SplitDots(s0) == t[..|t| - 1] + [t[|t| - 1] + ['0']];
    assert t[..|t| - 1] == r && t[|t| - 1] + ['0'] == "0";
  }

  // ---------------------------------------------------------------------
  // Latest agent version
  // ---------------------------------------------------------------------

  predicate VersionLe(a: string, b: string) {
    CompareVersions(a, b) <= 0
  }

  /** The distinct non-null, non-empty `appVer` values. */
  function KnownVersions(appVers: seq<Option<string>>): (r: seq<string>)
    ensures forall v :: v in r <==> v != "" && Some(v) in appVers
  {
    var given := Filter(appVers, (o: Option<string>) => o.Some? && o.value != "");
    var vs := seq(|given|, i requires 0 <= i < |given| => given[i].value);
    assert forall v :: v in vs <==> Some(v) in given by {
      forall v ensures v in vs <==> Some(v) in given {
        if Some(v) in given {
          var i :| 0 <= i < |given| && given[i] == Some(v);
          assert vs[i] == v;
        }
      }
    }
    Dedupe(vs)
  }

  /** `versions.sort(compareVersions)` and its last element, or `''`. */
  function LatestVersion(appVers: seq<Option<string>>): (r: string)
    ensures r == "" <==> forall v :: Some(v) in appVers ==> v == ""
    ensures r != "" ==> Some(r) in appVers
    ensures forall v :: Some(v) in appVers && v != "" ==> CompareVersions(v, r) <= 0
  {
    var known := KnownVersions(appVers);
    LastOfSorted(known);
    if |known| == 0 then ""
    else
      var sorted := SortWith(known, VersionLe);
      var r := sorted[|sorted| - 1];
      assert r in known;
      r
  }

  /** The last element of the sorted versions is one of them and no
      version comes after it. */
  lemma LastOfSorted(known: seq<string>)
    ensures var sorted := SortWith(known, VersionLe);
            && |sorted| == |known|
            && (|sorted| > 0 ==> sorted[|sorted| - 1] in known
                                 && forall v :: v in known ==> VersionLe(v, sorted[|sorted| - 1]))
  {
    var sorted := SortWith(known, VersionLe);
    if |sorted| > 0 {
      assert forall v :: v in sorted <==> v in known by {
        assert forall v :: v in sorted <==> v in multiset(known);
      }
      VersionLeTotal();
      UpToLast(sorted);
    }
  }

  lemma VersionLeTotal()
    ensures Total(VersionLe)
  {
    forall a, b ensures VersionLe(a, b) || VersionLe(b, a) {
      CompareVersionsLaws(a, b, b);
    }
  }

  lemma VersionLeTransitive(a: string, b: string, c: string)
    requires VersionLe(a, b) && VersionLe(b, c)
    ensures VersionLe(a, c)
  {
    CompareVersionsLaws(a, b, c);
  }

  /** In a list sorted by `compareVersions`, every version is at most the
      last one. */
  lemma UpToLast(s: seq<string>)
    requires |s| > 0 && AdjacentSorted(s, VersionLe)
    ensures forall i :: 0 <= i < |s| ==> VersionLe(s[i], s[|s| - 1])
  {
    var n := |s| - 1;
    var i := n;
    CompareVersionsLaws(s[n], s[n], s[n]);
    while i > 0
      invariant 0 <= i <= n
      invariant forall j :: i <= j <= n ==> VersionLe(s[j], s[n])
    {
      assert VersionLe(s[i - 1], s[i]);
      VersionLeTransitive(s[i - 1], s[i], s[n]);
      i := i - 1;
    }
  }

  // ---------------------------------------------------------------------
  // getSummary
  // ---------------------------------------------------------------------

  datatype DashboardDb = DashboardDb(
    appVersions: seq<Option<string>>,     // agent_info.app_ver
    equipment: seq<Equipment>,            // ref_equipment with its agent_info link
    sdwts: seq<SdwtRow>,                  // ref_sdwt
    serverUpdates: seq<Option<int>>,      // cfg_server.update
    errors: seq<ErrorEvent>)              // plg_error

  /** `s && s.trim() !== '' ? s : undefined`: the value is kept untrimmed. */
  function SafeFilter(s: Option<string>): (r: Option<string>)
    ensures r.Some? <==> s.Some? && !Blank(s.value)
    ensures r.Some? ==> r == s
  {
    if s.Some? && !Blank(s.value) then s else None
  }

  predicate ErrorMatches(db: DashboardDb, x: ErrorEvent, since: int, site: Option<string>, sdwt: Option<string>) {
    x.timeStamp >= since && EventMatches(db.equipment, db.sdwts, x, site, sdwt)
  }

  datatype Summary = Summary(
    totalEqpCount: nat,
    totalServers: nat,
    onlineAgentCount: nat,
    inactiveAgentCount: nat,
    todayErrorCount: nat,
    todayErrorTotalCount: nat,
    newAlarmCount: nat,
    latestAgentVersion: string,
    totalSdwts: nat,
    serverHealth: int)

  const TenMinutes := 10 * 60 * 1000
  const OneHour := 60 * 60 * 1000

  function ErrorEqps(db: DashboardDb, today: int, site: Option<string>, sdwt: Option<string>): (r: seq<string>)
    ensures NoDup(r)
    ensures forall id :: id in r <==> exists x :: x in db.errors && ErrorMatches(db, x, today, site, sdwt) && x.eqpId == id
  {
    var todays := Filter(db.errors, (x: ErrorEvent) => ErrorMatches(db, x, today, site, sdwt));
    var ids := seq(|todays|, i requires 0 <= i < |todays| => todays[i].eqpId);
    assert forall x :: x in todays ==> x.eqpId in ids by {
      forall x | x in todays ensures x.eqpId in ids {
        var i :| 0 <= i < |todays| && todays[i] == x;
        assert ids[i] == x.eqpId;
      }
    }
    Dedupe(ids)
  }

  /** Which query of `getSummary` throws, if any. A failure of the version,
      equipment, server or SDWT queries reaches the outer catch; the two
      error counts and the distinct-equipment query sit in an inner
      try/catch that only logs. */
  datatype Outage = NoOutage | MainQueryFails | ErrorCountsFail | ErrorEqpsFail

  /** Equipment with an agent, under the site and SDWT filters. */
  predicate CountedEqp(db: DashboardDb, e: Equipment, site: Option<string>, sdwt: Option<string>) {
    e.hasAgent && EquipmentMatches(db.sdwts, e, site, sdwt)
  }

  /** A server whose `update` lies within the last ten minutes. */
  predicate ServerOnline(u: Option<int>, now: int) {
    u.Some? && u.value >= now - TenMinutes
  }

  /** An SDWT in use, on the site when one is given. */
  predicate CountedSdwt(x: SdwtRow, site: Option<string>) {
    x.isUse == "Y" && (site.Some? ==> x.site == site.value)
  }

  /** `getSummary` at time `now` (ms) with local midnight `today`. */
  function GetSummary(db: DashboardDb, site: Option<string>, sdwt: Option<string>, now: int, today: int, outage: Outage): (r: Result<Summary>)
    ensures r.Err? <==> outage == MainQueryFails
    ensures r.Err? ==> r.error.Internal?
    ensures r.Ok? ==> var v := r.value;
            && v.totalEqpCount == |Filter(db.equipment, (e: Equipment) => CountedEqp(db, e, SafeFilter(site), SafeFilter(sdwt)))|
            && v.totalServers == |db.serverUpdates|
            && v.onlineAgentCount == |Filter(db.serverUpdates, (u: Option<int>) => ServerOnline(u, now))|
            && v.totalSdwts == |Filter(db.sdwts, (x: SdwtRow) => CountedSdwt(x, SafeFilter(site)))|
            && v.onlineAgentCount <= v.totalServers
            && v.inactiveAgentCount == (if v.totalEqpCount >= v.onlineAgentCount then v.totalEqpCount - v.onlineAgentCount else 0)
            && (v.totalServers > 0 ==> v.serverHealth == Round(Percent(v.onlineAgentCount, v.totalServers)))
            && 0 <= v.serverHealth <= 100
            && (v.totalServers == 0 ==> v.serverHealth == 0)
            && v.latestAgentVersion == LatestVersion(db.appVersions)
    ensures r.Ok? && outage != ErrorCountsFail ==>
              && r.value.todayErrorTotalCount == |Filter(db.errors, (x: ErrorEvent) => ErrorMatches(db, x, today, SafeFilter(site), SafeFilter(sdwt)))|
              && r.value.newAlarmCount == |Filter(db.errors, (x: ErrorEvent) => ErrorMatches(db, x, now - OneHour, SafeFilter(site), SafeFilter(sdwt)))|
    ensures r.Ok? && outage == NoOutage ==> r.value.todayErrorCount == |ErrorEqps(db, today, SafeFilter(site), SafeFilter(sdwt))|
    ensures r.Ok? && outage == ErrorCountsFail ==>
              r.value.todayErrorCount == 0 && r.value.todayErrorTotalCount == 0 && r.value.newAlarmCount == 0
    ensures r.Ok? && outage == ErrorEqpsFail ==> r.value.todayErrorCount == 0
    ensures r.Ok? ==> r.value.todayErrorCount <= r.value.todayErrorTotalCount
    ensures r.Ok? && outage != ErrorEqpsFail ==> (r.value.todayErrorCount == 0 <==> r.value.todayErrorTotalCount == 0)
  {
    if outage == MainQueryFails then Err(Internal("Failed to fetch dashboard summary"))
    else
      var s, d := SafeFilter(site), SafeFilter(sdwt);
      var todays := Filter(db.errors, (x: ErrorEvent) => ErrorMatches(db, x, today, s, d));
      var eqps := ErrorEqps(db, today, s, d);
      assert |eqps| == 0 <==> |todays| == 0 by {
        if |todays| > 0 {
          assert todays[0] in todays;
          assert todays[0].eqpId in eqps;
        }
      }
      ErrorEqpsBound(db, today, s, d);
      HealthRange(|Filter(db.serverUpdates, (u: Option<int>) => ServerOnline(u, now))|, |db.serverUpdates|);
      Ok(SummaryOf(db, s, d, now, today, outage))
  }

  /** The summary once the main queries have answered, for the trimmed
      filters `s` and `d`. */
  function SummaryOf(db: DashboardDb, s: Option<string>, d: Option<string>, now: int, today: int, outage: Outage): Summary {
    var totalEqp := |Filter(db.equipment, (e: Equipment) => CountedEqp(db, e, s, d))|;
    var totalServers := |db.serverUpdates|;
    var active := |Filter(db.serverUpdates, (u: Option<int>) => ServerOnline(u, now))|;
    var totalSdwts := |Filter(db.sdwts, (x: SdwtRow) => CountedSdwt(x, s))|;
    var todays := Filter(db.errors, (x: ErrorEvent) => ErrorMatches(db, x, today, s, d));
    var recent := Filter(db.errors, (x: ErrorEvent) => ErrorMatches(db, x, now - OneHour, s, d));
    var eqps := ErrorEqps(db, today, s, d);
    var health := if totalServers > 0 then Round(Percent(active, totalServers)) else 0;
    var total, alarms := if outage == ErrorCountsFail then 0 else |todays|, if outage == ErrorCountsFail then 0 else |recent|;
    var distinct := if total > 0 && outage != ErrorEqpsFail then |eqps| else 0;
    Summary(totalEqp, totalServers, active,
            if totalEqp - active > 0 then totalEqp - active else 0,
            distinct, total, alarms,
            LatestVersion(db.appVersions), totalSdwts, health)
  }

  lemma HealthRange(part: nat, whole: nat)
    requires part <= whole
    ensures whole > 0 ==> 0 <= Round(Percent(part, whole)) <= 100
  {
    if whole > 0 {
      PercentRange(part, whole);
    }
  }

  function Percent(part: nat, whole: nat): real
    requires whole > 0
  {
    part as real / whole as real * 100.0
  }

  lemma PercentRange(part: nat, whole: nat)
    requires 0 < whole && part <= whole
    ensures 0 <= Round(Percent(part, whole)) <= 100
  {
    assert part as real / whole as real <= 1.0;
  }

  /** The distinct equipment count is at most the event count. */
  lemma ErrorEqpsBound(db: DashboardDb, today: int, site: Option<string>, sdwt: Option<string>)
    ensures |ErrorEqps(db, today, site, sdwt)| <= |Filter(db.errors, (x: ErrorEvent) => ErrorMatches(db, x, today, site, sdwt))|
  {
  }

  /** `todayErrorCount` counts the distinct equipment among today's matching
      error events. */
  lemma TodayErrorCountMeaning(db: DashboardDb, site: Option<string>, sdwt: Option<string>, now: int, today: int)
    ensures GetSummary(db, site, sdwt, now, today, NoOutage).value.todayErrorCount
            == |set x | x in db.errors && ErrorMatches(db, x, today, SafeFilter(site), SafeFilter(sdwt)) :: x.eqpId|
  {
    var eqps := ErrorEqps(db, today, SafeFilter(site), SafeFilter(sdwt));
    NoDupCard(eqps);
    assert (set x | x in eqps) == set x | x in db.errors && ErrorMatches(db, x, today, SafeFilter(site), SafeFilter(sdwt)) :: x.eqpId;
  }

  /** A blank or whitespace-only site or SDWT is the same as none. */
  lemma SummaryBlankFilters(db: DashboardDb, site: string, sdwt: string, now: int, today: int, outage: Outage)
    requires Blank(site) && Blank(sdwt)
    ensures GetSummary(db, Some(site), Some(sdwt), now, today, outage) == GetSummary(db, None, None, now, today, outage)
  {
    assert SafeFilter(Some(site)) == SafeFilter(None) && SafeFilter(Some(sdwt)) == SafeFilter(None);
  }

  // ---------------------------------------------------------------------
  // getAgentStatus
  // ---------------------------------------------------------------------

  /** One row of the joined agent query before its WHERE clause and order:
      agent_info joined with ref_equipment, the agent status, the latest
      performance sample of the last day and today's alarm count. */
  datatype AgentRow = AgentRow(
    eqpId: string,
    sdwt: string,
    status: Option<string>,
    lastContact: Option<int>,
    pcName: Option<string>,
    cpuUsage: Option<real>,
    memUsage: Option<real>,
    appVer: Option<string>,
    agentType: Option<string>,
    ipAddress: Option<string>,
    os: Option<string>,
    systemType: Option<string>,
    locale: Option<string>,
    timezone: Option<string>,
    alarmCount: Option<nat>,
    perfServTs: Option<int>,
    perfEqpTs: Option<int>)

  datatype AgentReport = AgentReport(
    eqpId: string,
    isOnline: bool,
    lastContact: Option<int>,
    pcName: Option<string>,
    cpuUsage: real,
    memoryUsage: real,
    appVersion: string,
    agentType: string,
    ipAddress: string,
    os: string,
    systemType: string,
    locale: string,
    timezone: string,
    todayAlarmCount: nat,
    clockDrift: Option<real>)

  /** The WHERE clause as `getAgentStatus` builds it. */
  datatype AgentWhere = InUse | InUseAndSdwt(sdwt: string) | InUseAndSite(site: string)

  function AgentWhereOf(site: Option<string>, sdwt: Option<string>): (w: AgentWhere)
    ensures SafeFilter(sdwt).Some? ==> w == InUseAndSdwt(SafeFilter(sdwt).value)
    ensures SafeFilter(sdwt).None? && SafeFilter(site).Some? ==> w == InUseAndSite(SafeFilter(site).value)
    ensures SafeFilter(sdwt).None? && SafeFilter(site).None? ==> w == InUse
  {
    var s, d := SafeFilter(site), SafeFilter(sdwt);
    if d.Some? then InUseAndSdwt(d.value)
    else if s.Some? then InUseAndSite(s.value)
    else InUse
  }

  predicate SatisfiesWhere(w: AgentWhere, sdwts: seq<SdwtRow>, a: AgentRow) {
    && (exists x :: x in sdwts && x.isUse == "Y" && x.sdwt == a.sdwt)
    && match w
       case InUse => true
       case InUseAndSdwt(d) => a.sdwt == d
       case InUseAndSite(s) => exists x :: x in sdwts && x.site == s && x.sdwt == a.sdwt
  }

  /** The row mapping: missing strings become `''`, missing numbers 0, and
      the clock drift is the performance sample's server-minus-equipment
      time in seconds when both times exist. */
  function Report(a: AgentRow): (o: AgentReport)
    ensures o.eqpId == a.eqpId
    ensures o.isOnline <==> a.status == Some("ONLINE")
    ensures o.clockDrift.Some? <==> a.perfServTs.Some? && a.perfEqpTs.Some?
    ensures o.clockDrift.Some? ==> o.clockDrift.value * 1000.0 == (a.perfServTs.value - a.perfEqpTs.value) as real
    ensures o.appVersion == a.appVer.GetOr("") && o.timezone == a.timezone.GetOr("")
    ensures o.cpuUsage == a.cpuUsage.GetOr(0.0) && o.memoryUsage == a.memUsage.GetOr(0.0)
  {
    AgentReport(
      a.eqpId, a.status.GetOr("OFFLINE") == "ONLINE", a.lastContact, a.pcName,
      a.cpuUsage.GetOr(0.0), a.memUsage.GetOr(0.0),
      a.appVer.GetOr(""), a.agentType.GetOr(""), a.ipAddress.GetOr(""), a.os.GetOr(""),
      a.systemType.GetOr(""), a.locale.GetOr(""), a.timezone.GetOr(""),
      a.alarmCount.GetOr(0),
      if a.perfServTs.Some? && a.perfEqpTs.Some?
      then Some((a.perfServTs.value - a.perfEqpTs.value) as real / 1000.0) else None)
  }

  predicate EqpLe(a: AgentRow, b: AgentRow) {
    LexLe(a.eqpId, b.eqpId)
  }

  /** `getAgentStatus`: the rows the WHERE clause admits, ordered by
      equipment id, mapped to reports. */
  function AgentStatus(rows: seq<AgentRow>, sdwts: seq<SdwtRow>, site: Option<string>, sdwt: Option<string>): (r: seq<AgentReport>)
    ensures forall o :: o in r <==> exists a :: a in rows && SatisfiesWhere(AgentWhereOf(site, sdwt), sdwts, a) && o == Report(a)
    ensures forall i :: 0 < i < |r| ==> LexLe(r[i - 1].eqpId, r[i].eqpId)
    ensures |r| == |Filter(rows, (a: AgentRow) => SatisfiesWhere(AgentWhereOf(site, sdwt), sdwts, a))|
  {
    var w := AgentWhereOf(site, sdwt);
    var kept := Filter(rows, (a: AgentRow) => SatisfiesWhere(w, sdwts, a));
    var sorted := SortWith(kept, EqpLe);
    SortedByEqp(kept);
    ReportAll(sorted)
  }

  lemma SortedByEqp(kept: seq<AgentRow>)
    ensures var sorted := SortWith(kept, EqpLe);
            && (forall a :: a in sorted <==> a in kept)
            && AdjacentSorted(sorted, EqpLe)
  {
    var sorted := SortWith(kept, EqpLe);
    assert Total(EqpLe) by {
      forall a, b ensures EqpLe(a, b) || EqpLe(b, a) {
        LexTotal(a.eqpId, b.eqpId);
      }
    }
    assert forall a :: a in sorted <==> a in multiset(kept);
  }

  /** `results.map(...)`. */
  function ReportAll(rows: seq<AgentRow>): (r: seq<AgentReport>)
    ensures |r| == |rows|
    ensures forall i :: 0 <= i < |rows| ==> r[i] == Report(rows[i])
    ensures forall o :: o in r <==> exists a :: a in rows && o == Report(a)
  {
    var r := seq(|rows|, i requires 0 <= i < |rows| => Report(rows[i]));
    assert forall a :: a in rows ==> Report(a) in r by {
      forall a | a in rows ensures Report(a) in r {
        var i :| 0 <= i < |rows| && rows[i] == a;
        assert r[i] == Report(a);
      }
    }
    r
  }

  /** The reference filter, row by row: the SDWT is in use and, when an
      SDWT is given, it is that one; only when none is given does a site
      restrict the SDWT to those on the site. Blank values are not given. */
  predicate Reported(sdwts: seq<SdwtRow>, site: Option<string>, sdwt: Option<string>, a: AgentRow) {
    && (exists x :: x in sdwts && x.isUse == "Y" && x.sdwt == a.sdwt)
    && (if sdwt.Some? && !Blank(sdwt.value) then a.sdwt == sdwt.value
        else site.Some? && !Blank(site.value) ==> exists x :: x in sdwts && x.site == site.value && x.sdwt == a.sdwt)
  }

  lemma AgentWhereMeaning(sdwts: seq<SdwtRow>, site: Option<string>, sdwt: Option<string>, a: AgentRow)
    ensures SatisfiesWhere(AgentWhereOf(site, sdwt), sdwts, a) <==> Reported(sdwts, site, sdwt, a)
  {
  }

  /** An SDWT filter takes precedence: with one given, the site does not
      matter. */
  lemma SdwtOverridesSite(rows: seq<AgentRow>, sdwts: seq<SdwtRow>, site1: Option<string>, site2: Option<string>, sdwt: string)
    requires !Blank(sdwt)
    ensures AgentStatus(rows, sdwts, site1, Some(sdwt)) == AgentStatus(rows, sdwts, site2, Some(sdwt))
  {
    assert AgentWhereOf(site1, Some(sdwt)) == AgentWhereOf(site2, Some(sdwt));
  }
}

=== FILE: error.dfy ===
/** The error service: statistics, a daily trend and a paged log of the
    `plg_error` events of a time window, optionally narrowed to a site or
    an SDWT. Times are milliseconds; the window is inclusive at both ends. */
module Error {
  import opened Common
  import opened Sorting
  import opened Fleet

  datatype ErrorDb = ErrorDb(equipment: seq<Equipment>, sdwts: seq<SdwtRow>, errors: seq<ErrorEvent>)

  const DayMs := 24 * 60 * 60 * 1000

  // ---------------------------------------------------------------------
  // getWhereInput
  // ---------------------------------------------------------------------

  /** `getWhereInput`: the event lies in `[start, end]`; when a site or an
      SDWT is given (a non-empty string), its equipment must belong to an
      SDWT in use, on that site and of that SDWT as far as they are given. */
  predicate InWindow(db: ErrorDb, x: ErrorEvent, site: Option<string>, sdwt: Option<string>, start: int, end: int) {
    && start <= x.timeStamp <= end
    && (Truthy(site).Some? || Truthy(sdwt).Some? ==> EventMatches(db.equipment, db.sdwts, x, Truthy(site), Truthy(sdwt)))
  }

  function Matching(db: ErrorDb, site: Option<string>, sdwt: Option<string>, start: int, end: int): (r: seq<ErrorEvent>)
    ensures forall x :: x in r <==> x in db.errors && InWindow(db, x, site, sdwt, start, end)
    ensures |r| <= |db.errors|
  {
    Filter(db.errors, (x: ErrorEvent) => InWindow(db, x, site, sdwt, start, end))
  }

  /** Without a site or an SDWT only the window counts: events of equipment
      missing from `ref_equipment` are kept. */
  lemma UnfilteredWindow(db: ErrorDb, x: ErrorEvent, site: Option<string>, sdwt: Option<string>, start: int, end: int)
    requires Truthy(site).None? && Truthy(sdwt).None?
    ensures InWindow(db, x, site, sdwt, start, end) <==> start <= x.timeStamp <= end
  {
  }

  // ---------------------------------------------------------------------
  // getErrorSummary
  // ---------------------------------------------------------------------

  datatype ErrorSummary = ErrorSummary(
    totalErrorCount: nat,
    errorEqpCount: nat,
    topErrorId: string,
    topErrorCount: nat,
    topErrorLabel: string)

  function ErrorIds(events: seq<ErrorEvent>): (r: seq<string>)
    ensures |r| == |events|
    ensures forall i :: 0 <= i < |r| ==> r[i] == events[i].errorId
  {
    seq(|events|, i requires 0 <= i < |events| => events[i].errorId)
  }

  function EqpIds(events: seq<ErrorEvent>): (r: seq<string>)
    ensures |r| == |events|
    ensures forall i :: 0 <= i < |r| ==> r[i] == events[i].eqpId
  {
    seq(|events|, i requires 0 <= i < |events| => events[i].eqpId)
  }

  /** The most frequent id among the first `n` ids (`groupBy` ordered by the
      count, descending, `take: 1`); of equally frequent ids the earliest. */
  function MostFrequent(ids: seq<string>, n: nat): (r: string)
    requires 0 < n <= |ids|
    ensures exists k :: 0 <= k < n && ids[k] == r
    ensures forall k :: 0 <= k < n ==> multiset(ids)[ids[k]] <= multiset(ids)[r]
  {
    if n == 1 then ids[0]
    else
      var best := MostFrequent(ids, n - 1);
      if multiset(ids)[ids[n - 1]] > multiset(ids)[best] then ids[n - 1] else best
  }

  /** `s` summarises the events `m`: their number, a non-zero equipment
      count exactly when there are events, and an error id whose count no
      other id exceeds (`-` and 0 when there is none). */
  predicate SummaryDescribes(s: ErrorSummary, m: seq<ErrorEvent>) {
    && s.totalErrorCount == |m|
    && s.errorEqpCount <= s.totalErrorCount
    && (s.errorEqpCount == 0 <==> s.totalErrorCount == 0)
    && s.topErrorCount <= s.totalErrorCount
    && (s.topErrorCount == 0 <==> s.totalErrorCount == 0)
    && (s.totalErrorCount == 0 ==> s.topErrorId == "-")
    && (forall x :: x in m ==> multiset(ErrorIds(m))[x.errorId] <= s.topErrorCount)
    && (s.topErrorId != "-" ==> s.topErrorCount == multiset(ErrorIds(m))[s.topErrorId])
    && s.topErrorLabel == "Unknown"
  }

  /** `getErrorSummary`. The window's ends go through `new Date`; a missing
      or unparsable one is an Invalid Date, which Prisma refuses, and with no
      catch the request fails with an Internal error. */
  function GetErrorSummary(db: ErrorDb, site: Option<string>, sdwt: Option<string>, start: DateArg, end: DateArg): (r: Result<ErrorSummary>)
    ensures r.Err? <==> !start.At? || !end.At?
    ensures r.Err? ==> r.error.Internal?
    ensures r.Ok? ==> SummaryDescribes(r.value, Matching(db, site, sdwt, start.ms, end.ms))
  {
    if !start.At? || !end.At? then Err(Internal("Invalid Date"))
    else Ok(Summarize(db, site, sdwt, start.ms, end.ms))
  }

  /** The summary of the window `[start, end]`: the number of events, of
      distinct equipment, and the most frequent error id with its count. */
  function Summarize(db: ErrorDb, site: Option<string>, sdwt: Option<string>, start: int, end: int): (r: ErrorSummary)
    ensures SummaryDescribes(r, Matching(db, site, sdwt, start, end))
  {
    var m := Matching(db, site, sdwt, start, end);
    var ids := ErrorIds(m);
    var eqps := Dedupe(EqpIds(m));
    assert |m| > 0 ==> EqpIds(m)[0] in eqps;
    if |m| == 0 then ErrorSummary(0, |eqps|, "-", 0, "Unknown")
    else
      var top := MostFrequent(ids, |ids|);
      var count := multiset(ids)[top];
      assert count > 0 by {
        var k :| 0 <= k < |ids| && ids[k] == top;
      }
      assert count <= |ids| by {
        assert |multiset(ids)| == |ids|;
        assert multiset(ids)[top] <= |multiset(ids)| by {
          assert multiset{top} <= multiset(ids) || multiset(ids)[top] == 0;
          MultisetCountBound(multiset(ids), top);
        }
      }
      assert forall x :: x in m ==> multiset(ids)[x.errorId] <= count by {
        forall x | x in m ensures multiset(ids)[x.errorId] <= count {
          var k :| 0 <= k < |m| && m[k] == x;
          assert ids[k] == x.errorId;
        }
      }
      ErrorSummary(|m|, |eqps|, if top == "" then "-" else top, count, "Unknown")
  }

  lemma MultisetCountBound(s: multiset<string>, x: string)
    ensures s[x] <= |s|
  {
    var rest := s[x := 0];
    assert s == rest + multiset{}[x := s[x]];
  }

  /** The equipment count is the number of distinct equipment ids among the
      events. */
  lemma SummaryCountsDistinctEqps(db: ErrorDb, site: Option<string>, sdwt: Option<string>, start: int, end: int)
    ensures var m := Matching(db, site, sdwt, start, end);
            Summarize(db, site, sdwt, start, end).errorEqpCount == |set x | x in m :: x.eqpId|
  {
    var m := Matching(db, site, sdwt, start, end);
    var eqps := Dedupe(EqpIds(m));
    assert (set id | id in eqps) == (set x | x in m :: x.eqpId) by {
      forall id | id in eqps ensures id in (set x | x in m :: x.eqpId) {
        var k :| 0 <= k < |m| && EqpIds(m)[k] == id;
        assert m[k] in m;
      }
      forall x | x in m ensures x.eqpId in eqps {
        var k :| 0 <= k < |m| && m[k] == x;
        assert EqpIds(m)[k] == x.eqpId;
      }
    }
    NoDupCard(eqps);
  }

  /** A sequence without duplicates has as many elements as its set. */
  lemma {:induction false} NoDupCard(s: seq<string>)
    requires NoDup(s)
    ensures |set x | x in s| == |s|
  {
    if |s| > 0 {
      var init := s[..|s| - 1];
      assert NoDup(init);
      NoDupCard(init);
      assert (set x | x in s) == (set x | x in init) + {s[|s| - 1]};
      assert s[|s| - 1] !in init;
    }
  }

  // ---------------------------------------------------------------------
  // getErrorTrend
  // ---------------------------------------------------------------------

  /** The raw trend query: the event lies in `[start, end]` and joins its
      equipment row; a given SDWT must be the equipment's, otherwise a given
      site must hold an SDWT of that name. Unlike `getWhereInput` the join
      always applies and the SDWT's `isUse` is not consulted. */
  predicate TrendMatches(db: ErrorDb, x: ErrorEvent, site: Option<string>, sdwt: Option<string>, start: int, end: int) {
    var e := EquipmentOf(db.equipment, x.eqpId);
    && start <= x.timeStamp <= end
    && e.Some?
    && (if Truthy(sdwt).Some? then e.value.sdwt == sdwt.value
        else Truthy(site).Some? ==> exists s :: s in db.sdwts && s.site == site.value && s.sdwt == e.value.sdwt)
  }

  /** `DATE(time_stamp)`: the day number of a time. */
  function DayOf(t: int): int {
    t / DayMs
  }

  datatype DayCount = DayCount(date: int, count: nat)

  predicate Ascending(b: seq<DayCount>) {
    forall i, j :: 0 <= i < j < |b| ==> b[i].date < b[j].date
  }

  predicate Positive(b: seq<DayCount>) {
    forall i :: 0 <= i < |b| ==> b[i].count > 0
  }

  predicate Above(b: seq<DayCount>, lo: int) {
    forall i :: 0 <= i < |b| ==> lo < b[i].date
  }

  /** The count a trend shows for day `d`, 0 when the day is absent. */
  function CountOn(b: seq<DayCount>, d: int): nat {
    if |b| == 0 then 0
    else if b[0].date == d then b[0].count
    else CountOn(b[1..], d)
  }

  /** The count of a trend that starts with row `x`. */
  lemma CountOnCons(x: DayCount, rest: seq<DayCount>)
    ensures forall e :: CountOn([x] + rest, e) == if x.date == e then x.count else CountOn(rest, e)
  {
    assert ([x] + rest)[1..] == rest;
  }

  /** Counts one more event on day `d`. */
  function Bump(b: seq<DayCount>, d: int): (r: seq<DayCount>)
    requires Ascending(b) && Positive(b)
    ensures Ascending(r) && Positive(r)
    ensures forall e :: CountOn(r, e) == CountOn(b, e) + if e == d then 1 else 0
    ensures forall lo :: Above(b, lo) && lo < d ==> Above(r, lo)
  {
    if |b| == 0 then [DayCount(d, 1)]
    else
      assert b == [b[0]] + b[1..];
      CountOnCons(b[0], b[1..]);
      if b[0].date == d then
        CountOnCons(b[0].(count := b[0].count + 1), b[1..]);
        [b[0].(count := b[0].count + 1)] + b[1..]
      else if d < b[0].date then
        BumpFront(b, d);
        [DayCount(d, 1)] + b
      else
        var rest := Bump(b[1..], d);
        assert Above(b[1..], b[0].date);
        CountOnCons(b[0], rest);
        [b[0]] + rest
  }

  /** A day before every row starts a new first row. */
  lemma BumpFront(b: seq<DayCount>, d: int)
    requires Ascending(b) && |b| > 0 && d < b[0].date
    ensures forall e :: CountOn([DayCount(d, 1)] + b, e) == CountOn(b, e) + if e == d then 1 else 0
  {
    assert forall i :: 0 <= i < |b| ==> b[i].date != d by {
      forall i | 0 < i < |b| ensures b[i].date != d {
        assert b[0].date < b[i].date;
      }
    }
    CountOnAbsent(b, d);
    CountOnCons(DayCount(d, 1), b);
  }

  /** The events of day `e` the trend query selects. */
  function DayEvents(db: ErrorDb, events: seq<ErrorEvent>, site: Option<string>, sdwt: Option<string>, start: int, end: int, e: int): (r: seq<ErrorEvent>)
    ensures forall x :: x in r <==> x in events && TrendMatches(db, x, site, sdwt, start, end) && DayOf(x.timeStamp) == e
  {
    Filter(events, (x: ErrorEvent) => TrendMatches(db, x, site, sdwt, start, end) && DayOf(x.timeStamp) == e)
  }

  /** The trend of `events`, built one event at a time. */
  function TrendOf(db: ErrorDb, events: seq<ErrorEvent>, site: Option<string>, sdwt: Option<string>, start: int, end: int): (r: seq<DayCount>)
    ensures Ascending(r) && Positive(r)
    ensures forall e :: CountOn(r, e) == |DayEvents(db, events, site, sdwt, start, end, e)|
  {
    if |events| == 0 then []
    else
      var x := events[|events| - 1];
      var before := TrendOf(db, events[..|events| - 1], site, sdwt, start, end);
      if TrendMatches(db, x, site, sdwt, start, end) then Bump(before, DayOf(x.timeStamp)) else before
  }

  /** `getErrorTrend`: one row per day that has events, days ascending, each
      with the number of that day's events. As in `getErrorSummary`, a
      missing or unparsable end of the window fails the query. */
  function GetErrorTrend(db: ErrorDb, site: Option<string>, sdwt: Option<string>, start: DateArg, end: DateArg): (r: Result<seq<DayCount>>)
    ensures r.Err? <==> !start.At? || !end.At?
    ensures r.Err? ==> r.error.Internal?
    ensures r.Ok? ==> Ascending(r.value) && Positive(r.value)
    ensures r.Ok? ==> forall e :: CountOn(r.value, e) == |DayEvents(db, db.errors, site, sdwt, start.ms, end.ms, e)|
  {
    if !start.At? || !end.At? then Err(Internal("Invalid Date"))
    else Ok(TrendOf(db, db.errors, site, sdwt, start.ms, end.ms))
  }

  /** In an ascending trend each row's count is the count of its day. */
  lemma {:induction false} CountOnRow(b: seq<DayCount>, i: nat)
    requires Ascending(b) && i < |b|
    ensures CountOn(b, b[i].date) == b[i].count
  {
    if i > 0 {
      assert b[0].date < b[i].date;
      assert b[1..][i - 1] == b[i];
      CountOnRow(b[1..], i - 1);
    }
  }

  /** A day with no row counts nothing. */
  lemma {:induction false} CountOnAbsent(b: seq<DayCount>, d: int)
    requires forall i :: 0 <= i < |b| ==> b[i].date != d
    ensures CountOn(b, d) == 0
  {
    if |b| > 0 {
      CountOnAbsent(b[1..], d);
    }
  }

  /** Each trend row counts exactly its day's selected events, and every
      selected event's day has a row. */
  lemma TrendRows(db: ErrorDb, site: Option<string>, sdwt: Option<string>, start: int, end: int, x: ErrorEvent)
    ensures var r := GetErrorTrend(db, site, sdwt, At(start), At(end));
            r.Ok? && forall i :: 0 <= i < |r.value| ==> r.value[i].count == |DayEvents(db, db.errors, site, sdwt, start, end, r.value[i].date)|
    ensures var r := GetErrorTrend(db, site, sdwt, At(start), At(end));
            x in db.errors && TrendMatches(db, x, site, sdwt, start, end) ==> exists i :: 0 <= i < |r.value| && r.value[i].date == DayOf(x.timeStamp)
  {
    var r := GetErrorTrend(db, site, sdwt, At(start), At(end)).value;
    forall i | 0 <= i < |r| ensures r[i].count == |DayEvents(db, db.errors, site, sdwt, start, end, r[i].date)| {
      CountOnRow(r, i);
    }
    if x in db.errors && TrendMatches(db, x, site, sdwt, start, end) {
      var d := DayOf(x.timeStamp);
      assert x in DayEvents(db, db.errors, site, sdwt, start, end, d);
      if forall i :: 0 <= i < |r| ==> r[i].date != d {
        CountOnAbsent(r, d);
        assert false;
      }
    }
  }

  // ---------------------------------------------------------------------
  // getErrorLogs
  // ---------------------------------------------------------------------

  datatype LogItem = LogItem(event: ErrorEvent, site: string)
  datatype ErrorLogs = ErrorLogs(items: seq<LogItem>, totalItems: nat)

  function Latest(x: ErrorEvent): int {
    -x.timeStamp
  }

  /** The matching events, latest first (`orderBy: { timeStamp: 'desc' }`). */
  function LogListing(db: ErrorDb, site: Option<string>, sdwt: Option<string>, start: int, end: int): (r: seq<ErrorEvent>)
    ensures multiset(r) == multiset(Matching(db, site, sdwt, start, end))
    ensures forall i, j :: 0 <= i < j < |r| ==> r[i].timeStamp >= r[j].timeStamp
  {
    var r := SortBy(Matching(db, site, sdwt, start, end), Latest);
    assert SortedBy(r, Latest);
    r
  }

  /** The site shown with an event: its equipment's SDWT site, `-` when
      either relation is missing or the site is empty. */
  function SiteLabel(db: ErrorDb, x: ErrorEvent): (r: string)
    ensures r != ""
    ensures r != "-" ==> exists e, s :: e in db.equipment && e.eqpId == x.eqpId && s in db.sdwts && s.sdwt == e.sdwt && s.site == r
  {
    var e := EquipmentOf(db.equipment, x.eqpId);
    if e.None? then "-"
    else
      var s := SdwtOf(db.sdwts, e.value.sdwt);
      if s.None? || s.value.site == "" then "-" else s.value.site
  }

  /** The shown events, each with its site. */
  function LogPage(db: ErrorDb, shown: seq<ErrorEvent>): (r: seq<LogItem>)
    ensures |r| == |shown|
    ensures forall i :: 0 <= i < |r| ==> r[i] == LogItem(shown[i], SiteLabel(db, shown[i]))
  {
    seq(|shown|, i requires 0 <= i < |shown| => LogItem(shown[i], SiteLabel(db, shown[i])))
  }

  /** `items` is what Prisma returns from `all` for `skip` and `take`,
      each event with its site: for a non-negative `take`, up to `take`
      events from position `skip` on; for a negative one, up to `-take`
      events just before the last `skip`. */
  predicate PageOfEvents(all: seq<ErrorEvent>, skip: nat, take: int, items: seq<LogItem>) {
    && (take == 0 ==> items == [])
    && (take >= 0 ==> |items| == if skip < |all| then Min(take, |all| - skip) else 0)
    && (take >= 0 ==> forall i :: 0 <= i < |items| ==> skip + i < |all| && items[i].event == all[skip + i])
    && (take < 0 ==> |items| == if skip < |all| then Min(-take, |all| - skip) else 0)
    && (take < 0 ==> forall i :: 0 <= i < |items| ==>
          var k := |all| - skip - |items| + i;
          0 <= k < |all| && items[i].event == all[k])
  }

  /** The events of `all` for `skip` and `take: limit`, each labelled with
      its site, and the size of `all`. */
  function LogsPage(db: ErrorDb, all: seq<ErrorEvent>, skip: nat, limit: int): (r: ErrorLogs)
    ensures r.totalItems == |all|
    ensures PageOfEvents(all, skip, limit, r.items)
    ensures forall i :: 0 <= i < |r.items| ==> r.items[i].site == SiteLabel(db, r.items[i].event)
  {
    ErrorLogs(LogPage(db, Shown(all, skip, limit)), |all|)
  }

  /** `getErrorLogs`: page `page` of `limit` events, latest first, each
      labelled with its site, and the number of matching events. A missing
      or unparsable end of the window, and a skip `(page - 1) * limit` or a
      take `limit` that Prisma refuses, fail the request (there is no
      catch). A `take` of 0 reads nothing, and a negative `take` pages
      backwards from the end of the listing. */
  function GetErrorLogs(db: ErrorDb, page: JsNumber, limit: JsNumber, site: Option<string>, sdwt: Option<string>, start: DateArg, end: DateArg): (r: Result<ErrorLogs>)
    ensures r.Err? <==> !start.At? || !end.At? || PageWindow(page, limit).None?
    ensures r.Err? ==> r.error.Internal?
    ensures r.Ok? ==> r.value.totalItems == |Matching(db, site, sdwt, start.ms, end.ms)|
    ensures r.Ok? ==> var w := PageWindow(page, limit).value;
              PageOfEvents(LogListing(db, site, sdwt, start.ms, end.ms), w.skip, w.take, r.value.items)
    ensures r.Ok? ==> forall i :: 0 <= i < |r.value.items| ==> r.value.items[i].site == SiteLabel(db, r.value.items[i].event)
  {
    if !start.At? || !end.At? then Err(Internal("Invalid Date"))
    else match PageWindow(page, limit)
      case None => Err(Internal("skip and take must be non-negative integers"))
      case Some(w) => Ok(LogsPage(db, LogListing(db, site, sdwt, start.ms, end.ms), w.skip, w.take))
  }

  /** For a valid window and whole numbers, `getErrorLogs` fails exactly
      when the page lies before the first for a positive limit, or after it
      for a negative one, and skips `(page - 1) * limit` events otherwise. */
  lemma GetErrorLogsIntegers(db: ErrorDb, page: int, limit: int, site: Option<string>, sdwt: Option<string>, start: int, end: int)
    ensures var r := GetErrorLogs(db, Finite(page as real), Finite(limit as real), site, sdwt, At(start), At(end));
            (r.Err? <==> (page < 1 && limit > 0) || (page > 1 && limit < 0)) &&
            (r.Ok? ==> PageWindow(Finite(page as real), Finite(limit as real)).value.skip == Offset(page, limit) &&
                       PageWindow(Finite(page as real), Finite(limit as real)).value.take == limit)
  {
    PageWindowOfIntegers(page, limit);
    OffsetNegative(page, limit);
    var r := GetErrorLogs(db, Finite(page as real), Finite(limit as real), site, sdwt, At(start), At(end));
    var w := PageWindow(Finite(page as real), Finite(limit as real));
    assert r.Err? <==> w.None?;
  }

  /** The logged rows are matching events, latest first, whatever the
      page and limit. */
  lemma ErrorLogRows(db: ErrorDb, page: JsNumber, limit: JsNumber, site: Option<string>, sdwt: Option<string>, start: DateArg, end: DateArg)
    ensures var r := GetErrorLogs(db, page, limit, site, sdwt, start, end);
            r.Ok? ==> forall v :: v in r.value.items ==> v.event in db.errors && InWindow(db, v.event, site, sdwt, start.ms, end.ms)
    ensures var r := GetErrorLogs(db, page, limit, site, sdwt, start, end);
            r.Ok? ==> forall i, j :: 0 <= i < j < |r.value.items| ==> r.value.items[i].event.timeStamp >= r.value.items[j].event.timeStamp
  {
    var r := GetErrorLogs(db, page, limit, site, sdwt, start, end);
    if r.Ok? {
      var w := PageWindow(page, limit).value;
      var all := LogListing(db, site, sdwt, start.ms, end.ms);
      var shown := Shown(all, w.skip, w.take);
      assert r.value.items == LogPage(db, shown);
      ListingMatches(db, site, sdwt, start.ms, end.ms);
      ShownWithinBy(all, w.skip, w.take, (e: ErrorEvent) => e.timeStamp);
      forall v | v in r.value.items ensures v.event in shown {
        var i :| 0 <= i < |r.value.items| && r.value.items[i] == v;
      }
    }
  }

  lemma ListingMatches(db: ErrorDb, site: Option<string>, sdwt: Option<string>, start: int, end: int)
    ensures forall v :: v in LogListing(db, site, sdwt, start, end) ==> v in db.errors && InWindow(db, v, site, sdwt, start, end)
  {
    var all := LogListing(db, site, sdwt, start, end);
    assert forall v :: v in all ==> v in multiset(Matching(db, site, sdwt, start, end));
  }

  /** A page has events exactly when it is one of pages 1 to
      `ceil(totalItems / limit)`. */
  lemma ErrorLogPages(db: ErrorDb, page: int, limit: int, site: Option<string>, sdwt: Option<string>, start: int, end: int)
    requires limit >= 1 && page >= 1
    ensures var r := GetErrorLogs(db, Finite(page as real), Finite(limit as real), site, sdwt, At(start), At(end));
            r.Ok? && (|r.value.items| > 0 <==> page <= CeilDiv(r.value.totalItems, limit))
  {
    PageWindowOfIntegers(page, limit);
    OffsetNegative(page, limit);
    var r := GetErrorLogs(db, Finite(page as real), Finite(limit as real), site, sdwt, At(start), At(end));
    SkipWithin(page, limit, r.value.totalItems, CeilDiv(r.value.totalItems, limit));
  }
}

=== FILE: fleet.dfy ===
/** The equipment tables several services filter by: `ref_equipment`, its
    SDWT (`ref_sdwt`, keyed by the SDWT name) and the error events of
    `plg_error`. */
module Fleet {
  import opened Common

  /** A `ref_equipment` row; `hasAgent` says whether an `agent_info` row is
      linked to it. */
  datatype Equipment = Equipment(eqpId: string, sdwt: string, hasAgent: bool)

  /** A `ref_sdwt` row. */
  datatype SdwtRow = SdwtRow(sdwt: string, site: string, isUse: string)

  /** A `plg_error` row; times are milliseconds. */
  datatype ErrorEvent = ErrorEvent(eqpId: string, errorId: string, timeStamp: int)

  /** The `sdwtRel` relation: the SDWT row of that name. */
  function SdwtOf(sdwts: seq<SdwtRow>, name: string): (r: Option<SdwtRow>)
    ensures r.Some? ==> r.value in sdwts && r.value.sdwt == name
    ensures r.None? ==> forall x :: x in sdwts ==> x.sdwt != name
  {
    if |sdwts| == 0 then None
    else if sdwts[0].sdwt == name then Some(sdwts[0])
    else SdwtOf(sdwts[1..], name)
  }

  /** The `equipment` relation of an error event. */
  function EquipmentOf(equipment: seq<Equipment>, eqpId: string): (r: Option<Equipment>)
    ensures r.Some? ==> r.value in equipment && r.value.eqpId == eqpId
    ensures r.None? ==> forall e :: e in equipment ==> e.eqpId != eqpId
  {
    if |equipment| == 0 then None
    else if equipment[0].eqpId == eqpId then Some(equipment[0])
    else EquipmentOf(equipment[1..], eqpId)
  }

  /** `{ sdwtRel: { isUse: 'Y', site? }, sdwt? }`: the equipment's SDWT is in
      use and, when given, on the site; the SDWT itself must match when
      given. Both filters apply together. */
  predicate EquipmentMatches(sdwts: seq<SdwtRow>, e: Equipment, site: Option<string>, sdwt: Option<string>) {
    var rel := SdwtOf(sdwts, e.sdwt);
    && rel.Some? && rel.value.isUse == "Y"
    && (site.Some? ==> rel.value.site == site.value)
    && (sdwt.Some? ==> e.sdwt == sdwt.value)
  }

  /** An error event whose equipment matches. */
  predicate EventMatches(equipment: seq<Equipment>, sdwts: seq<SdwtRow>, x: ErrorEvent, site: Option<string>, sdwt: Option<string>) {
    var e := EquipmentOf(equipment, x.eqpId);
    e.Some? && EquipmentMatches(sdwts, e.value, site, sdwt)
  }

  /** A JavaScript-truthy optional string: absent and `''` are both absent. */
  function Truthy(s: Option<string>): (r: Option<string>)
    ensures r.Some? <==> s.Some? && s.value != ""
    ensures r.Some? ==> r == s
  {
    if s.Some? && s.value != "" then s else None
  }
}

=== FILE: health.dfy ===
/** The equipment health score of the health service: four bounded factors
    from the last week's errors, the last day's performance and the lamp
    life, a total with a three-level status, sorted worst first. */
module Health {
  import opened Common
  import opened Sorting
  import opened Fleet

  /** One row of the performance aggregate: `AVG(cpu + mem) / 2` and
      `STDDEV(cpu_temp)` per equipment over the last day. */
  datatype PerfStat = PerfStat(eqpId: string, avgUsage: Option<real>, tempStd: Option<real>)

  /** One row of the lamp aggregate: the largest age-to-lifespan ratio. */
  datatype LampStat = LampStat(eqpId: string, usageRatio: Option<real>)

  datatype HealthDb = HealthDb(
    equipment: seq<Equipment>,
    sdwts: seq<SdwtRow>,
    errors: seq<ErrorEvent>,
    perf: seq<PerfStat>,
    lamps: seq<LampStat>)

  datatype Status = Good | Warning | Critical

  datatype Factors = Factors(reliability: real, performance: real, component: real, stability: real)

  datatype HealthEntry = HealthEntry(
    eqpId: string,
    totalScore: int,
    status: Status,
    factors: Factors,
    errorCount: nat,
    avgResourceUsage: real,
    lampUsageRatio: real,
    tempVolatility: real)

  const Week := 7 * 24 * 60 * 60 * 1000

  function Max0(x: real): real {
    if x > 0.0 then x else 0.0
  }

  function Min1(x: real): real {
    if x < 1.0 then x else 1.0
  }

  /** Reliability: 4 points off 40 per error of the last week, never below 0. */
  function Reliability(errorCount: nat): (r: real)
    ensures 0.0 <= r <= 40.0
    ensures errorCount == 0 ==> r == 40.0
    ensures errorCount >= 10 ==> r == 0.0
  {
    Max0(40.0 - errorCount as real * 4.0)
  }

  /** Performance: full 30 points up to 20% average usage, then linearly
      less, reaching 0 at 90%. */
  function Performance(usage: real): (r: real)
    ensures 0.0 <= r <= 30.0
    ensures usage <= 20.0 ==> r == 30.0
    ensures usage >= 90.0 ==> r == 0.0
  {
    Max0(30.0 * (1.0 - Max0(usage - 20.0) / 70.0))
  }

  /** Component: 20 points times the unused part of the lamp's life. */
  function Component(ratio: real): (r: real)
    ensures r >= 0.0
    ensures ratio >= 0.0 ==> r <= 20.0
    ensures ratio >= 1.0 ==> r == 0.0
    ensures ratio == 0.0 ==> r == 20.0
  {
    Max0(20.0 * (1.0 - Min1(ratio)))
  }

  /** Stability: 10 points, 2 off per degree of temperature deviation. */
  function Stability(std: real): (r: real)
    ensures r >= 0.0
    ensures std >= 0.0 ==> r <= 10.0
    ensures std >= 5.0 ==> r == 0.0
    ensures std == 0.0 ==> r == 10.0
  {
    Max0(10.0 * (1.0 - Min1(std / 5.0)))
  }

  /** The thresholds of the status: below 60 is critical, below 80 a
      warning. */
  function StatusOf(total: int): (s: Status)
    ensures s == Critical <==> total < 60
    ensures s == Warning <==> 60 <= total < 80
    ensures s == Good <==> total >= 80
  {
    if total < 60 then Critical else if total < 80 then Warning else Good
  }

  /** `new Map(entries).get(id)`: the last entry for the key wins. */
  function LastPerf(perf: seq<PerfStat>, id: string): (r: Option<PerfStat>)
    ensures r.Some? ==> r.value in perf && r.value.eqpId == id
    ensures r.None? ==> forall p :: p in perf ==> p.eqpId != id
  {
    if |perf| == 0 then None
    else if perf[|perf| - 1].eqpId == id then Some(perf[|perf| - 1])
    else
      assert forall p :: p in perf ==> p in perf[..|perf| - 1] || p == perf[|perf| - 1];
      LastPerf(perf[..|perf| - 1], id)
  }

  function LastLamp(lamps: seq<LampStat>, id: string): (r: Option<LampStat>)
    ensures r.Some? ==> r.value in lamps && r.value.eqpId == id
    ensures r.None? ==> forall l :: l in lamps ==> l.eqpId != id
  {
    if |lamps| == 0 then None
    else if lamps[|lamps| - 1].eqpId == id then Some(lamps[|lamps| - 1])
    else
      assert forall l :: l in lamps ==> l in lamps[..|lamps| - 1] || l == lamps[|lamps| - 1];
      LastLamp(lamps[..|lamps| - 1], id)
  }

  /** The errors of one equipment since a time, as `groupBy` counts them. */
  function ErrorCount(errors: seq<ErrorEvent>, id: string, since: int): (n: nat)
    ensures n <= |errors|
    ensures n == 0 <==> forall x :: x in errors ==> x.eqpId != id || x.timeStamp < since
  {
    var hits := Filter(errors, (x: ErrorEvent) => x.eqpId == id && x.timeStamp >= since);
    assert |hits| > 0 ==> hits[0] in hits;
    |hits|
  }

  /** The score of one equipment; missing aggregates count as 0. */
  function Score(db: HealthDb, id: string, now: int): (h: HealthEntry)
    ensures h.eqpId == id
    ensures 0.0 <= h.factors.reliability <= 40.0 && 0.0 <= h.factors.performance <= 30.0
    ensures h.status == StatusOf(h.totalScore)
    ensures h.tempVolatility >= 0.0 && h.lampUsageRatio >= 0.0 ==> 0 <= h.totalScore <= 100
  {
    var errorCount := ErrorCount(db.errors, id, now - Week);
    var p := LastPerf(db.perf, id);
    var usage := if p.Some? then p.value.avgUsage.GetOr(0.0) else 0.0;
    var std := if p.Some? then p.value.tempStd.GetOr(0.0) else 0.0;
    var l := LastLamp(db.lamps, id);
    var ratio := if l.Some? then l.value.usageRatio.GetOr(0.0) else 0.0;
    var f := Factors(Reliability(errorCount), Performance(usage), Component(ratio), Stability(std));
    var total := Round(f.reliability + f.performance + f.component + f.stability);
    HealthEntry(id, total, StatusOf(total), f, errorCount, usage, ratio * 100.0, std)
  }

  /** Equipment with no errors, no performance and no lamp rows scores the
      full 100 and is good. */
  lemma DefaultScore(db: HealthDb, id: string, now: int)
    requires forall x :: x in db.errors ==> x.eqpId != id
    requires forall p :: p in db.perf ==> p.eqpId != id
    requires forall l :: l in db.lamps ==> l.eqpId != id
    ensures Score(db, id, now).totalScore == 100
    ensures Score(db, id, now).status == Good
  {
    FilterNone(db.errors, (x: ErrorEvent) => x.eqpId == id && x.timeStamp >= now - Week);
  }

  /** `equipmentWhere` of the health service: the SDWT filter and the site
      filter each apply when truthy, and the SDWT must be in use. */
  function Targets(db: HealthDb, site: Option<string>, sdwt: Option<string>): (ids: seq<string>)
    ensures |ids| <= |db.equipment|
    ensures forall id :: id in ids <==> exists e :: e in db.equipment && EquipmentMatches(db.sdwts, e, Truthy(site), Truthy(sdwt)) && e.eqpId == id
  {
    var kept := Filter(db.equipment, (e: Equipment) => EquipmentMatches(db.sdwts, e, Truthy(site), Truthy(sdwt)));
    var ids := seq(|kept|, i requires 0 <= i < |kept| => kept[i].eqpId);
    assert forall e :: e in kept ==> e.eqpId in ids by {
      forall e | e in kept ensures e.eqpId in ids {
        var i :| 0 <= i < |kept| && kept[i] == e;
        assert ids[i] == e.eqpId;
      }
    }
    ids
  }

  function ScoreAll(db: HealthDb, ids: seq<string>, now: int): (r: seq<HealthEntry>)
    ensures |r| == |ids|
    ensures forall i :: 0 <= i < |ids| ==> r[i] == Score(db, ids[i], now)
  {
    seq(|ids|, i requires 0 <= i < |ids| => Score(db, ids[i], now))
  }

  function TotalScore(h: HealthEntry): int {
    h.totalScore
  }

  /** `getHealthSummary`: one entry per matching equipment, sorted by total
      score ascending (ties keep the equipment order). */
  function HealthSummary(db: HealthDb, site: Option<string>, sdwt: Option<string>, now: int): (r: seq<HealthEntry>)
    ensures |r| == |Targets(db, site, sdwt)|
    ensures |Targets(db, site, sdwt)| == 0 ==> r == []
    ensures SortedBy(r, TotalScore)
    ensures multiset(r) == multiset(ScoreAll(db, Targets(db, site, sdwt), now))
  {
    var ids := Targets(db, site, sdwt);
    if |ids| == 0 then [] else SortBy(ScoreAll(db, ids, now), TotalScore)
  }

  /** Each entry is the score of a matching equipment, and every matching
      equipment has an entry. */
  lemma HealthSummaryEntries(db: HealthDb, site: Option<string>, sdwt: Option<string>, now: int)
    ensures forall h :: h in HealthSummary(db, site, sdwt, now) ==> h == Score(db, h.eqpId, now) && h.eqpId in Targets(db, site, sdwt)
    ensures forall id :: id in Targets(db, site, sdwt) ==> exists h :: h in HealthSummary(db, site, sdwt, now) && h.eqpId == id
  {
    var ids := Targets(db, site, sdwt);
    var all := ScoreAll(db, ids, now);
    var r := HealthSummary(db, site, sdwt, now);
    assert forall h :: h in r <==> h in all by {
      assert forall h :: h in r <==> h in multiset(all);
    }
    forall h | h in r ensures h == Score(db, h.eqpId, now) && h.eqpId in ids {
      var i :| 0 <= i < |all| && all[i] == h;
    }
    forall id | id in ids ensures exists h :: h in r && h.eqpId == id {
      var i :| 0 <= i < |ids| && ids[i] == id;
      assert all[i] in r;
    }
  }
}

=== FILE: manual.dfy ===
/** The manual service: the user manual is a list of sections in
    `sys_manual`; saving replaces the whole list in one transaction, keeping
    the rows whose ids survive and numbering the sections by their position
    in the request. */
module Manual {
  import opened Common
  import opened Sorting

  datatype Section = Section(
    id: string,
    title: string,
    subtitle: string,
    icon: string,
    content: string,
    imageUrl: string,
    sortOrder: int)

  /** One section of a save request; a section without an id cannot be
      upserted. */
  datatype SectionInput = SectionInput(
    id: Option<string>,
    title: string,
    subtitle: string,
    icon: string,
    content: string,
    imageUrl: string)

  /** `id` is the primary key of the manual table. */
  predicate UniqueSectionIds(store: seq<Section>) {
    forall i, j :: 0 <= i < j < |store| ==> store[i].id != store[j].id
  }

  function SortOrder(s: Section): int {
    s.sortOrder
  }

  /** `findAll`: the sections by `sortOrder` ascending. */
  function FindAll(store: seq<Section>): (r: seq<Section>)
    ensures SortedBy(r, SortOrder)
    ensures multiset(r) == multiset(store)
  {
    SortBy(store, SortOrder)
  }

  /** The row an upsert of request entry `x` at position `index` writes. */
  function Written(x: SectionInput, index: int): Section
    requires x.id.Some?
  {
    Section(x.id.value, x.title, x.subtitle, x.icon, x.content, x.imageUrl, index)
  }

  /** The last position below `n` at which the request names `id`, or -1. */
  function LastIndex(sections: seq<SectionInput>, id: string, n: nat): (k: int)
    requires n <= |sections|
    ensures -1 <= k < n
    ensures k >= 0 ==> sections[k].id == Some(id) && forall m :: k < m < n ==> sections[m].id != Some(id)
    ensures k == -1 <==> forall m :: 0 <= m < n ==> sections[m].id != Some(id)
  {
    if n == 0 then -1
    else if sections[n - 1].id == Some(id) then n - 1
    else LastIndex(sections, id, n - 1)
  }

  function SectionIndex(store: seq<Section>, id: string): (i: int)
    ensures -1 <= i < |store|
    ensures i >= 0 ==> store[i].id == id
    ensures i == -1 <==> forall s :: s in store ==> s.id != id
  {
    if |store| == 0 then -1
    else if store[|store| - 1].id == id then |store| - 1
    else
      var i := SectionIndex(store[..|store| - 1], id);
      assert forall s :: s in store <==> s in store[..|store| - 1] || s == store[|store| - 1];
      i
  }

  /** `upsert({ where: { id }, update, create })`: the row with the id is
      overwritten, or a new row is added. */
  function Upsert(store: seq<Section>, x: SectionInput, index: int): (r: seq<Section>)
    requires x.id.Some?
    ensures Written(x, index) in r
    ensures forall s :: s in store && s.id != x.id.value ==> s in r
    ensures UniqueSectionIds(store) ==> forall s :: s in r ==> s == Written(x, index) || (s in store && s.id != x.id.value)
    ensures UniqueSectionIds(store) ==> UniqueSectionIds(r)
  {
    var i := SectionIndex(store, x.id.value);
    if i >= 0 then
      var r := store[i := Written(x, index)];
      assert r[i] == Written(x, index);
      assert forall s :: s in store && s.id != x.id.value ==> s in r by {
        forall s | s in store && s.id != x.id.value ensures s in r {
          var k :| 0 <= k < |store| && store[k] == s;
          assert r[k] == s;
        }
      }
      assert UniqueSectionIds(store) ==> forall s :: s in r ==> s == Written(x, index) || (s in store && s.id != x.id.value) by {
        if UniqueSectionIds(store) {
          forall s | s in r ensures s == Written(x, index) || (s in store && s.id != x.id.value) {
            var k :| 0 <= k < |r| && r[k] == s;
            if k != i { assert store[k].id != store[i].id; }
          }
          forall a, b | 0 <= a < b < |r| ensures r[a].id != r[b].id {
            assert store[a].id != store[b].id;
          }
        }
      }
      r
    else
      var r := store + [Written(x, index)];
      assert forall s :: s in r <==> s in store || s == Written(x, index);
      r
  }

  predicate AllIdsGiven(sections: seq<SectionInput>) {
    forall k :: 0 <= k < |sections| ==> sections[k].id.Some?
  }

  /** `deleteMany({ where: { id: { in: toDelete } } })` with `toDelete` the
      stored ids the request does not name. */
  function DropMissing(store: seq<Section>, sections: seq<SectionInput>): (r: seq<Section>)
    ensures forall s :: s in r <==> s in store && LastIndex(sections, s.id, |sections|) >= 0
    ensures UniqueSectionIds(store) ==> UniqueSectionIds(r)
  {
    var r := Filter(store, (s: Section) => LastIndex(sections, s.id, |sections|) >= 0);
    assert UniqueSectionIds(store) ==> UniqueSectionIds(r) by {
      if UniqueSectionIds(store) {
        var pos := FilterPositions(store, (s: Section) => LastIndex(sections, s.id, |sections|) >= 0);
        forall i, j | 0 <= i < j < |r| ensures r[i].id != r[j].id {
          assert r[i] == store[pos[i]] && r[j] == store[pos[j]];
        }
      }
    }
    r
  }

  /** What the upsert loop has established after the first `i` entries:
      every stored id is requested, the first `i` requested ids are stored,
      and a stored section named among them holds its last entry so far. */
  predicate Progress(after: seq<Section>, sections: seq<SectionInput>, i: nat)
    requires i <= |sections| && AllIdsGiven(sections)
  {
    UniqueSectionIds(after)
    && (forall s :: s in after ==> LastIndex(sections, s.id, |sections|) >= 0)
    && (forall k :: 0 <= k < i ==> SectionIndex(after, sections[k].id.value) >= 0)
    && (forall s :: s in after && LastIndex(sections, s.id, i) >= 0 ==>
          s == Written(sections[LastIndex(sections, s.id, i)], LastIndex(sections, s.id, i)))
  }

  /** `saveAll`: in one transaction, deletes the sections the request does
      not name, upserts every requested section with its position as
      `sortOrder` (a repeated id keeps its last position), and answers the
      table in `sortOrder` order. A missing request or a section without an
      id fails the transaction, which leaves the table as it was. */
  method SaveAll(store: seq<Section>, request: Option<seq<SectionInput>>) returns (after: seq<Section>, r: Result<seq<Section>>)
    requires UniqueSectionIds(store)
    ensures r.Err? <==> request.None? || !AllIdsGiven(request.value)
    ensures r.Err? ==> after == store && r.error.Internal?
    ensures UniqueSectionIds(after)
    ensures r.Ok? ==> forall s :: s in after ==> LastIndex(request.value, s.id, |request.value|) >= 0
    ensures r.Ok? ==> forall k :: 0 <= k < |request.value| ==> SectionIndex(after, request.value[k].id.value) >= 0
    ensures r.Ok? ==> forall s :: s in after ==>
              var last := LastIndex(request.value, s.id, |request.value|);
              last >= 0 && s == Written(request.value[last], last)
    ensures r.Ok? ==> r.value == FindAll(after)
  {
    if request.None? || !AllIdsGiven(request.value) {
      return store, Err(Internal("manual save failed"));
    }
    var sections := request.value;
    after := DropMissing(store, sections);
    var i := 0;
    while i < |sections|
      invariant 0 <= i <= |sections|
      invariant Progress(after, sections, i)
    {
      var x := sections[i];
      var next := Upsert(after, x, i);
      UpsertStep(after, next, sections, i);
      after, i := next, i + 1;
    }
    r := Ok(FindAll(after));
  }

  /** One pass of the upsert loop keeps the loop's facts for one more
      position. */
  lemma UpsertStep(before: seq<Section>, next: seq<Section>, sections: seq<SectionInput>, i: nat)
    requires i < |sections| && AllIdsGiven(sections)
    requires next == Upsert(before, sections[i], i)
    requires Progress(before, sections, i)
    ensures Progress(next, sections, i + 1)
  {
    var x := sections[i];
    var id := x.id.value;
    assert LastIndex(sections, id, |sections|) >= 0;
    forall k | 0 <= k < i + 1 ensures SectionIndex(next, sections[k].id.value) >= 0 {
      if sections[k].id.value == id {
        assert Written(x, i) in next;
      } else {
        var j := SectionIndex(before, sections[k].id.value);
        assert before[j] in next;
      }
    }
  }
}

=== FILE: menu.dfy ===
/** Menus and their parent links, and the permission filter of the menu
    service: the allowed menus plus every ancestor needed to reach them.
    Menus live in `ref_menu` (primary key `menuId`), role grants in
    `cfg_menu_role`. */
module Menus {
  import opened Common

  datatype Menu = Menu(
    menuId: int,
    text: string,         // the `label` column
    routerPath: Option<string>,
    icon: Option<string>,
    parentId: Option<int>,
    sortOrder: Option<int>,
    statusTag: Option<string>,
    isVisible: string)

  /** A row of `cfg_menu_role`. */
  datatype MenuRole = MenuRole(menuId: int, role: string)

  /** `menuId` is the primary key: no menu occurs twice and no two menus
      share an id. */
  predicate UniqueIds(menus: seq<Menu>) {
    && NoDup(menus)
    && forall a, b :: a in menus && b in menus && a.menuId == b.menuId ==> a == b
  }

  /** `menuMap.get(id)`. */
  function Lookup(menus: seq<Menu>, id: int): (r: Option<Menu>)
    ensures r.Some? ==> r.value in menus && r.value.menuId == id
    ensures r.None? ==> forall m :: m in menus ==> m.menuId != id
  {
    if |menus| == 0 then None
    else if menus[0].menuId == id then Some(menus[0])
    else
      assert forall m :: m in menus ==> m == menus[0] || m in menus[1..];
      Lookup(menus[1..], id)
  }

  /** With unique ids, looking a menu's id up finds that menu. */
  lemma LookupUnique(menus: seq<Menu>, m: Menu)
    requires UniqueIds(menus) && m in menus
    ensures Lookup(menus, m.menuId) == Some(m)
  {
  }

  /** A parent link counts only when `parentId` is truthy (not NULL, not 0). */
  function LinkOf(m: Menu): Option<int> {
    if m.parentId.Some? && m.parentId.value != 0 then m.parentId else None
  }

  /** The parent menu among `menus`, if the link names one. */
  function ParentOf(menus: seq<Menu>, m: Menu): (r: Option<Menu>)
    ensures r.Some? ==> r.value in menus && LinkOf(m) == Some(r.value.menuId)
    ensures r.None? ==> forall q :: q in menus ==> LinkOf(m) != Some(q.menuId)
  {
    if LinkOf(m).Some? then Lookup(menus, LinkOf(m).value) else None
  }

  /** With unique ids, `c` names `k` as its parent exactly when its link
      carries `k`'s id. */
  lemma ParentByLink(menus: seq<Menu>, c: Menu, k: Menu)
    requires UniqueIds(menus) && k in menus
    ensures ParentOf(menus, c) == Some(k) <==> LinkOf(c) == Some(k.menuId)
  {
    if LinkOf(c) == Some(k.menuId) {
      LookupUnique(menus, k);
    }
  }

  /** Following parents from `m` reaches a menu without a parent in at most
      `fuel` steps. */
  predicate EndsWithin(menus: seq<Menu>, m: Menu, fuel: nat)
    decreases fuel
  {
    match ParentOf(menus, m)
    case None => true
    case Some(q) => fuel > 0 && EndsWithin(menus, q, fuel - 1)
  }

  /** No parent walk goes round in a circle: every walk ends. */
  ghost predicate Acyclic(menus: seq<Menu>) {
    forall m :: m in menus ==> exists k: nat :: EndsWithin(menus, m, k)
  }

  /** The proper ancestors of `m`, nearest first, as the `while` loop of
      `filterMenusRecursive` visits them (at most `fuel` of them). */
  function Walk(menus: seq<Menu>, m: Menu, fuel: nat): (r: seq<Menu>)
    ensures |r| <= fuel
    ensures forall q :: q in r ==> q in menus
    decreases fuel
  {
    if fuel == 0 then []
    else match ParentOf(menus, m)
      case None => []
      case Some(q) => [q] + Walk(menus, q, fuel - 1)
  }

  /** A menu followed by its ancestors, up to the walk's end. */
  function Chain(menus: seq<Menu>, m: Menu): seq<Menu> {
    [m] + Walk(menus, m, |menus|)
  }

  /** Each step of a chain goes to the parent, and the chain stops at a menu
      without one. */
  predicate ParentChain(menus: seq<Menu>, w: seq<Menu>) {
    && |w| > 0
    && (forall t :: 0 <= t < |w| - 1 ==> ParentOf(menus, w[t]) == Some(w[t + 1]))
    && ParentOf(menus, w[|w| - 1]).None?
  }

  lemma {:induction false} WalkShape(menus: seq<Menu>, s: Menu, fuel: nat)
    requires EndsWithin(menus, s, fuel)
    ensures ParentChain(menus, [s] + Walk(menus, s, fuel))
    decreases fuel
  {
    if ParentOf(menus, s).Some? {
      var p := ParentOf(menus, s).value;
      WalkShape(menus, p, fuel - 1);
      var w' := [p] + Walk(menus, p, fuel - 1);
      assert [s] + Walk(menus, s, fuel) == [s] + w';
    }
  }

  /** A parent chain never revisits a menu: a repeat would make the chain
      go round forever instead of stopping. */
  lemma ChainNoDup(menus: seq<Menu>, w: seq<Menu>)
    requires ParentChain(menus, w)
    ensures NoDup(w)
  {
    forall i, j | 0 <= i < j < |w|
      ensures w[i] != w[j]
    {
      if w[i] == w[j] {
        var d := |w| - 1;
        var t := 0;
        while i + t < d
          invariant 0 <= t <= d - i
          invariant j + t <= d && w[i + t] == w[j + t]
        {
          assert ParentOf(menus, w[i + t]) == Some(w[i + t + 1]);
          assert j + t < d;
          assert ParentOf(menus, w[j + t]) == Some(w[j + t + 1]);
          t := t + 1;
        }
        assert false;
      }
    }
  }

  lemma {:induction false} EndsWithinMore(menus: seq<Menu>, s: Menu, k: nat, k': nat)
    requires EndsWithin(menus, s, k) && k <= k'
    ensures EndsWithin(menus, s, k')
    decreases k
  {
    if ParentOf(menus, s).Some? {
      EndsWithinMore(menus, ParentOf(menus, s).value, k - 1, k' - 1);
    }
  }

  lemma {:induction false} EndsWithinWalk(menus: seq<Menu>, s: Menu, k: nat)
    requires EndsWithin(menus, s, k)
    ensures EndsWithin(menus, s, |Walk(menus, s, k)|)
    decreases k
  {
    if ParentOf(menus, s).Some? {
      EndsWithinWalk(menus, ParentOf(menus, s).value, k - 1);
    }
  }

  /** A walk that ends at all ends within as many steps as there are
      menus, since it never revisits one. */
  lemma DepthBound(menus: seq<Menu>, s: Menu, k: nat)
    requires s in menus && EndsWithin(menus, s, k)
    ensures EndsWithin(menus, s, |menus|)
    ensures ParentChain(menus, Chain(menus, s))
  {
    WalkShape(menus, s, k);
    var w := [s] + Walk(menus, s, k);
    ChainNoDup(menus, w);
    NoDupWithin(w, menus);
    EndsWithinWalk(menus, s, k);
    EndsWithinMore(menus, s, |Walk(menus, s, k)|, |menus|);
    WalkShape(menus, s, |menus|);
  }

  // ---------------------------------------------------------------------
  // filterMenusRecursive
  // ---------------------------------------------------------------------

  /** `resultIds`: the allowed ids and the ids of every ancestor of an
      allowed menu. */
  function ResultIds(menus: seq<Menu>, allowed: set<int>): set<int> {
    allowed + set a, q | a in allowed && Lookup(menus, a).Some? && q in Walk(menus, Lookup(menus, a).value, |menus|) :: q.menuId
  }

  /** `filterMenusRecursive`: the menus whose id is allowed or belongs to an
      ancestor of an allowed menu, in their original order. */
  function FilterMenus(menus: seq<Menu>, allowed: set<int>): (r: seq<Menu>)
    ensures |r| <= |menus| && forall m :: m in r ==> m in menus
    ensures forall m :: m in menus && m.menuId in allowed ==> m in r
  {
    Filter(menus, (m: Menu) => m.menuId in ResultIds(menus, allowed))
  }

  /** The kept menus keep their relative order. */
  lemma FilterMenusOrder(menus: seq<Menu>, allowed: set<int>)
    ensures exists pos :: Embeds(FilterMenus(menus, allowed), menus, pos)
  {
    var pos := FilterPositions(menus, (m: Menu) => m.menuId in ResultIds(menus, allowed));
    assert Embeds(FilterMenus(menus, allowed), menus, pos);
  }

  /** The ancestors a walk visits are closed under taking parents. */
  lemma {:induction false} WalkClosed(menus: seq<Menu>, s: Menu, fuel: nat, x: Menu)
    requires EndsWithin(menus, s, fuel) && x in Walk(menus, s, fuel)
    ensures ParentOf(menus, x).Some? ==> ParentOf(menus, x).value in Walk(menus, s, fuel)
    decreases fuel
  {
    var p := ParentOf(menus, s).value;
    if x != p {
      WalkClosed(menus, p, fuel - 1, x);
    } else if ParentOf(menus, x).Some? {
      assert Walk(menus, p, fuel - 1)[0] == ParentOf(menus, x).value;
    }
  }

  /** Ancestor closure: the parent of a kept menu, when its link names a
      menu of the list, is kept too. */
  lemma FilterMenusClosed(menus: seq<Menu>, allowed: set<int>, m: Menu)
    requires UniqueIds(menus) && Acyclic(menus)
    requires m in FilterMenus(menus, allowed)
    ensures ParentOf(menus, m).Some? ==> ParentOf(menus, m).value in FilterMenus(menus, allowed)
  {
    var ids := ResultIds(menus, allowed);
    if ParentOf(menus, m).Some? {
      var q := ParentOf(menus, m).value;
      if m.menuId in allowed {
        var k: nat :| EndsWithin(menus, m, k);
        DepthBound(menus, m, k);
        LookupUnique(menus, m);
        assert Walk(menus, m, |menus|)[0] == q;
        assert q.menuId in ids;
      } else {
        var a, x :| a in allowed && Lookup(menus, a).Some? && x in Walk(menus, Lookup(menus, a).value, |menus|) && x.menuId == m.menuId;
        var s := Lookup(menus, a).value;
        var k: nat :| EndsWithin(menus, s, k);
        DepthBound(menus, s, k);
        LookupUnique(menus, x);
        LookupUnique(menus, m);
        WalkClosed(menus, s, |menus|, x);
        assert q.menuId in ids;
      }
    }
  }

  /** Every walk from a menu whose id lies in a parent-closed set stays
      inside the set. */
  lemma {:induction false} WalkInside(menus: seq<Menu>, s: Menu, fuel: nat, ids: set<int>)
    requires s.menuId in ids
    requires forall m :: m in menus && m.menuId in ids && ParentOf(menus, m).Some? ==> ParentOf(menus, m).value.menuId in ids
    requires s in menus
    ensures forall q :: q in Walk(menus, s, fuel) ==> q.menuId in ids
    decreases fuel
  {
    if fuel > 0 && ParentOf(menus, s).Some? {
      WalkInside(menus, ParentOf(menus, s).value, fuel - 1, ids);
    }
  }

  /** Nothing else is kept: a set of ids that holds the allowed ids and is
      closed under parents holds the id of every kept menu. */
  lemma FilterMenusMinimal(menus: seq<Menu>, allowed: set<int>, ids: set<int>)
    requires allowed <= ids
    requires forall m :: m in menus && m.menuId in ids && ParentOf(menus, m).Some? ==> ParentOf(menus, m).value.menuId in ids
    ensures forall m :: m in FilterMenus(menus, allowed) ==> m.menuId in ids
  {
    forall a | a in allowed && Lookup(menus, a).Some?
      ensures forall q :: q in Walk(menus, Lookup(menus, a).value, |menus|) ==> q.menuId in ids
    {
      WalkInside(menus, Lookup(menus, a).value, |menus|, ids);
    }
  }

  /** Filtering keeps the primary key and the acyclicity of the links. */
  lemma FilterMenusWellFormed(menus: seq<Menu>, allowed: set<int>)
    requires UniqueIds(menus) && Acyclic(menus)
    ensures UniqueIds(FilterMenus(menus, allowed)) && Acyclic(FilterMenus(menus, allowed))
  {
    FilterNoDup(menus, (m: Menu) => m.menuId in ResultIds(menus, allowed));
    SublistWellFormed(menus, FilterMenus(menus, allowed));
  }

  /** Any duplicate-free selection of well-formed menus, in any order, is
      well formed: a parent left out only ends a walk sooner. */
  lemma SublistWellFormed(menus: seq<Menu>, sub: seq<Menu>)
    requires UniqueIds(menus) && Acyclic(menus)
    requires NoDup(sub) && forall m :: m in sub ==> m in menus
    ensures UniqueIds(sub) && Acyclic(sub)
  {
    forall m | m in sub
      ensures exists k: nat :: EndsWithin(sub, m, k)
    {
      var k: nat :| EndsWithin(menus, m, k);
      EndsWithinSublist(menus, sub, m, k);
    }
  }

  lemma {:induction false} EndsWithinSublist(menus: seq<Menu>, sub: seq<Menu>, m: Menu, k: nat)
    requires UniqueIds(menus) && forall x :: x in sub ==> x in menus
    requires EndsWithin(menus, m, k)
    ensures EndsWithin(sub, m, k)
    decreases k
  {
    match ParentOf(sub, m)
    case None =>
    case Some(q) =>
      ParentByLink(menus, m, q);
      EndsWithinSublist(menus, sub, q, k - 1);
  }
}

=== FILE: menu_service.dfy ===
/** The menu service's entry points over an abstract pair of tables:
    `ref_menu` as a list of menus and `cfg_menu_role` as a list of grants,
    both in insertion order. */
module MenuService {
  import opened Common
  import opened Sorting
  import opened Menus
  import opened MenuTree
  import Fleet

  datatype MenuDb = MenuDb(menus: seq<Menu>, grants: seq<MenuRole>)

  // ---------------------------------------------------------------------
  // getMyMenus
  // ---------------------------------------------------------------------

  /** `orderBy: { sortOrder: 'asc' }`: ascending, NULL last. */
  function TableOrder(menus: seq<Menu>): (r: seq<Menu>)
    ensures multiset(r) == multiset(menus)
    ensures forall i, j :: 0 <= i < j < |r| && r[j].sortOrder.Some? ==> r[i].sortOrder.Some? && r[i].sortOrder.value <= r[j].sortOrder.value
  {
    SortNullsLast(menus, (m: Menu) => m.sortOrder)
  }

  /** `findMany({ where: { isVisible: 'Y' }, orderBy: { sortOrder: 'asc' } })`. */
  function VisibleMenus(menus: seq<Menu>): (r: seq<Menu>)
    ensures forall m :: m in r <==> m in menus && m.isVisible == "Y"
    ensures multiset(r) == multiset(Filter(menus, (m: Menu) => m.isVisible == "Y"))
    ensures forall i, j :: 0 <= i < j < |r| && r[j].sortOrder.Some? ==> r[i].sortOrder.Some? && r[i].sortOrder.value <= r[j].sortOrder.value
  {
    var v := Filter(menus, (m: Menu) => m.isVisible == "Y");
    var r := TableOrder(v);
    SameElements(r, v);
    r
  }

  lemma SameElements(r: seq<Menu>, v: seq<Menu>)
    requires multiset(r) == multiset(v)
    ensures forall m :: m in r <==> m in v
  {
    forall m ensures m in r <==> m in v {
      assert m in r <==> m in multiset(r);
      assert m in v <==> m in multiset(v);
    }
  }

  /** `role ? role.toUpperCase() : 'USER'`; `role` is None when the caller
      passed no role at all. */
  function SafeRole(role: Option<string>): string {
    if role.Some? && Given(role.value) then Upper(role.value) else "USER"
  }

  /** The role names whose grants count: the role as given, upper-cased
      and lower-cased, without duplicates and without the empty string. */
  function RolesToCheck(role: string): (r: seq<string>)
    ensures forall x :: x in r <==> Given(x) && (x == role || x == SafeRole(Some(role)) || x == Lower(role))
  {
    Filter(Dedupe([role, SafeRole(Some(role)), Lower(role)]), Given)
  }

  /** The grant rows for any of the checked role names. */
  function Accessible(grants: seq<MenuRole>, checks: seq<string>): (r: seq<MenuRole>)
    ensures forall g :: g in r <==> g in grants && g.role in checks
  {
    Filter(grants, (g: MenuRole) => g.role in checks)
  }

  function GrantedIds(rows: seq<MenuRole>): (ids: set<int>)
    ensures forall id :: id in ids <==> exists g :: g in rows && g.menuId == id
  {
    set g | g in rows :: g.menuId
  }

  /** `getMyMenus`: the menu forest a role may see. An administrator (any
      case of "ADMIN") or demo mode sees every visible menu; anyone else
      sees the menus granted to the role plus their ancestors. No visible
      menus, no grants, or a missing role outside demo mode (the
      `toLowerCase` call throws and the handler answers `[]`) give the
      empty forest. */
  function MyMenus(role: Option<string>, demo: bool, db: MenuDb): (r: seq<MenuNode>)
    ensures |VisibleMenus(db.menus)| == 0 ==> r == []
    ensures |VisibleMenus(db.menus)| > 0 && (demo || SafeRole(role) == "ADMIN") ==> r == BuildMenuTree(VisibleMenus(db.menus), None)
    ensures !demo && SafeRole(role) != "ADMIN" && role.None? ==> r == []
    ensures !demo && SafeRole(role) != "ADMIN" && role.Some? && |Accessible(db.grants, RolesToCheck(role.value))| == 0 ==> r == []
    ensures !demo && SafeRole(role) != "ADMIN" && role.Some? && |Accessible(db.grants, RolesToCheck(role.value))| > 0 && |VisibleMenus(db.menus)| > 0
            ==> r == BuildMenuTree(FilterMenus(VisibleMenus(db.menus), GrantedIds(Accessible(db.grants, RolesToCheck(role.value)))), None)
  {
    var all := VisibleMenus(db.menus);
    if |all| == 0 then []
    else if demo || SafeRole(role) == "ADMIN" then BuildMenuTree(all, None)
    else if role.None? then []
    else
      var accessible := Accessible(db.grants, RolesToCheck(role.value));
      if |accessible| == 0 then []
      else BuildMenuTree(FilterMenus(all, GrantedIds(accessible)), None)
  }

  /** A role name in any letter case that upper-cases to "ADMIN" sees every
      visible menu exactly once. */
  lemma AdminSeesAll(role: string, demo: bool, db: MenuDb, id: int)
    requires Given(role) && Upper(role) == "ADMIN"
    requires UniqueIds(db.menus) && Acyclic(db.menus)
    ensures Count(MyMenus(Some(role), demo, db), id)
            == if exists m :: m in db.menus && m.isVisible == "Y" && m.menuId == id then 1 else 0
  {
    var all := VisibleMenus(db.menus);
    VisibleWellFormed(db.menus);
    if |all| > 0 {
      BuildMenuTreeOnce(all, None, id);
    }
  }

  /** The visible menus keep the primary key and acyclic links. */
  lemma VisibleWellFormed(menus: seq<Menu>)
    requires UniqueIds(menus) && Acyclic(menus)
    ensures UniqueIds(VisibleMenus(menus)) && Acyclic(VisibleMenus(menus))
  {
    var v := Filter(menus, (m: Menu) => m.isVisible == "Y");
    FilterNoDup(menus, (m: Menu) => m.isVisible == "Y");
    NoDupPermutation(v, VisibleMenus(menus));
    SublistWellFormed(menus, VisibleMenus(menus));
  }

  /** A user who is not an administrator sees, each exactly once, the
      visible menus granted to the role and the visible ancestors of those,
      and no other menu. */
  lemma UserSeesGranted(role: string, db: MenuDb, id: int)
    requires UniqueIds(db.menus) && Acyclic(db.menus)
    requires SafeRole(Some(role)) != "ADMIN"
    ensures var all := VisibleMenus(db.menus);
            var granted := GrantedIds(Accessible(db.grants, RolesToCheck(role)));
            Count(MyMenus(Some(role), false, db), id)
            == if exists m :: m in FilterMenus(all, granted) && m.menuId == id then 1 else 0
  {
    var all := VisibleMenus(db.menus);
    var accessible := Accessible(db.grants, RolesToCheck(role));
    var granted := GrantedIds(accessible);
    VisibleWellFormed(db.menus);
    FilterMenusWellFormed(all, granted);
    if |all| > 0 && |accessible| > 0 {
      BuildMenuTreeOnce(FilterMenus(all, granted), None, id);
    } else if |accessible| == 0 {
      assert granted == {};
      assert forall m :: m in FilterMenus(all, granted) ==> m.menuId in ResultIds(all, granted);
    }
  }

  // ---------------------------------------------------------------------
  // getAllMenus
  // ---------------------------------------------------------------------

  /** `getAllMenus`: the forest of every menu, visible or not, each node
      listing the roles granted on it. */
  function AllMenus(db: MenuDb): (r: seq<MenuNode>)
    ensures RolesFrom(r, Some(db.grants))
  {
    var menus := TableOrder(db.menus);
    BuildMenuTreeRoles(menus, Some(db.grants));
    BuildMenuTree(menus, Some(db.grants))
  }

  /** Every menu, visible or not, appears exactly once in the
      administrator's forest. */
  lemma AllMenusOnce(db: MenuDb, id: int)
    requires UniqueIds(db.menus) && Acyclic(db.menus)
    ensures Count(AllMenus(db), id) == if exists m :: m in db.menus && m.menuId == id then 1 else 0
  {
    var menus := TableOrder(db.menus);
    assert forall m :: m in menus <==> m in multiset(db.menus);
    NoDupPermutation(db.menus, menus);
    SublistWellFormed(db.menus, menus);
    BuildMenuTreeOnce(menus, Some(db.grants), id);
  }

  // ---------------------------------------------------------------------
  // createMenu / updateMenu / deleteMenu / updateRolePermissions
  // ---------------------------------------------------------------------

  /** The request body of `createMenu`; None is an absent field. */
  datatype CreateMenuDto = CreateMenuDto(
    text: string,
    routerPath: Option<string>,
    parentId: Option<int>,
    icon: Option<string>,
    sortOrder: Option<int>,
    statusTag: Option<string>,
    isVisible: Option<bool>,
    roles: Option<seq<string>>)

  /** `s || null` on an optional string is its JavaScript truthiness. */
  function OrNull(s: Option<string>): Option<string> {
    Fleet.Truthy(s)
  }

  function GrantRows(id: int, roles: seq<string>): (r: seq<MenuRole>)
    ensures |r| == |roles| && forall i :: 0 <= i < |r| ==> r[i] == MenuRole(id, roles[i])
  {
    seq(|roles|, i requires 0 <= i < |roles| => MenuRole(id, roles[i]))
  }

  /** The roles of freshly written grant rows for one id are the given
      roles, in order; other ids get none. */
  lemma {:induction false} RolesOfGrantRows(id: int, roles: seq<string>, other: int)
    ensures RolesOf(GrantRows(id, roles), id) == roles
    ensures other != id ==> RolesOf(GrantRows(id, roles), other) == []
    decreases |roles|
  {
    if |roles| > 0 {
      var init := roles[..|roles| - 1];
      RolesOfGrantRows(id, init, other);
      assert GrantRows(id, roles)[..|roles| - 1] == GrantRows(id, init);
    }
  }

  /** The row `createMenu` inserts under the id the database assigns. */
  function NewMenu(id: int, dto: CreateMenuDto): (m: Menu)
    ensures m.menuId == id && m.text == dto.text
    ensures m.routerPath == OrNull(dto.routerPath) && m.icon == OrNull(dto.icon) && m.statusTag == OrNull(dto.statusTag)
    ensures m.parentId.Some? <==> dto.parentId.Some? && dto.parentId.value != 0
    ensures m.parentId.Some? ==> m.parentId == dto.parentId
    ensures m.sortOrder == Some(dto.sortOrder.GetOr(0))
    ensures m.isVisible == (if dto.isVisible == Some(false) then "N" else "Y")
  {
    Menu(id, dto.text, OrNull(dto.routerPath), OrNull(dto.icon),
         if dto.parentId.Some? && dto.parentId.value != 0 then dto.parentId else None,
         Some(dto.sortOrder.GetOr(0)), OrNull(dto.statusTag),
         if dto.isVisible == Some(false) then "N" else "Y")
  }

  /** `createMenu`: appends the new menu and, when a non-empty role list is
      given, one grant per role. */
  function CreateMenu(db: MenuDb, id: int, dto: CreateMenuDto): (r: MenuDb)
    requires forall m :: m in db.menus ==> m.menuId != id
    ensures Lookup(r.menus, id) == Some(NewMenu(id, dto))
    ensures forall m :: m in db.menus ==> m in r.menus
    ensures UniqueIds(db.menus) ==> UniqueIds(r.menus)
    ensures RolesOf(r.grants, id) == RolesOf(db.grants, id) + dto.roles.GetOr([])
    ensures forall other :: other != id ==> RolesOf(r.grants, other) == RolesOf(db.grants, other)
  {
    var rows := if dto.roles.Some? && |dto.roles.value| > 0 then GrantRows(id, dto.roles.value) else [];
    var r := MenuDb(db.menus + [NewMenu(id, dto)], db.grants + rows);
    LookupAppend(db.menus, NewMenu(id, dto));
    forall other
      ensures RolesOf(r.grants, other) == RolesOf(db.grants, other) + (if other == id then dto.roles.GetOr([]) else [])
    {
      RolesOfAppend(db.grants, rows, other);
      if dto.roles.Some? && |dto.roles.value| > 0 {
        RolesOfGrantRows(id, dto.roles.value, other);
      }
    }
    r
  }

  lemma {:induction false} LookupAppend(menus: seq<Menu>, m: Menu)
    requires forall x :: x in menus ==> x.menuId != m.menuId
    ensures Lookup(menus + [m], m.menuId) == Some(m)
  {
    if |menus| > 0 {
      assert (menus + [m])[1..] == menus[1..] + [m];
      LookupAppend(menus[1..], m);
    }
  }

  /** The request body of `updateMenu`; None is an absent (`undefined`)
      field. `parentId` may be present and null. */
  datatype UpdateMenuDto = UpdateMenuDto(
    text: Option<string>,
    routerPath: Option<string>,
    parentId: Option<Option<int>>,
    icon: Option<string>,
    sortOrder: Option<int>,
    statusTag: Option<string>,
    isVisible: Option<bool>,
    roles: Option<seq<string>>)

  /** The menu after the fields present in the body are applied. */
  function Patched(m: Menu, dto: UpdateMenuDto): (p: Menu)
    ensures p.menuId == m.menuId
    ensures p.text == dto.text.GetOr(m.text)
    ensures p.routerPath == (if dto.routerPath.Some? then OrNull(dto.routerPath) else m.routerPath)
    ensures p.parentId == dto.parentId.GetOr(m.parentId)
    ensures p.icon == (if dto.icon.Some? then OrNull(dto.icon) else m.icon)
    ensures p.sortOrder == (if dto.sortOrder.Some? then dto.sortOrder else m.sortOrder)
    ensures p.statusTag == (if dto.statusTag.Some? then OrNull(dto.statusTag) else m.statusTag)
    ensures p.isVisible == (if dto.isVisible.Some? then (if dto.isVisible.value then "Y" else "N") else m.isVisible)
  {
    m.(text := dto.text.GetOr(m.text),
       routerPath := if dto.routerPath.Some? then OrNull(dto.routerPath) else m.routerPath,
       parentId := dto.parentId.GetOr(m.parentId),
       icon := if dto.icon.Some? then OrNull(dto.icon) else m.icon,
       sortOrder := if dto.sortOrder.Some? then dto.sortOrder else m.sortOrder,
       statusTag := if dto.statusTag.Some? then OrNull(dto.statusTag) else m.statusTag,
       isVisible := if dto.isVisible.Some? then (if dto.isVisible.value then "Y" else "N") else m.isVisible)
  }

  /** An empty body changes nothing. */
  lemma PatchedNothing(m: Menu)
    ensures Patched(m, UpdateMenuDto(None, None, None, None, None, None, None, None)) == m
  {
  }

  function ReplaceMenu(menus: seq<Menu>, id: int, dto: UpdateMenuDto): (r: seq<Menu>)
    ensures |r| == |menus|
    ensures forall i :: 0 <= i < |r| ==> r[i] == if menus[i].menuId == id then Patched(menus[i], dto) else menus[i]
  {
    seq(|menus|, i requires 0 <= i < |menus| => if menus[i].menuId == id then Patched(menus[i], dto) else menus[i])
  }

  /** The grant rows without those of `id`. */
  function DropGrants(grants: seq<MenuRole>, id: int): (r: seq<MenuRole>)
    ensures forall g :: g in r <==> g in grants && g.menuId != id
    ensures RolesOf(r, id) == []
    ensures forall other :: other != id ==> RolesOf(r, other) == RolesOf(grants, other)
  {
    if |grants| == 0 then [] else
      var init := grants[..|grants| - 1];
      var last := grants[|grants| - 1];
      var rest := DropGrants(init, id);
      assert forall x :: x in grants <==> x in init || x == last;
      if last.menuId == id then rest else rest + [last]
  }

  /** `updateMenu`: a missing menu is a database error (the update throws
      before the grants are touched); otherwise the fields present in the body change
      and, when a role list is present, it replaces every grant of the menu. */
  function UpdateMenu(db: MenuDb, id: int, dto: UpdateMenuDto): (r: Result<MenuDb>)
    ensures r.Err? <==> Lookup(db.menus, id).None?
    ensures r.Ok? ==> Lookup(r.value.menus, id) == Some(Patched(Lookup(db.menus, id).value, dto))
    ensures r.Ok? ==> forall m :: m in db.menus && m.menuId != id ==> m in r.value.menus
    ensures r.Ok? ==> RolesOf(r.value.grants, id) == if dto.roles.Some? then dto.roles.value else RolesOf(db.grants, id)
    ensures r.Ok? ==> forall other :: other != id ==> RolesOf(r.value.grants, other) == RolesOf(db.grants, other)
  {
    if Lookup(db.menus, id).None? then Err(Internal("record not found"))
    else
      var menus := ReplaceMenu(db.menus, id, dto);
      LookupReplaced(db.menus, id, dto);
      var grants := if dto.roles.Some? then DropGrants(db.grants, id) + GrantRows(id, dto.roles.value) else db.grants;
      forall other
        ensures RolesOf(grants, other) == if other == id && dto.roles.Some? then dto.roles.value else RolesOf(db.grants, other)
      {
        if dto.roles.Some? {
          RolesOfAppend(DropGrants(db.grants, id), GrantRows(id, dto.roles.value), other);
          RolesOfGrantRows(id, dto.roles.value, other);
        }
      }
      assert forall m :: m in db.menus && m.menuId != id ==> m in menus by {
        forall m | m in db.menus && m.menuId != id
          ensures m in menus
        {
          var i :| 0 <= i < |db.menus| && db.menus[i] == m;
          assert menus[i] == m;
        }
      }
      Ok(MenuDb(menus, grants))
  }

  lemma {:induction false} LookupReplaced(menus: seq<Menu>, id: int, dto: UpdateMenuDto)
    requires Lookup(menus, id).Some?
    ensures Lookup(ReplaceMenu(menus, id, dto), id) == Some(Patched(Lookup(menus, id).value, dto))
  {
    var r := ReplaceMenu(menus, id, dto);
    if menus[0].menuId != id {
      assert r[1..] == ReplaceMenu(menus[1..], id, dto);
      LookupReplaced(menus[1..], id, dto);
    }
  }

  /** `deleteMenu`: the grants of the menu go first, then the menu; a
      missing menu is a database error, raised after the grants are already
      gone. */
  function DeleteMenu(db: MenuDb, id: int): (r: (MenuDb, Result<Menu>))
    ensures forall g :: g in r.0.grants <==> g in db.grants && g.menuId != id
    ensures forall m :: m in r.0.menus <==> m in db.menus && m.menuId != id
    ensures r.1.Ok? <==> Lookup(db.menus, id).Some?
    ensures r.1.Ok? ==> r.1.value == Lookup(db.menus, id).value
  {
    var grants := DropGrants(db.grants, id);
    var menus := Filter(db.menus, (m: Menu) => m.menuId != id);
    match Lookup(db.menus, id)
    case None => (MenuDb(db.menus, grants), Err(Internal("record not found")))
    case Some(m) => (MenuDb(menus, grants), Ok(m))
  }

  /** The grant rows without those of `role`. */
  function DropRole(grants: seq<MenuRole>, role: string): (r: seq<MenuRole>)
    ensures forall g :: g in r <==> g in grants && g.role != role
  {
    Filter(grants, (g: MenuRole) => g.role != role)
  }

  function RoleRows(role: string, ids: seq<int>): (r: seq<MenuRole>)
    ensures forall g :: g in r <==> g.role == role && g.menuId in ids
  {
    var r := seq(|ids|, i requires 0 <= i < |ids| => MenuRole(ids[i], role));
    assert forall g :: g in r ==> exists i :: 0 <= i < |ids| && r[i] == g;
    assert forall id :: id in ids ==> exists i :: 0 <= i < |ids| && ids[i] == id && r[i] == MenuRole(id, role);
    r
  }

  /** `updateRolePermissions`: the role's grants become exactly the listed
      menus; other roles keep theirs. */
  function UpdateRolePermissions(db: MenuDb, role: string, ids: seq<int>): (r: MenuDb)
    ensures r.menus == db.menus
    ensures forall id :: MenuRole(id, role) in r.grants <==> id in ids
    ensures forall g: MenuRole :: g.role != role ==> (g in r.grants <==> g in db.grants)
  {
    MenuDb(db.menus, DropRole(db.grants, role) + RoleRows(role, ids))
  }
}

=== FILE: menu_tree.dfy ===
/** `buildMenuTree`: the forest a list of menus forms through its parent
    links. A menu hangs under the menu its truthy `parentId` names, or is a
    root when there is no such menu; every list of siblings is sorted by
    `sortOrder || 0`, ties keeping input order. */
module MenuTree {
  import opened Common
  import opened Sorting
  import opened Menus

  datatype MenuNode = MenuNode(
    menuId: int,
    text: string,
    routerPath: Option<string>,
    icon: Option<string>,
    parentId: Option<int>,
    sortOrder: Option<int>,
    statusTag: Option<string>,
    isVisible: bool,
    children: seq<MenuNode>,
    roles: Option<seq<string>>)     // None: no role map was passed

  /** `a.sortOrder || 0`. */
  function SortKey(m: Menu): int {
    m.sortOrder.GetOr(0)
  }

  /** A root: no truthy parent link, or a link naming no menu of the list. */
  predicate IsRoot(menus: seq<Menu>, m: Menu) {
    ParentOf(menus, m).None?
  }

  function Roots(menus: seq<Menu>): (r: seq<Menu>)
    ensures forall m :: m in r <==> m in menus && IsRoot(menus, m)
  {
    Filter(menus, (m: Menu) => IsRoot(menus, m))
  }

  /** The menus whose link carries `id`, in input order. */
  function ChildrenOf(menus: seq<Menu>, id: int): (r: seq<Menu>)
    ensures forall c :: c in r <==> c in menus && LinkOf(c) == Some(id)
  {
    if |menus| == 0 then [] else
      var init := menus[..|menus| - 1];
      var last := menus[|menus| - 1];
      assert forall x :: x in menus <==> x in init || x == last;
      ChildrenOf(init, id) + if LinkOf(last) == Some(id) then [last] else []
  }

  /** `roleMap.get(menuId) || []`: the roles of the rows carrying the id, in
      row order. */
  function RolesOf(rows: seq<MenuRole>, id: int): (r: seq<string>)
    ensures |r| <= |rows|
    ensures forall role :: role in r <==> MenuRole(id, role) in rows
  {
    if |rows| == 0 then [] else
      var rest := RolesOf(rows[..|rows| - 1], id);
      assert forall x :: x in rows <==> x in rows[..|rows| - 1] || x == rows[|rows| - 1];
      if rows[|rows| - 1].menuId == id then rest + [rows[|rows| - 1].role] else rest
  }

  /** Rows appended after the others add their roles at the end. */
  lemma {:induction false} RolesOfAppend(a: seq<MenuRole>, b: seq<MenuRole>, id: int)
    ensures RolesOf(a + b, id) == RolesOf(a, id) + RolesOf(b, id)
    decreases |b|
  {
    if |b| == 0 {
      assert a + b == a;
    } else {
      assert (a + b)[..|a + b| - 1] == a + b[..|b| - 1];
      RolesOfAppend(a, b[..|b| - 1], id);
    }
  }

  function NodeRoles(roleRows: Option<seq<MenuRole>>, id: int): Option<seq<string>> {
    if roleRows.Some? then Some(RolesOf(roleRows.value, id)) else None
  }

  /** The node of one menu; its subtree is cut off after `fuel` levels. */
  function Node(menus: seq<Menu>, m: Menu, roleRows: Option<seq<MenuRole>>, fuel: nat): (n: MenuNode)
    ensures n.menuId == m.menuId && n.text == m.text && n.routerPath == m.routerPath && n.icon == m.icon
    ensures n.parentId == m.parentId && n.sortOrder == m.sortOrder && n.statusTag == m.statusTag
    ensures n.isVisible <==> m.isVisible == "Y"
    ensures n.roles == NodeRoles(roleRows, m.menuId)
    decreases fuel, 0
  {
    var kids := if fuel == 0 then [] else Nodes(menus, Kids(menus, m), roleRows, fuel - 1);
    MenuNode(m.menuId, m.text, m.routerPath, m.icon, m.parentId, m.sortOrder, m.statusTag,
             m.isVisible == "Y", kids, NodeRoles(roleRows, m.menuId))
  }

  function Nodes(menus: seq<Menu>, ms: seq<Menu>, roleRows: Option<seq<MenuRole>>, fuel: nat): (r: seq<MenuNode>)
    ensures |r| == |ms|
    decreases fuel, 1
  {
    seq(|ms|, i requires 0 <= i < |ms| => Node(menus, ms[i], roleRows, fuel))
  }

  /** `buildMenuTree`: the roots sorted by `sortOrder || 0`, each holding its
      children sorted the same way, recursively. A list of n menus nests at
      most n deep, so n levels build the whole forest. */
  function BuildMenuTree(menus: seq<Menu>, roleRows: Option<seq<MenuRole>>): (r: seq<MenuNode>)
    ensures |r| == |Roots(menus)|
  {
    Nodes(menus, SortBy(Roots(menus), SortKey), roleRows, |menus|)
  }

  /** A menu heads a tree of the forest exactly when it is a root. */
  lemma BuildMenuTreeRoots(menus: seq<Menu>, roleRows: Option<seq<MenuRole>>, m: Menu)
    requires UniqueIds(menus) && m in menus
    ensures (exists i :: 0 <= i < |BuildMenuTree(menus, roleRows)| && BuildMenuTree(menus, roleRows)[i].menuId == m.menuId)
            <==> IsRoot(menus, m)
  {
    var forest := BuildMenuTree(menus, roleRows);
    var sorted := SortBy(Roots(menus), SortKey);
    if IsRoot(menus, m) {
      assert m in multiset(sorted);
      var i :| 0 <= i < |sorted| && sorted[i] == m;
      assert forest[i].menuId == m.menuId;
    }
    if i :| 0 <= i < |forest| && forest[i].menuId == m.menuId {
      assert sorted[i] in multiset(Roots(menus));
    }
  }

  // ---------------------------------------------------------------------
  // Sibling order
  // ---------------------------------------------------------------------

  function NodeKey(n: MenuNode): int {
    n.sortOrder.GetOr(0)
  }

  /** Every sibling list of the forest is ordered by `sortOrder || 0`. */
  predicate SiblingsSorted(nodes: seq<MenuNode>)
    decreases nodes, 0
  {
    && (forall i, j :: 0 <= i < j < |nodes| ==> NodeKey(nodes[i]) <= NodeKey(nodes[j]))
    && forall i :: 0 <= i < |nodes| ==> ChildrenSorted(nodes[i])
  }

  predicate ChildrenSorted(n: MenuNode)
    decreases n, 1
  {
    SiblingsSorted(n.children)
  }

  lemma {:induction false} NodesSorted(menus: seq<Menu>, ms: seq<Menu>, roleRows: Option<seq<MenuRole>>, fuel: nat)
    requires SortedBy(ms, SortKey)
    ensures SiblingsSorted(Nodes(menus, ms, roleRows, fuel))
    decreases fuel, 1
  {
    var r := Nodes(menus, ms, roleRows, fuel);
    assert forall i :: 0 <= i < |r| ==> r[i] == Node(menus, ms[i], roleRows, fuel);
    forall i | 0 <= i < |r|
      ensures ChildrenSorted(r[i])
    {
      NodeSorted(menus, ms[i], roleRows, fuel);
    }
    forall i | 0 <= i < |r|
      ensures NodeKey(r[i]) == SortKey(ms[i])
    {
      assert r[i].sortOrder == ms[i].sortOrder;
    }
  }

  lemma {:induction false} NodeSorted(menus: seq<Menu>, m: Menu, roleRows: Option<seq<MenuRole>>, fuel: nat)
    ensures ChildrenSorted(Node(menus, m, roleRows, fuel))
    decreases fuel, 0
  {
    if fuel == 0 {
      LeafSorted(menus, m, roleRows);
    } else {
      var kids := Kids(menus, m);
      NodesSorted(menus, kids, roleRows, fuel - 1);
      InnerSorted(menus, m, roleRows, fuel);
    }
  }

  lemma LeafSorted(menus: seq<Menu>, m: Menu, roleRows: Option<seq<MenuRole>>)
    ensures ChildrenSorted(Node(menus, m, roleRows, 0))
  {
    assert Node(menus, m, roleRows, 0).children == [];
  }

  lemma InnerSorted(menus: seq<Menu>, m: Menu, roleRows: Option<seq<MenuRole>>, fuel: nat)
    requires fuel > 0
    requires SiblingsSorted(Nodes(menus, Kids(menus, m), roleRows, fuel - 1))
    ensures ChildrenSorted(Node(menus, m, roleRows, fuel))
  {
    assert Node(menus, m, roleRows, fuel).children == Nodes(menus, Kids(menus, m), roleRows, fuel - 1);
  }

  /** The roots and every list of children come out ordered by
      `sortOrder || 0`. */
  lemma BuildMenuTreeSorted(menus: seq<Menu>, roleRows: Option<seq<MenuRole>>)
    ensures SiblingsSorted(BuildMenuTree(menus, roleRows))
  {
    NodesSorted(menus, SortBy(Roots(menus), SortKey), roleRows, |menus|);
  }

  /** The position in the input of the first menu carrying `id`, or -1. */
  function Position(menus: seq<Menu>, id: int): (i: int)
    ensures -1 <= i < |menus|
    ensures i >= 0 ==> menus[i].menuId == id
    ensures forall k :: 0 <= k < |menus| && menus[k].menuId == id ==> 0 <= i <= k
  {
    if |menus| == 0 then -1
    else if menus[0].menuId == id then 0
    else
      var i := Position(menus[1..], id);
      assert forall k :: 1 <= k < |menus| ==> menus[k] == menus[1..][k - 1];
      if i < 0 then -1 else i + 1
  }

  /** With unique ids, a menu's position is where it stands. */
  lemma PositionAt(menus: seq<Menu>, k: int)
    requires UniqueIds(menus) && 0 <= k < |menus|
    ensures Position(menus, menus[k].menuId) == k
  {
    var i := Position(menus, menus[k].menuId);
    assert menus[i] in menus && menus[k] in menus;
    assert menus[i] == menus[k];
  }

  function RankIn(menus: seq<Menu>): Menu -> int {
    (m: Menu) => Position(menus, m.menuId)
  }

  /** Siblings with equal `sortOrder || 0` stand in their input order, at
      every level of the forest. */
  predicate SiblingsStable(menus: seq<Menu>, nodes: seq<MenuNode>)
    decreases nodes, 0
  {
    && (forall i, j :: 0 <= i < j < |nodes| && NodeKey(nodes[i]) == NodeKey(nodes[j])
          ==> Position(menus, nodes[i].menuId) < Position(menus, nodes[j].menuId))
    && forall i :: 0 <= i < |nodes| ==> ChildrenStable(menus, nodes[i])
  }

  predicate ChildrenStable(menus: seq<Menu>, n: MenuNode)
    decreases n, 1
  {
    SiblingsStable(menus, n.children)
  }

  /** A list taken from the input in input order has increasing positions. */
  predicate InInputOrder(menus: seq<Menu>, ms: seq<Menu>) {
    forall i, j :: 0 <= i < j < |ms| ==> Position(menus, ms[i].menuId) < Position(menus, ms[j].menuId)
  }

  lemma {:induction false} ChildrenInInputOrder(menus: seq<Menu>, id: int, n: nat)
    requires UniqueIds(menus) && n <= |menus|
    ensures InInputOrder(menus, ChildrenOf(menus[..n], id))
    ensures forall x :: x in ChildrenOf(menus[..n], id) ==> Position(menus, x.menuId) < n
  {
    if n > 0 {
      var prefix := menus[..n];
      assert prefix[..n - 1] == menus[..n - 1];
      var before := ChildrenOf(menus[..n - 1], id);
      var last := menus[n - 1];
      var c := ChildrenOf(prefix, id);
      assert c == before + if LinkOf(last) == Some(id) then [last] else [];
      ChildrenInInputOrder(menus, id, n - 1);
      PositionAt(menus, n - 1);
      forall x | x in c
        ensures Position(menus, x.menuId) < n
      {
        if x !in before {
          assert x == last;
        }
      }
      forall i, j | 0 <= i < j < |c|
        ensures Position(menus, c[i].menuId) < Position(menus, c[j].menuId)
      {
        if j < |before| {
          assert c[i] == before[i] && c[j] == before[j];
        } else {
          assert c[i] == before[i] && c[j] == last;
          assert c[i] in before;
        }
      }
    }
  }

  lemma RootsInInputOrder(menus: seq<Menu>)
    requires UniqueIds(menus)
    ensures InInputOrder(menus, Roots(menus))
  {
    var p := (m: Menu) => IsRoot(menus, m);
    var pos := FilterPositions(menus, p);
    var r := Roots(menus);
    assert r == Filter(menus, p);
    forall i, j | 0 <= i < j < |r|
      ensures Position(menus, r[i].menuId) < Position(menus, r[j].menuId)
    {
      PositionAt(menus, pos[i]);
      PositionAt(menus, pos[j]);
    }
  }

  lemma KidsStable(menus: seq<Menu>, m: Menu)
    requires UniqueIds(menus)
    ensures TiesByRank(Kids(menus, m), SortKey, RankIn(menus))
  {
    var c := ChildrenOf(menus, m.menuId);
    ChildrenInInputOrder(menus, m.menuId, |menus|);
    assert menus[..|menus|] == menus;
    SortByKeepsTies(c, SortKey, RankIn(menus));
  }

  lemma {:induction false} NodesStable(menus: seq<Menu>, ms: seq<Menu>, roleRows: Option<seq<MenuRole>>, fuel: nat)
    requires UniqueIds(menus)
    requires TiesByRank(ms, SortKey, RankIn(menus))
    ensures SiblingsStable(menus, Nodes(menus, ms, roleRows, fuel))
    decreases fuel, 1
  {
    var r := Nodes(menus, ms, roleRows, fuel);
    assert forall i :: 0 <= i < |r| ==> r[i] == Node(menus, ms[i], roleRows, fuel);
    forall i | 0 <= i < |r|
      ensures ChildrenStable(menus, r[i])
    {
      NodeStable(menus, ms[i], roleRows, fuel);
    }
    forall i, j | 0 <= i < j < |r| && NodeKey(r[i]) == NodeKey(r[j])
      ensures Position(menus, r[i].menuId) < Position(menus, r[j].menuId)
    {
      assert r[i].sortOrder == ms[i].sortOrder && r[j].sortOrder == ms[j].sortOrder;
      assert RankIn(menus)(ms[i]) < RankIn(menus)(ms[j]);
    }
  }

  lemma {:induction false} NodeStable(menus: seq<Menu>, m: Menu, roleRows: Option<seq<MenuRole>>, fuel: nat)
    requires UniqueIds(menus)
    ensures ChildrenStable(menus, Node(menus, m, roleRows, fuel))
    decreases fuel, 0
  {
    if fuel == 0 {
      assert Node(menus, m, roleRows, 0).children == [];
    } else {
      KidsStable(menus, m);
      NodesStable(menus, Kids(menus, m), roleRows, fuel - 1);
      InnerStable(menus, m, roleRows, fuel);
    }
  }

  lemma InnerStable(menus: seq<Menu>, m: Menu, roleRows: Option<seq<MenuRole>>, fuel: nat)
    requires fuel > 0
    requires SiblingsStable(menus, Nodes(menus, Kids(menus, m), roleRows, fuel - 1))
    ensures ChildrenStable(menus, Node(menus, m, roleRows, fuel))
  {
    assert Node(menus, m, roleRows, fuel).children == Nodes(menus, Kids(menus, m), roleRows, fuel - 1);
  }

  /** The sort is stable: at every level, siblings whose `sortOrder || 0`
      is equal keep the order in which their menus came in. */
  lemma BuildMenuTreeStable(menus: seq<Menu>, roleRows: Option<seq<MenuRole>>)
    requires UniqueIds(menus)
    ensures SiblingsStable(menus, BuildMenuTree(menus, roleRows))
  {
    RootsInInputOrder(menus);
    SortByKeepsTies(Roots(menus), SortKey, RankIn(menus));
    NodesStable(menus, SortBy(Roots(menus), SortKey), roleRows, |menus|);
  }

  // ---------------------------------------------------------------------
  // Every menu exactly once
  // ---------------------------------------------------------------------

  /** How many nodes of the forest, at any depth, carry `id`. */
  function Count(nodes: seq<MenuNode>, id: int): nat
    decreases nodes, 1
  {
    if |nodes| == 0 then 0 else CountIn(nodes[0], id) + Count(nodes[1..], id)
  }

  function CountIn(n: MenuNode, id: int): nat
    decreases n, 0
  {
    (if n.menuId == id then 1 else 0) + Count(n.children, id)
  }

  /** The sorted children a node is built from. */
  function Kids(menus: seq<Menu>, m: Menu): seq<Menu> {
    SortBy(ChildrenOf(menus, m.menuId), SortKey)
  }

  /** How often the subtree of a node holds `id`. */
  lemma CountInNode(menus: seq<Menu>, roleRows: Option<seq<MenuRole>>, k: Menu, f: nat, id: int)
    ensures CountIn(Node(menus, k, roleRows, f), id)
            == (if k.menuId == id then 1 else 0) + (if f == 0 then 0 else Count(Nodes(menus, Kids(menus, k), roleRows, f - 1), id))
  {
    if f == 0 {
      CountInLeaf(menus, roleRows, k, id);
    } else {
      CountInInner(menus, roleRows, k, f, id);
    }
  }

  lemma CountInLeaf(menus: seq<Menu>, roleRows: Option<seq<MenuRole>>, k: Menu, id: int)
    ensures CountIn(Node(menus, k, roleRows, 0), id) == if k.menuId == id then 1 else 0
  {
    assert Node(menus, k, roleRows, 0).children == [];
  }

  lemma CountInInner(menus: seq<Menu>, roleRows: Option<seq<MenuRole>>, k: Menu, f: nat, id: int)
    requires f > 0
    ensures CountIn(Node(menus, k, roleRows, f), id)
            == (if k.menuId == id then 1 else 0) + Count(Nodes(menus, Kids(menus, k), roleRows, f - 1), id)
  {
    assert Node(menus, k, roleRows, f).children == Nodes(menus, Kids(menus, k), roleRows, f - 1);
  }

  /** When at most the subtree of `t` holds `id`, and holds it once, a
      sibling list holds it as often as `t` occurs among the menus the
      siblings were built from. */
  lemma {:induction false} CountOne(ns: seq<MenuNode>, ms: seq<Menu>, id: int, t: Option<Menu>)
    requires |ns| == |ms|
    requires forall i :: 0 <= i < |ns| ==> CountIn(ns[i], id) == if Some(ms[i]) == t then 1 else 0
    ensures Count(ns, id) == if t.Some? then multiset(ms)[t.value] else 0
  {
    if |ns| > 0 {
      CountOne(ns[1..], ms[1..], id, t);
      assert ms == [ms[0]] + ms[1..];
    }
  }

  /** A parent chain of menus of the list, without repeats. */
  predicate ChainIn(menus: seq<Menu>, w: seq<Menu>) {
    ParentChain(menus, w) && NoDup(w) && forall y :: y in w ==> y in menus
  }

  /** `k` lies on the chain `w`, at most `f` steps above its start. */
  predicate OnChain(w: seq<Menu>, k: Menu, f: nat) {
    0 <= IndexOf(w, k) <= f
  }

  /** The chain of a menu whose walk ends is such a chain. */
  lemma ChainOfMenu(menus: seq<Menu>, c: Menu)
    requires c in menus && ParentChain(menus, Chain(menus, c))
    ensures ChainIn(menus, Chain(menus, c)) && Chain(menus, c)[0] == c
  {
    var w := Chain(menus, c);
    ChainNoDup(menus, w);
    forall y | y in w ensures y in menus {
      assert y == c || y in Walk(menus, c, |menus|);
    }
  }

  /** On a chain without repeats, a menu sits right below its parent. */
  lemma ChainStep(menus: seq<Menu>, w: seq<Menu>, x: Menu, k: Menu)
    requires ParentChain(menus, w) && NoDup(w)
    requires ParentOf(menus, x) == Some(k)
    ensures IndexOf(w, x) >= 0 ==> IndexOf(w, k) == IndexOf(w, x) + 1
    ensures IndexOf(w, k) >= 1 ==> ParentOf(menus, w[IndexOf(w, k) - 1]) == Some(k)
  {
    var q := IndexOf(w, x);
    if q >= 0 {
      assert q < |w| - 1;
      assert w[q + 1] == k;
    }
    var p := IndexOf(w, k);
    if p >= 1 {
      assert ParentOf(menus, w[p - 1]) == Some(w[p]);
    }
  }

  /** Every node built from `Kids(menus, k)` is a child of `k`. */
  lemma KidsAreChildren(menus: seq<Menu>, k: Menu, x: Menu)
    requires UniqueIds(menus) && k in menus && x in Kids(menus, k)
    ensures x in menus && ParentOf(menus, x) == Some(k)
  {
    assert x in multiset(Kids(menus, k));
    ParentByLink(menus, x, k);
  }

  /** The subtree of `k`, built `f` levels deep, holds the start of the
      chain `w` once when `k` is on `w` at most `f` steps up, and not at all
      otherwise. */
  lemma {:induction false} NodeCount(menus: seq<Menu>, roleRows: Option<seq<MenuRole>>, w: seq<Menu>, k: Menu, f: nat)
    requires UniqueIds(menus) && ChainIn(menus, w) && k in menus
    ensures CountIn(Node(menus, k, roleRows, f), w[0].menuId) == if OnChain(w, k, f) then 1 else 0
    decreases f, 2
  {
    CountInNode(menus, roleRows, k, f, w[0].menuId);
    var p := IndexOf(w, k);
    assert k.menuId == w[0].menuId <==> p == 0 by {
      if k.menuId == w[0].menuId {
        assert w[0] in menus;
        assert k == w[0] by { LookupUnique(menus, k); LookupUnique(menus, w[0]); }
      }
    }
    if f > 0 {
      KidsCount(menus, roleRows, w, k, f);
    }
  }

  /** The children's trees of `k` hold the chain's start once when the menu
      below `k` on the chain is within reach. */
  lemma {:induction false} KidsCount(menus: seq<Menu>, roleRows: Option<seq<MenuRole>>, w: seq<Menu>, k: Menu, f: nat)
    requires UniqueIds(menus) && ChainIn(menus, w) && k in menus
    requires f > 0
    ensures var p := IndexOf(w, k);
            Count(Nodes(menus, Kids(menus, k), roleRows, f - 1), w[0].menuId) == if 1 <= p <= f then 1 else 0
    decreases f, 1
  {
    var p := IndexOf(w, k);
    var kids := Kids(menus, k);
    var ns := Nodes(menus, kids, roleRows, f - 1);
    var t: Option<Menu> := if 1 <= p <= f then Some(w[p - 1]) else None;
    forall i | 0 <= i < |ns|
      ensures CountIn(ns[i], w[0].menuId) == if Some(kids[i]) == t then 1 else 0
    {
      KidsAreChildren(menus, k, kids[i]);
      ChildCount(menus, roleRows, w, k, f, kids[i]);
    }
    CountOne(ns, kids, w[0].menuId, t);
    if t.Some? {
      ChainStep(menus, w, w[p - 1], k);
      assert w[p - 1] in w;
      ChildOnce(menus, w[p - 1], k);
    }
  }

  /** A menu whose parent is `k` is among `k`'s children exactly once. */
  lemma ChildOnce(menus: seq<Menu>, x: Menu, k: Menu)
    requires UniqueIds(menus) && x in menus && k in menus
    requires ParentOf(menus, x) == Some(k)
    ensures multiset(Kids(menus, k))[x] == 1
  {
    ParentByLink(menus, x, k);
    var children := ChildrenOf(menus, k.menuId);
    assert x in children;
    ChildrenNoDup(menus, k.menuId);
    NoDupCount(children, x);
    assert multiset(Kids(menus, k)) == multiset(children);
  }

  /** One child's share in `NodeCount`. */
  lemma {:induction false} ChildCount(menus: seq<Menu>, roleRows: Option<seq<MenuRole>>, w: seq<Menu>, k: Menu, f: nat, x: Menu)
    requires UniqueIds(menus) && ChainIn(menus, w) && x in menus
    requires f > 0 && ParentOf(menus, x) == Some(k)
    ensures var p := IndexOf(w, k);
            CountIn(Node(menus, x, roleRows, f - 1), w[0].menuId) == if 1 <= p <= f && x == w[p - 1] then 1 else 0
    decreases f, 0
  {
    NodeCount(menus, roleRows, w, x, f - 1);
    ChainPosition(menus, w, x, k, f);
  }

  /** A child is within `f - 1` steps of a chain's start exactly when its
      parent is within `f` steps and the child sits just below it. */
  lemma ChainPosition(menus: seq<Menu>, w: seq<Menu>, x: Menu, k: Menu, f: nat)
    requires ParentChain(menus, w) && NoDup(w)
    requires ParentOf(menus, x) == Some(k) && f > 0
    ensures 0 <= IndexOf(w, x) <= f - 1 <==> 1 <= IndexOf(w, k) <= f && x == w[IndexOf(w, k) - 1]
  {
    ChainStep(menus, w, x, k);
    var p := IndexOf(w, k);
    if 1 <= p <= f && x == w[p - 1] {
      IndexOfAt(w, p - 1);
    }
  }

  lemma {:induction false} ChildrenNoDup(menus: seq<Menu>, id: int)
    requires NoDup(menus)
    ensures NoDup(ChildrenOf(menus, id))
  {
    if |menus| > 0 {
      var init := menus[..|menus| - 1];
      assert NoDup(init);
      ChildrenNoDup(init, id);
      assert menus[|menus| - 1] !in init;
    }
  }

  /** A subtree never holds an id no menu carries. */
  lemma {:induction false} NodeCountAbsent(menus: seq<Menu>, roleRows: Option<seq<MenuRole>>, k: Menu, f: nat, id: int)
    requires forall m :: m in menus ==> m.menuId != id
    requires k.menuId != id
    ensures CountIn(Node(menus, k, roleRows, f), id) == 0
    decreases f, 0
  {
    if f == 0 {
      CountInLeaf(menus, roleRows, k, id);
    } else {
      var ks := Kids(menus, k);
      KidsAbsent(menus, k, id);
      NodesCountAbsent(menus, roleRows, ks, f - 1, id);
      CountInInner(menus, roleRows, k, f, id);
    }
  }

  lemma {:induction false} NodesCountAbsent(menus: seq<Menu>, roleRows: Option<seq<MenuRole>>, ms: seq<Menu>, f: nat, id: int)
    requires forall m :: m in menus ==> m.menuId != id
    requires forall m :: m in ms ==> m.menuId != id
    ensures Count(Nodes(menus, ms, roleRows, f), id) == 0
    decreases f, 1
  {
    var ns := Nodes(menus, ms, roleRows, f);
    forall i | 0 <= i < |ns|
      ensures CountIn(ns[i], id) == 0
    {
      assert ns[i] == Node(menus, ms[i], roleRows, f);
      NodeCountAbsent(menus, roleRows, ms[i], f, id);
    }
    CountOne(ns, ms, id, None);
  }

  /** The children of a node carry ids of the list. */
  lemma KidsAbsent(menus: seq<Menu>, k: Menu, id: int)
    requires forall m :: m in menus ==> m.menuId != id
    ensures forall x :: x in Kids(menus, k) ==> x.menuId != id
  {
    KidsInMenus(menus, k);
  }

  /** The children a node is built from are menus of the list. */
  lemma KidsInMenus(menus: seq<Menu>, k: Menu)
    ensures forall x :: x in Kids(menus, k) ==> x in menus
  {
    forall x | x in Kids(menus, k) ensures x in menus {
      assert x in multiset(Kids(menus, k));
    }
  }

  /** With unique ids and acyclic links, every menu appears exactly once in
      the forest and no other id appears. */
  lemma BuildMenuTreeOnce(menus: seq<Menu>, roleRows: Option<seq<MenuRole>>, id: int)
    requires UniqueIds(menus) && Acyclic(menus)
    ensures Count(BuildMenuTree(menus, roleRows), id) == if exists m :: m in menus && m.menuId == id then 1 else 0
  {
    if c :| c in menus && c.menuId == id {
      OncePresent(menus, roleRows, c);
    } else {
      OnceAbsent(menus, roleRows, id);
    }
  }

  lemma OncePresent(menus: seq<Menu>, roleRows: Option<seq<MenuRole>>, c: Menu)
    requires UniqueIds(menus) && Acyclic(menus) && c in menus
    ensures Count(BuildMenuTree(menus, roleRows), c.menuId) == 1
  {
    var k: nat :| EndsWithin(menus, c, k);
    DepthBound(menus, c, k);
    ChainOfMenu(menus, c);
    var w := Chain(menus, c);
    var top := w[|w| - 1];
    assert top in w;
    var roots := SortBy(Roots(menus), SortKey);
    assert forall r :: r in roots ==> r in menus && IsRoot(menus, r) by {
      forall r | r in roots ensures r in menus && IsRoot(menus, r) {
        assert r in multiset(Roots(menus));
      }
    }
    RootsCount(menus, roleRows, w, roots);
    assert top in Roots(menus);
    RootsNoDup(menus);
    NoDupCount(Roots(menus), top);
  }

  /** The trees of a list of roots hold the start of the chain `w` as often
      as the list holds the chain's last menu. */
  lemma RootsCount(menus: seq<Menu>, roleRows: Option<seq<MenuRole>>, w: seq<Menu>, roots: seq<Menu>)
    requires UniqueIds(menus) && ChainIn(menus, w) && |w| - 1 <= |menus|
    requires forall r :: r in roots ==> r in menus && IsRoot(menus, r)
    ensures Count(Nodes(menus, roots, roleRows, |menus|), w[0].menuId) == multiset(roots)[w[|w| - 1]]
  {
    var ns := Nodes(menus, roots, roleRows, |menus|);
    forall i | 0 <= i < |ns|
      ensures CountIn(ns[i], w[0].menuId) == if Some(roots[i]) == Some(w[|w| - 1]) then 1 else 0
    {
      assert ns[i] == Node(menus, roots[i], roleRows, |menus|);
      assert roots[i] in roots;
      RootCount(menus, roleRows, w, roots[i]);
    }
    CountOne(ns, roots, w[0].menuId, Some(w[|w| - 1]));
  }

  /** A root's tree holds the chain's start exactly when the root ends the
      chain. */
  lemma RootCount(menus: seq<Menu>, roleRows: Option<seq<MenuRole>>, w: seq<Menu>, r: Menu)
    requires UniqueIds(menus) && ChainIn(menus, w) && |w| - 1 <= |menus|
    requires r in menus && IsRoot(menus, r)
    ensures CountIn(Node(menus, r, roleRows, |menus|), w[0].menuId) == if r == w[|w| - 1] then 1 else 0
  {
    NodeCount(menus, roleRows, w, r, |menus|);
    RootEndsChain(menus, w, r);
  }

  /** A root can only be the last menu of a parent chain. */
  lemma RootEndsChain(menus: seq<Menu>, w: seq<Menu>, r: Menu)
    requires ParentChain(menus, w) && IsRoot(menus, r)
    ensures forall q :: 0 <= q < |w| - 1 ==> w[q] != r
  {
    forall q | 0 <= q < |w| - 1 ensures w[q] != r {
      assert ParentOf(menus, w[q]) == Some(w[q + 1]);
    }
  }

  lemma OnceAbsent(menus: seq<Menu>, roleRows: Option<seq<MenuRole>>, id: int)
    requires forall m :: m in menus ==> m.menuId != id
    ensures Count(BuildMenuTree(menus, roleRows), id) == 0
  {
    var roots := SortBy(Roots(menus), SortKey);
    var ns := BuildMenuTree(menus, roleRows);
    forall i | 0 <= i < |ns|
      ensures CountIn(ns[i], id) == 0
    {
      assert ns[i] == Node(menus, roots[i], roleRows, |menus|);
      assert roots[i] in multiset(roots);
      assert roots[i].menuId != id;
      NodeCountAbsent(menus, roleRows, roots[i], |menus|, id);
    }
    CountOne(ns, roots, id, None);
  }

  lemma RootsNoDup(menus: seq<Menu>)
    requires NoDup(menus)
    ensures NoDup(Roots(menus))
  {
    FilterNoDup(menus, (m: Menu) => IsRoot(menus, m));
  }

  // ---------------------------------------------------------------------
  // Roles
  // ---------------------------------------------------------------------

  /** Every node of the forest carries the roles the rows give its id. */
  predicate RolesFrom(nodes: seq<MenuNode>, roleRows: Option<seq<MenuRole>>)
    decreases nodes, 0
  {
    forall i :: 0 <= i < |nodes| ==> nodes[i].roles == NodeRoles(roleRows, nodes[i].menuId) && ChildRolesFrom(nodes[i], roleRows)
  }

  predicate ChildRolesFrom(n: MenuNode, roleRows: Option<seq<MenuRole>>)
    decreases n, 1
  {
    RolesFrom(n.children, roleRows)
  }

  lemma {:induction false} NodesRoles(menus: seq<Menu>, ms: seq<Menu>, roleRows: Option<seq<MenuRole>>, fuel: nat)
    ensures RolesFrom(Nodes(menus, ms, roleRows, fuel), roleRows)
    decreases fuel, 1
  {
    var r := Nodes(menus, ms, roleRows, fuel);
    forall i | 0 <= i < |r|
      ensures ChildRolesFrom(r[i], roleRows)
    {
      NodeRolesDeep(menus, ms[i], roleRows, fuel);
    }
  }

  lemma {:induction false} NodeRolesDeep(menus: seq<Menu>, m: Menu, roleRows: Option<seq<MenuRole>>, fuel: nat)
    ensures ChildRolesFrom(Node(menus, m, roleRows, fuel), roleRows)
    decreases fuel, 0
  {
    if fuel == 0 {
      LeafRoles(menus, m, roleRows);
    } else {
      NodesRoles(menus, Kids(menus, m), roleRows, fuel - 1);
      InnerRoles(menus, m, roleRows, fuel);
    }
  }

  lemma LeafRoles(menus: seq<Menu>, m: Menu, roleRows: Option<seq<MenuRole>>)
    ensures ChildRolesFrom(Node(menus, m, roleRows, 0), roleRows)
  {
    assert Node(menus, m, roleRows, 0).children == [];
  }

  lemma InnerRoles(menus: seq<Menu>, m: Menu, roleRows: Option<seq<MenuRole>>, fuel: nat)
    requires fuel > 0
    requires RolesFrom(Nodes(menus, Kids(menus, m), roleRows, fuel - 1), roleRows)
    ensures ChildRolesFrom(Node(menus, m, roleRows, fuel), roleRows)
  {
    assert Node(menus, m, roleRows, fuel).children == Nodes(menus, Kids(menus, m), roleRows, fuel - 1);
  }

  /** With a role map every node, at any depth, lists exactly the roles of
      the rows carrying its id, in row order; without one no node has
      roles. */
  lemma BuildMenuTreeRoles(menus: seq<Menu>, roleRows: Option<seq<MenuRole>>)
    ensures RolesFrom(BuildMenuTree(menus, roleRows), roleRows)
  {
    NodesRoles(menus, SortBy(Roots(menus), SortKey), roleRows, |menus|);
  }
}

=== FILE: sorting.dfy ===
/** Stable sorting by an integer key. The services sort with
    `Array.prototype.sort((a, b) => key(a) - key(b))`, which is stable in the
    runtime they target, and the database sorts with `ORDER BY key`. Both are
    modelled by one insertion sort whose contract says what stability means:
    for every key value, the elements carrying that key keep their order. */
module Sorting {
  import opened Common

  predicate SortedBy<T>(s: seq<T>, key: T -> int) {
    forall i, j :: 0 <= i < j < |s| ==> key(s[i]) <= key(s[j])
  }

  /** The elements of `s` whose key is `k`, in their order in `s`. */
  function WithKey<T>(s: seq<T>, key: T -> int, k: int): seq<T> {
    if |s| == 0 then []
    else (if key(s[0]) == k then [s[0]] else []) + WithKey(s[1..], key, k)
  }

  /** Places `x` before the first element whose key is not smaller. */
  function Insert<T>(x: T, t: seq<T>, key: T -> int): seq<T> {
    if |t| == 0 || key(x) <= key(t[0]) then [x] + t
    else [t[0]] + Insert(x, t[1..], key)
  }

  /** Stable ascending sort by `key`. */
  function SortBy<T>(s: seq<T>, key: T -> int): (r: seq<T>)
    ensures |r| == |s|
    ensures multiset(r) == multiset(s)
    ensures SortedBy(r, key)
    ensures forall k :: WithKey(r, key, k) == WithKey(s, key, k)
  {
    if |s| == 0 then [] else
      var rest := SortBy(s[1..], key);
      InsertPermutes(s[0], rest, key);
      InsertSorted(s[0], rest, key);
      assert s == [s[0]] + s[1..];
      StableStep(s[0], s[1..], rest, key);
      Insert(s[0], rest, key)
  }

  lemma {:induction false} InsertPermutes<T>(x: T, t: seq<T>, key: T -> int)
    ensures multiset(Insert(x, t, key)) == multiset([x] + t)
    ensures |Insert(x, t, key)| == |t| + 1
  {
    if |t| > 0 && key(x) > key(t[0]) {
      InsertPermutes(x, t[1..], key);
      assert t == [t[0]] + t[1..];
    }
  }

  lemma {:induction false} InsertSorted<T>(x: T, t: seq<T>, key: T -> int)
    requires SortedBy(t, key)
    ensures SortedBy(Insert(x, t, key), key)
  {
    if |t| > 0 && key(x) > key(t[0]) {
      InsertSorted(x, t[1..], key);
      var rest := Insert(x, t[1..], key);
      InsertPermutes(x, t[1..], key);
      forall j | 0 <= j < |rest|
        ensures key(t[0]) <= key(rest[j])
      {
        assert rest[j] in multiset([x] + t[1..]);
        assert rest[j] == x || rest[j] in t[1..];
      }
    }
  }

  lemma {:induction false} InsertStable<T>(x: T, t: seq<T>, key: T -> int, k: int)
    ensures WithKey(Insert(x, t, key), key, k) == WithKey([x] + t, key, k)
  {
    if |t| > 0 && key(x) > key(t[0]) {
      InsertStable(x, t[1..], key, k);
      var ins := Insert(x, t[1..], key);
      assert ([t[0]] + ins)[1..] == ins;
      assert ([x] + t)[1..] == t;
      assert ([x] + t[1..])[1..] == t[1..];
    }
  }

  lemma StableStep<T>(x: T, s: seq<T>, sorted: seq<T>, key: T -> int)
    requires forall k :: WithKey(sorted, key, k) == WithKey(s, key, k)
    ensures forall k :: WithKey(Insert(x, sorted, key), key, k) == WithKey([x] + s, key, k)
  {
    forall k
      ensures WithKey(Insert(x, sorted, key), key, k) == WithKey([x] + s, key, k)
    {
      InsertStable(x, sorted, key, k);
      assert ([x] + sorted)[1..] == sorted;
      assert ([x] + s)[1..] == s;
    }
  }

  /** Equal keys come out in the order `rank` numbers the elements. */
  predicate TiesByRank<T>(s: seq<T>, key: T -> int, rank: T -> int) {
    forall i, j :: 0 <= i < j < |s| && key(s[i]) == key(s[j]) ==> rank(s[i]) < rank(s[j])
  }

  /** Stability stated pairwise: when `rank` numbers the input in order,
      two sorted elements with the same key keep that order. */
  lemma {:induction false} SortByKeepsTies<T>(s: seq<T>, key: T -> int, rank: T -> int)
    requires forall i, j :: 0 <= i < j < |s| ==> rank(s[i]) < rank(s[j])
    ensures TiesByRank(SortBy(s, key), key, rank)
  {
    if |s| > 0 {
      var rest := SortBy(s[1..], key);
      SortByKeepsTies(s[1..], key, rank);
      forall y | y in rest
        ensures rank(s[0]) < rank(y)
      {
        assert y in multiset(s[1..]);
        var k :| 0 <= k < |s[1..]| && s[1..][k] == y;
        assert s[k + 1] == y;
      }
      InsertKeepsTies(s[0], rest, key, rank);
    }
  }

  lemma {:induction false} InsertKeepsTies<T>(x: T, t: seq<T>, key: T -> int, rank: T -> int)
    requires TiesByRank(t, key, rank)
    requires forall y :: y in t ==> rank(x) < rank(y)
    ensures TiesByRank(Insert(x, t, key), key, rank)
  {
    if |t| > 0 && key(x) > key(t[0]) {
      var tail := t[1..];
      TiesTail(t, key, rank);
      InsertKeepsTies(x, tail, key, rank);
      InsertPermutes(x, tail, key);
      TiesBehind(x, t, Insert(x, tail, key), key, rank);
    } else {
      TiesInFront(x, t, key, rank);
    }
  }

  lemma TiesTail<T>(t: seq<T>, key: T -> int, rank: T -> int)
    requires |t| > 0 && TiesByRank(t, key, rank)
    ensures TiesByRank(t[1..], key, rank)
  {
    var tail := t[1..];
    forall i, j | 0 <= i < j < |tail| && key(tail[i]) == key(tail[j])
      ensures rank(tail[i]) < rank(tail[j])
    {
      assert tail[i] == t[i + 1] && tail[j] == t[j + 1];
    }
  }

  lemma TiesInFront<T>(x: T, t: seq<T>, key: T -> int, rank: T -> int)
    requires TiesByRank(t, key, rank)
    requires forall y :: y in t ==> rank(x) < rank(y)
    ensures TiesByRank([x] + t, key, rank)
  {
    var r := [x] + t;
    forall i, j | 0 <= i < j < |r| && key(r[i]) == key(r[j])
      ensures rank(r[i]) < rank(r[j])
    {
      if i == 0 {
        assert r[j] == t[j - 1];
      } else {
        assert r[i] == t[i - 1] && r[j] == t[j - 1];
      }
    }
  }

  /** `x` is inserted behind `t[0]`, whose key is smaller. */
  lemma TiesBehind<T>(x: T, t: seq<T>, ins: seq<T>, key: T -> int, rank: T -> int)
    requires |t| > 0 && key(x) > key(t[0])
    requires TiesByRank(t, key, rank) && TiesByRank(ins, key, rank)
    requires multiset(ins) == multiset([x] + t[1..])
    ensures TiesByRank([t[0]] + ins, key, rank)
  {
    var r := [t[0]] + ins;
    forall i, j | 0 <= i < j < |r| && key(r[i]) == key(r[j])
      ensures rank(r[i]) < rank(r[j])
    {
      if i == 0 {
        var y := ins[j - 1];
        assert y in multiset([x] + t[1..]);
        assert y in t[1..];
        var k :| 0 <= k < |t[1..]| && t[1..][k] == y;
        assert t[k + 1] == y;
      } else {
        assert r[i] == ins[i - 1] && r[j] == ins[j - 1];
      }
    }
  }

  /** Ascending by key, with every element whose key is NULL after every
      element that has one. */
  predicate NullsLast<T>(s: seq<T>, key: T -> Option<int>) {
    forall i, j :: 0 <= i < j < |s| && key(s[j]).Some? ==> key(s[i]).Some? && key(s[i]).value <= key(s[j]).value
  }

  /** PostgreSQL's `ORDER BY key ASC`: the rows with a key ascending, ties
      in storage order, followed by the rows whose key is NULL (NULLS LAST
      is the default for an ascending order). */
  function SortNullsLast<T(!new)>(s: seq<T>, key: T -> Option<int>): (r: seq<T>)
    ensures multiset(r) == multiset(s)
    ensures NullsLast(r, key)
  {
    var known := Filter(s, (x: T) => key(x).Some?);
    var unknown := Filter(s, (x: T) => key(x).None?);
    var sorted := SortBy(known, (x: T) => key(x).GetOr(0));
    FilterPartition(s, (x: T) => key(x).Some?, (x: T) => key(x).None?);
    var r := sorted + unknown;
    assert forall i :: 0 <= i < |sorted| ==> key(sorted[i]).Some? by {
      forall i | 0 <= i < |sorted| ensures key(sorted[i]).Some? {
        assert sorted[i] in multiset(known);
      }
    }
    r
  }

  // ---------------------------------------------------------------------
  // Sorting with a comparator
  // ---------------------------------------------------------------------

  /** `le(a, b)`: the comparator lets `a` stay before `b` (it returns a
      result `<= 0`). A comparator used for sorting relates every pair one
      way or the other. */
  ghost predicate Total<T(!new)>(le: (T, T) -> bool) {
    forall a, b :: le(a, b) || le(b, a)
  }

  /** Each element may stay before its successor. */
  predicate AdjacentSorted<T>(s: seq<T>, le: (T, T) -> bool) {
    forall i :: 0 < i < |s| ==> le(s[i - 1], s[i])
  }

  function InsertWith<T>(x: T, t: seq<T>, le: (T, T) -> bool): seq<T> {
    if |t| == 0 || le(x, t[0]) then [x] + t
    else [t[0]] + InsertWith(x, t[1..], le)
  }

  /** `Array.prototype.sort(compare)`: an insertion sort that keeps every
      element and, for a total comparator, leaves each element allowed
      before its successor. */
  function SortWith<T(!new)>(s: seq<T>, le: (T, T) -> bool): (r: seq<T>)
    ensures |r| == |s|
    ensures multiset(r) == multiset(s)
    ensures Total(le) ==> AdjacentSorted(r, le)
  {
    if |s| == 0 then [] else
      var rest := SortWith(s[1..], le);
      InsertWithPermutes(s[0], rest, le);
      InsertWithSortedIfTotal(s[0], rest, le);
      assert s == [s[0]] + s[1..];
      InsertWith(s[0], rest, le)
  }

  lemma {:induction false} InsertWithPermutes<T>(x: T, t: seq<T>, le: (T, T) -> bool)
    ensures multiset(InsertWith(x, t, le)) == multiset([x] + t)
    ensures |InsertWith(x, t, le)| == |t| + 1
    ensures |t| > 0 ==> InsertWith(x, t, le)[0] == x || InsertWith(x, t, le)[0] == t[0]
  {
    if |t| > 0 && !le(x, t[0]) {
      InsertWithPermutes(x, t[1..], le);
      assert t == [t[0]] + t[1..];
    }
  }

  lemma {:induction false} InsertWithSorted<T(!new)>(x: T, t: seq<T>, le: (T, T) -> bool)
    requires Total(le)
    requires AdjacentSorted(t, le)
    ensures AdjacentSorted(InsertWith(x, t, le), le)
  {
    if |t| > 0 && !le(x, t[0]) {
      var tail := t[1..];
      assert AdjacentSorted(tail, le) by {
        forall i | 0 < i < |tail| ensures le(tail[i - 1], tail[i]) {
          assert tail[i - 1] == t[i] && tail[i] == t[i + 1];
        }
      }
      InsertWithSorted(x, tail, le);
      InsertWithPermutes(x, tail, le);
      var rest := InsertWith(x, tail, le);
      var r := [t[0]] + rest;
      assert le(t[0], x);
      if |tail| > 0 {
        assert le(t[0], tail[0]);
      }
      forall i | 0 < i < |r| ensures le(r[i - 1], r[i]) {
        if i == 1 {
          assert r[1] == rest[0];
        } else {
          assert r[i - 1] == rest[i - 2] && r[i] == rest[i - 1];
        }
      }
    }
  }

  lemma InsertWithSortedIfTotal<T(!new)>(x: T, t: seq<T>, le: (T, T) -> bool)
    requires Total(le) ==> AdjacentSorted(t, le)
    ensures Total(le) ==> AdjacentSorted(InsertWith(x, t, le), le)
  {
    if Total(le) {
      InsertWithSorted(x, t, le);
    }
  }

  ghost predicate Transitive<T(!new)>(le: (T, T) -> bool) {
    forall a, b, c :: le(a, b) && le(b, c) ==> le(a, c)
  }

  /** With a transitive comparator, a list whose neighbours are in order is
      in order everywhere. */
  lemma AdjacentSortedAll<T(!new)>(s: seq<T>, le: (T, T) -> bool)
    requires Transitive(le) && AdjacentSorted(s, le)
    ensures forall i, j :: 0 <= i < j < |s| ==> le(s[i], s[j])
  {
    forall i, j | 0 <= i < j < |s|
      ensures le(s[i], s[j])
    {
      AdjacentChain(s, le, i, j);
    }
  }

  lemma {:induction false} AdjacentChain<T(!new)>(s: seq<T>, le: (T, T) -> bool, i: nat, j: nat)
    requires Transitive(le) && AdjacentSorted(s, le)
    requires i < j < |s|
    ensures le(s[i], s[j])
    decreases j - i
  {
    if j > i + 1 {
      AdjacentChain(s, le, i, j - 1);
      assert le(s[j - 1], s[j]);
    }
  }
}

=== FILE: wafer_partition.dfy ===
/** Monthly partitions of the spectrum table and the model-fit (GEN)
    spectrum lookup of `getSpectrumGen`. The current month lives in
    `public.plg_onto_spectrum`; every other month in a table named after its
    year and two-digit month. The calendar month of an instant (and of "now")
    is an input here: the conversion from an instant to a local date is not
    part of this model. */
module WaferPartition {
  import opened Common
  import opened WaferQuery
  import opened WaferSpectra

  /** A calendar month; `month0` counts from 0 like `Date.getMonth()`. */
  datatype YearMonth = YearMonth(year: nat, month0: nat)

  predicate ValidMonth(m: YearMonth) {
    m.month0 < 12
  }

  const LiveTable: string := "public.plg_onto_spectrum"
  const PartitionPrefix: string := "public.plg_onto_spectrum_y"

  /** The table holding the spectra of month `target` when it is now month
      `current`. */
  function SpectrumTable(target: YearMonth, current: YearMonth): (name: string)
    requires ValidMonth(target)
    ensures target == current <==> name == LiveTable
  {
    if target == current then LiveTable
    else
      var name := PartitionPrefix + NatToString(target.year) + "m" + PadTwo(target.month0 + 1);
      assert |name| > |LiveTable|;
      name
  }

  /** Reads a partition name back: `Some(month)` for a monthly partition,
      `None` for the live table and for any other name. */
  function ParsePartition(name: string): (r: Option<YearMonth>)
    ensures r.Some? ==> ValidMonth(r.value)
  {
    if !StartsWith(name, PartitionPrefix) then None
    else
      var rest := name[|PartitionPrefix|..];
      if |rest| < 4 || rest[|rest| - 3] != 'm' then None
      else
        var year := rest[..|rest| - 3];
        var mm := rest[|rest| - 2..];
        if !AllDigits(year) || !AllDigits(mm) then None
        else
          var month := DigitsValue(mm);
          if 1 <= month <= 12 then Some(YearMonth(DigitsValue(year), month - 1)) else None
  }

  /** Every table name the router produces names the month it was asked
      for, and only the current month maps to the live table: no two months
      share a table. */
  lemma RouteRoundTrip(target: YearMonth, current: YearMonth)
    requires ValidMonth(target)
    ensures ParsePartition(SpectrumTable(target, current)) == if target == current then None else Some(target)
  {
    if target != current {
      var y := NatToString(target.year);
      var mm := PadTwo(target.month0 + 1);
      var name := PartitionPrefix + y + "m" + mm;
      assert StartsWith(name, PartitionPrefix) by {
        assert name[..|PartitionPrefix|] == PartitionPrefix;
      }
      var rest := name[|PartitionPrefix|..];
      assert rest == y + "m" + mm;
      assert rest[|rest| - 3] == 'm';
      assert rest[..|rest| - 3] == y;
      assert rest[|rest| - 2..] == mm;
      DigitsValueOfNatToString(target.year);
    } else {
      assert !StartsWith(LiveTable, PartitionPrefix);
    }
  }

  lemma RouteInjective(a: YearMonth, b: YearMonth, current: YearMonth)
    requires ValidMonth(a) && ValidMonth(b)
    requires SpectrumTable(a, current) == SpectrumTable(b, current)
    ensures a == b
  {
    RouteRoundTrip(a, current);
    RouteRoundTrip(b, current);
  }

  // ---------------------------------------------------------------------
  // getSpectrumGen
  // ---------------------------------------------------------------------

  datatype GenRequest = GenRequest(
    lotId: string,
    waferId: string,
    pointId: string,
    eqpId: string,
    ts: DateArg,
    tsMonth: YearMonth)              // the calendar month of `ts`

  datatype GenSeries = GenSeries(name: string, data: seq<GenPoint>)

  predicate GenMatches(q: GenRequest, t: int, point: int, rec: SpectrumRecord) {
    rec.lotid == q.lotId && rec.waferid == q.waferId && rec.point == point &&
    rec.eqpid == q.eqpId && rec.ts == t && rec.cls == "GEN"
  }

  /** The first record of `rs` matching the GEN lookup, if any. */
  function FirstGen(q: GenRequest, t: int, point: int, rs: seq<SpectrumRecord>): (r: Option<SpectrumRecord>)
    ensures r.Some? <==> exists i :: 0 <= i < |rs| && GenMatches(q, t, point, rs[i])
    ensures r.Some? ==> r.value in rs && GenMatches(q, t, point, r.value)
  {
    if |rs| == 0 then None
    else if GenMatches(q, t, point, rs[0]) then Some(rs[0])
    else
      var r := FirstGen(q, t, point, rs[1..]);
      assert forall i :: 1 <= i < |rs| ==> rs[i] == rs[1..][i - 1];
      r
  }

  /** `getSpectrumGen`: null without all five keys, for an unreadable time, a
      non-numeric point, a month whose partition does not exist (the query
      fails) or no matching GEN spectrum; otherwise the model curve of a
      matching GEN spectrum of the table for that month. */
  function SpectrumGen(q: GenRequest, current: YearMonth, tables: map<string, seq<SpectrumRecord>>): (r: Option<GenSeries>)
    requires ValidMonth(q.tsMonth)
    ensures !Given(q.lotId) || !Given(q.waferId) || !Given(q.pointId) || !Given(q.eqpId) || !DateGiven(q.ts) ==> r.None?
    ensures r.Some? ==>
      q.ts.At? && NumberOf(q.pointId).Some? &&
      var table := SpectrumTable(q.tsMonth, current);
      table in tables &&
      exists rec :: rec in tables[table] && GenMatches(q, q.ts.ms, NumberOf(q.pointId).value, rec) &&
        r.value == GenSeries("Model (W" + q.waferId + ")", GenData(rec.wavelengths, rec.values))
    ensures Given(q.lotId) && Given(q.waferId) && Given(q.pointId) && Given(q.eqpId) && q.ts.At? &&
            NumberOf(q.pointId).Some? && SpectrumTable(q.tsMonth, current) in tables &&
            (exists rec :: rec in tables[SpectrumTable(q.tsMonth, current)] && GenMatches(q, q.ts.ms, NumberOf(q.pointId).value, rec))
            ==> r.Some?
  {
    if !Given(q.lotId) || !Given(q.waferId) || !Given(q.pointId) || !Given(q.eqpId) || !q.ts.At? then None
    else
      var table := SpectrumTable(q.tsMonth, current);
      match NumberOf(q.pointId)
      case None => None
      case Some(point) =>
        if table !in tables then None
        else match FirstGen(q, q.ts.ms, point, tables[table])
          case None => None
          case Some(rec) => Some(GenSeries("Model (W" + q.waferId + ")", GenData(rec.wavelengths, rec.values)))
  }
}

=== FILE: wafer_pdf.dfy ===
/** The wafer-map PDF of a measurement: `checkPdf` picks the map file of an
    equipment at an exact instant, and `getPdfImage` turns it into a PNG
    through a cache file and a page conversion with a fallback to page 1.
    The download, the file system and the converter are not modelled; their
    outcomes are inputs, and so is the UTC calendar day of the instant. */
module WaferPdf {
  import opened Common
  import opened WaferQuery

  // ---------------------------------------------------------------------
  // checkPdf
  // ---------------------------------------------------------------------

  /** A row of the wafer-map table; a NULL `file_uri` is `None`. */
  datatype MapRow = MapRow(eqpid: string, datetime: int, fileUri: Option<string>)

  /** `{ exists, url }`. */
  datatype PdfCheck = PdfCheck(found: bool, url: Option<string>)

  const NoPdf := PdfCheck(false, None)

  predicate IsSeparator(c: char) {
    c == '/' || c == '\\'
  }

  /** The path without its trailing separators. */
  function StripTrailing(s: string): (r: string)
    ensures |r| <= |s| && r == s[..|r|]
    ensures |r| == 0 || !IsSeparator(r[|r| - 1])
    ensures forall i :: |r| <= i < |s| ==> IsSeparator(s[i])
  {
    if |s| == 0 || !IsSeparator(s[|s| - 1]) then s else StripTrailing(s[..|s| - 1])
  }

  /** The part of `s` after its last separator. */
  function AfterLastSeparator(s: string): (r: string)
    ensures |r| <= |s| && r == s[|s| - |r|..]
    ensures forall i :: 0 <= i < |r| ==> !IsSeparator(r[i])
    ensures |r| == |s| || IsSeparator(s[|s| - |r| - 1])
  {
    if |s| == 0 || IsSeparator(s[|s| - 1]) then ""
    else AfterLastSeparator(s[..|s| - 1]) + [s[|s| - 1]]
  }

  /** `path.basename` with both `/` and `\` as separators: the last
      component, trailing separators ignored. */
  function Basename(path: string): (r: string)
    ensures forall i :: 0 <= i < |r| ==> !IsSeparator(r[i])
  {
    AfterLastSeparator(StripTrailing(path))
  }

  /** A row qualifies for a lot (and optionally a wafer) when its file name
      names the trimmed lot, literally or with every `.` written as `_`, and
      names the wafer when one is given. An empty or NULL uri never
      qualifies. */
  predicate Qualifies(row: MapRow, lotId: string, waferId: string) {
    && row.fileUri.Some? && Given(row.fileUri.value)
    && var name := Basename(row.fileUri.value);
       var lot := Trim(lotId);
       && (Contains(name, lot) || Contains(name, ReplaceChar(lot, '.', '_')))
       && (Given(waferId) ==> Contains(name, waferId))
  }

  /** A row the lookup may answer with: the equipment and the exact instant,
      and, when a lot is given, a qualifying file name. */
  predicate Eligible(p: WaferParams, ms: int, row: MapRow) {
    row.eqpid == p.eqpId && row.datetime == ms && (Given(p.lotId) ==> Qualifies(row, p.lotId, p.waferId))
  }

  /** The position of the first eligible row. */
  function FirstEligible(p: WaferParams, ms: int, rows: seq<MapRow>): (r: Option<nat>)
    ensures r.Some? ==> r.value < |rows| && Eligible(p, ms, rows[r.value])
    ensures r.Some? ==> forall j :: 0 <= j < r.value ==> !Eligible(p, ms, rows[j])
    ensures r.None? ==> forall j :: 0 <= j < |rows| ==> !Eligible(p, ms, rows[j])
  {
    if |rows| == 0 then None
    else if Eligible(p, ms, rows[0]) then Some(0)
    else
      var tail := rows[1..];
      var rest := FirstEligible(p, ms, tail);
      assert forall j :: 1 <= j < |rows| ==> rows[j] == tail[j - 1];
      if rest.Some? then Some(rest.value + 1) else None
  }

  /** `checkPdf`: the target instant is `dateTime || servTs`. Without an
      equipment id or an instant, for an instant the database cannot read
      (the query fails) and when no row is eligible, nothing is found;
      otherwise the first eligible row in table order answers, with its uri
      (which may be NULL when no lot is given). */
  function CheckPdf(p: WaferParams, table: seq<MapRow>): (r: PdfCheck)
    ensures !Given(p.eqpId) || !TargetTime(p).At? ==> r == NoPdf
    ensures r.found ==>
      TargetTime(p).At? &&
      exists i :: (0 <= i < |table| && Eligible(p, TargetTime(p).ms, table[i]) && r.url == table[i].fileUri &&
                   forall j :: 0 <= j < i ==> !Eligible(p, TargetTime(p).ms, table[j]))
    ensures !r.found ==> r == NoPdf
    ensures Given(p.eqpId) && TargetTime(p).At? && (exists i :: 0 <= i < |table| && Eligible(p, TargetTime(p).ms, table[i])) ==> r.found
  {
    var target := TargetTime(p);
    if !Given(p.eqpId) || !target.At? then NoPdf
    else match FirstEligible(p, target.ms, table)
      case None => NoPdf
      case Some(i) => PdfCheck(true, table[i].fileUri)
  }

  /** The base name of a file inside a directory is the file's name,
      whichever separator joins them. */
  lemma BasenameOfJoin(dir: string, sep: char, name: string)
    requires IsSeparator(sep) && |name| > 0
    requires forall i :: 0 <= i < |name| ==> !IsSeparator(name[i])
    ensures Basename(dir + [sep] + name) == name
  {
    var s := dir + [sep] + name;
    var k := |dir| + 1;
    assert s[|s| - 1] == name[|name| - 1];
    assert StripTrailing(s) == s;
    assert forall j :: k <= j < |s| ==> s[j] == name[j - k];
    assert s[k - 1] == sep;
    AfterLastAt(s, k);
    assert s[k..] == name;
  }

  /** After a separator followed only by non-separators comes the base
      name. */
  lemma {:induction false} AfterLastAt(s: string, k: nat)
    requires 0 < k <= |s| && IsSeparator(s[k - 1])
    requires forall j :: k <= j < |s| ==> !IsSeparator(s[j])
    ensures AfterLastSeparator(s) == s[k..]
  {
    if k < |s| {
      var init := s[..|s| - 1];
      AfterLastAt(init, k);
      assert init[k..] + [s[|s| - 1]] == s[k..];
    }
  }

  /** Only the file name decides: whatever directory the uri names, the
      row qualifies exactly when the file name holds the trimmed lot (as
      written or with `_` for `.`) and, if one is given, the wafer id. */
  lemma QualifiesByFileName(row: MapRow, dir: string, sep: char, name: string, lotId: string, waferId: string)
    requires row.fileUri == Some(dir + [sep] + name)
    requires IsSeparator(sep) && |name| > 0
    requires forall i :: 0 <= i < |name| ==> !IsSeparator(name[i])
    ensures Qualifies(row, lotId, waferId) <==>
      && (Contains(name, Trim(lotId)) || Contains(name, ReplaceChar(Trim(lotId), '.', '_')))
      && (Given(waferId) ==> Contains(name, waferId))
  {
    BasenameOfJoin(dir, sep, name);
  }

  // ---------------------------------------------------------------------
  // getPdfImage
  // ---------------------------------------------------------------------

  /** What one run of the converter left behind: it failed, or it exited and
      the output file has the given size. */
  datatype Outcome = Failed | Output(size: nat)

  /** An attempt counts only when it left a non-empty PNG. */
  predicate Succeeded(o: Outcome) {
    o.Output? && o.size > 0
  }

  /** `Number(pointNumber)`, forced to 1 when it is NaN or below 1. */
  function TargetPage(pointNumber: string): (page: int)
    ensures page >= 1
    ensures NumberOf(pointNumber).Some? && NumberOf(pointNumber).value >= 1 ==> page == NumberOf(pointNumber).value
    ensures NumberOf(pointNumber).None? || NumberOf(pointNumber).value < 1 ==> page == 1
  {
    match NumberOf(pointNumber)
    case None => 1
    case Some(n) => if n < 1 then 1 else n
  }

  /** The conversion as a state machine: `Trying(page, n)` is about to run
      attempt `n`, the others are final. */
  datatype Phase = Trying(page: int, attempt: nat) | Rendered(page: int) | Exhausted

  /** One transition: a successful attempt renders its page; a failed first
      attempt falls back to page 1; a failed second attempt gives up. */
  function Step(s: Phase, o: Outcome): (t: Phase)
    requires s.Trying? && s.attempt < 2
    ensures Succeeded(o) ==> t == Rendered(s.page)
    ensures !Succeeded(o) && s.attempt == 0 ==> t == Trying(1, 1)
    ensures !Succeeded(o) && s.attempt == 1 ==> t == Exhausted
  {
    if Succeeded(o) then Rendered(s.page)
    else if s.attempt == 0 then Trying(1, 1)
    else Exhausted
  }

  /** The phases the converter goes through from the requested page, given
      what each attempt would leave behind. */
  function Run(page: int, first: Outcome, second: Outcome): (trace: seq<Phase>)
  {
    var s0 := Trying(page, 0);
    var s1 := Step(s0, first);
    if !s1.Trying? then [s0, s1] else [s0, s1, Step(s1, second)]
  }

  /** The pages the converter is run on. */
  function PagesTried(trace: seq<Phase>): (r: seq<int>)
    ensures |r| <= |trace|
  {
    if |trace| == 0 then []
    else if trace[0].Trying? then [trace[0].page] + PagesTried(trace[1..])
    else PagesTried(trace[1..])
  }

  /** The requested page is tried once; page 1 is tried once more exactly
      when the first attempt did not leave a non-empty image; a run ends in a
      final phase after at most two attempts and renders iff one of the
      attempts succeeded. */
  lemma {:induction false} RunPolicy(page: int, first: Outcome, second: Outcome)
    ensures PagesTried(Run(page, first, second)) == if Succeeded(first) then [page] else [page, 1]
    ensures !Run(page, first, second)[|Run(page, first, second)| - 1].Trying?
    ensures Run(page, first, second)[|Run(page, first, second)| - 1].Rendered? <==> Succeeded(first) || Succeeded(second)
    ensures Run(page, first, second)[|Run(page, first, second)| - 1] ==
            if Succeeded(first) then Rendered(page) else if Succeeded(second) then Rendered(1) else Exhausted
  {
    var t := Run(page, first, second);
    if Succeeded(first) {
      assert t == [Trying(page, 0), Rendered(page)];
      assert PagesTried(t[1..]) == PagesTried([Rendered(page)]) == [];
    } else {
      var last := if Succeeded(second) then Rendered(1) else Exhausted;
      assert t == [Trying(page, 0), Trying(1, 1), last];
      assert t[1..] == [Trying(1, 1), last];
      assert t[1..][1..] == [last];
      assert PagesTried([last]) == [];
    }
  }

  /** The UTC calendar day of the instant, `toISOString().slice(0, 10)`. */
  datatype CalendarDay = CalendarDay(year: nat, month: nat, day: nat)

  predicate ValidDay(d: CalendarDay) {
    d.year <= 9999 && 1 <= d.month <= 12 && 1 <= d.day <= 31
  }

  /** `yyyymmdd`. */
  function DayString(d: CalendarDay): (r: string)
    requires ValidDay(d)
    ensures |r| == 8 && AllDigits(r)
  {
    PadTwo(d.year / 100) + PadTwo(d.year % 100) + PadTwo(d.month) + PadTwo(d.day)
  }

  /** `wafer_{eqpId}_{yyyymmdd}_pt{pointNumber}.png`. */
  function CacheName(eqpId: string, d: CalendarDay, pointNumber: string): (r: string)
    requires ValidDay(d)
    ensures StartsWith(r, "wafer_" + eqpId + "_")
  {
    var r := "wafer_" + eqpId + "_" + DayString(d) + "_pt" + pointNumber + ".png";
    assert r[..|"wafer_" + eqpId + "_"|] == "wafer_" + eqpId + "_";
    r
  }

  /** For one equipment, distinct days or points never share a cache file. */
  lemma CacheNameInjective(eqpId: string, d1: CalendarDay, p1: string, d2: CalendarDay, p2: string)
    requires ValidDay(d1) && ValidDay(d2)
    requires CacheName(eqpId, d1, p1) == CacheName(eqpId, d2, p2)
    ensures DayString(d1) == DayString(d2) && p1 == p2
  {
    var head := "wafer_" + eqpId + "_";
    var n1 := CacheName(eqpId, d1, p1);
    var s1, s2 := DayString(d1), DayString(d2);
    assert n1 == head + s1 + "_pt" + p1 + ".png";
    assert CacheName(eqpId, d2, p2) == head + s2 + "_pt" + p2 + ".png";
    var k := |head|;
    assert n1[k..k + 8] == s1;
    assert CacheName(eqpId, d2, p2)[k..k + 8] == s2;
    assert |p1| == |p2|;
    assert n1[k + 11..k + 11 + |p1|] == p1;
    assert CacheName(eqpId, d2, p2)[k + 11..k + 11 + |p2|] == p2;
  }

  /** What the service finds around it: the temporary directory (the size
      of each file in it, by name) and whether reading a cache file from it
      works, the downloaded PDF (a failed request, or its size), the
      converter's directory and what each conversion attempt leaves behind. */
  datatype PdfWorld = PdfWorld(
    tmpFiles: map<string, nat>,
    cacheReadable: bool,
    download: Outcome,
    popplerPath: string,
    first: Outcome,
    second: Outcome)

  /** The size of the file `name` in the temporary directory, if it exists. */
  function FileSize(w: PdfWorld, name: string): Option<nat>
  {
    if name in w.tmpFiles then Some(w.tmpFiles[name]) else None
  }

  /** The cache file can be served: it exists, is non-empty and reads. */
  predicate CacheHit(w: PdfWorld, name: string)
  {
    name in w.tmpFiles && w.tmpFiles[name] > 0 && w.cacheReadable
  }

  datatype ImageSource = FromCache | FromConversion(page: int)

  /** The answer, and whether a zero-byte cache file was deleted on the
      way. */
  datatype PdfImage = PdfImage(result: Result<ImageSource>, cacheDeleted: bool)

  /** `getPdfImage`. `pointNumber` is `None` when the parameter is absent;
      `day` is the UTC calendar day of `p.dateTime`, which names the cache
      file together with the equipment and the point. */
  function GetPdfImage(p: WaferParams, pointNumber: Option<string>, table: seq<MapRow>, day: CalendarDay, w: PdfWorld): (r: PdfImage)
    requires ValidDay(day)
    ensures !Given(p.eqpId) || !DateGiven(p.dateTime) || pointNumber.None? ==> r.result.Err? && r.result.error.Internal?
    ensures r.result.Ok? ==>
      var check := CheckPdf(p.(servTs := NoDate), table);
      check.found && check.url.Some? && StartsWith(check.url.value, "http")
    ensures r.result == Ok(FromCache) ==>
      pointNumber.Some? && CacheHit(w, CacheName(p.eqpId, day, pointNumber.value))
    ensures r.result.Ok? && r.result.value.FromConversion? ==>
      Succeeded(w.download) && Given(w.popplerPath) &&
      (|| (Succeeded(w.first) && r.result.value.page == TargetPage(pointNumber.value))
       || (!Succeeded(w.first) && Succeeded(w.second) && r.result.value.page == 1))
    ensures r.cacheDeleted ==>
      pointNumber.Some? && FileSize(w, CacheName(p.eqpId, day, pointNumber.value)) == Some(0)
    ensures r.result.Err? ==> r.result.error.NotFound? || r.result.error.Internal?
    ensures (r.result.Err? && r.result.error.NotFound?) <==>
      Given(p.eqpId) && DateGiven(p.dateTime) && pointNumber.Some? &&
      var check := CheckPdf(p.(servTs := NoDate), table);
      !check.found || check.url.None? || !Given(check.url.value)
  {
    if !Given(p.eqpId) || !DateGiven(p.dateTime) || pointNumber.None? then
      PdfImage(Err(Internal("EQP ID, DateTime, and PointNumber are required for PDF image.")), false)
    else
      var check := CheckPdf(p.(servTs := NoDate), table);
      if !check.found || check.url.None? || !Given(check.url.value) then
        PdfImage(Err(NotFound("PDF file URI not found in database.")), false)
      else if !StartsWith(check.url.value, "http") then
        PdfImage(Err(Internal("Only HTTP/HTTPS URLs are supported.")), false)
      else Produce(TargetPage(pointNumber.value), CacheName(p.eqpId, day, pointNumber.value), w)
  }

  /** The cache file `name` when it is non-empty and readable; otherwise a
      zero-byte cache file is deleted and the page is converted afresh. */
  function Produce(page: int, name: string, w: PdfWorld): (r: PdfImage)
    ensures r.result == Ok(FromCache) <==> CacheHit(w, name)
    ensures r.result != Ok(FromCache) ==> r.result == Convert(page, w) && (r.cacheDeleted <==> FileSize(w, name) == Some(0))
    ensures r.cacheDeleted ==> FileSize(w, name) == Some(0)
  {
    if CacheHit(w, name) then
      PdfImage(Ok(FromCache), false)
    else
      PdfImage(Convert(page, w), FileSize(w, name) == Some(0))
  }

  /** Download, then the conversion run. */
  function Convert(page: int, w: PdfWorld): (r: Result<ImageSource>)
    ensures r.Ok? ==> Succeeded(w.download) && Given(w.popplerPath)
    ensures Succeeded(w.download) && Given(w.popplerPath) ==>
      (r.Ok? <==> Succeeded(w.first) || Succeeded(w.second))
    ensures r.Ok? ==> r.value.FromConversion?
    ensures r.Ok? ==>
      (|| (Succeeded(w.first) && r.value.page == page)
       || (!Succeeded(w.first) && Succeeded(w.second) && r.value.page == 1))
  {
    if !Succeeded(w.download) then Err(Internal("Failed to process PDF: Downloaded PDF is empty or missing."))
    else if !Given(w.popplerPath) then Err(Internal("Failed to process PDF: POPPLER_BIN_PATH is missing."))
    else
      var trace := Run(page, w.first, w.second);
      RunPolicy(page, w.first, w.second);
      match trace[|trace| - 1]
      case Rendered(pg) => Ok(FromConversion(pg))
      case _ => Err(Internal("Failed to process PDF: Poppler finished but PNG file was not created or empty."))
  }

  /** A non-empty readable cache file for this equipment, day and point is
      served as is; a zero-byte one is deleted and the image is produced
      afresh; a cache file for another day or point plays no part. */
  lemma CachePolicy(p: WaferParams, pointNumber: Option<string>, table: seq<MapRow>, day: CalendarDay, w: PdfWorld)
    requires ValidDay(day)
    requires Given(p.eqpId) && DateGiven(p.dateTime) && pointNumber.Some?
    requires CheckPdf(p.(servTs := NoDate), table).found
    requires CheckPdf(p.(servTs := NoDate), table).url.Some?
    requires StartsWith(CheckPdf(p.(servTs := NoDate), table).url.value, "http")
    ensures CacheHit(w, CacheName(p.eqpId, day, pointNumber.value)) ==>
      GetPdfImage(p, pointNumber, table, day, w) == PdfImage(Ok(FromCache), false)
    ensures FileSize(w, CacheName(p.eqpId, day, pointNumber.value)) == Some(0) ==>
      GetPdfImage(p, pointNumber, table, day, w).cacheDeleted &&
      GetPdfImage(p, pointNumber, table, day, w).result != Ok(FromCache)
    ensures CacheName(p.eqpId, day, pointNumber.value) !in w.tmpFiles ==>
      GetPdfImage(p, pointNumber, table, day, w) ==
        PdfImage(Convert(TargetPage(pointNumber.value), w), false)
  {
    var url := CheckPdf(p.(servTs := NoDate), table).url.value;
    assert Given(url) by {
      assert |"http"| <= |url|;
    }
  }
}

=== FILE: wafer_query.dfy ===
/** The filter-to-predicate builders of the wafer service: the parameterized
    WHERE clauses of `getDistinctValues` and `getDistinctPoints`, the Prisma
    where-object of `getFlatData`, and the literal WHERE clause of
    `buildUniqueWhere` that the statistics, point-data, residual,
    available-metric and uniformity queries share.

    A database row is a map from column name to its non-null value. Every
    builder comes with a reference predicate that states the filtering policy
    row by row, and a lemma that the built query selects exactly those rows. */
module WaferQuery {
  import opened Common

  // ---------------------------------------------------------------------
  // Rows, dates and parameters
  // ---------------------------------------------------------------------

  /** A non-null column value: text, an integer, a timestamp in ms, or a
      decimal measurement. */
  datatype Value = Text(s: string) | Num(n: int) | Stamp(ms: int) | Dec(x: real)

  /** A row of `plg_wf_flat` (or of the spectrum/flat join, with `s.` and
      `f.` prefixed column names). A NULL column is absent from the map. */
  type Row = map<string, Value>

  predicate Has(row: Row, col: string, v: Value) {
    col in row && row[col] == v
  }

  /** The timestamp column `col` lies in [lo, hi], both ends included. */
  predicate Within(row: Row, col: string, lo: int, hi: int) {
    col in row && row[col].Stamp? && lo <= row[col].ms <= hi
  }

  lemma HasHolds(row: Row, col: string, v: Value)
    ensures Has(row, col, v) <==> Holds(row, col, Eq, v)
  {
  }

  lemma WithinHolds(row: Row, col: string, lo: int, hi: int)
    ensures Within(row, col, lo, hi) <==> Holds(row, col, AtLeast, Stamp(lo)) && Holds(row, col, AtMost, Stamp(hi))
  {
  }

  /** Truthiness of the raw parameter string. */
  predicate DateGiven(d: DateArg) {
    !d.NoDate?
  }

  const DayMs: int := 24 * 60 * 60 * 1000

  /** `setHours(0, 0, 0, 0)`: the first millisecond of the day of `t`. */
  function DayStart(t: int): (r: int)
    ensures r <= t < r + DayMs && r % DayMs == 0
  {
    t - t % DayMs
  }

  /** `setHours(23, 59, 59, 999)`: the last millisecond of the day of `t`. */
  function DayEnd(t: int): (r: int)
    ensures r - DayMs < t <= r && (r + 1) % DayMs == 0
  {
    var s := DayStart(t);
    assert (s + DayMs) % DayMs == 0;
    s + DayMs - 1
  }

  datatype Window = Window(start: int, end: int)

  /** `getSafeDates`: a missing or unparsable start falls back to seven days
      before `now`, a missing or unparsable end to `now`; the start is moved
      to the beginning of its day and the end to the end of its day. */
  function SafeDates(start: DateArg, end: DateArg, now: int): (w: Window)
    ensures w.start <= (if start.At? then start.ms else now - 7 * DayMs)
    ensures (if end.At? then end.ms else now) <= w.end
    ensures w.start % DayMs == 0 && (w.end + 1) % DayMs == 0
  {
    var s := if start.At? then start.ms else now - 7 * DayMs;
    var e := if end.At? then end.ms else now;
    Window(DayStart(s), DayEnd(e))
  }

  /** A requested day range covers both whole days: each given instant lies in
      its window, and a well-ordered pair gives a non-empty window. */
  lemma SafeDatesCover(s: int, e: int, now: int)
    requires s <= e
    ensures var w := SafeDates(At(s), At(e), now);
      w.start <= s <= e <= w.end && e - s < w.end - w.start + 1 && w.end - w.start < e - s + 2 * DayMs
  {
  }

  /** `WaferQueryParams` as the controller passes them: every field is a
      query-string value, `""` when absent. */
  datatype WaferParams = WaferParams(
    eqpId: string,
    lotId: string,
    waferId: string,
    startDate: DateArg,
    endDate: DateArg,
    cassetteRcp: string,
    stageRcp: string,
    stageGroup: string,
    film: string,
    servTs: DateArg,
    dateTime: DateArg)

  // ---------------------------------------------------------------------
  // Parameterized queries ($1, $2, ...)
  // ---------------------------------------------------------------------

  datatype Op = Eq | AtLeast | AtMost

  /** `col <op> $slot`. */
  datatype Cond = Cond(col: string, op: Op, slot: nat)

  /** A WHERE clause of conjuncts and the parameter array passed with it. */
  datatype Query = Query(conds: seq<Cond>, params: seq<Value>)

  /** Every placeholder `$k` is the k-th condition and names the k-th pushed
      parameter, so the array lines up with the text. */
  predicate Aligned(q: Query) {
    |q.conds| == |q.params| && forall i :: 0 <= i < |q.conds| ==> q.conds[i].slot == i + 1
  }

  predicate Compare(x: Value, op: Op, v: Value) {
    match op
    case Eq => x == v
    case AtLeast => x.Stamp? && v.Stamp? && x.ms >= v.ms
    case AtMost => x.Stamp? && v.Stamp? && x.ms <= v.ms
  }

  predicate Holds(row: Row, col: string, op: Op, v: Value) {
    col in row && Compare(row[col], op, v)
  }

  /** Condition `i` holds with the parameter its placeholder names. */
  predicate CondHolds(q: Query, i: nat, row: Row)
    requires i < |q.conds|
  {
    1 <= q.conds[i].slot <= |q.params| &&
    Holds(row, q.conds[i].col, q.conds[i].op, q.params[q.conds[i].slot - 1])
  }

  /** The rows a query selects: every condition holds. */
  predicate Eval(q: Query, row: Row) {
    forall i: nat :: i < |q.conds| ==> CondHolds(q, i, row)
  }

  /** `where += ' AND col op $' + (params.length + 1); params.push(v)`. */
  function Push(q: Query, col: string, op: Op, v: Value): Query {
    Query(q.conds + [Cond(col, op, |q.params| + 1)], q.params + [v])
  }

  function PushIf(q: Query, c: bool, col: string, op: Op, v: Value): Query {
    if c then Push(q, col, op, v) else q
  }

  lemma PushIfMeaning(q: Query, c: bool, col: string, op: Op, v: Value, row: Row)
    requires Aligned(q)
    ensures Aligned(PushIf(q, c, col, op, v))
    ensures Eval(PushIf(q, c, col, op, v), row) <==> Eval(q, row) && (c ==> Holds(row, col, op, v))
  {
    if c {
      var q' := Push(q, col, op, v);
      var n := |q.conds|;
      forall i: nat | i < n ensures CondHolds(q', i, row) == CondHolds(q, i, row) {
        assert q'.conds[i] == q.conds[i];
        assert q'.params[q.conds[i].slot - 1] == q.params[q.conds[i].slot - 1];
      }
      assert q'.conds[n] == Cond(col, op, n + 1);
      assert q'.params[n] == v;
      assert CondHolds(q', n, row) == Holds(row, col, op, v);
      assert Aligned(q');
    }
  }

  /** One guarded filter of a builder: `if (on) { where += ...; params.push(v) }`. */
  datatype Term = Term(on: bool, col: string, op: Op, v: Value)

  predicate TermHolds(t: Term, row: Row) {
    t.on ==> Holds(row, t.col, t.op, t.v)
  }

  predicate AllHold(ts: seq<Term>, row: Row) {
    forall i :: 0 <= i < |ts| ==> TermHolds(ts[i], row)
  }

  /** The query a sequence of guarded filters accumulates, in order. */
  function Build(ts: seq<Term>): Query {
    if |ts| == 0 then Query([], []) else
      var t := ts[|ts| - 1];
      PushIf(Build(ts[..|ts| - 1]), t.on, t.col, t.op, t.v)
  }

  /** However many filters are skipped, every placeholder binds the value of
      its own filter, so the query selects exactly the rows on which every
      active filter holds. */
  lemma {:induction false} BuildMeaning(ts: seq<Term>, row: Row)
    ensures Aligned(Build(ts))
    ensures Eval(Build(ts), row) <==> AllHold(ts, row)
  {
    if |ts| > 0 {
      var init := ts[..|ts| - 1];
      var t := ts[|ts| - 1];
      BuildMeaning(init, row);
      PushIfMeaning(Build(init), t.on, t.col, t.op, t.v, row);
      if AllHold(init, row) && TermHolds(t, row) {
        forall i | 0 <= i < |ts| ensures TermHolds(ts[i], row) {
          if i < |init| { assert ts[i] == init[i]; }
        }
      }
      if AllHold(ts, row) {
        forall i | 0 <= i < |init| ensures TermHolds(init[i], row) {
          assert ts[i] == init[i];
        }
      }
    }
  }

  // ---------------------------------------------------------------------
  // getDistinctValues
  // ---------------------------------------------------------------------

  /** The UI's plural field names mapped to the column they read. */
  function ColumnAlias(column: string): string {
    if column == "lotids" then "lotid"
    else if column == "cassettercps" then "cassettercp"
    else if column == "stagercps" || column == "stageRcps" then "stagercp"
    else if column == "stagegroups" then "stagegroup"
    else if column == "films" then "film"
    else if column == "waferids" then "waferid"
    else column
  }

  /** Both dates given and no lot: the only case in which the distinct-value
      and distinct-point queries restrict the scan time. */
  predicate DatedSearch(p: WaferParams) {
    !Given(p.lotId) && DateGiven(p.startDate) && DateGiven(p.endDate)
  }

  /** The filters of `getDistinctValues(column, params)`, in the order the
      service appends them. */
  function DistinctValuesTerms(column: string, p: WaferParams, now: int): seq<Term> {
    var col := ColumnAlias(column);
    var w := SafeDates(p.startDate, p.endDate, now);
    [ Term(Given(p.eqpId), "eqpid", Eq, Text(p.eqpId)),
      Term(Given(p.lotId) && col != "lotid", "lotid", Eq, Text(p.lotId)),
      Term(Given(p.cassetteRcp) && col != "cassettercp", "cassettercp", Eq, Text(p.cassetteRcp)),
      Term(Given(p.stageGroup) && col != "stagegroup", "stagegroup", Eq, Text(p.stageGroup)),
      Term(Given(p.film) && col != "film", "film", Eq, Text(p.film)),
      Term(DatedSearch(p), "serv_ts", AtLeast, Stamp(w.start)),
      Term(DatedSearch(p), "serv_ts", AtMost, Stamp(w.end)) ]
  }

  /** The WHERE clause and parameter array of `getDistinctValues`. */
  function DistinctValuesQuery(column: string, p: WaferParams, now: int): Query {
    Build(DistinctValuesTerms(column, p, now))
  }

  /** The filtering policy of `getDistinctValues`, row by row: every given
      filter except the one on the requested column itself, and the date
      window only for a dated search. */
  predicate DistinctValuesSelects(column: string, p: WaferParams, now: int, row: Row) {
    var col := ColumnAlias(column);
    var w := SafeDates(p.startDate, p.endDate, now);
    && (Given(p.eqpId) ==> Has(row, "eqpid", Text(p.eqpId)))
    && (Given(p.lotId) && col != "lotid" ==> Has(row, "lotid", Text(p.lotId)))
    && (Given(p.cassetteRcp) && col != "cassettercp" ==> Has(row, "cassettercp", Text(p.cassetteRcp)))
    && (Given(p.stageGroup) && col != "stagegroup" ==> Has(row, "stagegroup", Text(p.stageGroup)))
    && (Given(p.film) && col != "film" ==> Has(row, "film", Text(p.film)))
    && (DatedSearch(p) ==> Within(row, "serv_ts", w.start, w.end))
  }

  lemma DistinctValuesTermsMeaning(column: string, p: WaferParams, now: int, row: Row)
    ensures AllHold(DistinctValuesTerms(column, p, now), row) <==> DistinctValuesSelects(column, p, now, row)
  {
    var ts := DistinctValuesTerms(column, p, now);
    var w := SafeDates(p.startDate, p.endDate, now);
    HasHolds(row, "eqpid", Text(p.eqpId));
    HasHolds(row, "lotid", Text(p.lotId));
    HasHolds(row, "cassettercp", Text(p.cassetteRcp));
    HasHolds(row, "stagegroup", Text(p.stageGroup));
    HasHolds(row, "film", Text(p.film));
    WithinHolds(row, "serv_ts", w.start, w.end);
    if DistinctValuesSelects(column, p, now, row) {
      forall i | 0 <= i < |ts| ensures TermHolds(ts[i], row) {
      }
    }
    if AllHold(ts, row) {
      assert TermHolds(ts[0], row) && TermHolds(ts[1], row) && TermHolds(ts[2], row) && TermHolds(ts[3], row);
      assert TermHolds(ts[4], row) && TermHolds(ts[5], row) && TermHolds(ts[6], row);
    }
  }

  /** Every placeholder binds the value meant for its column, and the query
      selects exactly the rows the policy describes. */
  lemma DistinctValuesMeaning(column: string, p: WaferParams, now: int, row: Row)
    ensures Aligned(DistinctValuesQuery(column, p, now))
    ensures Eval(DistinctValuesQuery(column, p, now), row) <==> DistinctValuesSelects(column, p, now, row)
  {
    BuildMeaning(DistinctValuesTerms(column, p, now), row);
    DistinctValuesTermsMeaning(column, p, now, row);
  }

  /** The requested column never filters itself: rows that differ only in
      that column (other than `eqpid` and the time column) are selected
      alike, so the list offers every value compatible with the other
      filters. */
  lemma DistinctValuesIgnoresOwnColumn(column: string, p: WaferParams, now: int, row: Row, x: Value)
    requires ColumnAlias(column) != "eqpid" && ColumnAlias(column) != "serv_ts"
    ensures Eval(DistinctValuesQuery(column, p, now), row) <==>
            Eval(DistinctValuesQuery(column, p, now), row[ColumnAlias(column) := x])
  {
    DistinctValuesMeaning(column, p, now, row);
    DistinctValuesMeaning(column, p, now, row[ColumnAlias(column) := x]);
  }

  /** The scan time matters only in a dated search: then rows outside the
      whole-day window are left out, otherwise the time is ignored. */
  lemma DistinctValuesTimeWindow(column: string, p: WaferParams, now: int, row: Row, x: Value)
    ensures !DatedSearch(p) ==>
      (Eval(DistinctValuesQuery(column, p, now), row) <==> Eval(DistinctValuesQuery(column, p, now), row["serv_ts" := x]))
    ensures DatedSearch(p) && Eval(DistinctValuesQuery(column, p, now), row) ==>
      Within(row, "serv_ts", SafeDates(p.startDate, p.endDate, now).start, SafeDates(p.startDate, p.endDate, now).end)
  {
    DistinctValuesMeaning(column, p, now, row);
    DistinctValuesMeaning(column, p, now, row["serv_ts" := x]);
  }

  /** The values returned to the UI: `null` becomes `''`, and empty strings
      are dropped. Each raw value is already rendered with `String(...)` or
      `JSON.stringify(...)`. */
  function DistinctValuesResult(raw: seq<Option<string>>): (r: seq<string>)
    ensures forall i :: 0 <= i < |r| ==> r[i] != ""
    ensures forall v :: v in r <==> v != "" && Some(v) in raw
    ensures |r| <= |raw|
  {
    if |raw| == 0 then [] else
      var rest := DistinctValuesResult(raw[1..]);
      assert forall x :: x in raw <==> x == raw[0] || x in raw[1..];
      if raw[0].Some? && raw[0].value != "" then [raw[0].value] + rest else rest
  }

  /** The values keep the order the query read them in: the result for
      one batch of rows followed by another is the first batch's result
      followed by the second's. */
  lemma {:induction false} DistinctValuesInOrder(a: seq<Option<string>>, b: seq<Option<string>>)
    ensures DistinctValuesResult(a + b) == DistinctValuesResult(a) + DistinctValuesResult(b)
  {
    if |a| > 0 {
      assert (a + b)[1..] == a[1..] + b;
      DistinctValuesInOrder(a[1..], b);
    } else {
      assert a + b == b;
    }
  }

  // ---------------------------------------------------------------------
  // getDistinctPoints
  // ---------------------------------------------------------------------

  /** The filters of `getDistinctPoints` over the spectrum/flat join. */
  function DistinctPointsTerms(p: WaferParams, now: int): seq<Term> {
    var w := SafeDates(p.startDate, p.endDate, now);
    [ Term(Given(p.eqpId), "s.eqpid", Eq, Text(p.eqpId)),
      Term(Given(p.lotId), "s.lotid", Eq, Text(p.lotId)),
      Term(Given(p.cassetteRcp), "f.cassettercp", Eq, Text(p.cassetteRcp)),
      Term(Given(p.stageRcp), "f.stagercp", Eq, Text(p.stageRcp)),
      Term(Given(p.stageGroup), "f.stagegroup", Eq, Text(p.stageGroup)),
      Term(Given(p.film), "f.film", Eq, Text(p.film)),
      Term(DatedSearch(p), "s.ts", AtLeast, Stamp(w.start)),
      Term(DatedSearch(p), "s.ts", AtMost, Stamp(w.end)) ]
  }

  function DistinctPointsQuery(p: WaferParams, now: int): Query {
    Build(DistinctPointsTerms(p, now))
  }

  /** The filtering policy of `getDistinctPoints`: every given filter, and
      the scan-time window only for a dated search. */
  predicate DistinctPointsSelects(p: WaferParams, now: int, row: Row) {
    var w := SafeDates(p.startDate, p.endDate, now);
    && (Given(p.eqpId) ==> Has(row, "s.eqpid", Text(p.eqpId)))
    && (Given(p.lotId) ==> Has(row, "s.lotid", Text(p.lotId)))
    && (Given(p.cassetteRcp) ==> Has(row, "f.cassettercp", Text(p.cassetteRcp)))
    && (Given(p.stageRcp) ==> Has(row, "f.stagercp", Text(p.stageRcp)))
    && (Given(p.stageGroup) ==> Has(row, "f.stagegroup", Text(p.stageGroup)))
    && (Given(p.film) ==> Has(row, "f.film", Text(p.film)))
    && (DatedSearch(p) ==> Within(row, "s.ts", w.start, w.end))
  }

  lemma DistinctPointsTermsMeaning(p: WaferParams, now: int, row: Row)
    ensures AllHold(DistinctPointsTerms(p, now), row) <==> DistinctPointsSelects(p, now, row)
  {
    var ts := DistinctPointsTerms(p, now);
    var w := SafeDates(p.startDate, p.endDate, now);
    HasHolds(row, "s.eqpid", Text(p.eqpId));
    HasHolds(row, "s.lotid", Text(p.lotId));
    HasHolds(row, "f.cassettercp", Text(p.cassetteRcp));
    HasHolds(row, "f.stagercp", Text(p.stageRcp));
    HasHolds(row, "f.stagegroup", Text(p.stageGroup));
    HasHolds(row, "f.film", Text(p.film));
    WithinHolds(row, "s.ts", w.start, w.end);
    if DistinctPointsSelects(p, now, row) {
      forall i | 0 <= i < |ts| ensures TermHolds(ts[i], row) {
      }
    }
    if AllHold(ts, row) {
      assert TermHolds(ts[0], row) && TermHolds(ts[1], row) && TermHolds(ts[2], row) && TermHolds(ts[3], row);
      assert TermHolds(ts[4], row) && TermHolds(ts[5], row) && TermHolds(ts[6], row) && TermHolds(ts[7], row);
    }
  }

  lemma DistinctPointsMeaning(p: WaferParams, now: int, row: Row)
    ensures Aligned(DistinctPointsQuery(p, now))
    ensures Eval(DistinctPointsQuery(p, now), row) <==> DistinctPointsSelects(p, now, row)
  {
    BuildMeaning(DistinctPointsTerms(p, now), row);
    DistinctPointsTermsMeaning(p, now, row);
  }

  /** With a lot id the scan time no longer matters: two joined rows that
      differ only in `s.ts` are selected alike, whatever dates are given. */
  lemma DistinctPointsIgnoresTimeWithLot(p: WaferParams, now: int, row: Row, t: Value)
    requires Given(p.lotId)
    ensures Eval(DistinctPointsQuery(p, now), row) <==> Eval(DistinctPointsQuery(p, now), row["s.ts" := t])
  {
    DistinctPointsMeaning(p, now, row);
    DistinctPointsMeaning(p, now, row["s.ts" := t]);
  }

  // ---------------------------------------------------------------------
  // getFlatData
  // ---------------------------------------------------------------------

  /** The Prisma where-object of `getFlatData`; `None` is `undefined`, which
      Prisma ignores. */
  datatype FlatWhere = FlatWhere(
    eqpid: Option<string>,
    servTs: Option<Window>,
    lotidContains: Option<string>,   // contains, case-insensitive
    waferid: Option<int>,
    cassettercp: Option<string>,
    stagercp: Option<string>,
    stagegroup: Option<string>,
    film: Option<string>)

  function OptText(s: string): (r: Option<string>)
    ensures r.Some? <==> Given(s)
    ensures r.Some? ==> r.value == s
  {
    if Given(s) then Some(s) else None
  }

  /** `getFlatData`'s where-object. A wafer id that `Number` cannot read as an
      integer is rejected by Prisma's validation, and the request fails. */
  function FlatDataWhere(p: WaferParams, now: int): (r: Result<FlatWhere>)
    ensures r.Err? <==> Given(p.waferId) && NumberOf(p.waferId).None?
    ensures r.Ok? ==> (r.value.servTs.None? <==> Given(p.lotId))
    ensures r.Ok? && !Given(p.lotId) ==> r.value.servTs == Some(SafeDates(p.startDate, p.endDate, now))
    ensures r.Ok? ==> (r.value.lotidContains.Some? <==> Given(p.lotId))
    ensures r.Ok? ==> (r.value.waferid.Some? <==> Given(p.waferId))
  {
    var wafer := if Given(p.waferId) then NumberOf(p.waferId) else None;
    if Given(p.waferId) && wafer.None? then Err(Internal("waferid must be an Int"))
    else
      Ok(FlatWhere(
        OptText(p.eqpId),
        if Given(p.lotId) then None else Some(SafeDates(p.startDate, p.endDate, now)),
        OptText(p.lotId),
        wafer,
        OptText(p.cassetteRcp),
        OptText(p.stageRcp),
        OptText(p.stageGroup),
        OptText(p.film)))
  }

  predicate TextIf(row: Row, col: string, v: Option<string>) {
    v.Some? ==> Has(row, col, Text(v.value))
  }

  /** `lotid` contains the searched text, ignoring case. */
  predicate LotLike(row: Row, lot: string) {
    "lotid" in row && row["lotid"].Text? && Contains(Lower(row["lotid"].s), Lower(lot))
  }

  /** The rows a `FlatWhere` selects. */
  predicate FlatMatches(w: FlatWhere, row: Row) {
    && TextIf(row, "eqpid", w.eqpid)
    && (w.servTs.Some? ==> Within(row, "serv_ts", w.servTs.value.start, w.servTs.value.end))
    && (w.lotidContains.Some? ==> LotLike(row, w.lotidContains.value))
    && (w.waferid.Some? ==> Has(row, "waferid", Num(w.waferid.value)))
    && TextIf(row, "cassettercp", w.cassettercp)
    && TextIf(row, "stagercp", w.stagercp)
    && TextIf(row, "stagegroup", w.stagegroup)
    && TextIf(row, "film", w.film)
  }

  /** A lot search finds the lot's rows from any date. */
  lemma FlatDataLotIgnoresTime(p: WaferParams, now: int, row: Row, t: Value)
    requires Given(p.lotId) && FlatDataWhere(p, now).Ok?
    ensures FlatMatches(FlatDataWhere(p, now).value, row) <==> FlatMatches(FlatDataWhere(p, now).value, row["serv_ts" := t])
  {
    var w := FlatDataWhere(p, now).value;
    assert w.servTs.None?;
    FlatMatchesOtherColumn(w, row, "serv_ts", t);
  }

  /** A where-object without a time window does not look at `serv_ts`. */
  lemma FlatMatchesOtherColumn(w: FlatWhere, row: Row, col: string, v: Value)
    requires w.servTs.None? && col == "serv_ts"
    ensures FlatMatches(w, row) <==> FlatMatches(w, row[col := v])
  {
    var row' := row[col := v];
    assert forall c :: c in ["eqpid", "lotid", "waferid", "cassettercp", "stagercp", "stagegroup", "film"] ==>
      (c in row <==> c in row') && (c in row ==> row[c] == row'[c]);
  }

  /** A lot search matches any lot id that contains the searched text in
      another letter case, e.g. the full lot id written in lower case. */
  lemma FlatDataLotCaseInsensitive(p: WaferParams, now: int, row: Row, other: string)
    requires Given(p.lotId) && FlatDataWhere(p, now).Ok?
    requires Lower(other) == Lower(p.lotId)
    ensures FlatMatches(FlatDataWhere(p, now).value, row["lotid" := Text(p.lotId)]) <==>
            FlatMatches(FlatDataWhere(p, now).value, row["lotid" := Text(other)])
  {
    var w := FlatDataWhere(p, now).value;
    assert w.lotidContains == Some(p.lotId);
    FlatMatchesLot(w, row, Text(p.lotId), Text(other));
  }

  /** Apart from the lot search, a where-object does not look at `lotid`. */
  lemma FlatMatchesLot(w: FlatWhere, row: Row, x: Value, y: Value)
    requires w.lotidContains.Some? ==> (LotLike(row["lotid" := x], w.lotidContains.value) <==> LotLike(row["lotid" := y], w.lotidContains.value))
    ensures FlatMatches(w, row["lotid" := x]) <==> FlatMatches(w, row["lotid" := y])
  {
    var a, b := row["lotid" := x], row["lotid" := y];
    assert "eqpid"[0] != 'l' && "serv_ts"[0] != 'l' && "waferid"[0] != 'l' && "cassettercp"[0] != 'l';
    assert "stagercp"[0] != 'l' && "stagegroup"[0] != 'l' && "film"[0] != 'l';
    assert forall c :: c in ["eqpid", "serv_ts", "waferid", "cassettercp", "stagercp", "stagegroup", "film"] ==>
      (c in a <==> c in b) && (c in a ==> a[c] == b[c]);
  }

  /** Without a lot the window is always applied, whether or not dates were
      given: a row outside the default last-seven-days window is not listed. */
  lemma FlatDataWindowWithoutLot(p: WaferParams, now: int, row: Row)
    requires !Given(p.lotId) && FlatDataWhere(p, now).Ok?
    ensures FlatMatches(FlatDataWhere(p, now).value, row) ==>
      Within(row, "serv_ts", SafeDates(p.startDate, p.endDate, now).start, SafeDates(p.startDate, p.endDate, now).end)
  {
  }

  // ---------------------------------------------------------------------
  // buildUniqueWhere
  // ---------------------------------------------------------------------

  /** A conjunct of the literal WHERE clause. `Rejected` stands for a literal
      the database cannot read (an unparsable timestamp, `waferid = NaN`):
      the statement fails, and every caller catches the failure and returns
      its empty result, which is what a clause that selects no row gives. */
  datatype Clause = Clause(col: string, op: Op, v: Value) | Rejected

  predicate ClauseHolds(c: Clause, row: Row) {
    match c
    case Clause(col, op, v) => Holds(row, col, op, v)
    case Rejected => false
  }

  predicate Sat(cs: seq<Clause>, row: Row) {
    forall i :: 0 <= i < |cs| ==> ClauseHolds(cs[i], row)
  }

  /** One `if (...) sql += ...` of `buildUniqueWhere`. */
  datatype Guarded = Guarded(on: bool, c: Clause)

  /** The clauses whose guard is true, in order. */
  function Active(gs: seq<Guarded>): (cs: seq<Clause>)
    ensures |cs| <= |gs|
  {
    if |gs| == 0 then [] else
      Active(gs[..|gs| - 1]) + (if gs[|gs| - 1].on then [gs[|gs| - 1].c] else [])
  }

  lemma {:induction false} ActiveSat(gs: seq<Guarded>, row: Row)
    ensures Sat(Active(gs), row) <==> forall i :: 0 <= i < |gs| && gs[i].on ==> ClauseHolds(gs[i].c, row)
  {
    if |gs| > 0 {
      var init := gs[..|gs| - 1];
      var g := gs[|gs| - 1];
      var a := Active(init);
      var tail := if g.on then [g.c] else [];
      ActiveSat(init, row);
      assert Active(gs) == a + tail;
      if Sat(a + tail, row) {
        forall i | 0 <= i < |a| ensures ClauseHolds(a[i], row) { assert (a + tail)[i] == a[i]; }
        if g.on { assert (a + tail)[|a|] == g.c; }
        forall i | 0 <= i < |gs| && gs[i].on ensures ClauseHolds(gs[i].c, row) {
          if i < |init| { assert gs[i] == init[i]; }
        }
      }
      if forall i :: 0 <= i < |gs| && gs[i].on ==> ClauseHolds(gs[i].c, row) {
        forall i | 0 <= i < |init| && init[i].on ensures ClauseHolds(init[i].c, row) {
          assert gs[i] == init[i];
        }
        forall i | 0 <= i < |a + tail| ensures ClauseHolds((a + tail)[i], row) {
          if i >= |a| { assert (a + tail)[i] == g.c; }
          else { assert (a + tail)[i] == a[i]; }
        }
      }
    }
  }

  /** `dateTime || servTs`. */
  function TargetTime(p: WaferParams): DateArg {
    if DateGiven(p.dateTime) then p.dateTime else p.servTs
  }

  /** `dateStr.replace('T', ' ').replace('Z', '').split('.')[0]`: the instant
      read back without its milliseconds. */
  function WholeSeconds(t: int): int {
    t - t % 1000
  }

  const ToleranceMs: int := 2000

  /** `waferid = ${Number(p.waferId)}`. */
  function WaferClause(waferId: string): Clause {
    match NumberOf(waferId)
    case Some(n) => Clause("waferid", Eq, Num(n))
    case None => Rejected
  }

  /** `datetime >= 'clean'::timestamp - interval '2 second'` and its upper
      counterpart; an unparsable target time is rejected. */
  function NearClause(target: DateArg, op: Op): Clause {
    if !target.At? then Rejected
    else if op == AtLeast then Clause("datetime", AtLeast, Stamp(WholeSeconds(target.ms) - ToleranceMs))
    else Clause("datetime", AtMost, Stamp(WholeSeconds(target.ms) + ToleranceMs))
  }

  /** The guarded conjuncts of `buildUniqueWhere`, in the order it appends
      them. */
  function UniqueTerms(p: WaferParams, now: int): seq<Guarded> {
    var timed := DateGiven(TargetTime(p));
    var w := SafeDates(p.startDate, p.endDate, now);
    [ Guarded(true, Clause("eqpid", Eq, Text(p.eqpId))),
      Guarded(timed, NearClause(TargetTime(p), AtLeast)),
      Guarded(timed, NearClause(TargetTime(p), AtMost)),
      Guarded(!timed && !Given(p.lotId) && DateGiven(p.startDate), Clause("serv_ts", AtLeast, Stamp(w.start))),
      Guarded(!timed && !Given(p.lotId) && DateGiven(p.endDate), Clause("serv_ts", AtMost, Stamp(w.end))),
      Guarded(Given(p.lotId), Clause("lotid", Eq, Text(p.lotId))),
      Guarded(Given(p.waferId), WaferClause(p.waferId)),
      Guarded(!timed && Given(p.cassetteRcp), Clause("cassettercp", Eq, Text(p.cassetteRcp))),
      Guarded(!timed && Given(p.stageRcp), Clause("stagercp", Eq, Text(p.stageRcp))),
      Guarded(!timed && Given(p.stageGroup), Clause("stagegroup", Eq, Text(p.stageGroup))),
      Guarded(!timed && Given(p.film), Clause("film", Eq, Text(p.film))) ]
  }

  /** `buildUniqueWhere`: no clause at all (null) without an equipment id. */
  function UniqueWhere(p: WaferParams, now: int): (r: Option<seq<Clause>>)
    ensures r.None? <==> !Given(p.eqpId)
  {
    if !Given(p.eqpId) then None else Some(Active(UniqueTerms(p, now)))
  }

  /** The selection policy of `buildUniqueWhere`, row by row. With a capture
      time, only rows captured within two seconds of it (read without
      milliseconds) qualify, narrowed by lot and wafer; start/end and recipe
      filters are ignored. Without one, the start/end bounds apply only when
      no lot is given, and every given filter narrows the rows. */
  predicate UniqueSelects(p: WaferParams, now: int, row: Row) {
    UniqueKeys(p, row) && UniqueWhen(p, now, row)
  }

  /** The equipment, and the lot and wafer when given. */
  predicate UniqueKeys(p: WaferParams, row: Row) {
    && Has(row, "eqpid", Text(p.eqpId))
    && (Given(p.lotId) ==> Has(row, "lotid", Text(p.lotId)))
    && (Given(p.waferId) ==> NumberOf(p.waferId).Some? && Has(row, "waferid", Num(NumberOf(p.waferId).value)))
  }

  /** The capture-time window, or else the dates and recipe filters. */
  predicate UniqueWhen(p: WaferParams, now: int, row: Row) {
    var target := TargetTime(p);
    var w := SafeDates(p.startDate, p.endDate, now);
    if DateGiven(target) then
      target.At? &&
      Within(row, "datetime", WholeSeconds(target.ms) - ToleranceMs, WholeSeconds(target.ms) + ToleranceMs)
    else
      && (!Given(p.lotId) && DateGiven(p.startDate) ==> Holds(row, "serv_ts", AtLeast, Stamp(w.start)))
      && (!Given(p.lotId) && DateGiven(p.endDate) ==> Holds(row, "serv_ts", AtMost, Stamp(w.end)))
      && (Given(p.cassetteRcp) ==> Has(row, "cassettercp", Text(p.cassetteRcp)))
      && (Given(p.stageRcp) ==> Has(row, "stagercp", Text(p.stageRcp)))
      && (Given(p.stageGroup) ==> Has(row, "stagegroup", Text(p.stageGroup)))
      && (Given(p.film) ==> Has(row, "film", Text(p.film)))
  }

  predicate GuardHolds(g: Guarded, row: Row) {
    g.on ==> ClauseHolds(g.c, row)
  }

  lemma ElevenGuards(gs: seq<Guarded>, row: Row)
    requires |gs| == 11
    ensures (forall i :: 0 <= i < |gs| && gs[i].on ==> ClauseHolds(gs[i].c, row)) <==>
      GuardHolds(gs[0], row) && GuardHolds(gs[1], row) && GuardHolds(gs[2], row) && GuardHolds(gs[3], row) &&
      GuardHolds(gs[4], row) && GuardHolds(gs[5], row) && GuardHolds(gs[6], row) && GuardHolds(gs[7], row) &&
      GuardHolds(gs[8], row) && GuardHolds(gs[9], row) && GuardHolds(gs[10], row)
  {
  }

  lemma UniqueTermsMeaning(p: WaferParams, now: int, row: Row)
    ensures (forall i :: 0 <= i < |UniqueTerms(p, now)| && UniqueTerms(p, now)[i].on ==> ClauseHolds(UniqueTerms(p, now)[i].c, row))
            <==> UniqueSelects(p, now, row)
  {
    var gs := UniqueTerms(p, now);
    ElevenGuards(gs, row);
    UniqueKeyGuards(p, now, row);
    UniqueWhenGuards(p, now, row);
  }

  lemma UniqueKeyGuards(p: WaferParams, now: int, row: Row)
    ensures var gs := UniqueTerms(p, now);
      GuardHolds(gs[0], row) && GuardHolds(gs[5], row) && GuardHolds(gs[6], row) <==> UniqueKeys(p, row)
  {
    HasHolds(row, "eqpid", Text(p.eqpId));
    HasHolds(row, "lotid", Text(p.lotId));
    if NumberOf(p.waferId).Some? {
      HasHolds(row, "waferid", Num(NumberOf(p.waferId).value));
    }
  }

  lemma UniqueWhenGuards(p: WaferParams, now: int, row: Row)
    ensures var gs := UniqueTerms(p, now);
      && GuardHolds(gs[1], row) && GuardHolds(gs[2], row) && GuardHolds(gs[3], row) && GuardHolds(gs[4], row)
      && GuardHolds(gs[7], row) && GuardHolds(gs[8], row) && GuardHolds(gs[9], row) && GuardHolds(gs[10], row)
      <==> UniqueWhen(p, now, row)
  {
    var target := TargetTime(p);
    if DateGiven(target) {
      if target.At? {
        WithinHolds(row, "datetime", WholeSeconds(target.ms) - ToleranceMs, WholeSeconds(target.ms) + ToleranceMs);
      }
    } else {
      HasHolds(row, "cassettercp", Text(p.cassetteRcp));
      HasHolds(row, "stagercp", Text(p.stageRcp));
      HasHolds(row, "stagegroup", Text(p.stageGroup));
      HasHolds(row, "film", Text(p.film));
    }
  }

  /** The clause built by `buildUniqueWhere` selects exactly the rows the
      policy describes. */
  lemma UniqueWhereMeaning(p: WaferParams, now: int, row: Row)
    requires Given(p.eqpId)
    ensures Sat(UniqueWhere(p, now).value, row) <==> UniqueSelects(p, now, row)
  {
    ActiveSat(UniqueTerms(p, now), row);
    UniqueTermsMeaning(p, now, row);
  }

  /** A capture time pins the rows to a four-second window around it: start
      and end dates and the recipe filters no longer change the result, and a
      row captured more than two seconds away is never selected. */
  lemma UniqueWhereCaptureWindow(p: WaferParams, q: WaferParams, now: int, row: Row)
    requires Given(p.eqpId) && TargetTime(p).At?
    requires q == p.(startDate := q.startDate, endDate := q.endDate, cassetteRcp := q.cassetteRcp,
                     stageRcp := q.stageRcp, stageGroup := q.stageGroup, film := q.film)
    ensures Sat(UniqueWhere(p, now).value, row) <==> Sat(UniqueWhere(q, now).value, row)
    ensures Sat(UniqueWhere(p, now).value, row) ==>
      "datetime" in row && row["datetime"].Stamp? &&
      TargetTime(p).ms - 3000 < row["datetime"].ms <= TargetTime(p).ms + 2000
  {
    UniqueWhereMeaning(p, now, row);
    UniqueWhereMeaning(q, now, row);
  }

  /** Without a capture time, a lot id lifts the date bounds: rows of the
      lot are selected from any time. */
  lemma UniqueWhereLotIgnoresDates(p: WaferParams, now: int, row: Row, t: Value)
    requires Given(p.eqpId) && !DateGiven(TargetTime(p)) && Given(p.lotId)
    ensures Sat(UniqueWhere(p, now).value, row) <==> Sat(UniqueWhere(p, now).value, row["serv_ts" := t])
  {
    UniqueWhereMeaning(p, now, row);
    UniqueWhereMeaning(p, now, row["serv_ts" := t]);
  }
}

=== FILE: wafer_series.dfy ===
/** Per-row derivations of the trend endpoints: the optical figures of
    `getOpticalTrend`, the residuals of `getResidualMap` and the per-wafer
    series of `getLotUniformityTrend`. */
module WaferSeries {
  import opened Common
  import opened Sorting
  import opened WaferQuery
  import opened WaferStats

  // ---------------------------------------------------------------------
  // getOpticalTrend
  // ---------------------------------------------------------------------

  /** The filters of the spectrum/flat join, in the order the service binds
      them: equipment, scan window, then the optional recipe filters on the
      flat side. */
  function OpticalTrendTerms(p: WaferParams, now: int): seq<Term> {
    var w := SafeDates(p.startDate, p.endDate, now);
    [ Term(true, "s.eqpid", Eq, Text(p.eqpId)),
      Term(true, "s.ts", AtLeast, Stamp(w.start)),
      Term(true, "s.ts", AtMost, Stamp(w.end)),
      Term(Given(p.cassetteRcp), "f.cassettercp", Eq, Text(p.cassetteRcp)),
      Term(Given(p.stageGroup), "f.stagegroup", Eq, Text(p.stageGroup)),
      Term(Given(p.film), "f.film", Eq, Text(p.film)) ]
  }

  /** No query without an equipment id and both dates. */
  function OpticalTrendQuery(p: WaferParams, now: int): (q: Option<Query>)
    ensures q.None? <==> !Given(p.eqpId) || !DateGiven(p.startDate) || !DateGiven(p.endDate)
  {
    if !Given(p.eqpId) || !DateGiven(p.startDate) || !DateGiven(p.endDate) then None
    else Some(Build(OpticalTrendTerms(p, now)))
  }

  /** The rows of the join the trend reads: the equipment's spectra inside
      the day window, narrowed by every given recipe filter. */
  predicate OpticalTrendSelects(p: WaferParams, now: int, row: Row) {
    var w := SafeDates(p.startDate, p.endDate, now);
    && Has(row, "s.eqpid", Text(p.eqpId))
    && Within(row, "s.ts", w.start, w.end)
    && (Given(p.cassetteRcp) ==> Has(row, "f.cassettercp", Text(p.cassetteRcp)))
    && (Given(p.stageGroup) ==> Has(row, "f.stagegroup", Text(p.stageGroup)))
    && (Given(p.film) ==> Has(row, "f.film", Text(p.film)))
  }

  lemma {:induction false} OpticalTrendTermsMeaning(p: WaferParams, now: int, row: Row)
    ensures AllHold(OpticalTrendTerms(p, now), row) <==> OpticalTrendSelects(p, now, row)
  {
    var ts := OpticalTrendTerms(p, now);
    var w := SafeDates(p.startDate, p.endDate, now);
    HasHolds(row, "s.eqpid", Text(p.eqpId));
    HasHolds(row, "f.cassettercp", Text(p.cassetteRcp));
    HasHolds(row, "f.stagegroup", Text(p.stageGroup));
    HasHolds(row, "f.film", Text(p.film));
    WithinHolds(row, "s.ts", w.start, w.end);
    if OpticalTrendSelects(p, now, row) {
      forall i | 0 <= i < |ts| ensures TermHolds(ts[i], row) {
      }
    }
    if AllHold(ts, row) {
      assert TermHolds(ts[0], row) && TermHolds(ts[1], row) && TermHolds(ts[2], row);
      assert TermHolds(ts[3], row) && TermHolds(ts[4], row) && TermHolds(ts[5], row);
    }
  }

  /** Every placeholder binds its own filter's value, and the query selects
      exactly the rows the policy describes. */
  lemma {:induction false} OpticalTrendMeaning(p: WaferParams, now: int, row: Row)
    requires OpticalTrendQuery(p, now).Some?
    ensures Aligned(OpticalTrendQuery(p, now).value)
    ensures Eval(OpticalTrendQuery(p, now).value, row) <==> OpticalTrendSelects(p, now, row)
  {
    BuildMeaning(OpticalTrendTerms(p, now), row);
    OpticalTrendTermsMeaning(p, now, row);
  }

  /** One joined row: a NULL array is `None`. */
  datatype SpectrumRow = SpectrumRow(
    ts: int,
    lotid: string,
    waferid: string,
    point: int,
    wavelengths: Option<seq<real>>,
    values: Option<seq<real>>)

  datatype OpticalPoint = OpticalPoint(
    ts: int,
    lotId: string,
    waferId: string,
    point: int,
    totalIntensity: real,
    peakIntensity: real,
    peakWavelength: real,
    darkNoise: real)

  /** `k` is the first position holding the largest value. */
  predicate FirstPeak(values: seq<real>, k: int) {
    && 0 <= k < |values|
    && (forall j :: 0 <= j < |values| ==> values[j] <= values[k])
    && (forall j :: 0 <= j < k ==> values[j] < values[k])
  }

  /** There is only one first peak. */
  lemma {:induction false} FirstPeakUnique(values: seq<real>, k: int, m: int)
    requires FirstPeak(values, k) && FirstPeak(values, m)
    ensures k == m
  {
    assert values[k] == values[m];
  }

  /** The position of the first largest value, scanning from the end. */
  function PeakIndex(values: seq<real>): (k: nat)
    requires |values| > 0
    ensures FirstPeak(values, k)
  {
    if |values| == 1 then 0 else
      var init := values[..|values| - 1];
      var k := PeakIndex(init);
      assert forall j :: 0 <= j < |init| ==> init[j] == values[j];
      if values[|values| - 1] > values[k] then |values| - 1 else k
  }

  /** `wavelengths[maxIdx] || 0`. */
  function WavelengthAt(wavelengths: seq<real>, k: nat): real {
    if k < |wavelengths| then wavelengths[k] else 0.0
  }

  /** A NULL array reads as empty (`d.values || []`). */
  function ValuesOf(d: SpectrumRow): seq<real> {
    d.values.GetOr([])
  }

  function WavelengthsOf(d: SpectrumRow): seq<real> {
    d.wavelengths.GetOr([])
  }

  /** The trend point of one row: the sum of the values, the first largest
      value and the wavelength at its position, and the smallest value. */
  function OpticalPointOf(d: SpectrumRow): (o: OpticalPoint)
    ensures o.ts == d.ts && o.lotId == d.lotid && o.waferId == d.waferid && o.point == d.point
    ensures o.totalIntensity == Sum(ValuesOf(d))
  {
    var values := ValuesOf(d);
    if |values| == 0 then
      OpticalPoint(d.ts, d.lotid, d.waferid, d.point, 0.0, 0.0, WavelengthAt(WavelengthsOf(d), 0), 0.0)
    else
      var k := PeakIndex(values);
      OpticalPoint(d.ts, d.lotid, d.waferid, d.point, Sum(values), values[k], WavelengthAt(WavelengthsOf(d), k), MinOf(values))
  }

  /** Over an empty value array the figures are 0 and the peak position is
      0, so a non-empty wavelength array still gives its first wavelength. */
  lemma {:induction false} OpticalPointEmpty(d: SpectrumRow)
    requires |ValuesOf(d)| == 0
    ensures OpticalPointOf(d).peakIntensity == 0.0 && OpticalPointOf(d).darkNoise == 0.0
    ensures OpticalPointOf(d).peakWavelength == if |WavelengthsOf(d)| > 0 then WavelengthsOf(d)[0] else 0.0
  {
  }

  /** Over a non-empty value array the peak is the first largest value, the
      peak wavelength sits at the same position (0 past the end of the
      wavelengths) and the dark noise is the smallest value. */
  lemma {:induction false} OpticalPointMeaning(d: SpectrumRow)
    requires |ValuesOf(d)| > 0
    ensures exists k :: (FirstPeak(ValuesOf(d), k) &&
                         OpticalPointOf(d).peakIntensity == ValuesOf(d)[k] &&
                         OpticalPointOf(d).peakWavelength == WavelengthAt(WavelengthsOf(d), k))
    ensures OpticalPointOf(d).darkNoise in ValuesOf(d)
    ensures forall j :: 0 <= j < |ValuesOf(d)| ==> OpticalPointOf(d).darkNoise <= ValuesOf(d)[j]
  {
    var k := PeakIndex(ValuesOf(d));
    assert FirstPeak(ValuesOf(d), k);
    var m := MinOf(ValuesOf(d));
    assert forall j :: 0 <= j < |ValuesOf(d)| ==> ValuesOf(d)[j] in ValuesOf(d);
  }

  /** The single pass over the values: running sum, running maximum (kept
      on a strict increase, so the first peak wins) and running minimum,
      all starting from the first value. */
  method Figures(values: seq<real>) returns (total: real, peak: real, peakIdx: nat, dark: real)
    ensures total == Sum(values)
    ensures |values| == 0 ==> peak == 0.0 && peakIdx == 0 && dark == 0.0
    ensures |values| > 0 ==> peakIdx == PeakIndex(values) && peak == values[peakIdx] && dark == MinOf(values)
  {
    total := 0.0;
    peak := 0.0;
    dark := 0.0;
    peakIdx := 0;
    var i := 0;
    while i < |values|
      invariant 0 <= i <= |values|
      invariant total == Sum(values[..i])
      invariant i > 0 ==> FirstPeak(values[..i], peakIdx) && peak == values[peakIdx]
      invariant i > 0 ==> dark in values[..i] && forall j :: 0 <= j < i ==> dark <= values[j]
      invariant i == 0 ==> peak == 0.0 && peakIdx == 0 && dark == 0.0
    {
      assert values[..i + 1][..i] == values[..i];
      total := total + values[i];
      if i == 0 || values[i] > peak {
        peak := values[i];
        peakIdx := i;
      }
      if i == 0 || values[i] < dark {
        dark := values[i];
      }
      i := i + 1;
    }
    assert values[..|values|] == values;
    if |values| > 0 {
      FirstPeakUnique(values, peakIdx, PeakIndex(values));
      MinUnique(values, dark);
    }
  }

  /** A lower bound that occurs in the list is its minimum. */
  lemma {:induction false} MinUnique(values: seq<real>, m: real)
    requires |values| > 0 && m in values
    requires forall j :: 0 <= j < |values| ==> m <= values[j]
    ensures m == MinOf(values)
  {
    var v := MinOf(values);
    assert v in values;
  }

  /** `getOpticalTrend` over the rows the query returned: one trend point
      per row, in order, computed by the single pass. */
  method OpticalTrend(rows: seq<SpectrumRow>) returns (r: seq<OpticalPoint>)
    ensures |r| == |rows|
    ensures forall i :: 0 <= i < |r| ==> r[i] == OpticalPointOf(rows[i])
  {
    r := [];
    var i := 0;
    while i < |rows|
      invariant 0 <= i <= |rows|
      invariant |r| == i
      invariant forall k :: 0 <= k < i ==> r[k] == OpticalPointOf(rows[k])
    {
      var d := rows[i];
      var total, peak, peakIdx, dark := Figures(ValuesOf(d));
      var o := OpticalPoint(d.ts, d.lotid, d.waferid, d.point, total, peak, WavelengthAt(WavelengthsOf(d), peakIdx), dark);
      r := r + [o];
      i := i + 1;
    }
  }

  // ---------------------------------------------------------------------
  // getResidualMap
  // ---------------------------------------------------------------------

  datatype ResidualItem = ResidualItem(point: Option<Value>, x: Option<Value>, y: Option<Value>, residual: real)

  /** The number a row holds in a column, 0 where it holds none. */
  function NumberAt(row: Row, col: string): real {
    if HasNumber(row, col) then Numeric(row[col]).value else 0.0
  }

  /** The rows whose metric holds a number, in order. */
  function Valid(rows: seq<Row>, metric: string): (r: seq<Row>)
    ensures forall row :: row in r <==> row in rows && HasNumber(row, metric)
    ensures forall i :: 0 <= i < |r| ==> HasNumber(r[i], metric)
  {
    Filter(rows, row => HasNumber(row, metric))
  }

  function MetricValues(rows: seq<Row>, metric: string): (r: seq<real>)
    ensures |r| == |rows| && forall i :: 0 <= i < |r| ==> r[i] == NumberAt(rows[i], metric)
  {
    if |rows| == 0 then [] else MetricValues(rows[..|rows| - 1], metric) + [NumberAt(rows[|rows| - 1], metric)]
  }

  /** The arithmetic mean; 0 for no values. */
  function Mean(vals: seq<real>): real {
    if |vals| == 0 then 0.0 else Sum(vals) / (|vals| as real)
  }

  function Residuals(rows: seq<Row>, metric: string, mean: real): (r: seq<ResidualItem>)
    ensures |r| == |rows|
    ensures forall i :: 0 <= i < |r| ==>
      r[i] == ResidualItem(Cell(rows[i], "point"), Cell(rows[i], "x"), Cell(rows[i], "y"), NumberAt(rows[i], metric) - mean)
  {
    if |rows| == 0 then [] else
      var last := rows[|rows| - 1];
      Residuals(rows[..|rows| - 1], metric, mean) +
      [ResidualItem(Cell(last, "point"), Cell(last, "x"), Cell(last, "y"), NumberAt(last, metric) - mean)]
  }

  function ResidualValues(items: seq<ResidualItem>): (r: seq<real>)
    ensures |r| == |items| && forall i :: 0 <= i < |r| ==> r[i] == items[i].residual
  {
    if |items| == 0 then [] else ResidualValues(items[..|items| - 1]) + [items[|items| - 1].residual]
  }

  /** Every value minus `c`. */
  function Shifted(vals: seq<real>, c: real): (r: seq<real>)
    ensures |r| == |vals| && forall i :: 0 <= i < |r| ==> r[i] == vals[i] - c
  {
    if |vals| == 0 then [] else Shifted(vals[..|vals| - 1], c) + [vals[|vals| - 1] - c]
  }

  /** `n` copies of `c` added up. */
  function Times(n: nat, c: real): real {
    if n == 0 then 0.0 else Times(n - 1, c) + c
  }

  lemma {:induction false} TimesIsProduct(n: nat, c: real)
    ensures Times(n, c) == (n as real) * c
  {
    if n > 0 {
      TimesIsProduct(n - 1, c);
      assert (n as real) * c == ((n - 1) as real) * c + c;
    }
  }

  /** The mean taken `n` times gives back the sum. */
  lemma {:induction false} MeanTimes(vals: seq<real>)
    requires |vals| > 0
    ensures Times(|vals|, Mean(vals)) == Sum(vals)
  {
    var n := |vals| as real;
    TimesIsProduct(|vals|, Mean(vals));
    assert n * (Sum(vals) / n) == Sum(vals);
  }

  /** Shifting every value by `c` shifts the sum by `n` times `c`. */
  lemma {:induction false} SumShifted(vals: seq<real>, c: real)
    ensures Sum(Shifted(vals, c)) == Sum(vals) - Times(|vals|, c)
  {
    if |vals| > 0 {
      var init := vals[..|vals| - 1];
      SumShifted(init, c);
      var s := Shifted(vals, c);
      assert s[..|s| - 1] == Shifted(init, c);
    }
  }

  /** `params.metric || 't1'`. */
  function MetricOrDefault(metric: string): string {
    if Given(metric) then metric else "t1"
  }

  /** The residual map over an already resolved filter. */
  function ResidualsFrom(where: Option<seq<Clause>>, metric: string, schema: seq<string>, table: seq<Row>): (r: seq<ResidualItem>)
    ensures where.None? || metric !in schema ==> r == []
    ensures where.Some? && metric in schema ==>
      |r| == |Valid(Selected(where.value, table), metric)| &&
      forall i :: 0 <= i < |r| ==>
        r[i].point == Cell(Valid(Selected(where.value, table), metric)[i], "point") &&
        r[i].x == Cell(Valid(Selected(where.value, table), metric)[i], "x") &&
        r[i].y == Cell(Valid(Selected(where.value, table), metric)[i], "y") &&
        r[i].residual == NumberAt(Valid(Selected(where.value, table), metric)[i], metric) -
                         Mean(MetricValues(Valid(Selected(where.value, table), metric), metric))
  {
    match where
    case None => []
    case Some(w) =>
      if metric !in schema then []
      else
        var rows := Valid(Selected(w, table), metric);
        if |rows| == 0 then [] else Residuals(rows, metric, Mean(MetricValues(rows, metric)))
  }

  lemma {:induction false} ResidualsFromSumToZero(where: Option<seq<Clause>>, metric: string, schema: seq<string>, table: seq<Row>)
    ensures Sum(ResidualValues(ResidualsFrom(where, metric, schema, table))) == 0.0
  {
    if where.Some? && metric in schema {
      var rows := Valid(Selected(where.value, table), metric);
      if |rows| > 0 {
        assert ResidualsFrom(where, metric, schema, table) == Residuals(rows, metric, Mean(MetricValues(rows, metric)));
        ResidualsOfMean(rows, metric);
      }
    }
  }

  /** Residuals taken from the mean of their own values add up to zero. */
  lemma ResidualsOfMean(rows: seq<Row>, metric: string)
    requires |rows| > 0
    ensures Sum(ResidualValues(Residuals(rows, metric, Mean(MetricValues(rows, metric))))) == 0.0
  {
    var vals := MetricValues(rows, metric);
    ResidualsShifted(rows, metric, Mean(vals));
    ShiftedByMean(vals);
  }

  lemma ResidualsShifted(rows: seq<Row>, metric: string, mean: real)
    ensures ResidualValues(Residuals(rows, metric, mean)) == Shifted(MetricValues(rows, metric), mean)
  {
    var a, b := ResidualValues(Residuals(rows, metric, mean)), Shifted(MetricValues(rows, metric), mean);
    assert forall i :: 0 <= i < |a| ==> a[i] == b[i];
  }

  /** Values shifted by their own mean add up to zero. */
  lemma ShiftedByMean(vals: seq<real>)
    requires |vals| > 0
    ensures Sum(Shifted(vals, Mean(vals))) == 0.0
  {
    SumShifted(vals, Mean(vals));
    MeanTimes(vals);
  }

  /** `getResidualMap`: nothing without an equipment id, when the metric
      names no column (the query fails) or when no selected row has a value;
      otherwise one item per selected row with a value, in table order,
      holding its point, its coordinates and its value minus the mean of
      those values. */
  function ResidualMap(p: WaferParams, now: int, metric: string, schema: seq<string>, table: seq<Row>): (r: seq<ResidualItem>)
    ensures !Given(p.eqpId) || MetricOrDefault(metric) !in schema ==> r == []
  {
    ResidualsFrom(UniqueWhere(p, now), MetricOrDefault(metric), schema, table)
  }

  /** The residuals of a residual map sum to zero: they are measured from
      the mean of the very values they are taken from. */
  lemma {:induction false} ResidualsSumToZero(p: WaferParams, now: int, metric: string, schema: seq<string>, table: seq<Row>)
    ensures Sum(ResidualValues(ResidualMap(p, now, metric, schema, table))) == 0.0
  {
    ResidualsFromSumToZero(UniqueWhere(p, now), MetricOrDefault(metric), schema, table);
  }

  // ---------------------------------------------------------------------
  // getLotUniformityTrend
  // ---------------------------------------------------------------------

  /** `Number(String(row.waferid))`: `None` (NaN) for a NULL wafer id. */
  function WaferOf(row: Row): Option<int> {
    if "waferid" in row && row["waferid"].Num? then Some(row["waferid"].n) else None
  }

  datatype DataPoint = DataPoint(
    point: Option<Value>,
    value: Option<Value>,
    x: Option<Value>,
    y: Option<Value>,
    dieRow: Option<Value>,
    dieCol: Option<Value>)

  datatype WaferSeriesItem = WaferSeriesItem(waferId: Option<int>, dataPoints: seq<DataPoint>)

  function DataPointOf(row: Row, metric: string): DataPoint {
    DataPoint(Cell(row, "point"), Cell(row, metric), Cell(row, "x"), Cell(row, "y"), Cell(row, "dierow"), Cell(row, "diecol"))
  }

  function DataPoints(rows: seq<Row>, metric: string): (r: seq<DataPoint>)
    ensures |r| == |rows| && forall i :: 0 <= i < |r| ==> r[i] == DataPointOf(rows[i], metric)
  {
    if |rows| == 0 then [] else [DataPointOf(rows[0], metric)] + DataPoints(rows[1..], metric)
  }

  /** The rows of one wafer in `ORDER BY waferid, point` order: by point,
      ties in table order, the rows without a point last. */
  function RowsOf(rows: seq<Row>, w: Option<int>): (r: seq<Row>)
    ensures forall row :: row in r <==> row in rows && WaferOf(row) == w
    ensures multiset(r) == multiset(Filter(rows, row => WaferOf(row) == w))
    ensures NullsLast(r, PointKey)
  {
    var mine := Filter(rows, row => WaferOf(row) == w);
    var r := SortNullsLast(mine, PointKey);
    assert forall row :: row in r <==> row in multiset(mine);
    r
  }

  /** The wafer ids of the rows, NULL ids skipped. */
  function WaferIds(rows: seq<Row>): (r: seq<int>)
    ensures forall k :: k in r <==> exists i :: 0 <= i < |rows| && WaferOf(rows[i]) == Some(k)
  {
    if |rows| == 0 then [] else
      var rest := WaferIds(rows[1..]);
      assert forall i :: 1 <= i < |rows| ==> rows[i] == rows[1..][i - 1];
      if WaferOf(rows[0]).Some? then [WaferOf(rows[0]).value] + rest else rest
  }

  predicate NullWafer(rows: seq<Row>) {
    exists i :: 0 <= i < |rows| && WaferOf(rows[i]).None?
  }

  function Identity(k: int): int {
    k
  }

  /** Distinct ids in ascending order. */
  function Ascending(ids: seq<int>): (r: seq<int>)
    ensures forall k :: k in r <==> k in ids
    ensures Increasing(r)
  {
    var d := Dedupe(ids);
    var r := SortBy(d, Identity);
    NoDupPermutation(d, r);
    assert forall k :: k in r <==> k in multiset(r);
    assert forall i, j :: 0 <= i < j < |r| ==> r[i] != r[j] && Identity(r[i]) <= Identity(r[j]);
    r
  }

  /** The non-negative ids, distinct and ascending. */
  function NonNegative(ids: seq<int>): (r: seq<int>)
    ensures forall k :: k in r <==> k in ids && k >= 0
    ensures Increasing(r) && forall i :: 0 <= i < |r| ==> r[i] >= 0
  {
    var r := Ascending(Filter(ids, k => k >= 0));
    assert forall i :: 0 <= i < |r| ==> r[i] in r;
    r
  }

  /** The negative ids, distinct and ascending. */
  function Negative(ids: seq<int>): (r: seq<int>)
    ensures forall k :: k in r <==> k in ids && k < 0
    ensures Increasing(r) && forall i :: 0 <= i < |r| ==> r[i] < 0
  {
    var r := Ascending(Filter(ids, k => k < 0));
    assert forall i :: 0 <= i < |r| ==> r[i] in r;
    r
  }

  /** A group holds exactly its wafer's rows, by point. */
  predicate Grouped(item: WaferSeriesItem, rows: seq<Row>, metric: string) {
    item.dataPoints == DataPoints(RowsOf(rows, item.waferId), metric)
  }

  function SeriesFor(ids: seq<int>, rows: seq<Row>, metric: string): (r: seq<WaferSeriesItem>)
    ensures |r| == |ids|
    ensures forall i :: 0 <= i < |r| ==> r[i].waferId == Some(ids[i]) && Grouped(r[i], rows, metric)
  {
    if |ids| == 0 then [] else
      [WaferSeriesItem(Some(ids[0]), DataPoints(RowsOf(rows, Some(ids[0])), metric))] + SeriesFor(ids[1..], rows, metric)
  }

  function NullSeries(rows: seq<Row>, metric: string): (r: seq<WaferSeriesItem>)
    ensures |r| <= 1 && (|r| == 1 <==> NullWafer(rows))
    ensures forall i :: 0 <= i < |r| ==> r[i].waferId == None && Grouped(r[i], rows, metric)
  {
    if NullWafer(rows) then [WaferSeriesItem(None, DataPoints(RowsOf(rows, None), metric))] else []
  }

  /** The order `Object.keys` lists the groups in: keys that are array
      indices (non-negative ids) first and ascending, then the other keys in
      insertion order, which the query's `ORDER BY waferid` makes the
      negative ids ascending followed by the NULL id. */
  predicate KeyBefore(a: Option<int>, b: Option<int>) {
    match a
    case None => false
    case Some(x) =>
      match b
      case None => true
      case Some(y) => if x >= 0 then y < 0 || x < y else y < 0 && x < y
  }

  predicate Ordered(items: seq<WaferSeriesItem>) {
    forall i, j :: 0 <= i < j < |items| ==> KeyBefore(items[i].waferId, items[j].waferId)
  }

  predicate Increasing(ids: seq<int>) {
    forall i, j :: 0 <= i < j < |ids| ==> ids[i] < ids[j]
  }

  /** The non-negative groups, then the negative ones, then the NULL group
      come out in `KeyBefore` order. */
  lemma {:induction false} OrderedParts(pos: seq<int>, neg: seq<int>, a: seq<WaferSeriesItem>, b: seq<WaferSeriesItem>, c: seq<WaferSeriesItem>)
    requires Increasing(pos) && (forall i :: 0 <= i < |pos| ==> pos[i] >= 0)
    requires Increasing(neg) && (forall i :: 0 <= i < |neg| ==> neg[i] < 0)
    requires |a| == |pos| && forall i :: 0 <= i < |a| ==> a[i].waferId == Some(pos[i])
    requires |b| == |neg| && forall i :: 0 <= i < |b| ==> b[i].waferId == Some(neg[i])
    requires |c| <= 1 && forall i :: 0 <= i < |c| ==> c[i].waferId == None
    ensures Ordered(a + b + c)
  {
    var r := a + b + c;
    forall i, j | 0 <= i < j < |r|
      ensures KeyBefore(r[i].waferId, r[j].waferId)
    {
      if j < |a| {
        assert r[i] == a[i] && r[j] == a[j];
      } else if j < |a| + |b| {
        assert r[j] == b[j - |a|];
        if i < |a| {
          assert r[i] == a[i];
        } else {
          assert r[i] == b[i - |a|];
        }
      } else {
        assert r[j] == c[j - |a| - |b|];
        if i < |a| {
          assert r[i] == a[i];
        } else {
          assert r[i] == b[i - |a|];
        }
      }
    }
  }

  /** A property of every element of three lists holds of every element
      of their concatenation. */
  lemma {:induction false} AllParts<T>(a: seq<T>, b: seq<T>, c: seq<T>, P: T -> bool)
    requires forall i :: 0 <= i < |a| ==> P(a[i])
    requires forall i :: 0 <= i < |b| ==> P(b[i])
    requires forall i :: 0 <= i < |c| ==> P(c[i])
    ensures forall i :: 0 <= i < |a + b + c| ==> P((a + b + c)[i])
  {
    var r := a + b + c;
    forall i | 0 <= i < |r|
      ensures P(r[i])
    {
      if i < |a| {
        assert r[i] == a[i];
      } else if i < |a| + |b| {
        assert r[i] == b[i - |a|];
      } else {
        assert r[i] == c[i - |a| - |b|];
      }
    }
  }

  /** Groups the rows by wafer id, in `Object.keys` order; each group holds
      its rows by point. */
  function GroupByWafer(rows: seq<Row>, metric: string): (r: seq<WaferSeriesItem>)
    ensures forall i :: 0 <= i < |r| ==> Grouped(r[i], rows, metric)
    ensures Ordered(r)
  {
    var ids := WaferIds(rows);
    var pos := NonNegative(ids);
    var neg := Negative(ids);
    var a := SeriesFor(pos, rows, metric);
    var b := SeriesFor(neg, rows, metric);
    var c := NullSeries(rows, metric);
    OrderedParts(pos, neg, a, b, c);
    AllParts(a, b, c, item => Grouped(item, rows, metric));
    a + b + c
  }

  /** Some group carries wafer id `w`. */
  predicate Listed(items: seq<WaferSeriesItem>, w: Option<int>) {
    exists i :: 0 <= i < |items| && items[i].waferId == w
  }

  lemma {:induction false} ListedParts(a: seq<WaferSeriesItem>, b: seq<WaferSeriesItem>, c: seq<WaferSeriesItem>, w: Option<int>)
    ensures Listed(a + b + c, w) <==> Listed(a, w) || Listed(b, w) || Listed(c, w)
  {
    var r := a + b + c;
    if Listed(r, w) {
      var i :| 0 <= i < |r| && r[i].waferId == w;
      if i < |a| {
        assert r[i] == a[i];
      } else if i < |a| + |b| {
        assert r[i] == b[i - |a|];
      } else {
        assert r[i] == c[i - |a| - |b|];
      }
    }
    if Listed(a, w) {
      var i :| 0 <= i < |a| && a[i].waferId == w;
      assert r[i] == a[i];
    }
    if Listed(b, w) {
      var i :| 0 <= i < |b| && b[i].waferId == w;
      assert r[|a| + i] == b[i];
    }
    if Listed(c, w) {
      var i :| 0 <= i < |c| && c[i].waferId == w;
      assert r[|a| + |b| + i] == c[i];
    }
  }

  lemma {:induction false} ListedSeries(ids: seq<int>, rows: seq<Row>, metric: string, w: Option<int>)
    ensures Listed(SeriesFor(ids, rows, metric), w) <==> w.Some? && w.value in ids
  {
    var r := SeriesFor(ids, rows, metric);
    if w.Some? && w.value in ids {
      var i :| 0 <= i < |ids| && ids[i] == w.value;
      assert r[i].waferId == w;
    }
  }

  /** Every wafer id of the rows, the NULL id included, has a group, and
      every group belongs to a wafer id of the rows. */
  lemma {:induction false} GroupsCover(rows: seq<Row>, metric: string, w: Option<int>)
    ensures Listed(GroupByWafer(rows, metric), w) <==> exists j :: 0 <= j < |rows| && WaferOf(rows[j]) == w
  {
    var ids := WaferIds(rows);
    var pos := NonNegative(ids);
    var neg := Negative(ids);
    var a := SeriesFor(pos, rows, metric);
    var b := SeriesFor(neg, rows, metric);
    var c := NullSeries(rows, metric);
    assert GroupByWafer(rows, metric) == a + b + c;
    ListedParts(a, b, c, w);
    ListedSeries(pos, rows, metric, w);
    ListedSeries(neg, rows, metric, w);
    if Listed(c, w) {
      var i :| 0 <= i < |c| && c[i].waferId == w;
    }
    if w.None? && NullWafer(rows) {
      assert c[0].waferId == w;
    }
  }

  /** The lot trend over an already resolved filter. */
  function TrendFrom(where: Option<seq<Clause>>, metric: string, schema: seq<string>, table: seq<Row>): (r: seq<WaferSeriesItem>)
    ensures where.None? || metric !in schema ==> r == []
    ensures where.Some? && metric in schema ==>
      forall i :: 0 <= i < |r| ==> Grouped(r[i], Selected(where.value, table), metric)
    ensures Ordered(r)
  {
    match where
    case None => []
    case Some(w) => if metric !in schema then [] else GroupByWafer(Selected(w, table), metric)
  }

  lemma {:induction false} TrendFromCover(where: Option<seq<Clause>>, metric: string, schema: seq<string>, table: seq<Row>, w: Option<int>)
    requires where.Some? && metric in schema
    ensures Listed(TrendFrom(where, metric, schema, table), w) <==>
            exists row :: row in Selected(where.value, table) && WaferOf(row) == w
  {
    var rows := Selected(where.value, table);
    assert TrendFrom(where, metric, schema, table) == GroupByWafer(rows, metric);
    GroupsCover(rows, metric, w);
    InRows(rows, w);
  }

  lemma {:induction false} InRows(rows: seq<Row>, w: Option<int>)
    ensures (exists j :: 0 <= j < |rows| && WaferOf(rows[j]) == w) <==> (exists row :: row in rows && WaferOf(row) == w)
  {
    if exists row :: row in rows && WaferOf(row) == w {
      var row :| row in rows && WaferOf(row) == w;
      var j :| 0 <= j < |rows| && rows[j] == row;
    }
  }

  /** `getLotUniformityTrend`: nothing without an equipment id or when the
      metric names no column; otherwise the rows the lot context selects
      (the wafer id is ignored) grouped by wafer: no wafer twice, groups in
      `Object.keys` order, each holding exactly its wafer's rows by point. */
  function LotUniformityTrend(p: WaferParams, now: int, metric: string, schema: seq<string>, table: seq<Row>): (r: seq<WaferSeriesItem>)
    ensures !Given(p.eqpId) || MetricOrDefault(metric) !in schema ==> r == []
    ensures Given(p.eqpId) && MetricOrDefault(metric) in schema ==>
      forall i :: 0 <= i < |r| ==>
        Grouped(r[i], Selected(UniqueWhere(p.(waferId := ""), now).value, table), MetricOrDefault(metric))
    ensures Ordered(r)
  {
    TrendFrom(UniqueWhere(p.(waferId := ""), now), MetricOrDefault(metric), schema, table)
  }

  /** Every wafer of the lot context has its group and no other group is
      listed. */
  lemma LotUniformityCover(p: WaferParams, now: int, metric: string, schema: seq<string>, table: seq<Row>, w: Option<int>)
    requires Given(p.eqpId) && MetricOrDefault(metric) in schema
    ensures Listed(LotUniformityTrend(p, now, metric, schema, table), w) <==>
            exists row :: row in Selected(UniqueWhere(p.(waferId := ""), now).value, table) && WaferOf(row) == w
  {
    TrendFromCover(UniqueWhere(p.(waferId := ""), now), MetricOrDefault(metric), schema, table, w);
  }

  /** `KeyBefore` is a strict order, so no wafer id is listed twice. */
  lemma KeyBeforeStrict(a: Option<int>, b: Option<int>, c: Option<int>)
    ensures !KeyBefore(a, a)
    ensures KeyBefore(a, b) && KeyBefore(b, c) ==> KeyBefore(a, c)
  {
  }

  /** No wafer id is listed twice. */
  lemma {:induction false} OrderedDistinct(items: seq<WaferSeriesItem>)
    requires Ordered(items)
    ensures forall i, j :: 0 <= i < j < |items| ==> items[i].waferId != items[j].waferId
  {
    forall i, j | 0 <= i < j < |items|
      ensures items[i].waferId != items[j].waferId
    {
      KeyBeforeStrict(items[i].waferId, items[j].waferId, items[j].waferId);
    }
  }
}

=== FILE: wafer_spectra.dfy ===
/** Spectrum post-processing of the wafer service: the chart points built from
    a spectrum's wavelength and value arrays (`getSpectrumTrend`,
    `getSpectrumGen`), the one-spectrum-per-class selection of
    `getSpectrum`, and the column list and wafer-id list of
    `getSpectrumTrend`. */
module WaferSpectra {
  import opened Common
  import opened Sorting
  import opened WaferQuery

  // ---------------------------------------------------------------------
  // Chart points
  // ---------------------------------------------------------------------

  /** `[wavelength, value * 100]`. */
  datatype Point = Point(x: real, y: real)

  function Scale(w: seq<real>, v: seq<real>): (r: seq<Point>)
    requires |w| == |v|
    ensures |r| == |w|
    ensures forall i :: 0 <= i < |r| ==> r[i] == Point(w[i], v[i] * 100.0)
  {
    if |w| == 0 then [] else [Point(w[0], v[0] * 100.0)] + Scale(w[1..], v[1..])
  }

  function Wavelengths(ps: seq<Point>): (r: seq<real>)
    ensures |r| == |ps|
    ensures forall i :: 0 <= i < |r| ==> r[i] == ps[i].x
  {
    if |ps| == 0 then [] else [ps[0].x] + Wavelengths(ps[1..])
  }

  /** The chart values read back as stored values. */
  function Unscaled(ps: seq<Point>): (r: seq<real>)
    ensures |r| == |ps|
    ensures forall i :: 0 <= i < |r| ==> r[i] == ps[i].y / 100.0
  {
    if |ps| == 0 then [] else [ps[0].y / 100.0] + Unscaled(ps[1..])
  }

  /** The chart points of a trend row: all pairs when both arrays are
      present and of equal length, none otherwise. */
  function TrendData(w: Option<seq<real>>, v: Option<seq<real>>): (r: seq<Point>)
    ensures r != [] ==> w.Some? && v.Some? && |w.value| == |v.value|
  {
    if w.Some? && v.Some? && |w.value| == |v.value| then Scale(w.value, v.value) else []
  }

  /** Scaling loses nothing: the chart gives back both stored arrays. */
  lemma TrendDataRoundTrip(w: seq<real>, v: seq<real>)
    requires |w| == |v|
    ensures Wavelengths(TrendData(Some(w), Some(v))) == w
    ensures Unscaled(TrendData(Some(w), Some(v))) == v
  {
    var r := TrendData(Some(w), Some(v));
    assert forall i :: 0 <= i < |v| ==> Unscaled(r)[i] == v[i] * 100.0 / 100.0 == v[i];
  }

  /** A GEN chart point; a missing value (`undefined * 100`) is NaN, here
      `None`. */
  datatype GenPoint = GenPoint(x: real, y: Option<real>)

  /** `getSpectrumGen`'s points: one per wavelength, with no length check
      against the value array. */
  function GenData(w: Option<seq<real>>, v: Option<seq<real>>): (r: seq<GenPoint>)
    ensures w.Some? && v.Some? ==> |r| == |w.value|
    ensures !(w.Some? && v.Some?) ==> r == []
    ensures w.Some? && v.Some? ==> forall i :: 0 <= i < |r| ==>
      r[i].x == w.value[i] && (r[i].y.Some? <==> i < |v.value|) &&
      (i < |v.value| ==> r[i].y.value == v.value[i] * 100.0)
  {
    if w.Some? && v.Some? then GenPoints(w.value, v.value) else []
  }

  function GenPoints(w: seq<real>, v: seq<real>): (r: seq<GenPoint>)
    ensures |r| == |w|
    ensures forall i :: 0 <= i < |r| ==>
      r[i].x == w[i] && (r[i].y.Some? <==> i < |v|) && (i < |v| ==> r[i].y.value == v[i] * 100.0)
  {
    if |w| == 0 then []
    else [GenPoint(w[0], if |v| > 0 then Some(v[0] * 100.0) else None)] +
         GenPoints(w[1..], if |v| > 0 then v[1..] else [])
  }

  /** On arrays of equal length the GEN chart and the trend chart show the
      same points; only the GEN chart draws the wavelengths a short value
      array leaves without a value. */
  lemma GenAgreesWithTrend(w: seq<real>, v: seq<real>)
    ensures |w| == |v| ==>
      |GenData(Some(w), Some(v))| == |TrendData(Some(w), Some(v))| &&
      forall i :: 0 <= i < |w| ==>
        GenData(Some(w), Some(v))[i] == GenPoint(TrendData(Some(w), Some(v))[i].x, Some(TrendData(Some(w), Some(v))[i].y))
    ensures |w| > |v| ==> TrendData(Some(w), Some(v)) == [] && GenData(Some(w), Some(v))[|v|].y.None?
  {
  }

  // ---------------------------------------------------------------------
  // getSpectrum
  // ---------------------------------------------------------------------

  /** A row of `plg_onto_spectrum`. */
  datatype SpectrumRecord = SpectrumRecord(
    eqpid: string,
    ts: int,
    lotid: string,
    waferid: string,
    point: int,
    cls: string,
    wavelengths: Option<seq<real>>,
    values: Option<seq<real>>)

  datatype SpectrumRequest = SpectrumRequest(
    eqpId: string,
    lotId: string,
    waferId: string,
    pointNumber: Option<string>,    // None: the parameter is absent
    ts: DateArg)

  datatype ClassSpectrum = ClassSpectrum(cls: string, wavelengths: Option<seq<real>>, values: Option<seq<real>>)

  function Classes(rs: seq<SpectrumRecord>): (r: seq<string>)
    ensures |r| == |rs|
    ensures forall i :: 0 <= i < |r| ==> r[i] == rs[i].cls
  {
    if |rs| == 0 then [] else [rs[0].cls] + Classes(rs[1..])
  }

  /** No earlier record has the class of record `i`. */
  predicate FirstOfClass(rs: seq<SpectrumRecord>, i: nat)
    requires i < |rs|
  {
    forall k :: 0 <= k < i ==> rs[k].cls != rs[i].cls
  }

  /** The `Map` keyed by class that keeps the first record of each class. */
  function FirstPerClass(rs: seq<SpectrumRecord>): (r: seq<SpectrumRecord>)
    ensures |r| <= |rs|
  {
    if |rs| == 0 then [] else
      var r := FirstPerClass(rs[..|rs| - 1]);
      if rs[|rs| - 1].cls in Classes(r) then r else r + [rs[|rs| - 1]]
  }

  lemma ClassesSnoc(s: seq<SpectrumRecord>, x: SpectrumRecord)
    ensures Classes(s + [x]) == Classes(s) + [x.cls]
  {
  }

  /** Each class of the input is kept once. */
  lemma {:induction false} FirstPerClassClasses(rs: seq<SpectrumRecord>)
    ensures NoDup(Classes(FirstPerClass(rs)))
    ensures forall c :: c in Classes(FirstPerClass(rs)) <==> c in Classes(rs)
  {
    if |rs| > 0 {
      var init := rs[..|rs| - 1];
      var last := rs[|rs| - 1];
      FirstPerClassClasses(init);
      assert rs == init + [last];
      ClassesSnoc(init, last);
      var r := FirstPerClass(init);
      if last.cls !in Classes(r) {
        ClassesSnoc(r, last);
      }
    }
  }

  /** Every record of `r` is a record of `rs` that no earlier record of
      `rs` shares its class with. */
  predicate AllFirsts(rs: seq<SpectrumRecord>, r: seq<SpectrumRecord>) {
    forall j :: 0 <= j < |r| ==> FirstIn(rs, r[j])
  }

  /** `x` is a record of `rs` whose class no earlier record has. */
  predicate FirstIn(rs: seq<SpectrumRecord>, x: SpectrumRecord) {
    exists i :: 0 <= i < |rs| && rs[i] == x && FirstOfClass(rs, i)
  }

  /** Each kept record is the first record of its class. */
  lemma {:induction false} FirstPerClassFirst(rs: seq<SpectrumRecord>)
    ensures AllFirsts(rs, FirstPerClass(rs))
  {
    if |rs| > 0 {
      var init := rs[..|rs| - 1];
      var last := rs[|rs| - 1];
      FirstPerClassFirst(init);
      var r := FirstPerClass(init);
      assert FirstPerClass(rs) == if last.cls in Classes(r) then r else r + [last];
      FirstsExtend(rs, r);
      if last.cls !in Classes(r) {
        NewClassFirst(rs);
        FirstsAppendLast(rs, r);
      }
    }
  }

  /** A record whose class the records kept before it lack is the first of
      its class. */
  lemma NewClassFirst(rs: seq<SpectrumRecord>)
    requires |rs| > 0 && rs[|rs| - 1].cls !in Classes(FirstPerClass(rs[..|rs| - 1]))
    ensures FirstOfClass(rs, |rs| - 1)
  {
    forall k | 0 <= k < |rs| - 1 ensures rs[k].cls != rs[|rs| - 1].cls {
      ClassKept(rs[..|rs| - 1], k);
    }
  }

  lemma ClassKept(rs: seq<SpectrumRecord>, k: nat)
    requires k < |rs|
    ensures rs[k].cls in Classes(FirstPerClass(rs))
  {
    FirstPerClassClasses(rs);
    assert Classes(rs)[k] == rs[k].cls;
  }

  /** Appending a record keeps earlier firsts first. */
  lemma FirstsExtend(rs: seq<SpectrumRecord>, r: seq<SpectrumRecord>)
    requires |rs| > 0 && AllFirsts(rs[..|rs| - 1], r)
    ensures AllFirsts(rs, r)
  {
    var init := rs[..|rs| - 1];
    forall j | 0 <= j < |r| ensures FirstIn(rs, r[j]) {
      var i :| 0 <= i < |init| && init[i] == r[j] && FirstOfClass(init, i);
      assert rs[i] == init[i];
      forall k | 0 <= k < i ensures rs[k].cls != rs[i].cls {
        assert rs[k] == init[k];
      }
      assert FirstOfClass(rs, i);
    }
  }

  lemma FirstsAppendLast(rs: seq<SpectrumRecord>, r: seq<SpectrumRecord>)
    requires |rs| > 0 && AllFirsts(rs, r) && FirstOfClass(rs, |rs| - 1)
    ensures AllFirsts(rs, r + [rs[|rs| - 1]])
  {
    var r' := r + [rs[|rs| - 1]];
    forall j | 0 <= j < |r'| ensures FirstIn(rs, r'[j]) {
      if j < |r| {
        assert r'[j] == r[j];
      } else {
        assert r'[j] == rs[|rs| - 1];
      }
    }
  }

  /** The rows the `getSpectrum` query selects. */
  predicate SpectrumMatches(q: SpectrumRequest, t: int, point: int, rec: SpectrumRecord) {
    rec.eqpid == q.eqpId && rec.ts == t && rec.lotid == q.lotId && rec.waferid == q.waferId && rec.point == point
  }

  /** The result is empty when a key is missing, when the time cannot be
      read or the point is not a number (the query fails and the error is
      swallowed). Otherwise it holds, for each class present among the
      matching spectra, exactly one spectrum of that class. */
  function GetSpectrum(q: SpectrumRequest, table: seq<SpectrumRecord>): (r: seq<ClassSpectrum>)
    ensures !Given(q.eqpId) || !Given(q.lotId) || !Given(q.waferId) || q.pointNumber.None? || !DateGiven(q.ts) ==> r == []
    ensures !q.ts.At? || (q.pointNumber.Some? && NumberOf(q.pointNumber.value).None?) ==> r == []
    ensures forall i, j :: 0 <= i < j < |r| ==> r[i].cls != r[j].cls
    ensures forall x :: x in r ==> exists rec :: (rec in table &&
      SpectrumMatches(q, q.ts.ms, NumberOf(q.pointNumber.value).value, rec) &&
      x == ClassSpectrum(rec.cls, rec.wavelengths, rec.values))
    ensures Given(q.eqpId) && Given(q.lotId) && Given(q.waferId) && q.ts.At? && q.pointNumber.Some? &&
            NumberOf(q.pointNumber.value).Some? ==>
      forall rec :: rec in table && SpectrumMatches(q, q.ts.ms, NumberOf(q.pointNumber.value).value, rec) ==>
        exists x :: x in r && x.cls == rec.cls
  {
    if !Given(q.eqpId) || !Given(q.lotId) || !Given(q.waferId) || q.pointNumber.None? || !q.ts.At? then []
    else match NumberOf(q.pointNumber.value)
      case None => []
      case Some(point) =>
        PickSpectra(Filter(table, rec => SpectrumMatches(q, q.ts.ms, point, rec)))
  }

  /** Keeping the first record of each class keeps one spectrum per class,
      taken from the selected records, for every class among them. */
  lemma OnePerClassDistinct(ordered: seq<SpectrumRecord>)
    ensures forall i, j :: 0 <= i < j < |ToClassSpectra(FirstPerClass(ordered))| ==>
      ToClassSpectra(FirstPerClass(ordered))[i].cls != ToClassSpectra(FirstPerClass(ordered))[j].cls
  {
    var firsts := FirstPerClass(ordered);
    FirstPerClassClasses(ordered);
    assert forall i :: 0 <= i < |firsts| ==> ToClassSpectra(firsts)[i].cls == Classes(firsts)[i];
  }

  lemma OnePerClassSound(selected: seq<SpectrumRecord>, ordered: seq<SpectrumRecord>)
    requires multiset(ordered) == multiset(selected)
    ensures forall x :: x in ToClassSpectra(FirstPerClass(ordered)) ==>
      exists rec :: rec in selected && x == ClassSpectrum(rec.cls, rec.wavelengths, rec.values)
  {
    var firsts := FirstPerClass(ordered);
    var r := ToClassSpectra(firsts);
    FirstPerClassFirst(ordered);
    forall x | x in r ensures exists rec :: rec in selected && x == ClassSpectrum(rec.cls, rec.wavelengths, rec.values) {
      var j :| 0 <= j < |r| && r[j] == x;
      var i :| 0 <= i < |ordered| && ordered[i] == firsts[j] && FirstOfClass(ordered, i);
      assert ordered[i] in multiset(selected);
    }
  }

  lemma OnePerClassComplete(selected: seq<SpectrumRecord>, ordered: seq<SpectrumRecord>)
    requires multiset(ordered) == multiset(selected)
    ensures forall rec :: rec in selected ==> exists x :: x in ToClassSpectra(FirstPerClass(ordered)) && x.cls == rec.cls
  {
    var firsts := FirstPerClass(ordered);
    var r := ToClassSpectra(firsts);
    FirstPerClassClasses(ordered);
    forall rec | rec in selected ensures exists x :: x in r && x.cls == rec.cls {
      assert rec in multiset(ordered);
      var i :| 0 <= i < |ordered| && ordered[i] == rec;
      assert Classes(ordered)[i] == rec.cls;
      assert rec.cls in Classes(ordered);
      var j :| 0 <= j < |firsts| && Classes(firsts)[j] == rec.cls;
      assert r[j].cls == rec.cls;
    }
  }

  /** `ORDER BY class`, then the first record of each class. */
  function PickSpectra(selected: seq<SpectrumRecord>): (r: seq<ClassSpectrum>)
    ensures forall i, j :: 0 <= i < j < |r| ==> r[i].cls != r[j].cls
    ensures forall x :: x in r ==> exists rec :: rec in selected && x == ClassSpectrum(rec.cls, rec.wavelengths, rec.values)
    ensures forall rec :: rec in selected ==> exists x :: x in r && x.cls == rec.cls
  {
    var ordered := SortWith(selected, (a: SpectrumRecord, b: SpectrumRecord) => LexLe(a.cls, b.cls));
    OnePerClassDistinct(ordered);
    OnePerClassSound(selected, ordered);
    OnePerClassComplete(selected, ordered);
    ToClassSpectra(FirstPerClass(ordered))
  }

  function ToClassSpectra(rs: seq<SpectrumRecord>): (r: seq<ClassSpectrum>)
    ensures |r| == |rs|
    ensures forall i :: 0 <= i < |r| ==> r[i] == ClassSpectrum(rs[i].cls, rs[i].wavelengths, rs[i].values)
  {
    if |rs| == 0 then [] else [ClassSpectrum(rs[0].cls, rs[0].wavelengths, rs[0].values)] + ToClassSpectra(rs[1..])
  }

  // ---------------------------------------------------------------------
  // getSpectrumTrend: columns and wafer ids
  // ---------------------------------------------------------------------

  const DefaultTrendColumns: seq<string> := ["t1", "gof", "mse"]

  /** The metric columns attached to each trend series: the configured
      metrics (the defaults when none are configured), always with `gof`,
      each once. */
  function TrendColumns(config: seq<string>): (r: seq<string>)
    ensures NoDup(r) && "gof" in r
    ensures forall c :: c in r <==> c == "gof" || c in (if |config| == 0 then DefaultTrendColumns else config)
  {
    var base := if |config| == 0 then DefaultTrendColumns else config;
    Dedupe(if "gof" in base then base else base + ["gof"])
  }

  /** `s.split(sep)`. */
  function Split(s: string, sep: char): (r: seq<string>)
    ensures |r| >= 1
    ensures forall i :: 0 <= i < |r| ==> sep !in r[i]
  {
    if |s| == 0 then [""] else
      var rest := Split(s[1..], sep);
      if s[0] == sep then [""] + rest
      else
        var r := [[s[0]] + rest[0]] + rest[1..];
        assert forall i :: 1 <= i < |r| ==> r[i] == rest[i];
        r
  }

  /** `parts.join(sep)`. */
  function Join(parts: seq<string>, sep: char): string
    requires |parts| >= 1
  {
    if |parts| == 1 then parts[0] else parts[0] + [sep] + Join(parts[1..], sep)
  }

  /** Splitting and joining again gives the original text. */
  lemma {:induction false} JoinSplit(s: string, sep: char)
    ensures Join(Split(s, sep), sep) == s
  {
    if |s| > 0 {
      var rest := Split(s[1..], sep);
      JoinSplit(s[1..], sep);
      if s[0] == sep {
        assert Split(s, sep) == [""] + rest;
        assert ([""] + rest)[1..] == rest;
        assert s == [s[0]] + s[1..];
      } else {
        var r := [[s[0]] + rest[0]] + rest[1..];
        assert Split(s, sep) == r;
        if |rest| == 1 {
          assert s == [s[0]] + s[1..];
        } else {
          assert r[1..] == rest[1..];
          assert Join(rest, sep) == rest[0] + [sep] + Join(rest[1..], sep);
          assert s == [s[0]] + s[1..];
        }
      }
    }
  }

  /** Joining pieces free of the separator and splitting again gives the
      pieces back. */
  lemma {:induction false} SplitJoin(parts: seq<string>, sep: char)
    requires |parts| >= 1
    requires forall i :: 0 <= i < |parts| ==> sep !in parts[i]
    ensures Split(Join(parts, sep), sep) == parts
  {
    if |parts| == 1 {
      SplitNoSep(parts[0], sep);
    } else {
      SplitJoin(parts[1..], sep);
      SplitPrefix(parts[0], Join(parts[1..], sep), sep);
      assert parts == [parts[0]] + parts[1..];
    }
  }

  lemma {:induction false} SplitNoSep(s: string, sep: char)
    requires sep !in s
    ensures Split(s, sep) == [s]
  {
    if |s| > 0 {
      SplitNoSep(s[1..], sep);
      assert s == [s[0]] + s[1..];
    }
  }

  lemma {:induction false} SplitPrefix(a: string, b: string, sep: char)
    requires sep !in a
    ensures Split(a + [sep] + b, sep) == [a] + Split(b, sep)
  {
    if |a| == 0 {
      assert a + [sep] + b == [sep] + b;
      assert ([sep] + b)[1..] == b;
    } else {
      SplitPrefix(a[1..], b, sep);
      assert (a + [sep] + b)[1..] == a[1..] + [sep] + b;
      assert [a[0]] + a[1..] == a;
    }
  }

  /** `waferIds.split(',').map(w => w.trim())`. */
  function WaferIdList(waferIds: string): (r: seq<string>)
    ensures |r| >= 1
  {
    TrimAll(Split(waferIds, ','))
  }

  function TrimAll(ss: seq<string>): (r: seq<string>)
    ensures |r| == |ss|
    ensures forall i :: 0 <= i < |r| ==> r[i] == Trim(ss[i])
  {
    if |ss| == 0 then [] else [Trim(ss[0])] + TrimAll(ss[1..])
  }

  // ---------------------------------------------------------------------
  // getSpectrumTrend: series
  // ---------------------------------------------------------------------

  /** A joined spectrum/flat row of the trend query. */
  datatype TrendRow = TrendRow(
    waferid: string,
    eqpid: string,
    wavelengths: Option<seq<real>>,
    values: Option<seq<real>>,
    servTs: Option<int>,
    ts: Option<int>,
    lotid: string,
    metrics: map<string, real>)

  datatype TrendSeries = TrendSeries(
    name: string,
    waferId: Option<int>,           // Number(row.waferid); None is NaN
    pointId: int,
    lotId: string,
    timestamp: Option<int>,         // the row's serv_ts
    scanTs: Option<int>,            // the row's ts
    eqpId: string,
    rawWaferId: string,
    meta: seq<Option<real>>,        // one value per trend column
    data: seq<Point>)

  datatype TrendRequest = TrendRequest(lotId: string, pointId: string, waferIds: string)

  function MetaValues(row: TrendRow, columns: seq<string>): (r: seq<Option<real>>)
    ensures |r| == |columns|
    ensures forall i :: 0 <= i < |r| ==>
      r[i] == if columns[i] in row.metrics then Some(row.metrics[columns[i]]) else None
  {
    if |columns| == 0 then [] else
      [if columns[0] in row.metrics then Some(row.metrics[columns[0]]) else None] + MetaValues(row, columns[1..])
  }

  function SeriesOf(row: TrendRow, columns: seq<string>, lotId: string, pointId: int): TrendSeries {
    TrendSeries(
      "W" + row.waferid,
      NumberOf(row.waferid),
      pointId,
      if Given(row.lotid) then row.lotid else lotId,
      row.servTs,
      row.ts,
      row.eqpid,
      row.waferid,
      MetaValues(row, columns),
      TrendData(row.wavelengths, row.values))
  }

  /** `getSpectrumTrend` from the rows its query returns: nothing without a
      lot, a point and a wafer list, or when the point id is not a number;
      otherwise one series per row, named after its wafer, carrying the
      trend columns and the scaled spectrum. */
  function SpectrumTrend(q: TrendRequest, config: seq<string>, rows: seq<TrendRow>): (r: seq<TrendSeries>)
    ensures !Given(q.lotId) || !Given(q.pointId) || !Given(q.waferIds) || NumberOf(q.pointId).None? ==> r == []
    ensures Given(q.lotId) && Given(q.pointId) && Given(q.waferIds) && NumberOf(q.pointId).Some? ==>
      |r| == |rows| &&
      forall i :: 0 <= i < |r| ==>
        r[i].name == "W" + rows[i].waferid &&
        r[i].waferId == NumberOf(rows[i].waferid) &&
        r[i].pointId == NumberOf(q.pointId).value &&
        r[i].lotId == (if Given(rows[i].lotid) then rows[i].lotid else q.lotId) &&
        Given(r[i].lotId) &&
        r[i].timestamp == rows[i].servTs && r[i].scanTs == rows[i].ts &&
        r[i].eqpId == rows[i].eqpid && r[i].rawWaferId == rows[i].waferid &&
        r[i].meta == MetaValues(rows[i], TrendColumns(config)) &&
        |r[i].meta| == |TrendColumns(config)| &&
        (r[i].data != [] ==>
           rows[i].wavelengths.Some? && rows[i].values.Some? &&
           Wavelengths(r[i].data) == rows[i].wavelengths.value && Unscaled(r[i].data) == rows[i].values.value)
  {
    if !Given(q.lotId) || !Given(q.pointId) || !Given(q.waferIds) then []
    else match NumberOf(q.pointId)
      case None => []
      case Some(point) =>
        var columns := TrendColumns(config);
        var r := SeriesAll(rows, columns, q.lotId, point);
        forall i | 0 <= i < |r| && r[i].data != []
          ensures rows[i].wavelengths.Some? && rows[i].values.Some? && Wavelengths(r[i].data) == rows[i].wavelengths.value && Unscaled(r[i].data) == rows[i].values.value
        {
          TrendDataRoundTrip(rows[i].wavelengths.value, rows[i].values.value);
        }
        r
  }

  function SeriesAll(rows: seq<TrendRow>, columns: seq<string>, lotId: string, pointId: int): (r: seq<TrendSeries>)
    ensures |r| == |rows|
    ensures forall i :: 0 <= i < |r| ==> r[i] == SeriesOf(rows[i], columns, lotId, pointId)
  {
    if |rows| == 0 then [] else [SeriesOf(rows[0], columns, lotId, pointId)] + SeriesAll(rows[1..], columns, lotId, pointId)
  }

  /** The wafer list always has an element, so the service's empty-list
      check never fires: a blank list still queries the wafer id `''`. */
  lemma WaferListNeverEmpty(waferIds: string)
    ensures |WaferIdList(waferIds)| >= 1
    ensures Blank(waferIds) && ',' !in waferIds ==> WaferIdList(waferIds) == [""]
  {
    if ',' !in waferIds {
      SplitNoSep(waferIds, ',');
    }
  }
}

=== FILE: wafer_stats.dfy ===
/** Per-wafer metric statistics (`getStatistics`), the point-data table
    (`getPointData`) and the metric list (`getAvailableMetrics`). Each runs
    the `buildUniqueWhere` clause over `plg_wf_flat`; here the table is a
    sequence of rows and the clause is evaluated with `Sat`. The column list
    of `information_schema` is the `schema` parameter, and the rows of
    `cfg_lot_uniformity_metrics` with `is_excluded = 'N'` the `config`
    parameter (empty also when that query fails). */
module WaferStats {
  import opened Common
  import opened Sorting
  import opened WaferQuery

  /** A column value read as a number; text and timestamps are not. */
  function Numeric(v: Value): Option<real> {
    match v
    case Num(n) => Some(n as real)
    case Dec(x) => Some(x)
    case _ => None
  }

  predicate HasNumber(row: Row, col: string) {
    col in row && Numeric(row[col]).Some?
  }

  /** The rows of `table` the clause selects, in table order. */
  function Selected(where: seq<Clause>, table: seq<Row>): (r: seq<Row>)
    ensures forall row :: row in r <==> row in table && Sat(where, row)
  {
    Filter(table, row => Sat(where, row))
  }

  /** The non-null numeric values of `col` over `rows`, in row order. */
  function ColumnValues(rows: seq<Row>, col: string): (r: seq<real>)
    ensures |r| <= |rows|
    ensures |r| == 0 <==> forall i :: 0 <= i < |rows| ==> !HasNumber(rows[i], col)
    ensures forall x :: x in r <==> exists i :: 0 <= i < |rows| && HasNumber(rows[i], col) && x == Numeric(rows[i][col]).value
  {
    if |rows| == 0 then [] else
      var rest := ColumnValues(rows[1..], col);
      assert forall i :: 1 <= i < |rows| ==> rows[i] == rows[1..][i - 1];
      if HasNumber(rows[0], col) then [Numeric(rows[0][col]).value] + rest else rest
  }

  // ---------------------------------------------------------------------
  // Aggregates
  // ---------------------------------------------------------------------

  /** A sum of values between `lo` and `hi` lies between `n * lo` and
      `n * hi`. */
  lemma {:induction false} SumBounds(s: seq<real>, lo: real, hi: real)
    requires forall x :: x in s ==> lo <= x <= hi
    ensures (|s| as real) * lo <= Sum(s) <= (|s| as real) * hi
  {
    if |s| > 0 {
      var init := s[..|s| - 1];
      assert forall x :: x in init ==> x in s;
      SumBounds(init, lo, hi);
      assert s[|s| - 1] in s;
      var n := |init| as real;
      assert (|s| as real) * lo == n * lo + lo;
      assert (|s| as real) * hi == n * hi + hi;
    }
  }

  /** Dividing by a positive count keeps bounds that hold for the multiples. */
  lemma DivBetween(a: real, n: real, lo: real, hi: real)
    requires n > 0.0 && n * lo <= a <= n * hi
    ensures lo <= a / n <= hi
  {
    assert a / n - lo == (a - n * lo) / n;
    assert hi - a / n == (n * hi - a) / n;
  }

  /** The mean of the values lies between their minimum and maximum. */
  lemma {:induction false} MeanBetween(s: seq<real>)
    requires |s| > 0
    ensures MinOf(s) <= Sum(s) / (|s| as real) <= MaxOf(s)
  {
    var lo, hi, n, total := MinOf(s), MaxOf(s), |s| as real, Sum(s);
    SumBounds(s, lo, hi);
    DivBetween(total, n, lo, hi);
  }

  /** One entry of the statistics object. */
  datatype Stat = Stat(
    max: real,
    min: real,
    range: real,
    mean: real,
    stdDev: real,
    percentStdDev: real,
    percentNonU: real)

  /** What an entry says about the values of its column: the largest and
      the smallest value, their mean, the spread between them, the given
      standard deviation, the deviation as a percentage of the mean, half
      the spread as a percentage of the mean (the non-uniformity), and 0 for
      both percentages when the mean is 0. */
  predicate Describes(s: Stat, vals: seq<real>, std: real) {
    && |vals| > 0
    && s.max in vals && s.min in vals
    && (forall v :: v in vals ==> s.min <= v <= s.max)
    && s.min <= s.mean <= s.max
    && s.mean == Sum(vals) / (|vals| as real)
    && s.range == s.max - s.min
    && s.stdDev == std
    && (s.mean == 0.0 ==> s.percentStdDev == 0.0 && s.percentNonU == 0.0)
    && (s.mean != 0.0 ==> s.percentStdDev == s.stdDev / s.mean * 100.0 && s.percentNonU == s.range / (2.0 * s.mean) * 100.0)
  }

  /** The entry for a column with values `vals` and the database's sample
      standard deviation `std`. */
  function MakeStat(vals: seq<real>, std: real): (s: Stat)
    requires |vals| > 0
    ensures Describes(s, vals, std)
    ensures s.range >= 0.0
  {
    var max := MaxOf(vals);
    var min := MinOf(vals);
    var mean := Sum(vals) / (|vals| as real);
    MeanBetween(vals);
    var range := max - min;
    Stat(max, min, range, mean, std,
         if mean != 0.0 then (std / mean) * 100.0 else 0.0,
         if mean != 0.0 then (range / (2.0 * mean)) * 100.0 else 0.0)
  }

  // ---------------------------------------------------------------------
  // getStatistics
  // ---------------------------------------------------------------------

  const BaselineMetrics: seq<string> := ["t1", "gof", "z", "srvisz", "mse", "thickness"]

  const StatsExcluded: seq<string> := [
    "x", "y", "diex", "diey", "dierow", "diecol", "dienum", "diepointtag",
    "point", "lotid", "waferid", "eqpid", "serv_ts", "datetime"]

  lemma BaselineLower()
    ensures forall c :: c in BaselineMetrics ==> Lower(c) == c
  {
    forall c | c in BaselineMetrics ensures Lower(c) == c {
      LowerNoUpper(c);
    }
  }

  /** The columns `getStatistics` aggregates: the baseline metrics and the
      lower-cased configured metrics, each once, keeping only names that are
      not excluded and that name a column of the table in some letter
      case. */
  function StatsColumns(config: seq<string>, schema: seq<string>): (r: seq<string>)
    ensures NoDup(r)
    ensures forall c :: c in r <==>
      (c in BaselineMetrics || c in LowerAll(config)) && c !in StatsExcluded && c in LowerAll(schema)
  {
    var targets := if |config| > 0 then Dedupe(BaselineMetrics + LowerAll(config)) else Dedupe(BaselineMetrics);
    BaselineLower();
    forall c | c in LowerAll(config) ensures Lower(c) == c {
      var i :| 0 <= i < |config| && LowerAll(config)[i] == c;
      LowerIdempotent(config[i]);
    }
    FilterNoDup(targets, c => Lower(c) !in StatsExcluded && Lower(c) in LowerAll(schema));
    Filter(targets, c => Lower(c) !in StatsExcluded && Lower(c) in LowerAll(schema))
  }

  /** `STDDEV_SAMP`, read with `|| 0`: NULL (fewer than two values) is 0. */
  function StdOf(vals: seq<real>, stddev: seq<real> -> real): real {
    if |vals| >= 2 then stddev(vals) else 0.0
  }

  /** One entry per column that has a value, skipping the rest. */
  function StatsOf(cols: seq<string>, rows: seq<Row>, stddev: seq<real> -> real): (m: map<string, Stat>)
    ensures forall c :: c in m <==> c in cols && |ColumnValues(rows, c)| > 0
    ensures forall c :: c in m ==> Describes(m[c], ColumnValues(rows, c), StdOf(ColumnValues(rows, c), stddev))
  {
    if |cols| == 0 then map[] else
      var m := StatsOf(cols[..|cols| - 1], rows, stddev);
      var c := cols[|cols| - 1];
      assert forall x :: x in cols <==> x in cols[..|cols| - 1] || x == c;
      var vals := ColumnValues(rows, c);
      if |vals| > 0 then m[c := MakeStat(vals, StdOf(vals, stddev))] else m
  }

  /** A column has values among the selected rows exactly when some row the
      clause selects holds a number in it. */
  lemma {:induction false} ValuesSelected(where: seq<Clause>, table: seq<Row>, c: string)
    ensures |ColumnValues(Selected(where, table), c)| > 0 <==>
      exists row :: row in table && Sat(where, row) && HasNumber(row, c)
  {
    var rows := Selected(where, table);
    if exists row :: row in table && Sat(where, row) && HasNumber(row, c) {
      var row :| row in table && Sat(where, row) && HasNumber(row, c);
      assert row in rows;
      var i :| 0 <= i < |rows| && rows[i] == row;
    }
  }

  /** `getStatistics`. `stddev` is the database's `STDDEV_SAMP` of two or
      more values. Empty without an equipment id, and empty when a chosen
      column is spelled in the table in another letter case (the quoted
      lower-case name then names no column and the query fails). Otherwise
      exactly the chosen columns holding a number in a selected row get an
      entry, and each entry describes that column's values over the
      selected rows. */
  function Statistics(p: WaferParams, now: int, config: seq<string>, schema: seq<string>,
                      table: seq<Row>, stddev: seq<real> -> real): (r: map<string, Stat>)
    ensures UniqueWhere(p, now).None? ==> r == map[]
    ensures (exists c :: c in StatsColumns(config, schema) && c !in schema) ==> r == map[]
    ensures forall c :: c in r ==> c in StatsColumns(config, schema)
    ensures UniqueWhere(p, now).Some? && (forall c :: c in StatsColumns(config, schema) ==> c in schema) ==>
      forall c :: c in r <==>
        (c in StatsColumns(config, schema) &&
         exists row :: row in table && Sat(UniqueWhere(p, now).value, row) && HasNumber(row, c))
    ensures forall c :: c in r ==>
      UniqueWhere(p, now).Some? &&
      Describes(r[c], ColumnValues(Selected(UniqueWhere(p, now).value, table), c),
                StdOf(ColumnValues(Selected(UniqueWhere(p, now).value, table), c), stddev))
  {
    match UniqueWhere(p, now)
    case None => map[]
    case Some(where) =>
      var cols := StatsColumns(config, schema);
      if exists c :: c in cols && c !in schema then map[]
      else
        forall c ensures |ColumnValues(Selected(where, table), c)| > 0 <==>
          exists row :: row in table && Sat(where, row) && HasNumber(row, c)
        {
          ValuesSelected(where, table, c);
        }
        StatsOf(cols, Selected(where, table), stddev)
  }

  // ---------------------------------------------------------------------
  // getPointData: the header row
  // ---------------------------------------------------------------------

  const PointExcluded: seq<string> := [
    "eqpid", "lotid", "waferid", "serv_ts", "cassettercp", "stagercp", "stagegroup", "film", "datetime"]

  const CustomOrder: seq<string> := [
    "point", "mse", "t1", "gof", "x", "y", "diex", "diey", "dierow", "diecol",
    "dienum", "diepointtag", "z", "srvisz"]

  /** `s.indexOf(x)`, with `None` for -1. */
  function IndexOf(s: seq<string>, x: string): (r: Option<nat>)
    ensures r.None? <==> x !in s
    ensures r.Some? ==> r.value < |s| && s[r.value] == x && forall j :: 0 <= j < r.value ==> s[j] != x
  {
    if |s| == 0 then None
    else if s[0] == x then Some(0)
    else match IndexOf(s[1..], x)
      case None => None
      case Some(k) => Some(k + 1)
  }

  /** The position of a header in the fixed order, if it has one. */
  function Rank(h: string): Option<nat> {
    IndexOf(CustomOrder, Lower(h))
  }

  /** The header comparator (a result `<= 0`): headers of the fixed order
      by their position in it and before every other header; the others by
      `localeCompare` of their lower-cased names. */
  predicate HeaderLe(a: string, b: string) {
    var ia := Rank(a);
    var ib := Rank(b);
    if ia.Some? && ib.Some? then ia.value <= ib.value
    else if ia.Some? then true
    else if ib.Some? then false
    else CollateLe(Lower(a), Lower(b))
  }

  lemma HeaderLeTotal()
    ensures Total(HeaderLe)
  {
    forall a, b ensures HeaderLe(a, b) || HeaderLe(b, a) {
      if Rank(a).None? && Rank(b).None? {
        CollateTotal(Lower(a), Lower(b));
      }
    }
  }

  /** Under `localeCompare` punctuation sorts before digits, so `t1_raw`
      comes before `t10`, where code-point order would put it after. */
  lemma PunctuationBeforeDigits()
    ensures CollateLe("t1_raw", "t10") && !CollateLe("t10", "t1_raw")
    ensures !LexLe("t1_raw", "t10")
  {
    assert "t1_raw" == "t1" + ['_'] + "raw";
    assert "t10" == "t1" + ['0'] + "";
    CollateFirstDifference("t1", '_', '0', "raw", "");
    assert "t1_raw"[1..] == "1_raw" && "1_raw"[1..] == "_raw";
    assert "t10"[1..] == "10" && "10"[1..] == "0";
  }

  /** In a header row each element may precede its successor, so every
      header of the fixed order comes before every other header, and those
      of the fixed order follow it. */
  lemma {:induction false} HeadersRanked(hs: seq<string>)
    requires AdjacentSorted(hs, HeaderLe)
    ensures forall i, j :: 0 <= i < j < |hs| && Rank(hs[j]).Some? ==>
      Rank(hs[i]).Some? && Rank(hs[i]).value <= Rank(hs[j]).value
  {
    if |hs| > 1 {
      var init := hs[..|hs| - 1];
      assert AdjacentSorted(init, HeaderLe) by {
        forall i | 0 < i < |init| ensures HeaderLe(init[i - 1], init[i]) {
          assert init[i - 1] == hs[i - 1] && init[i] == hs[i];
        }
      }
      HeadersRanked(init);
      var n := |hs| - 1;
      forall i, j | 0 <= i < j < |hs| && Rank(hs[j]).Some?
        ensures Rank(hs[i]).Some? && Rank(hs[i]).value <= Rank(hs[j]).value
      {
        if j < n {
          assert hs[i] == init[i] && hs[j] == init[j];
        } else {
          assert HeaderLe(hs[n - 1], hs[n]);
          if i < n - 1 {
            assert hs[i] == init[i] && hs[n - 1] == init[n - 1];
          }
        }
      }
    }
  }

  /** The non-null, non-excluded columns of one row, in column order. */
  function RowKeys(row: Row, columns: seq<string>): (r: seq<string>)
    ensures forall c :: c in r <==> c in columns && c in row && c !in PointExcluded
  {
    Filter(columns, c => c in row && c !in PointExcluded)
  }

  /** Every row's keys, row after row. */
  function AllKeys(rows: seq<Row>, columns: seq<string>): (r: seq<string>)
    ensures forall c :: c in r <==> c in columns && c !in PointExcluded && exists i :: 0 <= i < |rows| && c in rows[i]
  {
    if |rows| == 0 then [] else
      var rest := AllKeys(rows[1..], columns);
      assert forall i :: 1 <= i < |rows| ==> rows[i] == rows[1..][i - 1];
      RowKeys(rows[0], columns) + rest
  }

  /** `row[h]`, `None` for NULL. */
  function Cell(row: Row, h: string): Option<Value> {
    if h in row then Some(row[h]) else None
  }

  function Cells(row: Row, headers: seq<string>): (r: seq<Option<Value>>)
    ensures |r| == |headers| && forall k :: 0 <= k < |r| ==> r[k] == Cell(row, headers[k])
  {
    if |headers| == 0 then [] else [Cell(row, headers[0])] + Cells(row, headers[1..])
  }

  function Grid(rows: seq<Row>, headers: seq<string>): (r: seq<seq<Option<Value>>>)
    ensures |r| == |rows| && forall i :: 0 <= i < |r| ==> r[i] == Cells(rows[i], headers)
  {
    if |rows| == 0 then [] else [Cells(rows[0], headers)] + Grid(rows[1..], headers)
  }

  /** The sort key of `ORDER BY point`: `None` for a NULL point, which
      an ascending order puts after every numbered point. */
  function PointKey(row: Row): Option<int> {
    if "point" in row && row["point"].Num? then Some(row["point"].n) else None
  }

  datatype PointTable = PointTable(headers: seq<string>, data: seq<seq<Option<Value>>>)

  /** `getPointData` over a table whose columns, in order, are `columns`:
      no headers and no data without an equipment id or without a selected
      row; otherwise the headers are the columns that are not excluded and
      hold a value in some selected row, each once, ordered by the header
      comparator, and the data holds one line per selected row in point
      order with that row's value under each header. */
  function PointData(p: WaferParams, now: int, columns: seq<string>, table: seq<Row>): (r: PointTable)
    ensures UniqueWhere(p, now).None? ==> r == PointTable([], [])
    ensures NoDup(r.headers)
    ensures AdjacentSorted(r.headers, HeaderLe)
    ensures UniqueWhere(p, now).Some? ==>
      forall h :: h in r.headers <==>
        (h in columns && h !in PointExcluded && exists row :: row in table && Sat(UniqueWhere(p, now).value, row) && h in row)
    ensures UniqueWhere(p, now).Some? ==>
      |r.data| == |SortNullsLast(Selected(UniqueWhere(p, now).value, table), PointKey)| &&
      forall i :: 0 <= i < |r.data| ==>
        r.data[i] == Cells(SortNullsLast(Selected(UniqueWhere(p, now).value, table), PointKey)[i], r.headers)
  {
    match UniqueWhere(p, now)
    case None => PointTable([], [])
    case Some(where) =>
      var rows := SortNullsLast(Selected(where, table), PointKey);
      if |rows| == 0 then PointTable([], [])
      else
        var headers := Headers(AllKeys(rows, columns));
        forall h ensures h in headers <==>
          (h in columns && h !in PointExcluded && exists row :: row in table && Sat(where, row) && h in row)
        {
          RowsWithKey(where, table, rows, h);
        }
        PointTable(headers, Grid(rows, headers))
  }

  /** The distinct keys, ordered by the header comparator. */
  function Headers(keys: seq<string>): (r: seq<string>)
    ensures NoDup(r)
    ensures forall h :: h in r <==> h in keys
    ensures AdjacentSorted(r, HeaderLe)
  {
    var distinct := Dedupe(keys);
    var r := SortWith(distinct, HeaderLe);
    HeaderLeTotal();
    NoDupPermutation(distinct, r);
    assert forall h :: h in r <==> h in multiset(r);
    assert forall h :: h in distinct <==> h in multiset(distinct);
    r
  }

  /** Sorting the selected rows keeps the keys they hold. */
  lemma {:induction false} RowsWithKey(where: seq<Clause>, table: seq<Row>, rows: seq<Row>, h: string)
    requires multiset(rows) == multiset(Selected(where, table))
    ensures (exists i :: 0 <= i < |rows| && h in rows[i]) <==>
            (exists row :: row in table && Sat(where, row) && h in row)
  {
    if exists row :: row in table && Sat(where, row) && h in row {
      var row :| row in table && Sat(where, row) && h in row;
      assert row in multiset(Selected(where, table));
      assert row in rows;
      var i :| 0 <= i < |rows| && rows[i] == row;
    }
    if exists i :: 0 <= i < |rows| && h in rows[i] {
      var i :| 0 <= i < |rows| && h in rows[i];
      assert rows[i] in multiset(rows);
      assert rows[i] in Selected(where, table);
    }
  }

  // ---------------------------------------------------------------------
  // getAvailableMetrics
  // ---------------------------------------------------------------------

  /** `COUNT("col")`: the selected rows where the column is not NULL. */
  function CountPresent(rows: seq<Row>, col: string): (n: nat)
    ensures n == 0 <==> forall i :: 0 <= i < |rows| ==> col !in rows[i]
  {
    if |rows| == 0 then 0 else
      assert forall i :: 1 <= i < |rows| ==> rows[i] == rows[1..][i - 1];
      (if col in rows[0] then 1 else 0) + CountPresent(rows[1..], col)
  }

  /** A column is counted among the selected rows exactly when some row the
      clause selects holds a value in it. */
  lemma {:induction false} CountSelected(where: seq<Clause>, table: seq<Row>, c: string)
    ensures CountPresent(Selected(where, table), c) > 0 <==>
      exists row :: row in table && Sat(where, row) && c in row
  {
    var rows := Selected(where, table);
    if exists row :: row in table && Sat(where, row) && c in row {
      var row :| row in table && Sat(where, row) && c in row;
      assert row in rows;
      var i :| 0 <= i < |rows| && rows[i] == row;
    }
  }

  /** The configured metrics naming a column of the table in some letter
      case, in configuration order. */
  function Candidates(config: seq<string>, schema: seq<string>): (r: seq<string>)
    ensures forall m :: m in r <==> m in config && Lower(m) in LowerAll(schema)
  {
    Filter(config, m => Lower(m) in LowerAll(schema))
  }

  /** `getAvailableMetrics` as written: the count query quotes each
      configured name as configured, so a name whose letter case differs
      from the column's names no column, the query fails and the list comes
      back empty. */
  function AvailableMetricsAsWritten(p: WaferParams, now: int, config: seq<string>, schema: seq<string>,
                                     table: seq<Row>): (r: seq<string>)
    ensures forall m :: m in r ==> m in config
    ensures Given(p.eqpId) && (exists m :: m in Candidates(config, schema) && m !in schema) ==> r == []
  {
    var candidates := Candidates(config, schema);
    if |config| == 0 || |candidates| == 0 then []
    else AsWrittenFrom(UniqueWhere(p.(waferId := ""), now), candidates, table, schema)
  }

  function AsWrittenFrom(where: Option<seq<Clause>>, candidates: seq<string>, table: seq<Row>, schema: seq<string>): (r: seq<string>)
    ensures forall m :: m in r ==> m in candidates
    ensures where.Some? && (exists m :: m in candidates && m !in schema) ==> r == []
  {
    match where
    case None => candidates
    case Some(w) =>
      if exists m :: m in candidates && m !in schema then []
      else
        KeepCounted(candidates, Selected(w, table), schema, false)
  }

  /** When every candidate is spelled as its column, the code as written
      and the lookup by matched column agree. */
  lemma {:induction false} AsWrittenAgrees(where: Option<seq<Clause>>, candidates: seq<string>, table: seq<Row>, schema: seq<string>)
    requires forall m :: m in candidates ==> m in schema && ColumnFor(schema, m) == m
    ensures AsWrittenFrom(where, candidates, table, schema) == AvailableFrom(where, candidates, table, schema)
  {
    if where.Some? {
      KeepCountedAgrees(candidates, Selected(where.value, table), schema);
    }
  }

  /** The table column a configured name stands for: the first column
      equal to it up to letter case. */
  function ColumnFor(schema: seq<string>, m: string): (c: string)
    ensures Lower(m) in LowerAll(schema) ==> c in schema && Lower(c) == Lower(m)
    ensures Lower(m) !in LowerAll(schema) ==> c == m
  {
    if |schema| == 0 then m
    else if Lower(schema[0]) == Lower(m) then schema[0]
    else
      assert forall i :: 1 <= i < |schema| ==> LowerAll(schema)[i] == LowerAll(schema[1..])[i - 1];
      ColumnFor(schema[1..], m)
  }

  /** Some row the clause selects holds a value in the column the metric
      was matched to. */
  predicate Reported(where: seq<Clause>, table: seq<Row>, schema: seq<string>, m: string) {
    exists row :: row in table && Sat(where, row) && ColumnFor(schema, m) in row
  }

  /** The column a metric is counted in: its matched column, or the name
      exactly as configured. */
  function CountColumn(schema: seq<string>, m: string, matched: bool): string {
    if matched then ColumnFor(schema, m) else m
  }

  /** `candidates.filter(m => Number(counts[m]) > 0)`. */
  function KeepCounted(candidates: seq<string>, rows: seq<Row>, schema: seq<string>, matched: bool): (r: seq<string>)
    ensures forall m :: m in r <==> m in candidates && CountPresent(rows, CountColumn(schema, m, matched)) > 0
  {
    if |candidates| == 0 then [] else
      var m := candidates[0];
      assert forall x :: x in candidates <==> x == m || x in candidates[1..];
      (if CountPresent(rows, CountColumn(schema, m, matched)) > 0 then [m] else []) +
        KeepCounted(candidates[1..], rows, schema, matched)
  }

  /** When every candidate's matched column is its own name, counting by
      name and by matched column keep the same candidates in the same
      order. */
  lemma {:induction false} KeepCountedAgrees(candidates: seq<string>, rows: seq<Row>, schema: seq<string>)
    requires forall m :: m in candidates ==> ColumnFor(schema, m) == m
    ensures KeepCounted(candidates, rows, schema, false) == KeepCounted(candidates, rows, schema, true)
  {
    if |candidates| > 0 {
      assert forall m :: m in candidates[1..] ==> m in candidates;
      KeepCountedAgrees(candidates[1..], rows, schema);
    }
  }

  /** The candidates whose matched column is counted at least once. */
  function WithValues(candidates: seq<string>, where: seq<Clause>, table: seq<Row>, schema: seq<string>): (r: seq<string>)
    ensures forall m :: m in r <==> m in candidates && Reported(where, table, schema, m)
    ensures r == KeepCounted(candidates, Selected(where, table), schema, true)
  {
    var rows := Selected(where, table);
    forall m ensures CountPresent(rows, ColumnFor(schema, m)) > 0 <==> Reported(where, table, schema, m) {
      CountSelected(where, table, ColumnFor(schema, m));
    }
    KeepCounted(candidates, rows, schema, true)
  }

  /** `getAvailableMetrics` counting each metric in the column it was
      matched to: the configured metrics that name a column in some letter
      case and, when the request names an equipment, hold a value in a row
      of that wafer's selection (the wafer id itself is ignored), in
      configuration order. */
  function AvailableMetrics(p: WaferParams, now: int, config: seq<string>, schema: seq<string>,
                            table: seq<Row>): (r: seq<string>)
    ensures forall m :: m in r ==> m in config
    ensures !Given(p.eqpId) ==> forall m :: m in r <==> m in config && Lower(m) in LowerAll(schema)
  {
    var candidates := Candidates(config, schema);
    var where := UniqueWhere(p.(waferId := ""), now);
    ReportedFrom(where, candidates, table, schema);
    if |candidates| == 0 then [] else AvailableFrom(where, candidates, table, schema)
  }

  /** With an equipment id, a configured metric is listed exactly when it
      names a column in some letter case and that column holds a value in a
      row selected for the wafer's context, whatever the wafer id. */
  lemma {:induction false} AvailableMetricsMeaning(p: WaferParams, now: int, config: seq<string>, schema: seq<string>, table: seq<Row>)
    requires Given(p.eqpId)
    ensures forall m :: m in AvailableMetrics(p, now, config, schema, table) <==>
      m in config && Lower(m) in LowerAll(schema) &&
      Reported(UniqueWhere(p.(waferId := ""), now).value, table, schema, m)
  {
    ReportedFrom(UniqueWhere(p.(waferId := ""), now), Candidates(config, schema), table, schema);
  }

  lemma {:induction false} ReportedFrom(where: Option<seq<Clause>>, candidates: seq<string>, table: seq<Row>, schema: seq<string>)
    ensures where.None? ==>
      forall m :: m in (if |candidates| == 0 then [] else AvailableFrom(where, candidates, table, schema)) <==> m in candidates
    ensures where.Some? ==>
      forall m :: m in (if |candidates| == 0 then [] else AvailableFrom(where, candidates, table, schema)) <==>
        m in candidates && Reported(where.value, table, schema, m)
  {
    if |candidates| == 0 {
      assert forall m :: m !in candidates;
    }
  }

  /** The candidates reported for the clause, or all of them without one. */
  function AvailableFrom(where: Option<seq<Clause>>, candidates: seq<string>, table: seq<Row>, schema: seq<string>): (r: seq<string>)
    ensures where.None? ==> r == candidates
    ensures where.Some? ==> forall m :: m in r <==> m in candidates && Reported(where.value, table, schema, m)
  {
    if where.None? then candidates else WithValues(candidates, where.value, table, schema)
  }

  lemma SingleCandidate()
    ensures Candidates(["T1"], ["t1"]) == ["T1"]
    ensures "T1" !in ["t1"] && ColumnFor(["t1"], "T1") == "t1"
  {
    assert Lower("T1") == "t1";
    assert Lower("t1") == "t1";
    assert LowerAll(["t1"]) == ["t1"];
    var c := Candidates(["T1"], ["t1"]);
    assert "T1" in c;
    assert |c| <= 1;
    assert c == [c[0]];
  }

  lemma {:induction false} CaseMismatchFrom(where: Option<seq<Clause>>, table: seq<Row>, row: Row)
    requires where.Some? && row in table && "t1" in row && Sat(where.value, row)
    ensures AsWrittenFrom(where, ["T1"], table, ["t1"]) == []
    ensures "T1" in AvailableFrom(where, ["T1"], table, ["t1"])
  {
    SingleCandidate();
    assert Reported(where.value, table, ["t1"], "T1");
  }

  lemma {:induction false} AsWrittenDropsMismatch(p: WaferParams, now: int, table: seq<Row>, row: Row)
    requires Given(p.eqpId) && row in table && "t1" in row
    requires Sat(UniqueWhere(p.(waferId := ""), now).value, row)
    ensures AvailableMetricsAsWritten(p, now, ["T1"], ["t1"], table) == []
  {
    SingleCandidate();
    CaseMismatchFrom(UniqueWhere(p.(waferId := ""), now), table, row);
  }

  lemma {:induction false} MatchedReportsMismatch(p: WaferParams, now: int, table: seq<Row>, row: Row)
    requires Given(p.eqpId) && row in table && "t1" in row
    requires Sat(UniqueWhere(p.(waferId := ""), now).value, row)
    ensures "T1" in AvailableMetrics(p, now, ["T1"], ["t1"], table)
  {
    SingleCandidate();
    CaseMismatchFrom(UniqueWhere(p.(waferId := ""), now), table, row);
  }

  /** A metric configured as `T1` for the column `t1`, on a wafer whose
      selected rows hold `t1` values: the lookup by matched column reports
      the metric, the code as written reports nothing. */
  lemma {:induction false} AvailableMetricsCaseMismatch(p: WaferParams, now: int, table: seq<Row>, row: Row)
    requires Given(p.eqpId) && row in table && "t1" in row
    requires Sat(UniqueWhere(p.(waferId := ""), now).value, row)
    ensures AvailableMetricsAsWritten(p, now, ["T1"], ["t1"], table) == []
    ensures "T1" in AvailableMetrics(p, now, ["T1"], ["t1"], table)
  {
    AsWrittenDropsMismatch(p, now, table, row);
    MatchedReportsMismatch(p, now, table, row);
  }
}
